=== FILE: README.md ===
# SPIFS flash file system: a Dafny model

SPIFS is a small file system for SPI NOR flash. It keeps an index table of
24-byte FileBlocks in flash sectors 208 to 211, 170 slots per sector. It keeps file data in
chains of 4096-byte clusters in sectors 212 to 1018: a 4-byte sector marker,
4088 payload bytes and a 4-byte link to the next cluster.
Everything is stored in place. A file's entry is superseded by clearing bits of its state byte
(deleted, deprecated, read-only, system), and a cluster by moving its marker from FREE through
IN_USE to DISCARD. A garbage collector later erases what is no longer needed.

The model treats the 4 MiB chip as an immutable byte image:

- erasing a sector sets all of its bytes to 0xFF;
- programming ANDs the new bytes into the old ones, which is NOR flash behaviour.

Every operation is a function or method from an image, and a handle where one is involved, to a new
image, a new handle and a `Result`.

Modules, following the program's structure:

| module | file | what it holds |
|---|---|---|
| `Bytes` | bytes.dfy | bytes, bitwise AND, little-endian words |
| `Layout` | layout.dfy | sector ranges, slot addresses, the FileBlock and cluster layouts |
| `StateCodec` | codec.dfy | the FileState bit field, the FSTATE constants, the sector markers |
| `Records` | records.dfy | FileInfo, FileBlock and File; make_finfo, make_file, strlen_ext, filename_equals, fb_has_name |
| `Flash` | flash.dfy | program, erase, and the RAM emulator's overwrite |
| `DiskIo` | diskio.dfy | the diskio.c field writers and read_finfo |
| `AlignedIo` | aligned.dfy | align_write_impl and align_read_impl |
| `Chain` | chain.dfy | markers, links, cluster chains, find_empty_sector, spifs_avail_sector |
| `Index` | index.dfy | open_file_impl, the free-slot scan, spifs_avail_files |
| `Gc` | gc.dfy | spifs_gc |
| `Files` | files.dfy | create_file, write_finish, rename_file_impl, delete_file, spifs_format, spifs_erase_sector |
| `FileData` | data.dfy | laying data sectors out (the write_file sector loop) |
| `Writing` | write.dfy | write_file's sector search and data run |
| `Appending` | append.dfy | write_file APPEND to a file with data: the tail fill and the new sectors |
| `FileWrite` | writefile.dfy | write_file with all of its paths |
| `Reading` | read.dfy | read_file |
| `Listing` | listing.dfy | list_file and list_file_raw |
| `Session` | session.dfy | an APPEND followed by a read of the whole file |

The functions are defined on all their inputs wherever the C code is. Where the C code loops
forever, reads outside the chip or overflows a buffer, the model says so in a precondition or an `Option` result.

## Model

| member | source | states |
|---|---|---|
| StateCodec.FlagNames | src/spifs.h:33-54 | del, dep, rw and sys are bits 0, 1, 2 and 3 of the state byte |
| StateCodec.FStateBits | src/spifs.h:193-197 | FSTATE_DELETE, DEPRECATE, READONLY and SYSTEM each clear exactly one bit (bits 0, 1, 2 and 3 in that order) and keep every other bit; FSTATE_DEFAULT changes nothing |
| StateCodec.CombinedStates | src/diskio.c:101-102 | marking with a combined state `a & b` is marking with a and then with b; marking only clears bits; marking twice with the same state changes nothing |
| StateCodec.MarkerTransitions | src/spifs.h:176-181 | the FREE, IN_USE and DISCARD markers are distinct; FREE to IN_USE and IN_USE to DISCARD only clear bits; DISCARD cannot be programmed back to IN_USE |
| Layout.FileBlockLayout | src/spifs.h:72-79 | name, ext, cluster, length and info tile the 24 bytes of a FileBlock; the state byte is byte 23 |
| Layout.SlotsPerSector | src/spifs.c:107 | the slot loops of the index scans visit exactly 170 slots per sector, under both forms of the loop test |
| Layout.SlotAddrClosed | src/spifs.c:104-115 | slot k is slot k mod 170 of index sector 208 + k / 170 |
| Layout.SlotAddrMonotone | src/spifs.c:104-115 | slot addresses rise with the slot number and slots do not overlap |
| Records.MakeFinfo | src/spifs.c:28-46 | a date is accepted exactly when the year is 2000..2255, the month 1..12 and the day 1..31; the year is stored as an offset from 2000 and the state byte as given |
| Records.MakeFile | src/spifs.c:55-74 | make_file refuses a name longer than 8 or an extension longer than 4 bytes; otherwise the handle holds both padded with 0xFF and every address field is EMPTY |
| Records.MakeFileNameLength | src/spifs.c:55-74 | strlen_ext reads back the C string's length from a name made by make_file, provided the name has no 0xFF byte |
| Records.StrlenExt | src/spifs.c:948-954 | the result is the number of leading bytes that are not 0xFF, capped at max |
| Records.StrlenExtExact | src/spifs.c:948-954 | any n meeting strlen_ext's description equals its result, so the description pins the result down |
| Records.FilenameEquals | src/spifs.c:963-976 | the comparison is true exactly when the width is a multiple of four and the two names agree on their first `length` bytes |
| Records.FbHasNameSpec | src/spifs.c:983-992 | an entry has a name exactly when its 12 name bytes are not all 0xFF |
| Records.EncodeBlock | src/spifs.h:72-79 | the encoding puts each FileBlock field at its offset, little-endian |
| Records.BlockRoundTrip | src/spifs.h:72-79 | decoding an encoded FileBlock gives it back, and encoding a decoded 24-byte record gives the record back |
| Flash.ProgramIsOverwrite | src/diskio.c:101 | a NOR program equals the RAM emulator's overwrite exactly when every new byte only clears bits of the old one |
| Flash.ProgramMonotone | src/diskio.c:101 | programming only clears bits, and programming the same data twice changes nothing the second time |
| Flash.EraseThenProgram | src/spifs.c:826-829 | after an erase, programmed data inside the sector reads back exactly |
| DiskIo.WriteFileblock | src/diskio.c:49-52 | only the 24 bytes at the address change; on an erased slot they decode to the given FileBlock |
| DiskIo.ClearFileblock | src/diskio.c:60-62 | bytes offset..offset+24 of the buffer become 0xFF and no other byte changes |
| DiskIo.UpdateSectorMark | src/diskio.c:69-71 | the 4 marker bytes are ANDed with the mark and no other byte changes |
| DiskIo.MarkTransition | src/diskio.c:69-71 | on a FREE sector the IN_USE mark leaves exactly IN_USE; on any of the three markers the DISCARD mark leaves exactly DISCARD |
| DiskIo.WriteFileblockCluster | src/diskio.c:78-80 | only entry bytes 12..16 change; if they were erased they now hold the cluster |
| DiskIo.WriteFileblockLength | src/diskio.c:87-89 | only entry bytes 16..20 change; if they were erased they now hold the length |
| DiskIo.WriteFileblockState | src/diskio.c:96-105 | the state byte becomes old AND fstate; day, month, year and every other byte keep their values |
| DiskIo.StateMonotone | src/diskio.c:96-105 | a state write only clears bits and is idempotent |
| DiskIo.StateWriteIsOverwrite | src/diskio.c:99-104 | the word read, ANDed and written back gives the same image as the single-byte AND |
| DiskIo.ReadFinfo | src/spifs.c:714-729 | the FileInfo read is that of the decoded entry at the handle's block |
| AlignedIo.AlignWrite | src/spifs.c:285-325 | for every misalignment m and size, flash[write_addr, write_addr+size) ends up programmed with buffer[offset, offset+size) and nothing else changes; the staged pad bytes are 0xFF |
| AlignedIo.AlignRead | src/spifs.c:426-464 | for every misalignment and size, exactly buffer[offset, offset+size) is replaced by the flash bytes |
| Chain.MarkersExclusive | src/spifs.h:176-181 | no sector is in two of the FREE, IN_USE and DISCARD states |
| Chain.FindEmptySector | src/spifs.c:737-747 | the result is TRUE exactly when at least nums sectors are FREE; the list holds the lowest FREE sector addresses in ascending order; IN_USE and DISCARD sectors are never taken |
| Chain.FindIsPrefix | src/spifs.c:739-745 | the early-stopping scan yields a prefix of the list of all FREE sectors |
| Chain.AvailSectorOverCounts | src/spifs.c:896-906 | spifs_avail_sector counts FREE and DISCARD sectors alike, so asking find_empty_sector for the reported number fails whenever a sector is DISCARD |
| Chain.ChainSound | src/spifs.c:177-181 | the fuel-bounded walk returns a chain: each link names the next sector and the last link is EMPTY |
| Chain.ChainUnique | src/spifs.c:760-764 | a chain is determined by its first sector |
| Chain.DiscardSpec | src/spifs.c:761 | marking a sector DISCARD ANDs the DISCARD mark into its marker and changes no other byte |
| Chain.DiscardKeepsChains | src/spifs.c:760-764 | marking a sector changes no link, so the walk that marks a chain follows the original chain |
| Index.NamedIsFbHasName | src/spifs.c:110 | a slot has a name in the sense of fb_has_name exactly when the model's HasName holds |
| Index.HandleAt | src/spifs.c:527-531 | the handle filled from slot k has the slot's address, cluster, length and 12 name bytes |
| Index.OpenScanSpec | src/spifs.c:512-536 | the scan from slot k returns the lowest matching slot at or after k, and None exactly when no slot from k on matches |
| Index.OpenFileImpl | src/spifs.c:492-538 | None exactly when no live entry (del and dep set) has the 12 queried bytes; otherwise the handle of the first match in address order; a C-string query is padded with 0xFF first |
| Index.OpenFinds | src/spifs.c:492-538 | when slot k is the first match, open_file_impl returns exactly slot k's handle |
| Index.FirstFreeSlot | src/spifs.c:104-116 | create_file's scan finds the lowest slot without a name, and None only when every slot has one |
| Index.AvailFiles | src/spifs.c:912-932 | spifs_avail_files counts the slots without a name, at most 680 |
| Index.AvailFilesFree | src/spifs.c:581 | the count is positive exactly when create_file's scan finds a slot |
| Gc.CollectSlots | src/spifs.c:798-824 | in a sector copy, exactly the named entries that are deleted, deprecated or without a cluster are reset to 0xFF; every other entry is byte-identical; the count is their number; the copy changes exactly when the count is positive |
| Gc.CollectIndexSector | src/spifs.c:796-830 | one index sector is swept, erased and rewritten only when something was cleared, and no other sector changes |
| Gc.IndexPass | src/spifs.c:794-835 | the index sectors are swept in order, and FILEBLOCK mode stops after the first sector at which the count reaches nums; no other sector changes |
| Gc.DataPass | src/spifs.c:840-852 | data sectors are visited in order while the count is below nums; exactly those with the DISCARD marker are erased; the count rises by min(nums - count0, number of DISCARD sectors) |
| Gc.IndexPassFrees | src/spifs.c:118-121 | an index pass that reclaimed something leaves a slot without a name, so create_file's retry finds one |
| Gc.Collect | src/spifs.c:783-856 | per mode: which sectors are swept or erased and the final count. FILEBLOCK sweeps the index sectors up to the first one after which the running count reaches nums, and the count is their sum. MAJOR sweeps every index sector and starts the data pass from their count, so the data pass stops once that count reaches nums. DATAAREA leaves the index alone. Sectors outside both ranges never change |
| Files.NewBlockCarries | src/spifs.c:127-140 | the new entry carries the handle's cluster and length unless both are EMPTY (their AND is EMPTY), in which case both stay EMPTY; name and FileInfo are copied |
| Files.FindSlot | src/spifs.c:103-125 | the slot search with one FILEBLOCK collection retry finds a slot exactly when a slot is free or the collector has something to reclaim |
| Files.CreateFile | src/spifs.c:83-145 | FILE_ALREADY_EXIST, with nothing written, exactly when a live entry has the name; NO_FILEBLOCK_SPACE exactly when no slot is free and nothing is reclaimable; otherwise the entry goes into the first free slot and a later open finds it; data sectors never change |
| Files.CreateThenOpen | src/spifs.c:98-142 | an entry written into an erased free slot is what open_file_impl then returns for its name |
| Files.WriteFinish | src/spifs.c:332-355 | an entry without a length gets the handle's length and nothing else changes; otherwise the entry is deprecated and reissued with its FileInfo, and a failure is passed on with the old entry left deprecated |
| Files.Reissue | src/spifs.c:349-353 | deprecating an entry and creating a fresh copy: FILE_ALREADY_EXIST exactly when another live entry has the name; NO_FILEBLOCK_SPACE exactly when none does and the deprecated table has neither a free slot nor a deprecated or deleted one to collect; a named entry with a free slot is always reissued and stays deprecated |
| Files.Renamed | src/spifs.c:584-589 | the renamed handle keeps block, cluster and length, takes the new name bytes and pads the rest with 0xFF |
| Files.RenameFile | src/spifs.c:555-596 | FILE_CANNOT_RENAME exactly when del, dep or rw is clear; FILENAME_OUT_OF_BOUNDS exactly when the name does not fit; both leave everything unchanged; with no free slot the result is NO_FILEBLOCK_SPACE; if the create fails the old entry is already deprecated and the handle already renamed |
| Files.RenameLeavesOld | src/spifs.c:583-591 | the renamed entry goes into a different slot, so the old entry stays deprecated |
| Files.DeleteFile | src/spifs.c:754-769 | the entry is marked deleted and nothing else in the index changes; exactly the chain's sectors get the DISCARD mark; links and payloads are kept; the handle is emptied. None exactly when the walk meets a link that is not a data-sector address or does not end within 807 steps |
| Files.Format | src/spifs.c:862-872 | every index and data sector is erased and every other sector is unchanged |
| Files.FormatEmpties | src/spifs.c:862-872 | after formatting no slot has a name, create_file takes slot 0, and every data sector is FREE |
| Files.EraseSector | src/spifs.c:879-890 | the number is cut to 16 bits; TRUE exactly for an index or data sector, which is erased; otherwise nothing changes |
| FileData.SectorsFor | src/spifs.c:221-224 | the sector count is the least k with n <= 4088k, which is zero only for n = 0 |
| FileData.PlaceSectors | src/spifs.c:258-272 | the corrected sector loop gives sector i chunk i of the data and a link to sector i + 1, and leaves every other sector unchanged |
| FileData.PlacedReadsBack | src/spifs.c:258-272 | a run laid on erased sectors forms a chain of IN_USE sectors that holds exactly the n bytes written |
| FileData.SizesSum | src/spifs.c:264-271 | with the residual length decreased after each sector, the loop writes exactly n bytes |
| FileData.AsWrittenOverReads | src/spifs.c:264-271 | as written, a write of more than 4088 bytes that does not end on a sector boundary takes a full 4088 bytes for its last sector; for 5000 bytes it takes 8176 |
| FileData.GcFrees | src/spifs.c:233-235 | a DATAAREA collection adds min(nums, number of DISCARD sectors) FREE sectors |
| Writing.FindSectors | src/spifs.c:229-238 | the search succeeds exactly when the FREE sectors or the DISCARD sectors alone number k; the list is k ascending FREE sectors |
| Writing.NextPart | src/spifs.c:219-276 | NO_SECTOR_SPACE exactly when no room is found; otherwise the entry and handle get the first sector (and the length for OVERRIDE) and the data lands in a chain that reads back as the written bytes |
| Appending.FindLast | src/spifs.c:191-198 | the walk ends at the last sector of the file's chain |
| Appending.TailRoom | src/spifs.c:200-205 | the room left in the last sector is 4088 - n mod 4088, or 0 when n is a multiple of 4088 |
| Appending.FillTail | src/spifs.c:205-208 | min(length, room) bytes go to the payload right after the old data, and no other sector changes |
| Appending.Extend | src/spifs.c:189-276 | NO_SECTOR_SPACE exactly when the data does not fit the tail and no room is found for the rest; the length grows by length, or by the tail room if no room was found; the index is untouched; on a laid-out file the new contents are the old contents followed by the appended bytes |
| FileWrite.WriteFile | src/spifs.c:157-277 | CANNOT_WRITE_FILE, with nothing changed, exactly when the entry's state byte has del, dep or rw clear; NO_FILEBLOCK_SPACE only from OVERRIDE of a handle with a cluster; per path: the result codes and exactly when each occurs (for OVERRIDE of a handle with a cluster: NO_FILEBLOCK_SPACE exactly when create_file refuses the name on the discarded, deprecated flash, and NO_SECTOR_SPACE exactly when the discarded flash has no room), the flash and handle left by each failure (after an OVERRIDE's NO_SECTOR_SPACE: the old chain discarded or collected, the old entry deprecated, and a handle on a fresh entry with no cluster and no length), the resulting handle, and that the file then reads as the data written (OVERRIDE or a new file) or as the old data followed by the new (APPEND) |
| FileWrite.Replace | src/spifs.c:175-188 | OVERRIDE first marks every chain sector DISCARD, deprecates the entry and creates a fresh one; NO_FILEBLOCK_SPACE exactly when that create fails, and then the entry stays deprecated and the handle loses its cluster and length; NO_SECTOR_SPACE exactly when the discarded flash has no room, and then the data sectors are the discarded ones or collected from them, the old entry stays deprecated and the handle is the fresh entry's, with no cluster and no length |
| FileWrite.DropChain | src/spifs.c:175-188 | the discard walk, deprecation and create_file: create fails exactly when create_file refuses the name on the discarded, deprecated flash; the fresh handle keeps the name, has no cluster and no length, and sits in the index table; the data sectors are those the walk left |
| FileWrite.ReplaceNoRoom | src/spifs.c:229-238 | a failed search after the reissue leaves the old entry deprecated and the data sectors as the discard walk left them or erased where it marked them DISCARD |
| FileWrite.WriteNew | src/spifs.c:219-276 | a write to a handle without a cluster produces a new chain holding exactly the data |
| FileWrite.LinkFromZero | src/spifs.c:189-253 | APPEND to a handle that has a cluster but no length writes the new chain's address into flash address 0; the new length wraps to length - 1 |
| FileWrite.EmptyWraps | src/spifs.c:254 | EMPTY_INT_VALUE + n as a uint32_t is n - 1 |
| Reading.ReadCount | src/spifs.c:376-388 | zero for an entry that is deleted or deprecated or an offset at or past the end; otherwise at most length and inside the file |
| Reading.ReadFile | src/spifs.c:365-418 | returns min(length, file.length - offset) bytes, or 0 when the entry is not live or the offset is past the end; read-only files can be read; the leading bytes are the file's bytes from offset and the rest of the buffer is unchanged |
| Reading.LaidHolds | src/spifs.c:391-415 | a file laid out as write_file leaves it can be read in full |
| Reading.SkipSectors | src/spifs.c:391-395 | the skip loop reaches sector offset / 4088 of the chain at in-sector offset offset mod 4088 |
| Listing.ListInSpec | src/spifs.c:611-646 | the reference scan lists only live entries with a cluster, each with its own address, in ascending address order |
| Listing.ListFile | src/spifs.c:604-648 | the page is a prefix of the scan from the cursor, at most max long; a short page is the whole rest of the scan and leaves the cursor unchanged. A full page returns the cursor as written: either one from which the scan lists no entry of the page again and loses only entries lying between the page's last entry and the cursor, or sector 208 after a page whose scan goes on only with entries between its last entry and the data area, all of them lost |
| Listing.ListFileResumed | src/spifs.c:633-643 | with the cursor test the right way round, a full page returns a cursor from which the next call lists exactly the entries this one did not reach, or the scan was over and the cursor is back at sector 208 |
| Listing.Resume | src/spifs.c:633-642 | the corrected cursor always lies below the data area |
| Listing.ResumeContinues | src/spifs.c:633-642 | resuming from the corrected cursor lists exactly the entries the scan had not reached, or the scan was over |
| Listing.PagedSkips | src/spifs.c:633-643 | a page continued by the corrected cursor also meets the as-written guarantee, with nothing skipped |
| Listing.CursorAsWritten | src/spifs.c:634-641 | the cursor as written lies below the data area; it stays in the sector only when at most 24 bytes are left before the sector's last byte, which for a cursor on a slot boundary means no slot is left |
| Listing.SectorRest | src/spifs.c:611-646 | the scan from a byte of a sector is the rest of that sector, all of it at or after that byte and before the next sector, followed by the scan from the next sector |
| Listing.SkipSector | src/spifs.c:637-641 | when the cursor as written jumps to the next sector, the entries lost are exactly the rest of the current sector, all after the page's last entry |
| Listing.SkipLast | src/spifs.c:637-641 | when the cursor as written wraps from the last index sector to sector 208, the scan from start is the page followed only by the rest of that sector, all after the page's last entry and below the data area |
| Listing.SkippingAt | src/spifs.c:633-643 | after any full page, in each of the stay, jump and wrap branches, the cursor as written meets the as-written guarantee of list_file |
| Listing.AsWrittenSkips | src/spifs.c:634-641 | with two listable entries at the start of sector 208 and a page of one, the cursor as written jumps to sector 209 and the second entry is never listed |
| Listing.RecordRoundTrip | src/spifs.c:678-687 | a 28-byte record unpacks to the handle list_file gives for the same entry, followed by the entry's FileInfo bytes |
| Listing.PackedRecords | src/spifs.c:676-690 | record i of the packed buffer is the record of entry i |
| Listing.ListFileRaw | src/spifs.c:657-706 | the same page, cursor as written and guarantee as list_file; record i unpacks to the i-th listed handle plus its FileInfo; the bytes after the last record are unchanged |
| Session.AppendThenRead | src/spifs.c:189-276 | after a successful APPEND, read_file of the whole file returns the old bytes followed by the appended ones, and the count is the new length |

## Left out

- The flash transport and the RAM emulator are left out (the `spi_flash_*` wrappers of src/diskio.c, w25q32.c, spi_flash.c). The image with program-as-AND and erase replaces them. `Flash.ProgramIsOverwrite` relates the two semantics.
- Heap management is left out: `os_malloc`/`os_free`, the doubly allocated and leaked sector buffer in spifs_gc, and the sector list leaked on the NO_SECTOR_SPACE path. No behaviour depends on it.
- The `SPIFS_USE_NULL_CHECK` branches are compiled out. The macro is defined nowhere, and the model has no null handles.
- spifs_get_version, the stale prototypes at the end of spifs.h, and the demo program main.c are not part of this model.
- Index.OpenFileImpl: requires a C-string query to fit, at most 8 name and 4 extension bytes. open_file passes longer strings through unchecked, and the `os_memcpy` of `os_strlen` bytes at src/spifs.c:506-509 then overflows the 8-byte and 4-byte stack buffers, which is undefined behaviour.
- Buffer alignment in RAM is the parameter `m` (the buffer address mod 4). Only 4-byte words are staged; the wider `size_t` of 64-bit hosts is not modelled.
- `GCType` is not declared in spifs.h or diskio.h; only its three constants are used in spifs.c. It is the datatype `GcType` with FILEBLOCK, DATAAREA and MAJOR.
- Chain walks carry fuel equal to the number of data sectors (807). The source walks without a bound, and a chain longer than that is a loop.
- Files.DeleteFile: returns `None`, with no image, when the chain meets a link that is not a data-sector address or loops. The source then marks and reads at whatever address the link names, or never stops; the model does not say what those writes do. `Reading.ReadFile` and `FileWrite.WriteFile` require a proper chain for the same reason.
- Reading.ReadFile: requires a chain that ends and covers the file's length when something is to be read. The source follows whatever links it finds, and a corrupt entry makes it read from arbitrary addresses.
- FileWrite.WriteFile: requires length > 0, except on the paths that read no sector list (denied, or an APPEND that fits the last sector). With length 0 the source takes no sectors and then reads `sector_list[0]`, which is undefined.
- FileWrite.WriteFile: the claim that the file reads back holds only on flash laid out as write_file leaves it, with its FREE sectors erased. Junk in a FREE sector is ANDed into the new data.
- FileWrite.WriteFile: the statements that the file is laid out (`Laid`) and reads back, or that an APPEND extends it (`Appended`), hold for the corrected sector loop (`FileData.PlaceSectors`). As written, a write of more than 4088 bytes that does not end on a sector boundary fills its last sector's payload past the data with bytes from beyond the buffer, so the erased tail that `Laid` requires does not hold and a later APPEND's tail fill is ANDed into those bytes.
- FileWrite.Replace: the `Laid` statement relies on the corrected sector loop, as for `FileWrite.WriteFile`.
- FileWrite.WriteNew: the `Laid` statement relies on the corrected sector loop, as for `FileWrite.WriteFile`.
- FileWrite.LinkFromZero: the statement about the new run relies on the corrected sector loop, as for `FileWrite.WriteFile`.
- Writing.NextPart: the statement that the data lands in a chain that reads back relies on the corrected sector loop, as for `FileWrite.WriteFile`.
- Appending.Extend: the `Appended` statement relies on the corrected sector loop, both for the new sectors and for the erased tail that the old layout must have.
- Session.AppendThenRead: relies on the corrected sector loop through `Appending.Extend`.
- FileWrite.WriteFile: for OVERRIDE the contract states the new handle and the file's contents, but not the bytes of the new index entry's cluster and length fields. After NO_SECTOR_SPACE the fresh entry is stated through the returned handle only, not through its bytes in the index table.
- FileWrite.WriteFile: for OVERRIDE of a handle with a cluster, the NO_SECTOR_SPACE condition and the data sectors after it are stated only for a handle whose entry lies in the index table, as a handle from open_file or create_file does. For any other block address the deprecation write can land in the data area. That the old entry stays deprecated is stated only when it is a named slot and the table has a free slot; otherwise create_file's index collection may reuse that very slot.
- Files.CreateFile: the statement that open_file_impl then finds the new entry needs every free slot erased and a FileInfo whose state is live.
- Files.WriteFinish: the statement that the reissued entry is then found by open_file_impl needs the handle to point at a named slot.
- Files.RenameFile: the claims about the reissued entry need the handle to point at a named slot.
- Session.AppendThenRead calls the APPEND path of write_file (`Appending.Extend`) directly, so it covers a writable handle with a cluster and a length. The other paths are covered by `FileWrite.WriteFile`.
- Listing.ListFileRaw: shares its scan and its cursor as written with list_file, so it carries the as-written guarantee; no corrected list_file_raw is given, the correction being the one of `Listing.ListFileResumed`.
- Listing.ListFileRaw: the model does not restate the scan's memcpy order byte by byte; it states the record layout that results.
- The list scan starting below the index area (a cursor below 208 * 4096) reads those sectors as if they held entries, as the source does. A cursor at or past the data area lists nothing.

## Findings

| source | as written | input that shows it | evidently intended | confidence | as-written member | corrected member |
|---|---|---|---|---|---|---|
| src/spifs.c:258-272 | `write_size` is min(length, 4088), but `length` is never decreased inside the loop, so every sector takes a full 4088 bytes whenever length >= 4088 | write_file of 5000 bytes: two sectors, 8176 bytes taken from a 5000-byte buffer, and the bytes past the end are programmed into the second sector | the residual length is decreased after each sector, so the sectors take exactly the n bytes | not executed | FileData.AsWrittenOverReads | FileData.PlaceSectors |
| src/spifs.c:634-642 | after a full page, the cursor stays in the sector only when `addr_end - addr_start <= FILEBLOCK_SIZE`, which for a cursor on a slot boundary is only when no slot is left; otherwise it jumps to the next sector. list_file_raw repeats the test at src/spifs.c:692-700 | two listable entries in slots 0 and 1 of sector 208 and max = 1: the second call starts at sector 209 and the entry in slot 1 is never listed | the test reversed (`>= FILEBLOCK_SIZE`): stay in the sector while another entry fits | not executed | Listing.AsWrittenSkips | Listing.ListFileResumed |

Other behaviour of the code that the model reproduces rather than corrects:

- spifs_avail_sector counts DISCARD sectors as free (`Chain.AvailSectorOverCounts`).
- rename_file_impl deprecates the old entry before calling create_file (`Files.RenameFile`). If the new name is taken, the result is NO_FILEBLOCK_SPACE, the entry is lost from the index, and the handle is already renamed.
- spifs_gc in MAJOR mode starts its data pass from the index pass's count, so the data pass stops early or does not run at all (`Gc.Collect`).
- write_file's sector search retries only when the collector's own count reaches the number needed (`Writing.FindSectors`). FREE and DISCARD sectors that together would suffice are not enough.
- APPEND to a handle with a cluster but no length programs the new chain's address into flash address 0 (`FileWrite.LinkFromZero`). The data is left unreachable.

=== FILE: aligned.dfy ===
/** align_write_impl and align_read_impl: a transfer between a RAM buffer
    and flash, split so that the flash driver only ever sees word-aligned
    RAM.  When (buffer + offset) is misaligned by m bytes (m in [0, 4)), a
    head of up to 4 - m bytes goes through a 4-byte staging word; the
    word-multiple middle goes directly; a tail of size % 4 bytes goes
    through the staging word again.  Staged words written to flash are
    padded with 0xFF. */
module AlignedIo {
  import opened Bytes
  import opened Layout
  import opened Flash
  import opened Records

  /** The buffer with `data` copied in at position `at`, nothing else changed. */
  function Splice(buf: seq<byte>, at: nat, data: seq<byte>): (r: seq<byte>)
    requires at + |data| <= |buf|
    ensures |r| == |buf|
  {
    buf[..at] + data + buf[at + |data|..]
  }

  /** Splice copies data in and keeps the rest of the buffer. */
  lemma SpliceSpec(buf: seq<byte>, at: nat, data: seq<byte>)
    requires at + |data| <= |buf|
    ensures Splice(buf, at, data)[..at] == buf[..at]
    ensures Splice(buf, at, data)[at..at + |data|] == data
    ensures Splice(buf, at, data)[at + |data|..] == buf[at + |data|..]
  {
    var r := Splice(buf, at, data);
    assert r[at..at + |data|] == data;
  }

  /** align_write_impl on NOR flash; m is (buffer + offset) mod 4.  A
      misaligned (buffer + offset) first gets a head of up to 4 - m bytes
      through a staging word padded with 0xFF. */
  method AlignWrite(f: Image, buf: seq<byte>, offset: nat, writeAddr: nat, writeSize: nat, m: nat) returns (r: Image)
    requires m < 4 && offset + writeSize <= |buf| && writeAddr + writeSize + 4 <= FLASH_SIZE
    ensures r == Program(f, writeAddr, buf[offset..offset + writeSize])
  {
    var done := 0;
    ProgramEmpty(f, writeAddr);
    assert buf[offset..offset + 0] == [];
    r := f;
    if m != 0 {
      var towrite := Min(4 - m, writeSize);
      var temp := Pad(buf[offset..offset + towrite], 4);
      ProgramPadded(r, writeAddr, buf[offset..offset + towrite], 4);
      WriteStep(f, buf, offset, writeAddr, 0, towrite, r);
      r := Program(r, writeAddr, temp);
      done := towrite;
    }
    r := WriteRest(f, buf, offset, writeAddr, writeSize, done, r);
  }

  /** The rest of align_write_impl, once the first done bytes are on flash
      and (buffer + offset + done) is word-aligned: a word multiple is
      written directly, and the last (writeSize - done) % 4 bytes through a
      padded staging word. */
  method WriteRest(f: Image, buf: seq<byte>, offset: nat, writeAddr: nat, writeSize: nat, done: nat, g: Image) returns (r: Image)
    requires done <= writeSize && offset + writeSize <= |buf| && writeAddr + writeSize + 4 <= FLASH_SIZE
    requires g == Program(f, writeAddr, buf[offset..offset + done])
    ensures r == Program(f, writeAddr, buf[offset..offset + writeSize])
  {
    r := g;
    var size := writeSize - done;
    if size == 0 {
      return;
    }
    var dataAlign := size % 4;
    if dataAlign == 0 {
      WriteStep(f, buf, offset, writeAddr, done, writeSize, r);
      r := Program(r, writeAddr + done, buf[offset + done..offset + writeSize]);
    } else {
      var at := done;
      if size > dataAlign {
        at := writeSize - dataAlign;
        WriteStep(f, buf, offset, writeAddr, done, at, r);
        r := Program(r, writeAddr + done, buf[offset + done..offset + at]);
      }
      r := WriteTail(f, buf, offset, writeAddr, writeSize, at, r);
    }
  }

  /** The last bytes of align_write_impl, fewer than 4: copied into a
      staging word padded with 0xFF, and the whole word programmed. */
  method WriteTail(f: Image, buf: seq<byte>, offset: nat, writeAddr: nat, writeSize: nat, at: nat, g: Image) returns (r: Image)
    requires at <= writeSize < at + 4 && offset + writeSize <= |buf| && writeAddr + at + 4 <= FLASH_SIZE
    requires g == Program(f, writeAddr, buf[offset..offset + at])
    ensures r == Program(f, writeAddr, buf[offset..offset + writeSize])
  {
    var temp := Pad(buf[offset + at..offset + writeSize], 4);
    ProgramPadded(g, writeAddr + at, buf[offset + at..offset + writeSize], 4);
    WriteStep(f, buf, offset, writeAddr, at, writeSize, g);
    r := Program(g, writeAddr + at, temp);
  }

  /** Programming source bytes [k, t) after the first k extends the
      programmed prefix to t bytes. */
  lemma WriteStep(f: Image, buf: seq<byte>, offset: nat, addr: nat, k: nat, t: nat, g: Image)
    requires k <= t && offset + t <= |buf| && addr + t <= FLASH_SIZE
    requires g == Program(f, addr, buf[offset..offset + k])
    ensures Program(g, addr + k, buf[offset + k..offset + t]) == Program(f, addr, buf[offset..offset + t])
  {
    var x := buf[offset..offset + t];
    assert x[..k] == buf[offset..offset + k] && x[k..] == buf[offset + k..offset + t];
    ProgramSplit(f, addr, x, k);
  }

  /** Writing x in two pieces split at k is writing x. */
  lemma ProgramSplit(f: Image, a: nat, x: seq<byte>, k: nat)
    requires k <= |x| && a + |x| <= FLASH_SIZE
    ensures Program(Program(f, a, x[..k]), a + k, x[k..]) == Program(f, a, x)
  {
    ProgramConcat(f, a, x[..k], x[k..]);
    assert x[..k] + x[k..] == x;
  }

  lemma ProgramEmpty(f: Image, a: nat)
    requires a <= FLASH_SIZE
    ensures Program(f, a, []) == f
  {
    var r := Program(f, a, []);
    assert forall i :: 0 <= i < FLASH_SIZE ==> r[i] == f[i];
  }

  /** Padding a staged word with 0xFF does not change what is programmed. */
  lemma ProgramPadded(f: Image, a: nat, x: seq<byte>, n: nat)
    requires |x| <= n && a + n <= FLASH_SIZE
    ensures Program(f, a, Pad(x, n)) == Program(f, a, x)
  {
    var p, q := Program(f, a, Pad(x, n)), Program(f, a, x);
    forall i | 0 <= i < FLASH_SIZE
      ensures p[i] == q[i]
    {
      if a <= i < a + |x| {
        assert Pad(x, n)[..|x|][i - a] == x[i - a];
      } else if a + |x| <= i < a + n {
        AndLaws(f[i], f[i], f[i]);
      }
    }
  }

  /** align_read_impl: the flash bytes copied into the buffer; m is
      (buffer + offset) mod 4.  A misaligned (buffer + offset) first gets a
      head of up to 4 - m bytes through a staged word. */
  method AlignRead(buf: seq<byte>, offset: nat, f: Image, readAddr: nat, readSize: nat, m: nat) returns (r: seq<byte>)
    requires m < 4 && offset + readSize <= |buf| && readAddr + readSize + 4 <= FLASH_SIZE
    ensures r == Splice(buf, offset, f[readAddr..readAddr + readSize])
  {
    var done := 0;
    SpliceEmpty(buf, offset);
    assert f[readAddr..readAddr + 0] == [];
    r := buf;
    if m != 0 {
      var temp := f[readAddr..readAddr + 4];
      var toread := Min(4 - m, readSize);
      assert temp[..toread] == f[readAddr + 0..readAddr + toread];
      ReadStep(buf, offset, f, readAddr, 0, toread, r);
      r := Splice(r, offset, temp[..toread]);
      done := toread;
    }
    r := ReadRest(buf, offset, f, readAddr, readSize, done, r);
  }

  /** The rest of align_read_impl, once the first done bytes are copied and
      (buffer + offset + done) is word-aligned: a word multiple is read
      directly, and the last (readSize - done) % 4 bytes through a staged
      word. */
  method ReadRest(buf: seq<byte>, offset: nat, f: Image, readAddr: nat, readSize: nat, done: nat, b: seq<byte>) returns (r: seq<byte>)
    requires done <= readSize && offset + readSize <= |buf| && readAddr + readSize + 4 <= FLASH_SIZE
    requires b == Splice(buf, offset, f[readAddr..readAddr + done])
    ensures r == Splice(buf, offset, f[readAddr..readAddr + readSize])
  {
    r := b;
    var size := readSize - done;
    if size == 0 {
      return;
    }
    var dataAlign := size % 4;
    if dataAlign == 0 {
      ReadStep(buf, offset, f, readAddr, done, readSize, r);
      r := Splice(r, offset + done, f[readAddr + done..readAddr + readSize]);
    } else {
      var at := done;
      if size > dataAlign {
        at := readSize - dataAlign;
        ReadStep(buf, offset, f, readAddr, done, at, r);
        r := Splice(r, offset + done, f[readAddr + done..readAddr + at]);
      }
      r := ReadTail(buf, offset, f, readAddr, readSize, at, r);
    }
  }

  /** The last bytes of align_read_impl, fewer than 4: a whole word is read
      into a staging word and its first readSize - at bytes are copied. */
  method ReadTail(buf: seq<byte>, offset: nat, f: Image, readAddr: nat, readSize: nat, at: nat, b: seq<byte>) returns (r: seq<byte>)
    requires at <= readSize < at + 4 && offset + readSize <= |buf| && readAddr + at + 4 <= FLASH_SIZE
    requires b == Splice(buf, offset, f[readAddr..readAddr + at])
    ensures r == Splice(buf, offset, f[readAddr..readAddr + readSize])
  {
    var temp := f[readAddr + at..readAddr + at + 4];
    assert temp[..readSize - at] == f[readAddr + at..readAddr + readSize];
    ReadStep(buf, offset, f, readAddr, at, readSize, b);
    r := Splice(b, offset + at, temp[..readSize - at]);
  }

  /** Copying flash bytes [k, t) after the first k extends the copied prefix
      to t bytes. */
  lemma ReadStep(buf: seq<byte>, offset: nat, f: Image, addr: nat, k: nat, t: nat, b: seq<byte>)
    requires k <= t && offset + t <= |buf| && addr + t <= FLASH_SIZE
    requires b == Splice(buf, offset, f[addr..addr + k])
    ensures Splice(b, offset + k, f[addr + k..addr + t]) == Splice(buf, offset, f[addr..addr + t])
  {
    SpliceConcat(buf, offset, f[addr..addr + k], f[addr + k..addr + t]);
    assert f[addr..addr + k] + f[addr + k..addr + t] == f[addr..addr + t];
  }

  lemma SpliceEmpty(buf: seq<byte>, at: nat)
    requires at <= |buf|
    ensures Splice(buf, at, []) == buf
  {
    assert buf == buf[..at] + buf[at..];
  }

  /** Two adjacent copies are one copy of the concatenation. */
  lemma SpliceConcat(buf: seq<byte>, at: nat, x: seq<byte>, y: seq<byte>)
    requires at + |x| + |y| <= |buf|
    ensures Splice(Splice(buf, at, x), at + |x|, y) == Splice(buf, at, x + y)
  {
    var p := Splice(Splice(buf, at, x), at + |x|, y);
    var q := Splice(buf, at, x + y);
    assert p == buf[..at] + x + y + buf[at + |x| + |y|..];
    assert q == buf[..at] + (x + y) + buf[at + |x| + |y|..];
  }
}

=== FILE: append.dfy ===
/** write_file for APPEND onto a file that already holds data: the walk
    to the last sector, the fill of its tail and the link from it to the
    new sectors of the rest. */
module Appending {
  import opened Bytes
  import opened Layout
  import opened Records
  import opened Flash
  import opened DiskIo
  import opened Chain
  import opened FileData
  import opened StateCodec
  import opened Gc
  import opened Files
  import opened Writing

  /* ---------------------------------------------------------------- */
  /* APPEND to a file with data                                       */
  /* ---------------------------------------------------------------- */

  /** The walk of APPEND to the last sector of the chain from c: follow
      the links until one reads EMPTY_INT_VALUE. */
  method FindLast(f: Image, c: u32) returns (last: DataAddr)
    requires c != EMPTY_INT && ChainOf(f, c).Some?
    ensures |ChainOf(f, c).value| > 0 && last == ChainOf(f, c).value[|ChainOf(f, c).value| - 1]
  {
    var s := ChainOf(f, c).value;
    ChainSound(f, c, DATA_SECTORS);
    last := s[0];
    var i := 0;
    var next := Link(f, last);
    while next != EMPTY_INT
      invariant 0 <= i < |s| && last == s[i] && next == Link(f, last)
      invariant i + 1 < |s| ==> next == s[i + 1]
      decreases |s| - i
    {
      last, i := s[i + 1], i + 1;
      next := Link(f, last);
    }
  }

  /** The tail fill of APPEND: min(length, DATA_AREA_SIZE - t) bytes from
      the start of buf at offset t of the last sector's payload. */
  method FillTail(f: Image, last: DataAddr, t: nat, buf: seq<byte>, length: nat, m: nat) returns (r: Image, ws: nat)
    requires 0 < t < 4088 && length <= |buf| && m < 4
    ensures ws == Min(length, 4088 - t)
    ensures SectorBytes(r, Sec(last)) == AndBytes(SectorBytes(f, Sec(last)), Mask(SECTOR_MARK_SIZE + t, buf[..ws]))
    ensures forall u :: 0 <= u < SECTOR_COUNT && u != Sec(last) ==> SectorBytes(r, u) == SectorBytes(f, u)
  {
    ws := if length < 4088 - t then length else 4088 - t;
    r := AlignedIo.AlignWrite(f, buf, 0, last + SECTOR_MARK_SIZE + t, ws, m);
    assert buf[0..ws] == buf[..ws];
    ProgramSector(f, Sec(last), SECTOR_MARK_SIZE + t, buf[..ws]);
  }

  /** The sector count of n bytes is k exactly when n needs the k-th
      sector and fits in k. */
  lemma SectorsForIs(n: nat, k: nat)
    requires 0 < k && (k - 1) * 4088 < n <= k * 4088
    ensures SectorsFor(n) == k
  {
  }

  /** A sector's parts are equal when the sectors are. */
  lemma SameParts(f: Image, g: Image, a: DataAddr)
    requires SectorBytes(g, Sec(a)) == SectorBytes(f, Sec(a))
    ensures Mark(g, a) == Mark(f, a) && Payload(g, a) == Payload(f, a) && LinkBytes(g, a) == LinkBytes(f, a)
    ensures IsInUse(g, a) == IsInUse(f, a)
  {
    SectorParts(f, a);
    SectorParts(g, a);
    var x := SectorBytes(f, Sec(a));
    assert Mark(g, a) == x[..SECTOR_MARK_SIZE] == Mark(f, a);
    assert Payload(g, a) == x[SECTOR_MARK_SIZE..LINK_OFFSET] == Payload(f, a);
    assert LinkBytes(g, a) == x[LINK_OFFSET..] == LinkBytes(f, a);
    SameMarkers(f, g, Sec(a));
  }

  /** The parts of a sector ANDed with a pattern. */
  lemma MaskedParts(f: Image, g: Image, a: DataAddr, o: nat, d: seq<byte>)
    requires o + |d| <= SECTOR_SIZE && SectorBytes(g, Sec(a)) == AndBytes(SectorBytes(f, Sec(a)), Mask(o, d))
    ensures Mark(g, a) == AndBytes(Mark(f, a), Mask(o, d)[..SECTOR_MARK_SIZE])
    ensures Payload(g, a) == AndBytes(Payload(f, a), Mask(o, d)[SECTOR_MARK_SIZE..LINK_OFFSET])
    ensures LinkBytes(g, a) == AndBytes(LinkBytes(f, a), Mask(o, d)[LINK_OFFSET..])
  {
    SectorParts(f, a);
    SectorParts(g, a);
  }

  /** The tail fill of the last sector at offset t of its payload, whose
      bytes from t on are erased: the payload gains x after its first t
      bytes and stays erased after it; marker and link are untouched. */
  lemma TailFilled(f: Image, g: Image, a: DataAddr, t: nat, x: seq<byte>, e: nat)
    requires e == t + |x| <= 4088 && AllErased(Payload(f, a)[t..])
    requires SectorBytes(g, Sec(a)) == AndBytes(SectorBytes(f, Sec(a)), Mask(SECTOR_MARK_SIZE + t, x))
    ensures Mark(g, a) == Mark(f, a) && LinkBytes(g, a) == LinkBytes(f, a)
    ensures IsInUse(g, a) == IsInUse(f, a)
    ensures Payload(g, a)[..t] == Payload(f, a)[..t] && Payload(g, a)[t..e] == x
    ensures AllErased(Payload(g, a)[e..])
  {
    var m := Mask(SECTOR_MARK_SIZE + t, x);
    MaskedParts(f, g, a, SECTOR_MARK_SIZE + t, x);
    PayloadFilled(Payload(f, a), m[SECTOR_MARK_SIZE..LINK_OFFSET], t, x);
    OutsideKept(Mark(f, a), m[..SECTOR_MARK_SIZE]);
    OutsideKept(LinkBytes(f, a), m[LINK_OFFSET..]);
    SameMarkerAt(f, g, a);
  }

  /** An AND with an all-0xFF pattern keeps the bytes. */
  lemma OutsideKept(p: seq<byte>, m: seq<byte>)
    requires |p| == |m| && AllErased(m)
    ensures AndBytes(p, m) == p
  {
    forall i | 0 <= i < |p|
      ensures And(p[i], m[i]) == p[i]
    {
      AndLaws(p[i], 0xFF, 0xFF);
    }
  }

  /** The payload part of the tail fill: x lands after the first t bytes
      on erased bytes, the rest is kept. */
  lemma PayloadFilled(p: seq<byte>, m: seq<byte>, t: nat, x: seq<byte>)
    requires |p| == |m| == 4088 && t + |x| <= 4088 && AllErased(p[t..])
    requires forall i :: 0 <= i < 4088 ==> m[i] == if t <= i < t + |x| then x[i - t] else EMPTY_BYTE
    ensures AndBytes(p, m)[..t] == p[..t] && AndBytes(p, m)[t..t + |x|] == x
    ensures AllErased(AndBytes(p, m)[t + |x|..])
  {
    var q := AndBytes(p, m);
    forall i | 0 <= i < 4088
      ensures q[i] == if t <= i < t + |x| then x[i - t] else p[i]
      ensures t <= i ==> p[i] == 0xFF
    {
      assert t <= i ==> p[t..][i - t] == p[i];
      AndLaws(p[i], 0xFF, 0xFF);
      if t <= i < t + |x| {
        AndLaws(x[i - t], 0xFF, 0xFF);
      }
    }
  }

  /** The same marker bytes make the same marker. */
  lemma SameMarkerAt(f: Image, g: Image, a: DataAddr)
    requires Mark(g, a) == Mark(f, a)
    ensures IsInUse(g, a) == IsInUse(f, a) && IsFree(g, a) == IsFree(f, a) && IsDiscard(g, a) == IsDiscard(f, a)
  {
    assert g[a] == Mark(g, a)[0] && g[a + 1] == Mark(g, a)[1] && g[a + 2] == Mark(g, a)[2] && g[a + 3] == Mark(g, a)[3];
    assert f[a] == Mark(f, a)[0] && f[a + 1] == Mark(f, a)[1] && f[a + 2] == Mark(f, a)[2] && f[a + 3] == Mark(f, a)[3];
  }

  /** Programming a link word over EMPTY_INT_VALUE stores it; marker and
      payload are untouched. */
  lemma Relinked(f: Image, g: Image, a: DataAddr, first: u32)
    requires Link(f, a) == EMPTY_INT
    requires SectorBytes(g, Sec(a)) == AndBytes(SectorBytes(f, Sec(a)), Mask(LINK_OFFSET, LE32(first)))
    ensures Mark(g, a) == Mark(f, a) && Payload(g, a) == Payload(f, a) && Link(g, a) == first
    ensures IsInUse(g, a) == IsInUse(f, a)
  {
    var m := Mask(LINK_OFFSET, LE32(first));
    MaskedParts(f, g, a, LINK_OFFSET, LE32(first));
    WordLE32(LinkBytes(f, a));
    MarkerBytes();
    assert LinkBytes(f, a) == FREE_BYTES;
    forall i | 0 <= i < LINK_SIZE
      ensures LinkBytes(g, a)[i] == LE32(first)[i]
    {
      assert m[LINK_OFFSET..][i] == m[LINK_OFFSET + i];
      AndLaws(LE32(first)[i], 0xFF, 0xFF);
    }
    assert LinkBytes(g, a) == LE32(first);
    forall i | 0 <= i < 4088
      ensures Payload(g, a)[i] == Payload(f, a)[i]
    {
      assert m[SECTOR_MARK_SIZE..LINK_OFFSET][i] == m[SECTOR_MARK_SIZE + i];
      AndLaws(Payload(f, a)[i], 0xFF, 0xFF);
    }
    forall i | 0 <= i < SECTOR_MARK_SIZE
      ensures Mark(g, a)[i] == Mark(f, a)[i]
    {
      AndLaws(Mark(f, a)[i], 0xFF, 0xFF);
    }
    assert Mark(g, a) == Mark(f, a);
    SameMarkerAt(f, g, a);
  }
  /* ---------------------------------------------------------------- */
  /* File contents across an append                                   */
  /* ---------------------------------------------------------------- */

  /** Where a file of n0 bytes ends in its last sector: past a full last
      sector when n0 is a multiple of DATA_AREA_SIZE, else at n0 modulo
      DATA_AREA_SIZE. */
  lemma TailOffset(n0: nat)
    ensures n0 % 4088 == 0 ==> n0 == SectorsFor(n0) * 4088
    ensures n0 % 4088 != 0 ==> n0 % 4088 == TailUsed(n0, SectorsFor(n0))
  {
  }

  /** Bytes after k full sectors need k sectors more than on their own. */
  lemma SectorsForShift(k: nat, rest: nat)
    ensures SectorsFor(k * 4088 + rest) == k + SectorsFor(rest)
  {
    var j := SectorsFor(rest);
    if k + j > 0 {
      SectorsForIs(k * 4088 + rest, k + j);
    }
  }

  /** The contents of full sectors A followed by B are A's payloads
      followed by B's contents. */
  lemma {:induction false} ContentsAppend(f: Image, a: seq<DataAddr>, b: seq<DataAddr>, n: nat, full: nat, total: nat)
    requires full == |a| * 4088 && total == full + n
    ensures Contents(f, a + b, total) == Contents(f, a, full) + Contents(f, b, n)
    decreases |a|
  {
    if |a| > 0 {
      var x := Payload(f, a[0]);
      assert (a + b)[0] == a[0] && (a + b)[1..] == a[1..] + b;
      if |a| == 1 {
        assert a[1..] + b == b;
        assert Contents(f, a, 4088) == x[..4088] == x;
      } else {
        ContentsAppend(f, a[1..], b, n, full - 4088, total - 4088);
      }
    } else {
      assert a + b == b;
    }
  }

  /** Sectors with the same payloads have the same contents. */
  lemma {:induction false} ContentsFrame(f: Image, g: Image, s: seq<DataAddr>, n: nat)
    requires forall i :: 0 <= i < |s| ==> Payload(g, s[i]) == Payload(f, s[i])
    ensures Contents(g, s, n) == Contents(f, s, n)
    decreases |s|
  {
    if |s| > 0 && n > 4088 {
      ContentsFrame(f, g, s[1..], n - 4088);
    }
  }

  /** A file whose last sector gains x right after its n bytes, with the
      other payloads unchanged, reads as before followed by x. */
  lemma {:induction false} ContentsGrow(f: Image, g: Image, s: seq<DataAddr>, n: nat, x: seq<byte>, n1: nat)
    requires n1 == n + |x| && |s| > 0 && 0 <= TailUsed(n, |s|) && TailUsed(n1, |s|) <= 4088
    requires forall i :: 0 <= i < |s| - 1 ==> Payload(g, s[i]) == Payload(f, s[i])
    requires Payload(g, s[|s| - 1])[..TailUsed(n, |s|)] == Payload(f, s[|s| - 1])[..TailUsed(n, |s|)]
    requires Payload(g, s[|s| - 1])[TailUsed(n, |s|)..TailUsed(n1, |s|)] == x
    ensures Contents(g, s, n1) == Contents(f, s, n) + x
    decreases |s|
  {
    var pg, pf := Payload(g, s[0]), Payload(f, s[0]);
    if |s| == 1 {
      assert pg[..n1] == pg[..n] + pg[n..n1];
    } else if n1 > 4088 {
      ContentsGrow(f, g, s[1..], n - 4088, x, n1 - 4088);
      if n == 4088 {
        assert pf[..4088] == pf;
      }
    } else {
      assert pg[..4088] == pg && pf[..4088] == pf;
    }
  }

  /** A chain followed by a chain it now links to is one chain. */
  lemma ChainJoin(g: Image, r: Image, c: u32, s: seq<DataAddr>, t: seq<DataAddr>)
    requires |s| > 0 && |t| > 0 && IsChain(g, c, s) && IsChain(r, t[0], t)
    requires forall i :: 0 <= i < |s| - 1 ==> Link(r, s[i]) == Link(g, s[i])
    requires Link(r, s[|s| - 1]) == t[0]
    ensures IsChain(r, c, s + t)
  {
    var u := s + t;
    forall i | 0 <= i < |u| - 1
      ensures Link(r, u[i]) == u[i + 1]
    {
      if i < |s| - 1 {
      } else if i == |s| - 1 {
      } else {
        assert u[i] == t[i - |s|] && u[i + 1] == t[i - |s| + 1];
      }
    }
  }
  /** Distinct sectors of a chain are distinct sector numbers. */
  lemma ChainSectorsApart(f: Image, c: u32, s: seq<DataAddr>, i: nat, j: nat)
    requires IsChain(f, c, s) && i < j < |s|
    ensures Sec(s[i]) != Sec(s[j])
  {
    ChainDistinct(f, c, s);
  }

  /** The tail fill on a laid-out file whose last sector is partly used:
      the file stays laid out, n0 + |x| bytes long, and reads as
      before followed by x. */
  lemma FillInPlace(f: Image, g: Image, c: u32, s: seq<DataAddr>, n0: nat, t: nat, x: seq<byte>, n1: nat)
    requires LaidAs(f, c, n0, s) && |s| > 0
    requires 0 < t && t == TailUsed(n0, |s|) && n1 == n0 + |x| && t + |x| <= 4088
    requires SectorBytes(g, Sec(s[|s| - 1])) == AndBytes(SectorBytes(f, Sec(s[|s| - 1])), Mask(SECTOR_MARK_SIZE + t, x))
    requires forall u :: 0 <= u < SECTOR_COUNT && u != Sec(s[|s| - 1]) ==> SectorBytes(g, u) == SectorBytes(f, u)
    ensures LaidAs(g, c, n1, s)
    ensures Contents(g, s, n1) == Contents(f, s, n0) + x
  {
    var k := |s|;
    var last := s[k - 1];
    var e := TailUsed(n1, k);
    TailFilled(f, g, last, t, x, e);
    forall i | 0 <= i < k - 1
      ensures Payload(g, s[i]) == Payload(f, s[i]) && Link(g, s[i]) == Link(f, s[i]) && IsInUse(g, s[i])
    {
      ChainSectorsApart(f, c, s, i, k - 1);
      SameParts(f, g, s[i]);
    }
    assert forall i :: 0 <= i < k ==> IsInUse(g, s[i]);
    assert Link(g, last) == Link(f, last);
    SectorsForIs(n1, k);
    assert IsChain(g, c, s);
    ContentsGrow(f, g, s, n0, x, n1);
  }

  /** A program inside an IN_USE sector keeps every FREE sector erased:
      that sector stays IN_USE, and no other changes. */
  lemma InUseErased(f: Image, g: Image, a: DataAddr, o: nat, d: seq<byte>)
    requires FreeErased(f) && IsInUse(f, a)
    requires SECTOR_MARK_SIZE <= o && o + |d| <= SECTOR_SIZE
    requires SectorBytes(g, Sec(a)) == AndBytes(SectorBytes(f, Sec(a)), Mask(o, d))
    requires forall u :: 0 <= u < SECTOR_COUNT && u != Sec(a) ==> SectorBytes(g, u) == SectorBytes(f, u)
    ensures FreeErased(g)
  {
    MaskKeepsMarker(SectorBytes(f, Sec(a)), o, d);
    SameMarkers(f, g, Sec(a));
    MarkersExclusive(g, a);
    ErasedKept(f, g);
  }

  /** The sectors of a laid-out file with a full last sector, after the
      search, the link program onto its last sector and the sector loop
      elsewhere: IN_USE with their payloads, the same links, except that
      the last now links to first. */
  lemma OldSectorsKept(g: Image, g1: Image, g2: Image, r: Image, c: u32, s: seq<DataAddr>, list: seq<DataAddr>, first: DataAddr)
    requires |s| > 0 && LaidAs(g, c, |s| * 4088, s) && Reclaimed(g, g1)
    requires forall i :: 0 <= i < |list| ==> IsFree(g1, list[i])
    requires SectorBytes(g2, Sec(s[|s| - 1])) == AndBytes(SectorBytes(g1, Sec(s[|s| - 1])), Mask(LINK_OFFSET, LE32(first)))
    requires forall u :: 0 <= u < SECTOR_COUNT && u != Sec(s[|s| - 1]) ==> SectorBytes(g2, u) == SectorBytes(g1, u)
    requires forall u :: 0 <= u < SECTOR_COUNT && SectorAddr(u) !in list ==> SectorBytes(r, u) == SectorBytes(g2, u)
    ensures forall i :: 0 <= i < |s| ==> Payload(r, s[i]) == Payload(g, s[i]) && IsInUse(r, s[i])
    ensures forall i :: 0 <= i < |s| - 1 ==> Link(r, s[i]) == Link(g, s[i])
    ensures Link(r, s[|s| - 1]) == first
  {
    var k := |s|;
    ReclaimErased(g, g1);
    forall i | 0 <= i < k
      ensures SectorBytes(g1, Sec(s[i])) == SectorBytes(g, Sec(s[i]))
      ensures SectorBytes(r, Sec(s[i])) == SectorBytes(g2, Sec(s[i]))
    {
      MarkersExclusive(g, s[i]);
      assert SectorAddr(Sec(s[i])) == s[i];
      SameParts(g, g1, s[i]);
      MarkersExclusive(g1, s[i]);
    }
    forall i | 0 <= i < k - 1
      ensures Payload(r, s[i]) == Payload(g, s[i]) && IsInUse(r, s[i]) && Link(r, s[i]) == Link(g, s[i])
    {
      ChainSectorsApart(g, c, s, i, k - 1);
      SameParts(g, r, s[i]);
    }
    var last := s[k - 1];
    SameParts(g, g1, last);
    Relinked(g1, g2, last, first);
    SameParts(g2, r, last);
  }

  /** The run NEXT_PART_WRITE adds to a laid-out file with a full last
      sector joins it: the whole is laid out and reads as the old
      contents followed by the run's. */
  lemma JoinRun(g: Image, g1: Image, g2: Image, r: Image, c: u32, s: seq<DataAddr>, list: seq<DataAddr>, rest: nat, full: nat, n: nat)
    requires full == |s| * 4088 && n == full + rest
    requires |s| > 0 && LaidAs(g, c, full, s) && Reclaimed(g, g1)
    requires |list| > 0 && forall i :: 0 <= i < |list| ==> IsFree(g1, list[i])
    requires SectorBytes(g2, Sec(s[|s| - 1])) == AndBytes(SectorBytes(g1, Sec(s[|s| - 1])), Mask(LINK_OFFSET, LE32(list[0])))
    requires forall u :: 0 <= u < SECTOR_COUNT && u != Sec(s[|s| - 1]) ==> SectorBytes(g2, u) == SectorBytes(g1, u)
    requires forall u :: 0 <= u < SECTOR_COUNT && SectorAddr(u) !in list ==> SectorBytes(r, u) == SectorBytes(g2, u)
    requires LaidAs(r, list[0], rest, list)
    ensures LaidAs(r, c, n, s + list)
    ensures Contents(r, s + list, n) == Contents(g, s, full) + Contents(r, list, rest)
  {
    OldSectorsKept(g, g1, g2, r, c, s, list, list[0]);
    JoinLaid(g, r, c, s, list, rest, full, n);
  }

  /** JoinRun once the old sectors are known to be kept and relinked. */
  lemma JoinLaid(g: Image, r: Image, c: u32, s: seq<DataAddr>, list: seq<DataAddr>, rest: nat, full: nat, n: nat)
    requires full == |s| * 4088 && n == full + rest
    requires |s| > 0 && LaidAs(g, c, full, s)
    requires |list| > 0 && LaidAs(r, list[0], rest, list)
    requires forall i :: 0 <= i < |s| ==> Payload(r, s[i]) == Payload(g, s[i]) && IsInUse(r, s[i])
    requires forall i :: 0 <= i < |s| - 1 ==> Link(r, s[i]) == Link(g, s[i])
    requires Link(r, s[|s| - 1]) == list[0]
    ensures LaidAs(r, c, n, s + list)
    ensures Contents(r, s + list, n) == Contents(g, s, full) + Contents(r, list, rest)
  {
    ChainJoin(g, r, c, s, list);
    SectorsForShift(|s|, rest);
    var u := s + list;
    assert forall i :: 0 <= i < |u| ==> IsInUse(r, u[i]) by {
      assert forall i :: |s| <= i < |u| ==> u[i] == list[i - |s|];
    }
    assert u[|u| - 1] == list[|list| - 1];
    assert TailUsed(n, |u|) == TailUsed(rest, |list|);
    ContentsAppend(r, s, list, rest, full, n);
    ContentsFrame(g, r, s, full);
  }
  /* ---------------------------------------------------------------- */
  /* APPEND to a file with data: the whole path                       */
  /* ---------------------------------------------------------------- */

  /** The room left in the last sector of a file of n0 bytes. */
  function TailRoom(n0: nat): (room: nat)
    ensures room < 4088 && (n0 + room) % 4088 == 0
    ensures n0 % 4088 == 0 <==> room == 0
  {
    if n0 % 4088 == 0 then 0 else 4088 - n0 % 4088
  }

  /** Two sums modulo 2^32 in a row are one. */
  lemma ModAdd(a: nat, b: nat, c: nat)
    ensures ((a + b) % 0x1_0000_0000 + c) % 0x1_0000_0000 == (a + b + c) % 0x1_0000_0000
  {
  }

  /** A program past the marker of one sector keeps every data sector's
      marker, so the searches count the same. */
  lemma MarkersKept(f: Image, g: Image, a: DataAddr, o: nat, d: seq<byte>)
    requires SECTOR_MARK_SIZE <= o && o + |d| <= SECTOR_SIZE
    requires SectorBytes(g, Sec(a)) == AndBytes(SectorBytes(f, Sec(a)), Mask(o, d))
    requires forall u :: 0 <= u < SECTOR_COUNT && u != Sec(a) ==> SectorBytes(g, u) == SectorBytes(f, u)
    ensures SameMarks(f, g)
  {
    MaskKeepsMarker(SectorBytes(f, Sec(a)), o, d);
    forall u | IsDataSector(u)
      ensures IsFree(g, SectorAddr(u)) == IsFree(f, SectorAddr(u)) && IsDiscard(g, SectorAddr(u)) == IsDiscard(f, SectorAddr(u))
    {
      SameMarkers(f, g, u);
    }
  }

  /** APPEND to a handle with a cluster and a length: walk to the last
      sector, fill what is left of it, and put the rest in new sectors
      linked from it.  On a laid-out file with erased FREE sectors the
      file grows by exactly the bytes written. */
  method Extend(f: Image, file: File, buf: seq<byte>, length: u32, m: nat) returns (r: Image, h: File, res: Result)
    requires file.cluster != EMPTY_INT && file.length != EMPTY_INT && ChainOf(f, file.cluster).Some?
    requires file.block + FILEBLOCK_SIZE <= FLASH_SIZE && length <= |buf| && m < 4
    requires length > 0 || file.length % 4088 != 0
    ensures res == AppendFileSuccess || res == NoSectorSpace
    ensures h == file.(length := h.length)
    ensures res == AppendFileSuccess ==> h.length == (file.length + length) % 0x1_0000_0000
    ensures res == NoSectorSpace <==>
              && length > TailRoom(file.length)
              && NoRoom(f, SectorsFor(length - TailRoom(file.length)))
    ensures res == NoSectorSpace ==> h.length == (file.length + TailRoom(file.length)) % 0x1_0000_0000
    ensures KeepsIndex(f, r)
    ensures Laid(f, file.cluster, file.length) && FreeErased(f) ==> FreeErased(r)
    ensures Laid(f, file.cluster, file.length) && FreeErased(f) && res == AppendFileSuccess ==>
              Appended(f, r, file.cluster, file.length, file.length + length, buf[..length])
  {
    var last := FindLast(f, file.cluster);
    ghost var s := ChainOf(f, file.cluster).value;
    assert ChainOf(f, file.cluster) == Some(s);
    var g, ws, n1, h0 := FillPart(f, file, last, s, buf, length, m);
    ghost var clean := Laid(f, file.cluster, file.length) && FreeErased(f);
    ghost var n: nat := file.length + length;
    if file.length % 4088 != 0 && length - ws == 0 {
      if clean {
        TailDone(f, g, file.cluster, s, file.length, buf, ws, n1, length, n);
      }
      return g, h0, AppendFileSuccess;
    }
    assert ws == TailRoom(file.length) && n1 % 4088 == 0;
    r, h, res := ExtendRun(f, g, file, h0, buf, ws, n1, length, last, m, s);
    RoomSame(f, g, SectorsFor(length - ws));
  }

  /** The APPEND path once the tail is full: the rest of the bytes go to
      a run of new sectors linked from the last one. */
  method ExtendRun(ghost f: Image, g: Image, file: File, h0: File, buf: seq<byte>, ws: nat, ghost n1: nat, length: u32,
                   last: DataAddr, m: nat, ghost s: seq<DataAddr>)
    returns (r: Image, h: File, res: Result)
    requires file.cluster != EMPTY_INT && file.block + FILEBLOCK_SIZE <= FLASH_SIZE && ws < length <= |buf| && m < 4
    requires h0 == file.(length := n1 % 0x1_0000_0000) && n1 == file.length + ws && n1 % 4088 == 0
    requires ChainOf(f, file.cluster) == Some(s) && |s| > 0 && last == s[|s| - 1]
    requires Laid(f, file.cluster, file.length) && FreeErased(f) ==>
               && LaidAs(g, file.cluster, n1, s) && FreeErased(g)
               && Contents(g, s, n1) == Contents(f, s, file.length) + buf[..ws]
    ensures res == AppendFileSuccess || res == NoSectorSpace
    ensures h == file.(length := h.length)
    ensures res == AppendFileSuccess ==> h.length == (file.length + length) % 0x1_0000_0000
    ensures res == NoSectorSpace <==> NoRoom(g, SectorsFor(length - ws))
    ensures res == NoSectorSpace ==> h.length == n1 % 0x1_0000_0000
    ensures KeepsIndex(g, r)
    ensures Laid(f, file.cluster, file.length) && FreeErased(f) ==> FreeErased(r)
    ensures Laid(f, file.cluster, file.length) && FreeErased(f) && res == AppendFileSuccess ==>
              Appended(f, r, file.cluster, file.length, file.length + length, buf[..length])
  {
    var rest := length - ws;
    ghost var c := file.cluster;
    ghost var full := |s| * 4088;
    ghost var joined := full + rest;
    r, h, res := AppendRun(g, h0, buf, ws, rest, last, m, s, c, full, joined);
    ModAdd(file.length, ws, rest);
    ghost var n0 := file.length;
    ghost var n := file.length + length;
    ghost var ok := res == AppendFileSuccess;
    RunJoined(f, g, r, c, s, last, buf, ws, n1, full, rest, joined, length, n0, n, ok);
  }

  /** A layout stated at one length holds at any equal length.  Stated
      apart so that the caller rewrites the length without unfolding
      LaidAs in its own context. */
  lemma SameLaidAs(g: Image, c: u32, a: nat, b: nat, s: seq<DataAddr>)
    requires a == b && LaidAs(g, c, a, s)
    ensures LaidAs(g, c, b, s)
  {
  }

  /** APPEND that fits in the tail of the last sector: the file is laid
      out at its new length and reads the old bytes and then the new. */
  lemma TailDone(f: Image, g: Image, c: u32, s: seq<DataAddr>, n0: nat, buf: seq<byte>, ws: nat, n1: nat, len: nat, n: nat)
    requires ChainOf(f, c) == Some(s) && ws == len <= |buf|
    requires LaidAs(g, c, n1, s) && Contents(g, s, n1) == Contents(f, s, n0) + buf[..ws]
    requires n1 == n0 + ws && n == n1
    ensures Appended(f, g, c, n0, n, buf[..len])
  {
    LaidFound(g, c, n1, s);
  }

  /** APPEND past the tail of the last sector: the filled chain of full
      sectors and the new run make the file at its new length. */
  lemma RunJoined(f: Image, g: Image, r: Image, c: u32, s: seq<DataAddr>, last: DataAddr, buf: seq<byte>, ws: nat,
                  n1: nat, full: nat, rest: nat, joined: nat, len: nat, n0: nat, n: nat, ok: bool)
    requires ws + rest == len <= |buf| && full == |s| * 4088 && joined == full + rest
    requires n1 % 4088 == 0 && n1 == n0 + ws && n == n0 + len
    requires ChainOf(f, c) == Some(s) && |s| > 0 && last == s[|s| - 1]
    requires Laid(f, c, n0) && FreeErased(f) ==>
               && LaidAs(g, c, n1, s) && FreeErased(g)
               && Contents(g, s, n1) == Contents(f, s, n0) + buf[..ws]
    requires FreeErased(g) && |s| > 0 && LaidAs(g, c, full, s) && last == s[|s| - 1] ==> FreeErased(r)
    requires FreeErased(g) && |s| > 0 && LaidAs(g, c, full, s) && last == s[|s| - 1] && ok ==>
               && Laid(r, c, joined)
               && FileBytes(r, c, joined) == Contents(g, s, full) + buf[ws..ws + rest]
    ensures Laid(f, c, n0) && FreeErased(f) ==> FreeErased(r)
    ensures Laid(f, c, n0) && FreeErased(f) && ok ==> Appended(f, r, c, n0, n, buf[..len])
  {
    if Laid(f, c, n0) && FreeErased(f) {
      TailOffset(n1);
      SameLaidAs(g, c, n1, full, s);
      if ok {
        assert joined == n && n1 == full && ws + rest == len;
        JoinBytes(FileBytes(f, c, n0), buf, ws, len);
      }
    }
  }

  /** The old bytes and the first ws bytes written, then the rest. */
  lemma JoinBytes(x: seq<byte>, buf: seq<byte>, ws: nat, n: nat)
    requires ws <= n <= |buf|
    ensures (x + buf[..ws]) + buf[ws..n] == x + buf[..n]
  {
    assert buf[..ws] + buf[ws..n] == buf[..n];
  }

  /** The tail fill of APPEND at offset t of the last sector's payload,
      none when the last sector is full.  It changes no marker; on a
      laid-out file the file grows in place by the bytes written. */
  method FillPart(f: Image, file: File, last: DataAddr, ghost s: seq<DataAddr>, buf: seq<byte>, length: nat, m: nat)
    returns (g: Image, ws: nat, n1: nat, h0: File)
    requires ChainOf(f, file.cluster) == Some(s) && |s| > 0 && last == s[|s| - 1] && length <= |buf| && m < 4
    ensures ws == Min(length, TailRoom(file.length)) && n1 == file.length + ws
    ensures h0 == file.(length := n1 % 0x1_0000_0000)
    ensures SameMarks(f, g) && KeepsIndex(f, g)
    ensures Laid(f, file.cluster, file.length) && FreeErased(f) ==>
              && LaidAs(g, file.cluster, n1, s) && FreeErased(g)
              && Contents(g, s, n1) == Contents(f, s, file.length) + buf[..ws]
  {
    var t := file.length % 4088;
    if t == 0 {
      assert buf[..0] == [];
      return f, 0, file.length, file;
    }
    g, ws := FillTail(f, last, t, buf, length, m);
    n1 := file.length + ws;
    h0 := file.(length := n1 % 0x1_0000_0000);
    MarkersKept(f, g, last, SECTOR_MARK_SIZE + t, buf[..ws]);
    if Laid(f, file.cluster, file.length) && FreeErased(f) {
      assert LaidAs(f, file.cluster, file.length, s);
      FillClean(f, g, file.cluster, s, file.length, buf, ws, n1);
      InUseErased(f, g, last, SECTOR_MARK_SIZE + t, buf[..ws]);
    }
  }

  /** The clean case of FillPart: the file grows in place by the ws
      bytes programmed after its end. */
  lemma FillClean(f: Image, g: Image, c: u32, s: seq<DataAddr>, n0: nat, buf: seq<byte>, ws: nat, n1: nat)
    requires LaidAs(f, c, n0, s) && |s| > 0
    requires n0 % 4088 != 0 && ws <= |buf| && n0 % 4088 + ws <= 4088
    requires SectorBytes(g, Sec(s[|s| - 1])) == AndBytes(SectorBytes(f, Sec(s[|s| - 1])), Mask(SECTOR_MARK_SIZE + n0 % 4088, buf[..ws]))
    requires forall u :: 0 <= u < SECTOR_COUNT && u != Sec(s[|s| - 1]) ==> SectorBytes(g, u) == SectorBytes(f, u)
    requires n1 == n0 + ws
    ensures LaidAs(g, c, n1, s)
    ensures Contents(g, s, n1) == Contents(f, s, n0) + buf[..ws]
  {
    TailOffset(n0);
    var x := buf[..ws];
    FillInPlace(f, g, c, s, n0, n0 % 4088, x, n1);
  }

  /** NEXT_PART_WRITE for APPEND after the last sector of the handle's
      file, full: the rest bytes go to new sectors linked from it.  When
      the file is laid out with erased FREE sectors, the new run extends
      it. */
  method AppendRun(g: Image, h0: File, buf: seq<byte>, off: nat, rest: u32, last: DataAddr, m: nat, ghost s: seq<DataAddr>,
                   ghost c: u32, ghost full: nat, ghost n: nat)
    returns (r: Image, h: File, res: Result)
    requires c == h0.cluster && full == |s| * 4088 && n == full + rest
    requires h0.cluster != EMPTY_INT && h0.block + FILEBLOCK_SIZE <= FLASH_SIZE
    requires 0 < rest && off + rest <= |buf| && m < 4
    ensures res == AppendFileSuccess || res == NoSectorSpace
    ensures res == NoSectorSpace <==> NoRoom(g, SectorsFor(rest))
    ensures h == if res == AppendFileSuccess then h0.(length := (h0.length + rest) % 0x1_0000_0000) else h0
    ensures KeepsIndex(g, r)
    ensures FreeErased(g) && |s| > 0 && LaidAs(g, c, full, s) && last == s[|s| - 1] ==> FreeErased(r)
    ensures FreeErased(g) && |s| > 0 && LaidAs(g, c, full, s) && last == s[|s| - 1] && res == AppendFileSuccess ==>
              && Laid(r, c, n)
              && FileBytes(r, c, n) == Contents(g, s, full) + buf[off..off + rest]
  {
    ghost var clean := FreeErased(g) && |s| > 0 && LaidAs(g, c, full, s) && last == s[|s| - 1];
    var g1, list, ok := FindSectors(g, SectorsFor(rest));
    ReclaimKeeps(g, g1);
    if !ok {
      if clean {
        ReclaimErased(g, g1);
      }
      return g1, h0, NoSectorSpace;
    }
    r, h := LinkRun(g, g1, h0, list, buf, off, rest, last, m, s, c, full, n);
    res := AppendFileSuccess;
  }

  /** The index update and sector loop of AppendRun once the sectors are
      found: the new run is linked from the last sector. */
  method LinkRun(ghost g: Image, g1: Image, h0: File, list: seq<DataAddr>, buf: seq<byte>, off: nat, rest: u32, last: DataAddr,
                 m: nat, ghost s: seq<DataAddr>, ghost c: u32, ghost full: nat, ghost n: nat)
    returns (r: Image, h: File)
    requires c == h0.cluster && full == |s| * 4088 && n == full + rest
    requires h0.cluster != EMPTY_INT && h0.block + FILEBLOCK_SIZE <= FLASH_SIZE
    requires 0 < rest && off + rest <= |buf| && m < 4
    requires Reclaimed(g, g1) && |list| == SectorsFor(rest) && forall i :: 0 <= i < |list| ==> IsFree(g1, list[i])
    requires forall i, j :: 0 <= i < j < |list| ==> list[i] < list[j]
    ensures h == h0.(length := (h0.length + rest) % 0x1_0000_0000)
    ensures KeepsIndex(g1, r)
    ensures FreeErased(g) && |s| > 0 && LaidAs(g, c, full, s) && last == s[|s| - 1] ==>
              && FreeErased(r) && Laid(r, c, n)
              && FileBytes(r, c, n) == Contents(g, s, full) + buf[off..off + rest]
  {
    var link := last + LINK_OFFSET;
    r, h := WriteRun(g1, h0, list, buf, off, rest, Append, link, m);
    AppendRecorded(h0, list[0], rest);
    ghost var g2 := Record(g1, h0, list[0], rest, Append, link);
    RunKeeps(g1, g2, r, h0, list, buf, off, rest, last);
    if FreeErased(g) && |s| > 0 && LaidAs(g, c, full, s) && last == s[|s| - 1] {
      RunDone(g, g1, g2, r, h0, s, last, list, buf, off, rest, c, full, n);
    }
  }

  /** APPEND onto a handle with a cluster only adds to its length.
      Stated apart so that the caller does not unfold Recorded in its own
      context. */
  lemma AppendRecorded(h: File, first: DataAddr, n: u32)
    requires h.cluster != EMPTY_INT
    ensures Recorded(h, first, n, Append) == h.(length := (h.length + n) % 0x1_0000_0000)
  {
  }

  /** Linking from a data sector and placing the run leave the index
      table alone. */
  lemma RunKeeps(g1: Image, g2: Image, r: Image, h: File, list: seq<DataAddr>, buf: seq<byte>, off: nat, n: u32, last: DataAddr)
    requires h.cluster != EMPTY_INT && h.block + FILEBLOCK_SIZE <= FLASH_SIZE && 0 < |list| && off + n <= |buf|
    requires g2 == Record(g1, h, list[0], n, Append, last + LINK_OFFSET) && Placed(g2, r, list, buf, off, n)
    ensures KeepsIndex(g1, r)
  {
    RecordFrame(g1, h, list[0], n, Append, last + LINK_OFFSET);
    forall t | 0 <= t < DATA_SECTOR_START
      ensures SectorBytes(r, t) == SectorBytes(g1, t)
    {
      assert SectorAddr(t) !in list;
      assert t != Sec(last);
      assert SectorBytes(g2, t) == SectorBytes(g1, t);
    }
  }

  /** The clean case of LinkRun once the run is placed. */
  lemma RunDone(g: Image, g1: Image, g2: Image, r: Image, h: File, s: seq<DataAddr>, last: DataAddr, list: seq<DataAddr>,
                buf: seq<byte>, off: nat, rest: u32, c: u32, full: nat, n: nat)
    requires c == h.cluster && full == |s| * 4088 && n == full + rest
    requires FreeErased(g) && |s| > 0 && LaidAs(g, c, full, s) && last == s[|s| - 1]
    requires h.cluster != EMPTY_INT && h.block + FILEBLOCK_SIZE <= FLASH_SIZE && 0 < rest && off + rest <= |buf|
    requires Reclaimed(g, g1) && |list| == SectorsFor(rest) && forall i :: 0 <= i < |list| ==> IsFree(g1, list[i])
    requires g2 == Record(g1, h, list[0], rest, Append, last + LINK_OFFSET) && Placed(g2, r, list, buf, off, rest)
    ensures FreeErased(r) && Laid(r, c, n)
    ensures FileBytes(r, c, n) == Contents(g, s, full) + buf[off..off + rest]
  {
    assert IsInUse(g, last);
    PlacedClean(g, g1, g2, r, h, Append, last + LINK_OFFSET, list, buf, off, rest);
    RunClean(g, g1, g2, r, h, s, list, buf, off, rest, c, full, n);
  }

  /** The clean case of NEXT_PART_WRITE after a full last sector: the new
      run is linked from it, and the file reads as before followed by the
      run's bytes. */
  lemma RunClean(g: Image, g1: Image, g2: Image, r: Image, h: File, s: seq<DataAddr>, list: seq<DataAddr>,
                 buf: seq<byte>, off: nat, rest: u32, c: u32, full: nat, n: nat)
    requires c == h.cluster && full == |s| * 4088 && n == full + rest
    requires |s| > 0 && LaidAs(g, c, full, s)
    requires h.cluster != EMPTY_INT && h.block + FILEBLOCK_SIZE <= FLASH_SIZE && 0 < rest && off + rest <= |buf|
    requires Reclaimed(g, g1) && |list| == SectorsFor(rest) && forall i :: 0 <= i < |list| ==> IsFree(g1, list[i])
    requires g2 == Record(g1, h, list[0], rest, Append, s[|s| - 1] + LINK_OFFSET)
    requires forall u :: 0 <= u < SECTOR_COUNT && SectorAddr(u) !in list ==> SectorBytes(r, u) == SectorBytes(g2, u)
    requires LaidAs(r, list[0], rest, list)
    ensures Laid(r, c, n)
    ensures FileBytes(r, c, n) == Contents(g, s, full) + Contents(r, list, rest)
  {
    LinkRecorded(g1, g2, h, list[0], rest, s[|s| - 1]);
    JoinRun(g, g1, g2, r, c, s, list, rest, full, n);
    LaidFound(r, c, n, s + list);
  }

  /** The index update of APPEND onto a last sector programs its link and
      nothing else. */
  lemma LinkRecorded(g1: Image, g2: Image, h: File, first: DataAddr, n: u32, last: DataAddr)
    requires h.cluster != EMPTY_INT && h.block + FILEBLOCK_SIZE <= FLASH_SIZE
    requires g2 == Record(g1, h, first, n, Append, last + LINK_OFFSET)
    ensures SectorBytes(g2, Sec(last)) == AndBytes(SectorBytes(g1, Sec(last)), Mask(LINK_OFFSET, LE32(first)))
    ensures forall u :: 0 <= u < SECTOR_COUNT && u != Sec(last) ==> SectorBytes(g2, u) == SectorBytes(g1, u)
  {
    RecordFrame(g1, h, first, n, Append, last + LINK_OFFSET);
  }
}

=== FILE: bytes.dfy ===
/** Bytes, 32-bit words and their little-endian encoding, as the file system
    stores them on flash.  A byte is an integer in [0, 256); the bitwise AND
    that NOR programming performs is `And`, defined bit by bit.  A `u32` is
    an unbounded integer kept below 2^32. */
module Bytes {

  newtype byte = x: int | 0 <= x < 256
  type u32 = x: nat | x < 0x1_0000_0000

  const U32_MODULUS: nat := 0x1_0000_0000

  /** EMPTY_BYTE_VALUE: an erased flash byte. */
  const EMPTY_BYTE: byte := 0xFF
  /** EMPTY_INT_VALUE: an erased flash word, also "no cluster" / "no length". */
  const EMPTY_INT: u32 := 0xFFFF_FFFF

  datatype Option<+T> = None | Some(value: T)

  /** The numeric value of a byte. */
  function Val(b: byte): (v: nat)
    ensures v < 256
  {
    b as nat
  }

  /** The byte whose value is `v`. */
  function FromVal(v: nat): (b: byte)
    requires v < 256
    ensures Val(b) == v
  {
    v as byte
  }

  lemma ValInjective(a: byte, b: byte)
    requires Val(a) == Val(b)
    ensures a == b
  {}

  /** Bit i of n, counting from the least significant bit. */
  predicate Bit(n: nat, i: nat)
    decreases i
  {
    if i == 0 then n % 2 == 1 else Bit(n / 2, i - 1)
  }

  /** Bitwise AND of two naturals, lowest bit first. */
  function BitAnd(a: nat, b: nat): (r: nat)
    ensures r <= a && r <= b
    decreases a
  {
    if a == 0 || b == 0 then 0
    else (if a % 2 == 1 && b % 2 == 1 then 1 else 0) + 2 * BitAnd(a / 2, b / 2)
  }

  /** A bit of an AND is set exactly when it is set in both operands. */
  lemma {:induction false} BitAndBits(a: nat, b: nat, i: nat)
    ensures Bit(BitAnd(a, b), i) <==> Bit(a, i) && Bit(b, i)
    decreases i
  {
    if a == 0 || b == 0 {
      ZeroBits(i);
    } else {
      var r := BitAnd(a, b);
      var lo := if a % 2 == 1 && b % 2 == 1 then 1 else 0;
      assert r == lo + 2 * BitAnd(a / 2, b / 2);
      assert r % 2 == lo && r / 2 == BitAnd(a / 2, b / 2);
      if i > 0 {
        BitAndBits(a / 2, b / 2, i - 1);
      }
    }
  }

  lemma {:induction false} ZeroBits(i: nat)
    ensures !Bit(0, i)
    decreases i
  {
    if i > 0 {
      ZeroBits(i - 1);
    }
  }

  /** Naturals with the same bits are equal. */
  lemma {:induction false} BitsEqual(a: nat, b: nat, n: nat)
    requires a < Pow2(n) && b < Pow2(n)
    requires forall i :: 0 <= i < n ==> (Bit(a, i) <==> Bit(b, i))
    ensures a == b
    decreases n
  {
    if n > 0 {
      assert Bit(a, 0) <==> Bit(b, 0);
      forall i | 0 <= i < n - 1
        ensures Bit(a / 2, i) <==> Bit(b / 2, i)
      {
        assert Bit(a, i + 1) <==> Bit(b, i + 1);
      }
      BitsEqual(a / 2, b / 2, n - 1);
    }
  }

  function Pow2(n: nat): (p: nat)
    ensures p > 0
  {
    if n == 0 then 1 else 2 * Pow2(n - 1)
  }

  /** The bitwise AND of two bytes (the C `&` on uint8_t). */
  function And(a: byte, b: byte): (r: byte)
    ensures r <= a && r <= b
  {
    BitAnd(a as nat, b as nat) as byte
  }

  /** Bit i of a byte. */
  predicate Flag(s: byte, i: nat)
  {
    Bit(s as nat, i)
  }

  /** A bit of a byte's AND is set exactly when it is set in both bytes. */
  lemma AndBits(a: byte, b: byte, i: nat)
    ensures Flag(And(a, b), i) <==> Flag(a, i) && Flag(b, i)
  {
    BitAndBits(a as nat, b as nat, i);
  }

  /** Two bytes with the same eight bits are the same byte. */
  lemma ByteBits(a: byte, b: byte)
    requires forall i :: 0 <= i < 8 ==> (Flag(a, i) <==> Flag(b, i))
    ensures a == b
  {
    assert Pow2(8) == 256;
    var x, y := a as nat, b as nat;
    forall i | 0 <= i < 8
      ensures Bit(x, i) <==> Bit(y, i)
    {
      assert Flag(a, i) <==> Flag(b, i);
    }
    BitsEqual(x, y, 8);
  }

  /** AND is commutative, associative and idempotent, 0xFF is its unit and
      0 its zero. */
  lemma AndLaws(a: byte, b: byte, c: byte)
    ensures And(a, b) == And(b, a)
    ensures And(a, And(b, c)) == And(And(a, b), c)
    ensures And(a, a) == a
    ensures And(a, 0xFF) == a && And(0xFF, a) == a
    ensures And(a, 0) == 0 && And(0, a) == 0
  {
    forall i | 0 <= i < 8
      ensures Flag(And(a, b), i) <==> Flag(And(b, a), i)
      ensures Flag(And(a, And(b, c)), i) <==> Flag(And(And(a, b), c), i)
      ensures Flag(And(a, a), i) <==> Flag(a, i)
      ensures Flag(And(a, 0xFF), i) <==> Flag(a, i)
      ensures Flag(And(0xFF, a), i) <==> Flag(a, i)
    {
      AndBits(a, b, i);
      AndBits(b, a, i);
      AndBits(b, c, i);
      AndBits(a, And(b, c), i);
      AndBits(And(a, b), c, i);
      AndBits(a, a, i);
      AndBits(a, 0xFF, i);
      AndBits(0xFF, a, i);
      FFBits(i);
    }
    ByteBits(And(a, b), And(b, a));
    ByteBits(And(a, And(b, c)), And(And(a, b), c));
    ByteBits(And(a, a), a);
    ByteBits(And(a, 0xFF), a);
    ByteBits(And(0xFF, a), a);
  }

  /** The eight bits of 0xFF are set. */
  lemma FFBits(i: nat)
    requires i < 8
    ensures Flag(0xFF, i)
  {
    if i == 0 {
      assert Bit(255, 0);
    } else if i == 1 {
      assert Bit(255, 1);
    } else if i == 2 {
      assert Bit(255, 2);
    } else if i == 3 {
      assert Bit(255, 3);
    } else if i == 4 {
      assert Bit(255, 4);
    } else if i == 5 {
      assert Bit(255, 5);
    } else if i == 6 {
      assert Bit(255, 6);
    } else {
      assert Bit(255, 7);
    }
  }

  /** The smaller of a and b. */
  function Min(a: nat, b: nat): (r: nat)
    ensures r <= a && r <= b && (r == a || r == b)
  {
    if a < b then a else b
  }

  /** A uint32_t as it lies in memory on the little-endian targets the
      file system runs on: least significant byte first. */
  function LE32(x: u32): (r: seq<byte>)
    ensures |r| == 4
    ensures Word(r) == x
  {
    var q1 := x / 256;
    var q2 := q1 / 256;
    var q3 := q2 / 256;
    var r := [FromVal(x % 256), FromVal(q1 % 256), FromVal(q2 % 256), FromVal(q3)];
    WordDigits(r);
    r
  }

  /** Four little-endian bytes read back as a uint32_t. */
  function Word(b: seq<byte>): u32
    requires |b| == 4
  {
    WordDigits(b);
    DigitsBound(Val(b[0]), Val(b[1]), Val(b[2]), Val(b[3]));
    LittleEndian(b)
  }

  lemma DigitsBound(a0: nat, a1: nat, a2: nat, a3: nat)
    requires a0 < 256 && a1 < 256 && a2 < 256 && a3 < 256
    ensures a0 + 256 * (a1 + 256 * (a2 + 256 * a3)) < U32_MODULUS
  {}

  /** The number whose base-256 digits, least significant first, are b. */
  function LittleEndian(b: seq<byte>): nat
  {
    if |b| == 0 then 0 else Val(b[0]) + 256 * LittleEndian(b[1..])
  }

  /** A word's value spelled out digit by digit. */
  lemma WordDigits(b: seq<byte>)
    requires |b| == 4
    ensures LittleEndian(b) == Val(b[0]) + 256 * (Val(b[1]) + 256 * (Val(b[2]) + 256 * Val(b[3])))
  {
    assert LittleEndian(b[3..]) == Val(b[3]) by {
      assert b[3..][1..] == [];
    }
    assert b[1..][1..] == b[2..] && b[2..][1..] == b[3..];
  }

  lemma DivMod256(q: nat, r: nat)
    requires r < 256
    ensures (r + 256 * q) / 256 == q && (r + 256 * q) % 256 == r
  {}

  /** Base-256 digits are unique. */
  lemma Digits(a0: nat, a1: nat, a2: nat, a3: nat, b0: nat, b1: nat, b2: nat, b3: nat)
    requires a0 < 256 && a1 < 256 && a2 < 256 && b0 < 256 && b1 < 256 && b2 < 256
    requires a0 + 256 * (a1 + 256 * (a2 + 256 * a3)) == b0 + 256 * (b1 + 256 * (b2 + 256 * b3))
    ensures a0 == b0 && a1 == b1 && a2 == b2 && a3 == b3
  {
    DivMod256(a1 + 256 * (a2 + 256 * a3), a0);
    DivMod256(b1 + 256 * (b2 + 256 * b3), b0);
    DivMod256(a2 + 256 * a3, a1);
    DivMod256(b2 + 256 * b3, b1);
    DivMod256(a3, a2);
    DivMod256(b3, b2);
  }

  /** Two words are equal as integers exactly when their bytes are equal;
      this is why comparing names four bytes at a time is byte equality. */
  lemma WordInjective(a: seq<byte>, b: seq<byte>)
    requires |a| == 4 && |b| == 4
    ensures Word(a) == Word(b) <==> a == b
  {
    if Word(a) == Word(b) {
      LittleEndianInjective(a, b);
    }
  }

  /** Base-256 digits are unique: equally long digit strings with the same
      value are the same. */
  lemma {:induction false} LittleEndianInjective(a: seq<byte>, b: seq<byte>)
    requires |a| == |b| && LittleEndian(a) == LittleEndian(b)
    ensures a == b
    decreases |a|
  {
    if |a| > 0 {
      var ra, qa := Val(a[0]), LittleEndian(a[1..]);
      var rb, qb := Val(b[0]), LittleEndian(b[1..]);
      assert ra + 256 * qa == rb + 256 * qb;
      DigitEq(ra, qa, rb, qb);
      ValInjective(a[0], b[0]);
      LittleEndianInjective(a[1..], b[1..]);
      assert a == [a[0]] + a[1..] && b == [b[0]] + b[1..];
    }
  }

  /** A low digit and the rest determine a number uniquely. */
  lemma DigitEq(ra: nat, qa: nat, rb: nat, qb: nat)
    requires ra < 256 && rb < 256 && ra + 256 * qa == rb + 256 * qb
    ensures ra == rb && qa == qb
  {
    DivMod256(qa, ra);
    DivMod256(qb, rb);
  }

  /** Reading a word and writing it back yields the same four bytes. */
  lemma WordLE32(b: seq<byte>)
    requires |b| == 4
    ensures LE32(Word(b)) == b
  {
    WordInjective(LE32(Word(b)), b);
  }

  function Ones(n: nat): (r: seq<byte>)
    ensures |r| == n
    ensures forall i :: 0 <= i < n ==> r[i] == EMPTY_BYTE
  {
    seq(n, _ => EMPTY_BYTE)
  }

  predicate AllErased(s: seq<byte>)
  {
    forall i :: 0 <= i < |s| ==> s[i] == EMPTY_BYTE
  }

  lemma AllErasedConcat(a: seq<byte>, b: seq<byte>)
    ensures AllErased(a + b) <==> AllErased(a) && AllErased(b)
  {
    if AllErased(a + b) {
      forall i | 0 <= i < |b|
        ensures b[i] == EMPTY_BYTE
      {
        assert (a + b)[|a| + i] == b[i];
      }
      forall i | 0 <= i < |a|
        ensures a[i] == EMPTY_BYTE
      {
        assert (a + b)[i] == a[i];
      }
    }
  }

  /** A word reads as EMPTY_INT_VALUE exactly when all four bytes are erased. */
  lemma WordEmpty(b: seq<byte>)
    requires |b| == 4
    ensures Word(b) == EMPTY_INT <==> AllErased(b)
  {
    var v0, v1, v2, v3 := Val(b[0]), Val(b[1]), Val(b[2]), Val(b[3]);
    assert Word(b) == v0 + 256 * (v1 + 256 * (v2 + 256 * v3)) by {
      WordDigits(b);
    }
    DigitsMax(v0, v1, v2, v3);
    ValIsFF(b[0]);
    ValIsFF(b[1]);
    ValIsFF(b[2]);
    ValIsFF(b[3]);
    ErasedWord(b);
  }

  /** Four digits make the largest word exactly when each is 255. */
  lemma DigitsMax(a0: nat, a1: nat, a2: nat, a3: nat)
    requires a0 < 256 && a1 < 256 && a2 < 256 && a3 < 256
    ensures a0 + 256 * (a1 + 256 * (a2 + 256 * a3)) == 0xFFFF_FFFF <==> a0 == 255 && a1 == 255 && a2 == 255 && a3 == 255
  {
    if a0 + 256 * (a1 + 256 * (a2 + 256 * a3)) == 0xFFFF_FFFF {
      Digits(a0, a1, a2, a3, 255, 255, 255, 255);
    }
  }

  lemma ValIsFF(x: byte)
    ensures Val(x) == 255 <==> x == 0xFF
  {}

  lemma ErasedWord(b: seq<byte>)
    requires |b| == 4
    ensures AllErased(b) <==> b[0] == 0xFF && b[1] == 0xFF && b[2] == 0xFF && b[3] == 0xFF
  {
    if b[0] == 0xFF && b[1] == 0xFF && b[2] == 0xFF && b[3] == 0xFF {
      assert forall i :: 0 <= i < 4 ==> b[i] == EMPTY_BYTE;
    }
  }

  lemma LE32Empty(x: u32)
    ensures x == EMPTY_INT <==> AllErased(LE32(x))
  {
    WordEmpty(LE32(x));
  }

  /** Bytewise AND of two equally long byte strings. */
  function AndBytes(a: seq<byte>, b: seq<byte>): (r: seq<byte>)
    requires |a| == |b|
    ensures |r| == |a|
    ensures forall i :: 0 <= i < |a| ==> r[i] == And(a[i], b[i])
  {
    seq(|a|, i requires 0 <= i < |a| => And(a[i], b[i]))
  }

  /** `x & y` on two uint32_t values, computed bytewise on their encodings. */
  function And32(x: u32, y: u32): u32
  {
    Word(AndBytes(LE32(x), LE32(y)))
  }

  /** The test `(cluster & length) != EMPTY_INT_VALUE` used by create_file
      fails only when both operands are EMPTY_INT_VALUE. */
  lemma And32Empty(x: u32, y: u32)
    ensures And32(x, y) == EMPTY_INT <==> x == EMPTY_INT && y == EMPTY_INT
  {
    WordEmpty(AndBytes(LE32(x), LE32(y)));
    LE32Empty(x);
    LE32Empty(y);
    AndErased(LE32(x), LE32(y));
  }

  /** A bytewise AND is erased exactly when both operands are. */
  lemma AndErased(a: seq<byte>, b: seq<byte>)
    requires |a| == |b|
    ensures AllErased(AndBytes(a, b)) <==> AllErased(a) && AllErased(b)
  {
    var c := AndBytes(a, b);
    forall i | 0 <= i < |a|
      ensures c[i] == 0xFF <==> a[i] == 0xFF && b[i] == 0xFF
    {
      AndIsFF(a[i], b[i]);
    }
  }

  lemma AndIsFF(p: byte, q: byte)
    ensures And(p, q) == 0xFF <==> p == 0xFF && q == 0xFF
  {
    AndLaws(0xFF, 0xFF, 0xFF);
  }

}

=== FILE: chain.dfy ===
/** The data area.  A data sector starts with a 4-byte marker (FREE, IN_USE
    or DISCARD), holds DATA_AREA_SIZE payload bytes and ends with the
    address of the file's next sector, EMPTY_INT_VALUE in the last one.  A
    file's data is the chain of sectors that starts at its cluster. */
module Chain {
  import opened Bytes
  import opened Layout
  import opened StateCodec
  import opened Flash
  import opened DiskIo

  lemma DataAddrSector(a: int)
    requires IsDataAddr(a)
    ensures IsDataSector(a / SECTOR_SIZE) && a == SectorAddr(a / SECTOR_SIZE)
  {}

  lemma SectorIsDataAddr(t: nat)
    requires IsDataSector(t)
    ensures IsDataAddr(SectorAddr(t)) && SectorAddr(t) / SECTOR_SIZE == t
  {}

  /** Two different data sectors do not overlap. */
  lemma DataAddrsApart(a: nat, b: nat)
    requires IsDataAddr(a) && IsDataAddr(b) && a != b
    ensures a + SECTOR_SIZE <= b || b + SECTOR_SIZE <= a
  {
    DataAddrSector(a);
    DataAddrSector(b);
  }

  /** The marker bytes of the sector at address a. */
  function Mark(f: Image, a: nat): (m: seq<byte>)
    requires a + SECTOR_SIZE <= FLASH_SIZE
    ensures |m| == SECTOR_MARK_SIZE
  {
    f[a..a + SECTOR_MARK_SIZE]
  }

  predicate IsFree(f: Image, a: nat)
    requires a + SECTOR_SIZE <= FLASH_SIZE
  {
    f[a] == 0xFF && f[a + 1] == 0xFF && f[a + 2] == 0xFF && f[a + 3] == 0xFF
  }

  predicate IsInUse(f: Image, a: nat)
    requires a + SECTOR_SIZE <= FLASH_SIZE
  {
    f[a] == 0x00 && f[a + 1] == 0xFF && f[a + 2] == 0x00 && f[a + 3] == 0xFF
  }

  predicate IsDiscard(f: Image, a: nat)
    requires a + SECTOR_SIZE <= FLASH_SIZE
  {
    f[a] == 0x00 && f[a + 1] == 0xCC && f[a + 2] == 0x00 && f[a + 3] == 0xFF
  }

  /** The three tests read the marker bytes. */
  lemma MarkerBytesAt(f: Image, a: nat)
    requires a + SECTOR_SIZE <= FLASH_SIZE
    ensures IsFree(f, a) <==> AllErased(Mark(f, a))
    ensures IsInUse(f, a) <==> Mark(f, a) == INUSE_BYTES
    ensures IsDiscard(f, a) <==> Mark(f, a) == DISCARD_BYTES
  {
    assert Mark(f, a) == [f[a], f[a + 1], f[a + 2], f[a + 3]];
  }

  /** The byte tests above are the uint32_t comparisons of spifs.c. */
  lemma MarkerWords(f: Image, a: nat)
    requires a + SECTOR_SIZE <= FLASH_SIZE
    ensures MarkerAt(f, a) == SECTOR_FREE_FLAG <==> IsFree(f, a)
    ensures MarkerAt(f, a) == SECTOR_INUSE_FLAG <==> IsInUse(f, a)
    ensures MarkerAt(f, a) == SECTOR_DISCARD_FLAG <==> IsDiscard(f, a)
  {
    MarkerBytesAt(f, a);
    WordEmpty(Mark(f, a));
    InUseWord();
    DiscardWord();
    WordInjective(Mark(f, a), INUSE_BYTES);
    WordInjective(Mark(f, a), DISCARD_BYTES);
  }

  /** At most one of the three markers holds. */
  lemma MarkersExclusive(f: Image, a: nat)
    requires a + SECTOR_SIZE <= FLASH_SIZE
    ensures !(IsFree(f, a) && IsInUse(f, a))
    ensures !(IsFree(f, a) && IsDiscard(f, a))
    ensures !(IsInUse(f, a) && IsDiscard(f, a))
  {}

  /** Addresses of the FREE data sectors from sector t on, ascending. */
  function FreeFrom(f: Image, t: nat): seq<DataAddr>
    requires DATA_SECTOR_START <= t
    decreases DATA_SECTOR_END + 1 - t
  {
    if t > DATA_SECTOR_END then []
    else
      SectorIsDataAddr(t);
      var a: DataAddr := SectorAddr(t);
      if IsFree(f, a) then [a] + FreeFrom(f, t + 1) else FreeFrom(f, t + 1)
  }

  /** FreeFrom lists exactly the FREE data sectors from t on, in ascending
      order. */
  lemma {:induction false} FreeFromSpec(f: Image, t: nat)
    requires DATA_SECTOR_START <= t
    ensures forall i :: 0 <= i < |FreeFrom(f, t)| ==> SectorAddr(t) <= FreeFrom(f, t)[i] && IsFree(f, FreeFrom(f, t)[i])
    ensures forall i, j :: 0 <= i < j < |FreeFrom(f, t)| ==> FreeFrom(f, t)[i] < FreeFrom(f, t)[j]
    ensures forall u :: t <= u <= DATA_SECTOR_END && IsFree(f, SectorAddr(u)) ==> SectorAddr(u) in FreeFrom(f, t)
    decreases DATA_SECTOR_END + 1 - t
  {
    if t <= DATA_SECTOR_END {
      FreeFromSpec(f, t + 1);
    }
  }

  /** Addresses of the DISCARD data sectors from sector t on, ascending. */
  function DiscardFrom(f: Image, t: nat): seq<DataAddr>
    requires DATA_SECTOR_START <= t
    decreases DATA_SECTOR_END + 1 - t
  {
    if t > DATA_SECTOR_END then []
    else
      SectorIsDataAddr(t);
      var a: DataAddr := SectorAddr(t);
      if IsDiscard(f, a) then [a] + DiscardFrom(f, t + 1) else DiscardFrom(f, t + 1)
  }

  /** DiscardFrom lists exactly the DISCARD data sectors from t on. */
  lemma {:induction false} DiscardFromSpec(f: Image, t: nat)
    requires DATA_SECTOR_START <= t
    ensures forall i :: 0 <= i < |DiscardFrom(f, t)| ==> SectorAddr(t) <= DiscardFrom(f, t)[i] && IsDiscard(f, DiscardFrom(f, t)[i])
    ensures forall u :: t <= u <= DATA_SECTOR_END && IsDiscard(f, SectorAddr(u)) ==> SectorAddr(u) in DiscardFrom(f, t)
    decreases DATA_SECTOR_END + 1 - t
  {
    if t <= DATA_SECTOR_END {
      DiscardFromSpec(f, t + 1);
    }
  }

  /** The loop of find_empty_sector from sector t on, `need` sectors still
      wanted: FREE sectors are taken in address order until none is wanted. */
  function FindFrom(f: Image, t: nat, need: nat): (r: seq<DataAddr>)
    requires DATA_SECTOR_START <= t
    ensures |r| <= need
    decreases DATA_SECTOR_END + 1 - t
  {
    if need == 0 || t > DATA_SECTOR_END then []
    else
      SectorIsDataAddr(t);
      var a: DataAddr := SectorAddr(t);
      if IsFree(f, a) then [a] + FindFrom(f, t + 1, need - 1)
      else FindFrom(f, t + 1, need)
  }

  /** The loop takes the lowest FREE sectors: a prefix of all of them. */
  lemma {:induction false} FindIsPrefix(f: Image, t: nat, need: nat)
    requires DATA_SECTOR_START <= t
    ensures FindFrom(f, t, need) == FreeFrom(f, t)[..Min(need, |FreeFrom(f, t)|)]
    decreases DATA_SECTOR_END + 1 - t
  {
    if need == 0 {
      assert FreeFrom(f, t)[..0] == [];
    } else if t <= DATA_SECTOR_END {
      var a := SectorAddr(t);
      var rest := FreeFrom(f, t + 1);
      ScanStep(f, t, need);
      if IsFree(f, a) {
        FindIsPrefix(f, t + 1, need - 1);
        var taken := rest[..Min(need - 1, |rest|)];
        assert FindFrom(f, t, need) == [a] + taken;
        assert ([a] + rest)[..Min(need, |rest| + 1)] == [a] + taken;
      } else {
        FindIsPrefix(f, t + 1, need);
      }
    }
  }

  /** One sector of the FREE scans: a FREE sector is taken, any other is
      skipped. */
  lemma ScanStep(f: Image, t: nat, need: nat)
    requires DATA_SECTOR_START <= t <= DATA_SECTOR_END && need > 0
    ensures IsDataAddr(SectorAddr(t))
    ensures FreeFrom(f, t) == if IsFree(f, SectorAddr(t)) then [SectorAddr(t)] + FreeFrom(f, t + 1) else FreeFrom(f, t + 1)
    ensures FindFrom(f, t, need) == if IsFree(f, SectorAddr(t)) then [SectorAddr(t)] + FindFrom(f, t + 1, need - 1) else FindFrom(f, t + 1, need)
  {
    SectorIsDataAddr(t);
  }

  datatype Found = Found(ok: bool, list: seq<DataAddr>)

  /** find_empty_sector: TRUE iff at least nums data sectors are FREE; the
      list holds the lowest such addresses in ascending order.  Sectors
      marked IN_USE or DISCARD are never taken. */
  function FindEmptySector(f: Image, nums: nat): (r: Found)
    ensures r.ok <==> |FreeFrom(f, DATA_SECTOR_START)| >= nums
    ensures r.list == FreeFrom(f, DATA_SECTOR_START)[..Min(nums, |FreeFrom(f, DATA_SECTOR_START)|)]
    ensures r.ok ==> |r.list| == nums
    ensures forall i :: 0 <= i < |r.list| ==> IsFree(f, r.list[i])
    ensures forall i :: 0 <= i < |r.list| ==> !IsInUse(f, r.list[i]) && !IsDiscard(f, r.list[i])
    ensures forall i, j :: 0 <= i < j < |r.list| ==> r.list[i] < r.list[j]
  {
    var l := FindFrom(f, DATA_SECTOR_START, nums);
    FindIsPrefix(f, DATA_SECTOR_START, nums);
    FreeFromSpec(f, DATA_SECTOR_START);
    forall i | 0 <= i < |l|
      ensures !IsInUse(f, l[i]) && !IsDiscard(f, l[i])
    {
      MarkersExclusive(f, l[i]);
    }
    Found(|l| == nums, l)
  }

  /** The loop of spifs_avail_sector from sector t on: sectors whose marker
      is not IN_USE. */
  function CountNotInUse(f: Image, t: nat): (n: nat)
    requires DATA_SECTOR_START <= t
    ensures n <= DATA_SECTOR_END + 1 - t || t > DATA_SECTOR_END
    decreases DATA_SECTOR_END + 1 - t
  {
    if t > DATA_SECTOR_END then 0
    else (if !IsInUse(f, SectorAddr(t)) then 1 else 0) + CountNotInUse(f, t + 1)
  }

  /** spifs_avail_sector. */
  function AvailSector(f: Image): (n: nat)
    ensures n <= DATA_SECTORS
  {
    CountNotInUse(f, DATA_SECTOR_START)
  }

  /** Every FREE and every DISCARD sector is counted. */
  lemma {:induction false} CountCovers(f: Image, t: nat)
    requires DATA_SECTOR_START <= t
    ensures CountNotInUse(f, t) >= |FreeFrom(f, t)| + |DiscardFrom(f, t)|
    decreases DATA_SECTOR_END + 1 - t
  {
    if t <= DATA_SECTOR_END {
      CountCovers(f, t + 1);
      MarkersExclusive(f, SectorAddr(t));
    }
  }

  /** spifs_avail_sector over-counts: DISCARD sectors are reported as
      available, but find_empty_sector does not take them, so asking it for
      as many sectors as were reported fails whenever one is DISCARD. */
  lemma AvailSectorOverCounts(f: Image)
    ensures AvailSector(f) >= |FreeFrom(f, DATA_SECTOR_START)| + |DiscardFrom(f, DATA_SECTOR_START)|
    ensures |DiscardFrom(f, DATA_SECTOR_START)| > 0 ==> !FindEmptySector(f, AvailSector(f)).ok
  {
    CountCovers(f, DATA_SECTOR_START);
  }

  /** The four bytes at the end of the sector at a that hold the address
      of the next sector. */
  function LinkBytes(f: Image, a: nat): (b: seq<byte>)
    requires a + SECTOR_SIZE <= FLASH_SIZE
    ensures |b| == LINK_SIZE
  {
    f[a + LINK_OFFSET..a + SECTOR_SIZE]
  }

  /** The address stored at the end of the sector at a. */
  function Link(f: Image, a: nat): u32
    requires a + SECTOR_SIZE <= FLASH_SIZE
  {
    Word(LinkBytes(f, a))
  }

  /** s is the chain from c: it starts at c, each sector's link names the
      next one, the last link is EMPTY_INT_VALUE, and the chain is empty
      exactly when c is EMPTY_INT_VALUE. */
  predicate IsChain(f: Image, c: u32, s: seq<DataAddr>)
  {
    && (|s| == 0 <==> c == EMPTY_INT)
    && (|s| > 0 ==> s[0] == c && Link(f, s[|s| - 1]) == EMPTY_INT)
    && (forall i :: 0 <= i < |s| - 1 ==> Link(f, s[i]) == s[i + 1])
  }

  /** The chain walk from c: None when it leaves the data area or is longer
      than fuel sectors (which for fuel >= DATA_SECTORS means it loops). */
  function ChainFrom(f: Image, c: u32, fuel: nat): Option<seq<DataAddr>>
    decreases fuel
  {
    if c == EMPTY_INT then Some([])
    else if fuel == 0 || !IsDataAddr(c) then None
    else
      var a: DataAddr := c;
      match ChainFrom(f, Link(f, a), fuel - 1)
      case None => None
      case Some(t) => Some([a] + t)
  }

  /** The chain of a file whose first sector is c. */
  function ChainOf(f: Image, c: u32): Option<seq<DataAddr>>
  {
    ChainFrom(f, c, DATA_SECTORS)
  }

  /** What the walk returns is the chain from c. */
  lemma {:induction false} ChainSound(f: Image, c: u32, fuel: nat)
    requires ChainFrom(f, c, fuel).Some?
    ensures IsChain(f, c, ChainFrom(f, c, fuel).value)
    ensures |ChainFrom(f, c, fuel).value| <= fuel
    decreases fuel
  {
    if c != EMPTY_INT {
      var t := ChainFrom(f, Link(f, c), fuel - 1);
      ChainSound(f, Link(f, c), fuel - 1);
      var s := [c] + t.value;
      assert forall i :: 0 < i < |s| ==> s[i] == t.value[i - 1];
    }
  }

  /** The tail of a chain is the chain from the second sector. */
  lemma ChainTail(f: Image, c: u32, s: seq<DataAddr>)
    requires IsChain(f, c, s) && |s| > 0
    ensures IsChain(f, Link(f, s[0]), s[1..])
  {
    if |s| > 1 {
      assert s[1..][0] == s[1];
    } else {
      assert Link(f, s[0]) == EMPTY_INT;
    }
  }

  /** A chain is determined by its start. */
  lemma {:induction false} ChainUnique(f: Image, c: u32, s: seq<DataAddr>, s': seq<DataAddr>)
    requires IsChain(f, c, s) && IsChain(f, c, s')
    ensures s == s'
    decreases |s|
  {
    if |s| > 0 {
      ChainTail(f, c, s);
      ChainTail(f, c, s');
      ChainUnique(f, Link(f, c), s[1..], s'[1..]);
      assert s == [s[0]] + s[1..] && s' == [s'[0]] + s'[1..];
    }
  }

  /** The walk finds every chain that fits in its fuel. */
  lemma {:induction false} ChainFound(f: Image, c: u32, s: seq<DataAddr>, fuel: nat)
    requires IsChain(f, c, s) && |s| <= fuel
    ensures ChainFrom(f, c, fuel) == Some(s)
    decreases |s|
  {
    if |s| > 0 {
      var a := s[0];
      ChainTail(f, c, s);
      ChainFound(f, Link(f, a), s[1..], fuel - 1);
      assert s == [a] + s[1..];
    }
  }

  /** Every suffix of a chain is the chain from its first sector. */
  lemma {:induction false} ChainSuffix(f: Image, c: u32, s: seq<DataAddr>, i: nat)
    requires IsChain(f, c, s) && i < |s|
    ensures IsChain(f, s[i], s[i..])
    decreases i
  {
    if i > 0 {
      ChainTail(f, c, s);
      ChainSuffix(f, Link(f, c), s[1..], i - 1);
      assert s[1..][i - 1..] == s[i..];
    }
  }

  /** A chain never visits a sector twice: a repeated sector would make two
      suffixes of different lengths chains from the same start. */
  lemma ChainDistinct(f: Image, c: u32, s: seq<DataAddr>)
    requires IsChain(f, c, s)
    ensures forall i, j :: 0 <= i < j < |s| ==> s[i] != s[j]
  {
    forall i, j | 0 <= i < j < |s|
      ensures s[i] != s[j]
    {
      if s[i] == s[j] {
        ChainSuffix(f, c, s, i);
        ChainSuffix(f, c, s, j);
        ChainUnique(f, s[i], s[i..], s[j..]);
      }
    }
  }

  /** The place of the data sector at a among the data sectors. */
  function Position(a: DataAddr): (p: nat)
    ensures p < DATA_SECTORS
    ensures SectorAddr(DATA_SECTOR_START + p) == a
  {
    DataAddrSector(a);
    a / SECTOR_SIZE - DATA_SECTOR_START
  }

  /** The places of the sectors of s. */
  function Positions(s: seq<DataAddr>): (ps: set<nat>)
    ensures forall p :: p in ps ==> p < DATA_SECTORS
    decreases |s|
  {
    if |s| == 0 then {} else {Position(s[0])} + Positions(s[1..])
  }

  /** A place in Positions(s) is that of a sector of s. */
  lemma {:induction false} PositionsOf(s: seq<DataAddr>, a: DataAddr)
    ensures Position(a) in Positions(s) ==> a in s
    decreases |s|
  {
    if |s| > 0 && Position(a) != Position(s[0]) {
      PositionsOf(s[1..], a);
    }
  }

  /** Distinct sectors have distinct places. */
  lemma {:induction false} PositionsCount(s: seq<DataAddr>)
    requires forall i, j :: 0 <= i < j < |s| ==> s[i] != s[j]
    ensures |Positions(s)| == |s|
    decreases |s|
  {
    if |s| > 0 {
      PositionsCount(s[1..]);
      PositionsOf(s[1..], s[0]);
    }
  }

  /** A set of places below n has at most n members. */
  lemma {:induction false} PlacesBelow(ps: set<nat>, n: nat)
    requires forall p :: p in ps ==> p < n
    ensures |ps| <= n
    decreases n
  {
    if n == 0 {
      assert ps == {};
    } else {
      PlacesBelow(ps - {n - 1}, n - 1);
    }
  }

  /** No chain has more sectors than the data area, so the walk with fuel
      DATA_SECTORS finds every chain: the fuel bound of ChainOf cuts off
      only walks that leave the data area or loop. */
  lemma ChainOfEvery(f: Image, c: u32, s: seq<DataAddr>)
    requires IsChain(f, c, s)
    ensures |s| <= DATA_SECTORS
    ensures ChainOf(f, c) == Some(s)
  {
    ChainDistinct(f, c, s);
    PositionsCount(s);
    PlacesBelow(Positions(s), DATA_SECTORS);
    ChainFound(f, c, s, DATA_SECTORS);
  }

  /** f and g hold the same link in every data sector. */
  ghost predicate SameLinks(f: Image, g: Image)
  {
    forall a: DataAddr :: LinkBytes(f, a) == LinkBytes(g, a)
  }

  lemma {:induction false} ChainFrame(f: Image, g: Image, c: u32, fuel: nat)
    requires SameLinks(f, g)
    ensures ChainFrom(f, c, fuel) == ChainFrom(g, c, fuel)
    decreases fuel
  {
    if c != EMPTY_INT && fuel > 0 && IsDataAddr(c) {
      var a: DataAddr := c;
      assert Link(f, a) == Link(g, a);
      ChainFrame(f, g, Link(f, a), fuel - 1);
    }
  }

  /** The payload bytes of the data sector at a. */
  function Payload(f: Image, a: nat): (p: seq<byte>)
    requires a + SECTOR_SIZE <= FLASH_SIZE
    ensures |p| == DATA_AREA_SIZE
  {
    f[a + SECTOR_MARK_SIZE..a + LINK_OFFSET]
  }

  /** f and g hold the same payload in every data sector. */
  ghost predicate SamePayloads(f: Image, g: Image)
  {
    forall a: DataAddr :: Payload(f, a) == Payload(g, a)
  }

  /** f and g agree outside the data area (the index table in particular). */
  ghost predicate SameOutsideData(f: Image, g: Image)
  {
    forall i :: 0 <= i < DATA_ADDR_FIRST || DATA_ADDR_LAST + SECTOR_SIZE <= i < FLASH_SIZE ==> f[i] == g[i]
  }

  /** update_sector_mark(a, SECTOR_DISCARD_FLAG) on a data sector. */
  function Discard(f: Image, a: DataAddr): Image
  {
    Program(f, a, DISCARD_BYTES)
  }

  /** Marking ANDs DISCARD into the marker and changes no other byte. */
  lemma DiscardSpec(f: Image, a: DataAddr)
    ensures Mark(Discard(f, a), a) == AndBytes(Mark(f, a), DISCARD_BYTES)
    ensures forall i :: 0 <= i < a || a + SECTOR_MARK_SIZE <= i < FLASH_SIZE ==> Discard(f, a)[i] == f[i]
  {
    var r := Discard(f, a);
    assert Mark(r, a) == AndBytes(Mark(f, a), DISCARD_BYTES);
  }

  /** It is the diskio.c writer with the DISCARD marker. */
  lemma DiscardIsUpdate(f: Image, a: DataAddr)
    ensures Discard(f, a) == UpdateSectorMark(f, a, SECTOR_DISCARD_FLAG)
  {
    MarkerBytes();
  }

  /** Marking a sector changes no chain, its own link included. */
  lemma DiscardKeepsChains(f: Image, a: DataAddr, c: u32, fuel: nat)
    ensures Link(Discard(f, a), a) == Link(f, a)
    ensures ChainFrom(Discard(f, a), c, fuel) == ChainFrom(f, c, fuel)
  {
    DiscardFrame(f, a);
    ChainFrame(f, Discard(f, a), c, fuel);
  }

  /** Marking a sector touches neither links, nor payloads, nor another
      sector's marker, nor anything outside the data area. */
  lemma DiscardFrame(f: Image, a: DataAddr)
    ensures SameLinks(f, Discard(f, a)) && SamePayloads(f, Discard(f, a))
    ensures SameOutsideData(f, Discard(f, a))
    ensures forall b: DataAddr :: b != a ==> Mark(Discard(f, a), b) == Mark(f, b)
  {
    var r := Discard(f, a);
    DiscardSpec(f, a);
    forall b: DataAddr
      ensures LinkBytes(r, b) == LinkBytes(f, b) && Payload(r, b) == Payload(f, b)
    {
      if b != a {
        DataAddrsApart(a, b);
      }
      ProgramRangeFrame(f, a, DISCARD_BYTES, b + LINK_OFFSET, b + SECTOR_SIZE);
      ProgramRangeFrame(f, a, DISCARD_BYTES, b + SECTOR_MARK_SIZE, b + LINK_OFFSET);
    }
    forall b: DataAddr | b != a
      ensures Mark(r, b) == Mark(f, b)
    {
      DataAddrsApart(a, b);
      ProgramRangeFrame(f, a, DISCARD_BYTES, b, b + SECTOR_MARK_SIZE);
    }
  }

  /** The discard walk of delete_file and of write_file's OVERRIDE: mark
      the sector DISCARD, read its link back from flash, continue there. */
  function DiscardWalk(f: Image, c: u32, fuel: nat): Option<Image>
    decreases fuel
  {
    if c == EMPTY_INT then Some(f)
    else if fuel == 0 || !IsDataAddr(c) then None
    else
      var a: DataAddr := c;
      var g := Discard(f, a);
      DiscardWalk(g, Link(g, a), fuel - 1)
  }

  /** Marking every sector of s DISCARD, in order. */
  function DiscardAll(f: Image, s: seq<DataAddr>): Image
    decreases |s|
  {
    if |s| == 0 then f else DiscardAll(Discard(f, s[0]), s[1..])
  }

  /** Marking leaves links, payloads, everything outside the data area and
      the markers of other sectors alone. */
  lemma {:induction false} DiscardAllFrame(f: Image, s: seq<DataAddr>)
    ensures SameLinks(f, DiscardAll(f, s)) && SamePayloads(f, DiscardAll(f, s))
    ensures SameOutsideData(f, DiscardAll(f, s))
    ensures forall b: DataAddr :: b !in s ==> Mark(DiscardAll(f, s), b) == Mark(f, b)
    decreases |s|
  {
    if |s| > 0 {
      var g := Discard(f, s[0]);
      DiscardFrame(f, s[0]);
      DiscardAllFrame(g, s[1..]);
      forall b: DataAddr | b !in s
        ensures Mark(DiscardAll(f, s), b) == Mark(f, b)
      {
        assert b !in s[1..];
      }
    }
  }

  /** Each sector of s ends with its old marker ANDed with DISCARD. */
  lemma {:induction false} DiscardAllMarks(f: Image, s: seq<DataAddr>)
    ensures forall i :: 0 <= i < |s| ==> Mark(DiscardAll(f, s), s[i]) == AndBytes(Mark(f, s[i]), DISCARD_BYTES)
    decreases |s|
  {
    if |s| > 0 {
      var g := Discard(f, s[0]);
      var r := DiscardAll(f, s);
      DiscardSpec(f, s[0]);
      DiscardFrame(f, s[0]);
      DiscardAllMarks(g, s[1..]);
      DiscardAllFrame(g, s[1..]);
      forall i | 0 <= i < |s|
        ensures Mark(r, s[i]) == AndBytes(Mark(f, s[i]), DISCARD_BYTES)
      {
        if s[i] == s[0] {
          AndTwice(Mark(f, s[0]), DISCARD_BYTES);
          if s[0] in s[1..] {
            var j :| 0 <= j < |s[1..]| && s[1..][j] == s[0];
          }
        } else {
          assert s[i] == s[1..][i - 1];
        }
      }
    }
  }

  lemma AndTwice(x: seq<byte>, m: seq<byte>)
    requires |x| == |m|
    ensures AndBytes(AndBytes(x, m), m) == AndBytes(x, m)
  {
    forall i | 0 <= i < |x|
      ensures AndBytes(AndBytes(x, m), m)[i] == AndBytes(x, m)[i]
    {
      CombinedStates(x[i], m[i], m[i]);
    }
  }

  /** The walk stops exactly when the chain exists, and then it is the
      marking of exactly the chain's sectors. */
  lemma {:induction false} DiscardWalkChain(f: Image, c: u32, fuel: nat)
    ensures DiscardWalk(f, c, fuel).Some? <==> ChainFrom(f, c, fuel).Some?
    ensures ChainFrom(f, c, fuel).Some? ==> DiscardWalk(f, c, fuel).value == DiscardAll(f, ChainFrom(f, c, fuel).value)
    decreases fuel, 1
  {
    if c == EMPTY_INT {
      assert DiscardAll(f, []) == f;
    } else if fuel > 0 && IsDataAddr(c) {
      DiscardWalkStep(f, c, fuel);
    }
  }

  /** One step of the walk: marking a, then walking on from its link. */
  lemma {:induction false} DiscardWalkStep(f: Image, a: DataAddr, fuel: nat)
    requires fuel > 0
    ensures DiscardWalk(f, a, fuel).Some? <==> ChainFrom(f, a, fuel).Some?
    ensures ChainFrom(f, a, fuel).Some? ==> DiscardWalk(f, a, fuel).value == DiscardAll(f, ChainFrom(f, a, fuel).value)
    decreases fuel, 0
  {
    var g := Discard(f, a);
    var l := Link(f, a);
    var t := ChainFrom(f, l, fuel - 1);
    assert DiscardWalk(f, a, fuel) == DiscardWalk(g, l, fuel - 1)
               && (ChainFrom(f, a, fuel).Some? <==> t.Some?)
               && (t.Some? ==> ChainFrom(f, a, fuel).value == [a] + t.value) by {
      WalkUnfold(f, a, fuel);
    }
    assert ChainFrom(g, l, fuel - 1) == t by {
      DiscardKeepsChains(f, a, l, fuel - 1);
    }
    assert (DiscardWalk(g, l, fuel - 1).Some? <==> t.Some?)
               && (t.Some? ==> DiscardWalk(g, l, fuel - 1).value == DiscardAll(g, t.value)) by {
      DiscardWalkChain(g, l, fuel - 1);
    }
    if t.Some? {
      DiscardAllCons(f, a, t.value);
    }
  }

  /** The first step of a walk from a data sector, in both walks. */
  lemma WalkUnfold(f: Image, a: DataAddr, fuel: nat)
    requires fuel > 0
    ensures DiscardWalk(f, a, fuel) == DiscardWalk(Discard(f, a), Link(f, a), fuel - 1)
    ensures ChainFrom(f, a, fuel).Some? <==> ChainFrom(f, Link(f, a), fuel - 1).Some?
    ensures ChainFrom(f, a, fuel).Some? ==> ChainFrom(f, a, fuel).value == [a] + ChainFrom(f, Link(f, a), fuel - 1).value
  {
    DiscardKeepsChains(f, a, Link(f, a), 0);
  }

  lemma DiscardAllCons(f: Image, a: DataAddr, t: seq<DataAddr>)
    ensures DiscardAll(f, [a] + t) == DiscardAll(Discard(f, a), t)
  {
    var s := [a] + t;
    assert s[0] == a && s[1..] == t;
  }

  /** After the walk every sector of the chain that was IN_USE, FREE or
      DISCARD is DISCARD. */
  lemma DiscardedMarker(f: Image, s: seq<DataAddr>, i: nat)
    requires i < |s|
    requires IsInUse(f, s[i]) || IsFree(f, s[i]) || IsDiscard(f, s[i])
    ensures IsDiscard(DiscardAll(f, s), s[i])
  {
    DiscardAllMarks(f, s);
    MarkedDiscard(f, DiscardAll(f, s), s[i]);
  }

  /** A marker that was FREE, IN_USE or DISCARD, ANDed with DISCARD, reads
      DISCARD. */
  lemma MarkedDiscard(f: Image, r: Image, a: DataAddr)
    requires Mark(r, a) == AndBytes(Mark(f, a), DISCARD_BYTES)
    requires IsInUse(f, a) || IsFree(f, a) || IsDiscard(f, a)
    ensures IsDiscard(r, a)
  {
    var mr, mf := Mark(r, a), Mark(f, a);
    assert mr[0] == r[a] && mr[1] == r[a + 1] && mr[2] == r[a + 2] && mr[3] == r[a + 3];
    assert mf[0] == f[a] && mf[1] == f[a + 1] && mf[2] == f[a + 2] && mf[3] == f[a + 3];
    DiscardOver(f[a], f[a + 1], f[a + 2], f[a + 3]);
  }

  /** DISCARD programmed over any of the three markers leaves DISCARD. */
  lemma DiscardOver(m0: byte, m1: byte, m2: byte, m3: byte)
    requires m1 == 0xFF || m1 == 0xCC
    ensures And(m0, 0x00) == 0x00 && And(m1, 0xCC) == 0xCC
    ensures And(m2, 0x00) == 0x00 && And(m3, 0xFF) == m3
  {
    AndLaws(m0, 0, 0);
    AndLaws(m2, 0, 0);
    AndLaws(m3, 0, 0);
    AndLaws(0xCC, 0xCC, 0xCC);
  }
}

=== FILE: codec.dfy ===
/** The sector state codec: the FileState flag byte (del/dep/rw/sys, 1 = normal,
    0 = marked, mirroring erase-to-1 flash) and the 4-byte sector markers. */
module StateCodec {
  import opened Bytes

  /** FSTATE_* values handed to write_fileblock_state / make_finfo; several
      states combine with `&`. */
  const FSTATE_DELETE: byte := 0xFE
  const FSTATE_DEPRECATE: byte := 0xFD
  const FSTATE_READONLY: byte := 0xFB
  const FSTATE_SYSTEM: byte := 0xF7
  const FSTATE_DEFAULT: byte := 0xFF

  /* Flag(s, i) is bit i of the state byte: the bitfield del is bit 0, dep
     bit 1, rw bit 2, sys bit 3, the four reserved bits above. */

  /** del = 1: not deleted. */
  predicate Del(s: byte)
  {
    And(s, 0x01) != 0
  }

  /** dep = 1: not deprecated. */
  predicate Dep(s: byte)
  {
    And(s, 0x02) != 0
  }

  /** rw = 1: writable. */
  predicate Rw(s: byte)
  {
    And(s, 0x04) != 0
  }

  /** sys = 1: ordinary file. */
  predicate Sys(s: byte)
  {
    And(s, 0x08) != 0
  }

  /** Entries that open_file and list_file consider (`del & dep`). */
  predicate Live(s: byte)
  {
    Del(s) && Dep(s)
  }

  /** The permission test of write_file and rename_file (`del & dep & rw`). */
  predicate Writable(s: byte)
  {
    Del(s) && Dep(s) && Rw(s)
  }

  /** The masks used by the bitfield tests each have one bit. */
  lemma {:induction false} OneBit(m: byte, j: nat, i: nat)
    requires m as nat == Pow2(j) && j < 8
    ensures Flag(m, i) <==> i == j
  {
    PowBit(j, i);
  }

  lemma {:induction false} PowBit(j: nat, i: nat)
    ensures Bit(Pow2(j), i) <==> i == j
    decreases j
  {
    if j == 0 {
      if i > 0 {
        ZeroBits(i - 1);
      }
    } else if i > 0 {
      assert Pow2(j) / 2 == Pow2(j - 1);
      PowBit(j - 1, i - 1);
    } else {
      assert Pow2(j) % 2 == 0;
    }
  }

  /** A byte is zero exactly when none of its eight bits is set. */
  lemma ZeroByte(x: byte)
    ensures x == 0 <==> forall i :: 0 <= i < 8 ==> !Flag(x, i)
  {
    if forall i :: 0 <= i < 8 ==> !Flag(x, i) {
      forall i | 0 <= i < 8
        ensures Flag(x, i) <==> Flag(0, i)
      {
        assert !Flag(x, i);
        ZeroBits(i);
      }
      ByteBits(x, 0);
    } else {
      var i :| 0 <= i < 8 && Flag(x, i);
      ZeroBits(i);
    }
  }

  /** Masking with bit j keeps exactly bit j. */
  lemma MaskTest(s: byte, m: byte, j: nat)
    requires m as nat == Pow2(j) && j < 8
    ensures And(s, m) != 0 <==> Flag(s, j)
  {
    ZeroByte(And(s, m));
    forall i | 0 <= i < 8
      ensures Flag(And(s, m), i) <==> Flag(s, i) && i == j
    {
      AndBits(s, m, i);
      OneBit(m, j, i);
    }
  }

  /** The named predicates are the bitfields. */
  lemma FlagNames(s: byte)
    ensures Del(s) <==> Flag(s, 0)
    ensures Dep(s) <==> Flag(s, 1)
    ensures Rw(s) <==> Flag(s, 2)
    ensures Sys(s) <==> Flag(s, 3)
  {
    assert Pow2(0) == 1 && Pow2(1) == 2 && Pow2(2) == 4 && Pow2(3) == 8;
    MaskTest(s, 0x01, 0);
    MaskTest(s, 0x02, 1);
    MaskTest(s, 0x04, 2);
    MaskTest(s, 0x08, 3);
  }

  /** Each FSTATE constant clears exactly one bit, each a different one:
      DELETE bit 0 (del), DEPRECATE bit 1 (dep), READONLY bit 2 (rw),
      SYSTEM bit 3 (sys); DEFAULT clears none. */
  lemma FStateBits(s: byte)
    ensures forall i :: 0 <= i < 8 ==> (Flag(And(s, FSTATE_DELETE), i) <==> Flag(s, i) && i != 0)
    ensures forall i :: 0 <= i < 8 ==> (Flag(And(s, FSTATE_DEPRECATE), i) <==> Flag(s, i) && i != 1)
    ensures forall i :: 0 <= i < 8 ==> (Flag(And(s, FSTATE_READONLY), i) <==> Flag(s, i) && i != 2)
    ensures forall i :: 0 <= i < 8 ==> (Flag(And(s, FSTATE_SYSTEM), i) <==> Flag(s, i) && i != 3)
    ensures And(s, FSTATE_DEFAULT) == s
  {
    forall i | 0 <= i < 8
      ensures (Flag(And(s, FSTATE_DELETE), i) <==> Flag(s, i) && i != 0)
      ensures (Flag(And(s, FSTATE_DEPRECATE), i) <==> Flag(s, i) && i != 1)
      ensures (Flag(And(s, FSTATE_READONLY), i) <==> Flag(s, i) && i != 2)
      ensures (Flag(And(s, FSTATE_SYSTEM), i) <==> Flag(s, i) && i != 3)
    {
      AndBits(s, FSTATE_DELETE, i);
      AndBits(s, FSTATE_DEPRECATE, i);
      AndBits(s, FSTATE_READONLY, i);
      AndBits(s, FSTATE_SYSTEM, i);
      MaskBits(i);
    }
    AndLaws(s, s, s);
  }

  /** The bits of the four single-bit-clearing FSTATE constants. */
  lemma MaskBits(i: nat)
    requires i < 8
    ensures Flag(FSTATE_DELETE, i) <==> i != 0
    ensures Flag(FSTATE_DEPRECATE, i) <==> i != 1
    ensures Flag(FSTATE_READONLY, i) <==> i != 2
    ensures Flag(FSTATE_SYSTEM, i) <==> i != 3
  {
    if i == 0 {
      assert !Bit(254, 0) && Bit(253, 0) && Bit(251, 0) && Bit(247, 0);
    } else if i == 1 {
      assert Bit(254, 1) && !Bit(253, 1) && Bit(251, 1) && Bit(247, 1);
    } else if i == 2 {
      assert Bit(254, 2) && Bit(253, 2) && !Bit(251, 2) && Bit(247, 2);
    } else if i == 3 {
      assert Bit(254, 3) && Bit(253, 3) && Bit(251, 3) && !Bit(247, 3);
    } else if i == 4 {
      assert Bit(254, 4) && Bit(253, 4) && Bit(251, 4) && Bit(247, 4);
    } else if i == 5 {
      assert Bit(254, 5) && Bit(253, 5) && Bit(251, 5) && Bit(247, 5);
    } else if i == 6 {
      assert Bit(254, 6) && Bit(253, 6) && Bit(251, 6) && Bit(247, 6);
    } else {
      assert Bit(254, 7) && Bit(253, 7) && Bit(251, 7) && Bit(247, 7);
    }
  }

  /** Marking a state with a combination `a & b` is marking with `a` and then
      with `b`; marking only clears bits and marking twice changes nothing. */
  lemma CombinedStates(s: byte, a: byte, b: byte)
    ensures And(s, And(a, b)) == And(And(s, a), b)
    ensures And(And(s, a), s) == And(s, a)
    ensures And(And(s, a), a) == And(s, a)
  {
    AndLaws(s, a, b);
    AndLaws(s, a, s);
    AndLaws(s, a, a);
    AndLaws(a, s, s);
    AndLaws(s, s, a);
    AndLaws(a, a, s);
    AndLaws(And(s, a), s, a);
    AndLaws(s, And(a, s), s);
    AndLaws(s, And(a, a), s);
  }

  /** Sector head markers (little-endian words). */
  const SECTOR_INUSE_FLAG: u32 := 0xFF00_FF00
  const SECTOR_DISCARD_FLAG: u32 := 0xFF00_CC00
  const SECTOR_FREE_FLAG: u32 := EMPTY_INT

  /** The markers as the bytes that lie on flash, lowest address first. */
  const FREE_BYTES: seq<byte> := [0xFF, 0xFF, 0xFF, 0xFF]
  const INUSE_BYTES: seq<byte> := [0x00, 0xFF, 0x00, 0xFF]
  const DISCARD_BYTES: seq<byte> := [0x00, 0xCC, 0x00, 0xFF]

  lemma MarkerBytes()
    ensures LE32(SECTOR_FREE_FLAG) == FREE_BYTES
    ensures LE32(SECTOR_INUSE_FLAG) == INUSE_BYTES
    ensures LE32(SECTOR_DISCARD_FLAG) == DISCARD_BYTES
  {
    FreeWord();
    InUseWord();
    DiscardWord();
    WordLE32(FREE_BYTES);
    WordLE32(INUSE_BYTES);
    WordLE32(DISCARD_BYTES);
  }

  lemma FreeWord()
    ensures Word(FREE_BYTES) == SECTOR_FREE_FLAG
  {
    ValConst();
  }

  lemma InUseWord()
    ensures Word(INUSE_BYTES) == SECTOR_INUSE_FLAG
  {
    ValConst();
  }

  lemma DiscardWord()
    ensures Word(DISCARD_BYTES) == SECTOR_DISCARD_FLAG
  {
    ValConst();
  }

  lemma ValConst()
    ensures Val(0x00) == 0 && Val(0xCC) == 0xCC && Val(0xFF) == 0xFF
  {}

  /** The three markers are distinct, and FREE -> IN_USE -> DISCARD only
      clears bits, so each step is a plain NOR program operation. */
  lemma MarkerTransitions()
    ensures SECTOR_FREE_FLAG != SECTOR_INUSE_FLAG
    ensures SECTOR_INUSE_FLAG != SECTOR_DISCARD_FLAG
    ensures SECTOR_FREE_FLAG != SECTOR_DISCARD_FLAG
    ensures AndBytes(LE32(SECTOR_FREE_FLAG), LE32(SECTOR_INUSE_FLAG)) == LE32(SECTOR_INUSE_FLAG)
    ensures AndBytes(LE32(SECTOR_INUSE_FLAG), LE32(SECTOR_DISCARD_FLAG)) == LE32(SECTOR_DISCARD_FLAG)
    ensures AndBytes(LE32(SECTOR_DISCARD_FLAG), LE32(SECTOR_INUSE_FLAG)) != LE32(SECTOR_INUSE_FLAG)
  {
    MarkerBytes();
    AndLaws(0xCC, 0xFF, 0xFF);
    AndLaws(0xFF, 0xFF, 0xFF);
    AndLaws(0x00, 0x00, 0x00);
    AndFour(FREE_BYTES, INUSE_BYTES, INUSE_BYTES);
    AndFour(INUSE_BYTES, DISCARD_BYTES, DISCARD_BYTES);
    assert AndBytes(DISCARD_BYTES, INUSE_BYTES)[1] == And(0xCC, 0xFF);
  }

  /** AndBytes on four bytes, byte by byte. */
  lemma AndFour(x: seq<byte>, y: seq<byte>, z: seq<byte>)
    requires |x| == 4 && |y| == 4 && |z| == 4
    requires And(x[0], y[0]) == z[0] && And(x[1], y[1]) == z[1]
    requires And(x[2], y[2]) == z[2] && And(x[3], y[3]) == z[3]
    ensures AndBytes(x, y) == z
  {
    var r := AndBytes(x, y);
    assert r[0] == z[0] && r[1] == z[1] && r[2] == z[2] && r[3] == z[3];
  }
}

=== FILE: data.dfy ===
/** A file's bytes in the data area, and the run of sectors write_file lays
    down: each sector gets the IN_USE marker, up to DATA_AREA_SIZE payload
    bytes, and the address of the next sector of the run.  DATA_AREA_SIZE
    is written as the literal 4088 in this module's arithmetic, which keeps
    the products i * 4088 linear for the verifier. */
module FileData {
  import opened Bytes
  import opened Layout
  import opened StateCodec
  import opened Records
  import opened Flash
  import opened DiskIo
  import opened Chain
  import opened Gc
  import AlignedIo

  /** The number of the sector that starts at a. */
  function Sec(a: DataAddr): (t: nat)
    ensures IsDataSector(t) && t < SECTOR_COUNT && SectorAddr(t) == a
  {
    DataAddrSector(a);
    a / SECTOR_SIZE
  }

  /** A program of d at offset o of a sector, as a whole-sector pattern: d
      at o and 0xFF, which leaves a byte as it is, everywhere else. */
  function Mask(o: nat, d: seq<byte>): (r: seq<byte>)
    requires o + |d| <= SECTOR_SIZE
    ensures |r| == SECTOR_SIZE
    ensures forall p :: 0 <= p < SECTOR_SIZE ==> r[p] == if o <= p < o + |d| then d[p - o] else EMPTY_BYTE
  {
    seq(SECTOR_SIZE, p requires 0 <= p < SECTOR_SIZE => if o <= p < o + |d| then d[p - o] else EMPTY_BYTE)
  }

  /** A program inside sector t ANDs the sector with its pattern and
      leaves every other sector alone. */
  lemma ProgramSector(f: Image, t: nat, o: nat, d: seq<byte>)
    requires t < SECTOR_COUNT && o + |d| <= SECTOR_SIZE
    ensures SectorBytes(Program(f, SectorAddr(t) + o, d), t) == AndBytes(SectorBytes(f, t), Mask(o, d))
    ensures forall u :: 0 <= u < SECTOR_COUNT && u != t ==> SectorBytes(Program(f, SectorAddr(t) + o, d), u) == SectorBytes(f, u)
  {
    var r := Program(f, SectorAddr(t) + o, d);
    ProgramInside(f, t, o, d);
    SectorFrame(f, r, t);
  }

  lemma ProgramInside(f: Image, t: nat, o: nat, d: seq<byte>)
    requires t < SECTOR_COUNT && o + |d| <= SECTOR_SIZE
    ensures SectorBytes(Program(f, SectorAddr(t) + o, d), t) == AndBytes(SectorBytes(f, t), Mask(o, d))
  {
    var r := Program(f, SectorAddr(t) + o, d);
    var a := SectorAddr(t);
    var x, y, m := SectorBytes(r, t), SectorBytes(f, t), Mask(o, d);
    forall p | 0 <= p < SECTOR_SIZE
      ensures x[p] == And(y[p], m[p])
    {
      assert x[p] == r[a + p] && y[p] == f[a + p];
      if o <= p < o + |d| {
        assert r[a + p] == And(f[a + p], d[p - o]);
      } else {
        assert r[a + p] == f[a + p] && m[p] == 0xFF;
        AndLaws(f[a + p], 0xFF, 0xFF);
      }
    }
  }

  /** The bytes write_file means a data sector to hold: the IN_USE marker,
      the chunk padded with 0xFF to DATA_AREA_SIZE, and the link word. */
  function SectorOf(chunk: seq<byte>, next: u32): (s: seq<byte>)
    requires |chunk| <= 4088
    ensures |s| == SECTOR_SIZE
  {
    INUSE_BYTES + Pad(chunk, 4088) + LE32(next)
  }

  /** A sector holding SectorOf(chunk, next) is IN_USE, carries the padded
      chunk and links to next. */
  lemma ReadSector(f: Image, a: DataAddr, chunk: seq<byte>, next: u32)
    requires |chunk| <= 4088 && SectorBytes(f, Sec(a)) == SectorOf(chunk, next)
    ensures IsInUse(f, a)
    ensures Payload(f, a) == Pad(chunk, 4088)
    ensures Link(f, a) == next
  {
    var s := SectorOf(chunk, next);
    assert s[..SECTOR_MARK_SIZE] == INUSE_BYTES;
    assert f[a..a + SECTOR_MARK_SIZE] == s[..SECTOR_MARK_SIZE];
    assert Payload(f, a) == s[SECTOR_MARK_SIZE..LINK_OFFSET] by {
      forall p | 0 <= p < 4088
        ensures Payload(f, a)[p] == s[SECTOR_MARK_SIZE + p]
      {
        assert SectorBytes(f, Sec(a))[SECTOR_MARK_SIZE + p] == f[a + SECTOR_MARK_SIZE + p];
      }
    }
    assert LinkBytes(f, a) == s[LINK_OFFSET..] by {
      forall p | 0 <= p < LINK_SIZE
        ensures LinkBytes(f, a)[p] == s[LINK_OFFSET + p]
      {
        assert SectorBytes(f, Sec(a))[LINK_OFFSET + p] == f[a + LINK_OFFSET + p];
      }
    }
    assert s[LINK_OFFSET..] == LE32(next);
  }

  /** The marker, payload and link programs of one pass of the sector
      loop, ANDed together, amount to one AND with SectorOf. */
  lemma Layers(s: seq<byte>, chunk: seq<byte>, next: u32)
    requires |s| == SECTOR_SIZE && |chunk| <= 4088
    ensures AndBytes(AndBytes(AndBytes(s, Mask(0, INUSE_BYTES)), Mask(SECTOR_MARK_SIZE, chunk)), Mask(LINK_OFFSET, LE32(next)))
            == AndBytes(s, SectorOf(chunk, next))
  {
    var x := SectorOf(chunk, next);
    var m1, m2, m3 := Mask(0, INUSE_BYTES), Mask(SECTOR_MARK_SIZE, chunk), Mask(LINK_OFFSET, LE32(next));
    var z := AndBytes(AndBytes(AndBytes(s, m1), m2), m3);
    forall p | 0 <= p < SECTOR_SIZE
      ensures z[p] == And(s[p], x[p])
    {
      if p < SECTOR_MARK_SIZE {
        assert x[p] == m1[p] && m2[p] == 0xFF && m3[p] == 0xFF;
      } else if p < LINK_OFFSET {
        assert x[p] == Pad(chunk, 4088)[p - SECTOR_MARK_SIZE];
        assert x[p] == m2[p] && m1[p] == 0xFF && m3[p] == 0xFF;
      } else {
        assert x[p] == m3[p] && m1[p] == 0xFF && m2[p] == 0xFF;
      }
      LayerAt(s[p], m1[p], m2[p], m3[p], x[p]);
    }
  }

  /** One byte of Layers: of the three patterns, one carries the byte and
      the other two are 0xFF. */
  lemma LayerAt(a: byte, m1: byte, m2: byte, m3: byte, x: byte)
    requires (m1 == x && m2 == 0xFF && m3 == 0xFF) || (m1 == 0xFF && m2 == x && m3 == 0xFF) || (m1 == 0xFF && m2 == 0xFF && m3 == x)
    ensures And(And(And(a, m1), m2), m3) == And(a, x)
  {
    AndLaws(a, 0xFF, 0xFF);
    AndLaws(And(a, m1), 0xFF, 0xFF);
    AndLaws(And(And(a, m1), m2), 0xFF, 0xFF);
  }

  /** One pass of write_file's sector loop on the sector at a: mark it
      IN_USE, program size bytes from buf[offset..] at a + 4 through
      align_write_impl (m is the address of buf[offset] modulo 4) and,
      when linked, program next after the payload. */
  method WriteSector(f: Image, a: DataAddr, buf: seq<byte>, offset: nat, size: nat, linked: bool, next: u32, m: nat)
    returns (r: Image)
    requires size <= 4088 && offset + size <= |buf| && m < 4
    ensures SectorBytes(r, Sec(a)) ==
              AndBytes(SectorBytes(f, Sec(a)), SectorOf(buf[offset..offset + size], if linked then next else EMPTY_INT))
    ensures forall u :: 0 <= u < SECTOR_COUNT && u != Sec(a) ==> SectorBytes(r, u) == SectorBytes(f, u)
  {
    var g := MarkInUse(f, a);
    var h := WritePayload(g, a, buf, offset, size, m);
    r := WriteLink(h, a, linked, next);
    Layers(SectorBytes(f, Sec(a)), buf[offset..offset + size], if linked then next else EMPTY_INT);
  }

  /** update_sector_mark(a, SECTOR_INUSE_FLAG), seen from the sector. */
  method MarkInUse(f: Image, a: DataAddr) returns (r: Image)
    ensures SectorBytes(r, Sec(a)) == AndBytes(SectorBytes(f, Sec(a)), Mask(0, INUSE_BYTES))
    ensures forall u :: 0 <= u < SECTOR_COUNT && u != Sec(a) ==> SectorBytes(r, u) == SectorBytes(f, u)
  {
    MarkerBytes();
    r := UpdateSectorMark(f, a, SECTOR_INUSE_FLAG);
    ProgramSector(f, Sec(a), 0, INUSE_BYTES);
  }

  /** align_write_impl of the sector's payload, seen from the sector. */
  method WritePayload(f: Image, a: DataAddr, buf: seq<byte>, offset: nat, size: nat, m: nat) returns (r: Image)
    requires size <= 4088 && offset + size <= |buf| && m < 4
    ensures SectorBytes(r, Sec(a)) == AndBytes(SectorBytes(f, Sec(a)), Mask(SECTOR_MARK_SIZE, buf[offset..offset + size]))
    ensures forall u :: 0 <= u < SECTOR_COUNT && u != Sec(a) ==> SectorBytes(r, u) == SectorBytes(f, u)
  {
    r := AlignedIo.AlignWrite(f, buf, offset, a + SECTOR_MARK_SIZE, size, m);
    ProgramSector(f, Sec(a), SECTOR_MARK_SIZE, buf[offset..offset + size]);
  }

  /** The link write of the sector loop, seen from the sector: without it
      the link bytes stay as they are, as if EMPTY_INT_VALUE were
      programmed. */
  method WriteLink(f: Image, a: DataAddr, linked: bool, next: u32) returns (r: Image)
    ensures SectorBytes(r, Sec(a)) == AndBytes(SectorBytes(f, Sec(a)), Mask(LINK_OFFSET, LE32(if linked then next else EMPTY_INT)))
    ensures forall u :: 0 <= u < SECTOR_COUNT && u != Sec(a) ==> SectorBytes(r, u) == SectorBytes(f, u)
  {
    var link: u32 := if linked then next else EMPTY_INT;
    if linked {
      r := Program(f, a + LINK_OFFSET, LE32(next));
    } else {
      r := f;
      MarkerBytes();
      assert LE32(link) == Ones(LINK_SIZE);
      ProgramOnes(f, a + LINK_OFFSET, LINK_SIZE);
    }
    ProgramSector(f, Sec(a), LINK_OFFSET, LE32(link));
  }

  /** write_file's sector count for n bytes: n / DATA_AREA_SIZE, plus one
      for a partial last sector. */
  function SectorsFor(n: nat): (k: nat)
    ensures n <= k * 4088
    ensures k == 0 || (k - 1) * 4088 < n
    ensures k == 0 <==> n == 0
  {
    var q := n / 4088;
    if q * 4088 < n then q + 1 else q
  }

  /** How many of n bytes go to sector i of the run: a full payload, or
      what is left for the last sector. */
  function ChunkSize(n: nat, i: nat): (size: nat)
    requires i * 4088 <= n
    ensures size <= 4088 && i * 4088 + size <= n
    ensures size == 4088 || i * 4088 + size == n
  {
    Min(4088, n - i * 4088)
  }

  /** The bytes of buf[off..off + n] that go to sector i of the run. */
  function Chunk(buf: seq<byte>, off: nat, n: nat, i: nat): (c: seq<byte>)
    requires off + n <= |buf| && i * 4088 <= n
    ensures |c| == ChunkSize(n, i) && |c| <= 4088
  {
    buf[off + i * 4088..off + i * 4088 + ChunkSize(n, i)]
  }

  /** The link of sector i of the run: the next sector, none after the
      last. */
  function NextOf(list: seq<DataAddr>, i: nat): u32
  {
    if i + 1 < |list| then list[i + 1] else EMPTY_INT
  }

  /** Sectors of a run before its last one are full. */
  lemma RunIndex(n: nat, k: nat, i: nat)
    requires n <= k * 4088 < n + 4088 && i < k
    ensures i * 4088 < n
    ensures i + 1 < k ==> ChunkSize(n, i) == 4088
  {}

  /** The first i sectors of the run hold their chunks and links, ANDed
      onto what f had there; every sector outside them is as in f. */
  ghost predicate PlacedBelow(f: Image, r: Image, list: seq<DataAddr>, buf: seq<byte>, off: nat, n: nat, i: nat)
  {
    && i <= |list| && off + n <= |buf|
    && (forall j :: 0 <= j < i ==>
          j * 4088 <= n &&
          SectorBytes(r, Sec(list[j])) == AndBytes(SectorBytes(f, Sec(list[j])), SectorOf(Chunk(buf, off, n, j), NextOf(list, j))))
    && (forall u :: 0 <= u < SECTOR_COUNT && SectorAddr(u) !in list[..i] ==> SectorBytes(r, u) == SectorBytes(f, u))
  }

  /** write_file's sector loop with the residual length decreased after
      each sector: sector i of list receives Chunk(buf, off, n, i) and a
      link to sector i + 1; no other sector changes. */
  method PlaceSectors(f: Image, list: seq<DataAddr>, buf: seq<byte>, off: nat, n: nat, m: nat) returns (r: Image)
    requires n <= |list| * 4088 < n + 4088 && off + n <= |buf| && m < 4
    requires forall i, j :: 0 <= i < j < |list| ==> list[i] < list[j]
    ensures forall i :: 0 <= i < |list| ==>
              i * 4088 <= n &&
              SectorBytes(r, Sec(list[i])) ==
                AndBytes(SectorBytes(f, Sec(list[i])), SectorOf(Chunk(buf, off, n, i), NextOf(list, i)))
    ensures forall u :: 0 <= u < SECTOR_COUNT && SectorAddr(u) !in list ==> SectorBytes(r, u) == SectorBytes(f, u)
  {
    r := f;
    var offset, length, i := off, n, 0;
    while i < |list|
      invariant PlacedBelow(f, r, list, buf, off, n, i)
      invariant i < |list| ==> offset == off + i * 4088 && length == n - i * 4088
    {
      RunIndex(n, |list|, i);
      var writeSize := if length >= 4088 then 4088 else length;
      r := PlaceStep(f, r, list, buf, off, n, i, offset, writeSize, writeSize >= 4088 && i + 1 < |list|, m);
      offset, length, i := offset + writeSize, length - writeSize, i + 1;
    }
    assert list[..|list|] == list;
  }

  /** One pass of the sector loop extends PlacedBelow by one sector. */
  method PlaceStep(f: Image, r: Image, list: seq<DataAddr>, buf: seq<byte>, off: nat, n: nat, i: nat,
                   offset: nat, writeSize: nat, linked: bool, m: nat) returns (r': Image)
    requires PlacedBelow(f, r, list, buf, off, n, i) && i < |list| && m < 4
    requires n <= |list| * 4088 < n + 4088
    requires forall i, j :: 0 <= i < j < |list| ==> list[i] < list[j]
    requires offset == off + i * 4088 && writeSize == ChunkSize(n, i)
    requires linked <==> writeSize >= 4088 && i + 1 < |list|
    ensures PlacedBelow(f, r', list, buf, off, n, i + 1)
  {
    RunIndex(n, |list|, i);
    assert list[i] !in list[..i];
    r' := WriteSector(r, list[i], buf, offset, writeSize, linked, NextOf(list, i), (m + offset) % 4);
    assert buf[offset..offset + writeSize] == Chunk(buf, off, n, i);
    assert (if linked then NextOf(list, i) else EMPTY_INT) == NextOf(list, i);
    forall j | 0 <= j < i
      ensures SectorBytes(r', Sec(list[j])) == SectorBytes(r, Sec(list[j]))
    {
      assert list[j] < list[i];
    }
    assert list[..i + 1] == list[..i] + [list[i]];
  }

  /** The payload of the sectors s, cut at n bytes: each sector gives its
      DATA_AREA_SIZE bytes, the last one what remains of n. */
  function Contents(f: Image, s: seq<DataAddr>, n: nat): seq<byte>
    decreases |s|
  {
    if |s| == 0 || n == 0 then []
    else if n <= 4088 then Payload(f, s[0])[..n]
    else Payload(f, s[0]) + Contents(f, s[1..], n - 4088)
  }

  /** The sectors hold min(n, |s| * 4088) bytes. */
  lemma {:induction false} ContentsLength(f: Image, s: seq<DataAddr>, n: nat)
    ensures |Contents(f, s, n)| == Min(n, |s| * 4088)
    decreases |s|
  {
    if |s| > 0 && n > 4088 {
      ContentsLength(f, s[1..], n - 4088);
    }
  }

  /** Bytes [j * 4088 + p, ... + k) of the contents are bytes
      [p, p + k) of the payload of sector j. */
  lemma {:induction false} ContentsChunk(f: Image, s: seq<DataAddr>, n: nat, j: nat, p: nat, k: nat)
    requires j < |s| && p + k <= 4088 && j * 4088 + p + k <= n
    ensures |Contents(f, s, n)| >= j * 4088 + p + k
    ensures Contents(f, s, n)[j * 4088 + p..j * 4088 + p + k] == Payload(f, s[j])[p..p + k]
    decreases j
  {
    ContentsLength(f, s, n);
    var x := Payload(f, s[0]);
    if j == 0 {
      if n > 4088 {
        ContentsLength(f, s[1..], n - 4088);
        assert Contents(f, s, n) == x + Contents(f, s[1..], n - 4088);
        SliceLeft(x, Contents(f, s[1..], n - 4088), p, k);
      } else {
        assert Contents(f, s, n) == x[..n];
        SlicePrefix(x, n, p, k);
      }
    } else {
      ContentsChunk(f, s[1..], n - 4088, j - 1, p, k);
      var rest := Contents(f, s[1..], n - 4088);
      assert Contents(f, s, n) == x + rest;
      SliceRight(x, rest, (j - 1) * 4088 + p, k);
    }
  }

  lemma SliceLeft(x: seq<byte>, y: seq<byte>, p: nat, k: nat)
    requires p + k <= |x|
    ensures (x + y)[p..p + k] == x[p..p + k]
  {}

  lemma SliceRight(x: seq<byte>, y: seq<byte>, b: nat, k: nat)
    requires b + k <= |y|
    ensures (x + y)[|x| + b..|x| + b + k] == y[b..b + k]
  {}

  lemma SlicePrefix(x: seq<byte>, n: nat, p: nat, k: nat)
    requires p + k <= n <= |x|
    ensures x[..n][p..p + k] == x[p..p + k]
  {}

  /** A run laid down on erased sectors reads back: its sectors are
      IN_USE, form the chain from the first, and hold the n bytes written. */
  lemma PlacedReadsBack(r: Image, list: seq<DataAddr>, buf: seq<byte>, off: nat, n: nat)
    requires n <= |list| * 4088 < n + 4088 && off + n <= |buf|
    requires forall i :: 0 <= i < |list| ==>
               i * 4088 <= n && SectorBytes(r, Sec(list[i])) == SectorOf(Chunk(buf, off, n, i), NextOf(list, i))
    ensures IsChain(r, if n == 0 then EMPTY_INT else list[0], list)
    ensures forall i :: 0 <= i < |list| ==> IsInUse(r, list[i])
    ensures Contents(r, list, n) == buf[off..off + n]
  {
    forall i | 0 <= i < |list|
      ensures IsInUse(r, list[i]) && Link(r, list[i]) == NextOf(list, i)
      ensures Payload(r, list[i]) == Pad(Chunk(buf, off, n, i), 4088)
    {
      ReadSector(r, list[i], Chunk(buf, off, n, i), NextOf(list, i));
    }
    PlacedContents(r, list, buf, off, n);
  }

  /** Payloads that hold the chunks of buf[off..off + n], padded, give
      back exactly those n bytes. */
  lemma {:induction false} PlacedContents(r: Image, list: seq<DataAddr>, buf: seq<byte>, off: nat, n: nat)
    requires n <= |list| * 4088 < n + 4088 && off + n <= |buf|
    requires forall i {:trigger Chunk(buf, off, n, i)} :: 0 <= i < |list| ==>
               i * 4088 <= n && Payload(r, list[i]) == Pad(Chunk(buf, off, n, i), 4088)
    ensures Contents(r, list, n) == buf[off..off + n]
    decreases |list|
  {
    if n == 0 {
      assert buf[off..off + n] == [];
    } else if n <= 4088 {
      FirstPlaced(r, list, buf, off, n);
      LastContents(r, list, buf[off..off + n]);
    } else {
      ShiftPlaced(r, list, buf, off, n);
      PlacedContents(r, list[1..], buf, off + 4088, n - 4088);
      FirstPlaced(r, list, buf, off, n);
      JoinFirst(r, list, buf, off, n);
    }
  }

  /** A sector holding the last chunk, padded, gives back the chunk. */
  lemma LastContents(r: Image, list: seq<DataAddr>, c: seq<byte>)
    requires |list| > 0 && 0 < |c| <= 4088 && Payload(r, list[0]) == Pad(c, 4088)
    ensures Contents(r, list, |c|) == c
  {
    assert Pad(c, 4088)[..|c|] == c;
  }

  /** The first sector of a placed run holds the first chunk. */
  lemma FirstPlaced(r: Image, list: seq<DataAddr>, buf: seq<byte>, off: nat, n: nat)
    requires 0 < n <= |list| * 4088 && off + n <= |buf|
    requires forall i {:trigger Chunk(buf, off, n, i)} :: 0 <= i < |list| ==>
               i * 4088 <= n && Payload(r, list[i]) == Pad(Chunk(buf, off, n, i), 4088)
    ensures n <= 4088 ==> Payload(r, list[0]) == Pad(buf[off..off + n], 4088)
    ensures 4088 < n ==> Payload(r, list[0]) == buf[off..off + 4088]
  {
    var c := Chunk(buf, off, n, 0);
    assert Payload(r, list[0]) == Pad(c, 4088);
    if 4088 < n {
      assert Pad(c, 4088) == c;
    }
  }

  /** The sectors after the first of a placed run are the run placed from
      the next chunk on. */
  lemma ShiftPlaced(r: Image, list: seq<DataAddr>, buf: seq<byte>, off: nat, n: nat)
    requires 4088 < n <= |list| * 4088 < n + 4088 && off + n <= |buf|
    requires forall i {:trigger Chunk(buf, off, n, i)} :: 0 <= i < |list| ==>
               i * 4088 <= n && Payload(r, list[i]) == Pad(Chunk(buf, off, n, i), 4088)
    ensures n - 4088 <= |list[1..]| * 4088 < n - 4088 + 4088
    ensures forall i :: 0 <= i < |list[1..]| ==>
              i * 4088 <= n - 4088 && Payload(r, list[1..][i]) == Pad(Chunk(buf, off + 4088, n - 4088, i), 4088)
  {
    forall i | 0 <= i < |list[1..]|
      ensures i * 4088 <= n - 4088
      ensures Payload(r, list[1..][i]) == Pad(Chunk(buf, off + 4088, n - 4088, i), 4088)
    {
      assert Chunk(buf, off + 4088, n - 4088, i) == Chunk(buf, off, n, i + 1);
    }
  }

  /** A first full sector followed by the rest of the contents. */
  lemma JoinFirst(r: Image, list: seq<DataAddr>, buf: seq<byte>, off: nat, n: nat)
    requires |list| > 0 && 4088 < n && off + n <= |buf|
    requires Payload(r, list[0]) == buf[off..off + 4088]
    requires Contents(r, list[1..], n - 4088) == buf[off + 4088..off + n]
    ensures Contents(r, list, n) == buf[off..off + n]
  {
    assert buf[off..off + n] == buf[off..off + 4088] + buf[off + 4088..off + n];
  }

  /** write_size in write_file's sector loop as the source computes it:
      `length` is not decreased inside the loop, so every sector of the
      run takes min(length, DATA_AREA_SIZE) bytes. */
  function SizesAsWritten(n: nat): (sizes: seq<nat>)
    ensures |sizes| == SectorsFor(n)
  {
    seq(SectorsFor(n), _ => if n >= 4088 then 4088 else n)
  }

  /** write_size with the residual length decreased after each sector. */
  function Sizes(n: nat): (sizes: seq<nat>)
    ensures |sizes| == SectorsFor(n)
  {
    seq(SectorsFor(n), i requires 0 <= i < SectorsFor(n) => RunIndex(n, SectorsFor(n), i); ChunkSize(n, i))
  }

  function Sum(s: seq<nat>): nat
  {
    if |s| == 0 then 0 else s[0] + Sum(s[1..])
  }

  /** k full payloads add up to k * 4088 bytes. */
  lemma {:induction false} SumFull(s: seq<nat>)
    requires forall i :: 0 <= i < |s| ==> s[i] == 4088
    ensures Sum(s) == |s| * 4088
  {
    if |s| > 0 {
      SumFull(s[1..]);
    }
  }

  /** The corrected loop takes exactly the n bytes of the buffer. */
  lemma {:induction false} SizesSum(n: nat)
    ensures Sum(Sizes(n)) == n
    decreases n
  {
    if n > 4088 {
      SizesSum(n - 4088);
      assert Sizes(n)[1..] == Sizes(n - 4088);
    } else if n > 0 {
      assert Sizes(n) == [n];
    }
  }

  /** As written, a write of more than DATA_AREA_SIZE bytes that does not
      end on a sector boundary takes more bytes than it was given: the last
      sector copies a full payload from past the end of the buffer.  For
      5000 bytes the loop takes 8176. */
  lemma AsWrittenOverReads(n: nat)
    requires n > 4088 && n % 4088 != 0
    ensures Sum(SizesAsWritten(n)) == SectorsFor(n) * 4088 > n
    ensures n == 5000 ==> Sum(SizesAsWritten(n)) == 8176
  {
    SumFull(SizesAsWritten(n));
  }

  /** Data sectors below sector t that are FREE. */
  function FreeBelow(f: Image, t: nat): nat
    requires DATA_SECTOR_START <= t <= DATA_SECTOR_END + 1
    decreases t
  {
    if t == DATA_SECTOR_START then 0
    else FreeBelow(f, t - 1) + (if IsFree(f, SectorAddr(t - 1)) then 1 else 0)
  }

  /** The FREE sectors below t and those from t on are all of them (top
      is the end of the data area). */
  lemma {:induction false} FreeSplit(f: Image, t: nat, top: nat)
    requires top == DATA_SECTOR_END + 1 && DATA_SECTOR_START <= t <= top
    ensures FreeBelow(f, t) + |FreeFrom(f, t)| == FreeBelow(f, top)
    decreases top - t
  {
    if t < top {
      FreeSplit(f, t + 1, top);
      SectorIsDataAddr(t);
      assert |FreeFrom(f, t)| == (if IsFree(f, SectorAddr(t)) then 1 else 0) + |FreeFrom(f, t + 1)|;
    }
  }

  /** A sector's marker decides whether it is FREE. */
  lemma SameFree(f: Image, g: Image, t: nat)
    requires t < SECTOR_COUNT
    ensures SectorBytes(g, t) == SectorBytes(f, t) ==> (IsFree(g, SectorAddr(t)) <==> IsFree(f, SectorAddr(t)))
    ensures SectorBytes(g, t) == Ones(SECTOR_SIZE) ==> IsFree(g, SectorAddr(t))
  {
    var a := SectorAddr(t);
    assert g[a] == SectorBytes(g, t)[0] && g[a + 1] == SectorBytes(g, t)[1];
    assert g[a + 2] == SectorBytes(g, t)[2] && g[a + 3] == SectorBytes(g, t)[3];
    assert f[a] == SectorBytes(f, t)[0] && f[a + 1] == SectorBytes(f, t)[1];
    assert f[a + 2] == SectorBytes(f, t)[2] && f[a + 3] == SectorBytes(f, t)[3];
  }

  /** The data pass from a zero count keeps every FREE sector FREE and
      frees min(nums, DISCARD sectors) more below t. */
  lemma {:induction false} ErasedAreFree(f: Image, r: Image, nums: nat, t: nat)
    requires DATA_SECTOR_START <= t <= DATA_SECTOR_END + 1
    requires forall u :: IsDataSector(u) ==>
               SectorBytes(r, u) == if DataErased(f, 0, nums, u) then Ones(SECTOR_SIZE) else SectorBytes(f, u)
    ensures FreeBelow(r, t) == FreeBelow(f, t) + Min(nums, DiscardsBelow(f, t))
    decreases t
  {
    if t > DATA_SECTOR_START {
      var u := t - 1;
      ErasedAreFree(f, r, nums, u);
      SameFree(f, r, u);
      MarkersExclusive(f, SectorAddr(u));
    }
  }

  /** spifs_gc(GC_TYPE_DATAAREA, nums) frees as many sectors as it counts,
      so a count of at least nums leaves nums FREE sectors to find. */
  lemma GcFrees(f: Image, r: Image, nums: nat)
    requires forall u :: IsDataSector(u) ==>
               SectorBytes(r, u) == if DataErased(f, 0, nums, u) then Ones(SECTOR_SIZE) else SectorBytes(f, u)
    ensures |FreeFrom(r, DATA_SECTOR_START)| == |FreeFrom(f, DATA_SECTOR_START)| + Min(nums, DiscardsBelow(f, DATA_SECTOR_END + 1))
  {
    var top := DATA_SECTOR_END + 1;
    ErasedAreFree(f, r, nums, top);
    FreeSplit(f, DATA_SECTOR_START, top);
    FreeSplit(r, DATA_SECTOR_START, top);
  }
}

=== FILE: diskio.dfy ===
/** The FileBlock and sector-marker writers of diskio.c, on the flash image. */
module DiskIo {
  import opened Bytes
  import opened Layout
  import opened StateCodec
  import opened Records
  import opened Flash

  /** write_fileblock: program the 24 encoded bytes at addr. */
  function WriteFileblock(f: Image, addr: nat, b: FileBlock): (r: Image)
    requires b.WellFormed() && addr + FILEBLOCK_SIZE <= FLASH_SIZE
    ensures forall i :: 0 <= i < addr || addr + FILEBLOCK_SIZE <= i < FLASH_SIZE ==> r[i] == f[i]
    ensures AllErased(f[addr..addr + FILEBLOCK_SIZE]) ==> DecodeBlock(r[addr..addr + FILEBLOCK_SIZE]) == b
  {
    ProgramErasedIf(f, addr, EncodeBlock(b));
    BlockRoundTrip(b, EncodeBlock(b));
    Program(f, addr, EncodeBlock(b))
  }

  /** clear_fileblock: reset the 24 bytes at offset of a RAM copy of an index
      sector to 0xFF. */
  function ClearFileblock(buf: seq<byte>, offset: nat): (r: seq<byte>)
    requires offset + FILEBLOCK_SIZE <= |buf|
    ensures |r| == |buf|
    ensures forall i :: offset <= i < offset + FILEBLOCK_SIZE ==> r[i] == EMPTY_BYTE
    ensures forall i :: 0 <= i < offset || offset + FILEBLOCK_SIZE <= i < |buf| ==> r[i] == buf[i]
  {
    buf[..offset] + Ones(FILEBLOCK_SIZE) + buf[offset + FILEBLOCK_SIZE..]
  }

  /** The sector marker word at a sector's first address. */
  function MarkerAt(f: Image, secAddr: nat): u32
    requires secAddr + SECTOR_MARK_SIZE <= FLASH_SIZE
  {
    Word(f[secAddr..secAddr + SECTOR_MARK_SIZE])
  }

  /** update_sector_mark: program the four marker bytes. */
  function UpdateSectorMark(f: Image, secAddr: nat, mark: u32): (r: Image)
    requires secAddr + SECTOR_MARK_SIZE <= FLASH_SIZE
    ensures r[secAddr..secAddr + SECTOR_MARK_SIZE] == AndBytes(f[secAddr..secAddr + SECTOR_MARK_SIZE], LE32(mark))
    ensures forall i :: 0 <= i < secAddr || secAddr + SECTOR_MARK_SIZE <= i < FLASH_SIZE ==> r[i] == f[i]
  {
    var r := Program(f, secAddr, LE32(mark));
    assert r[secAddr..secAddr + SECTOR_MARK_SIZE] == AndBytes(f[secAddr..secAddr + SECTOR_MARK_SIZE], LE32(mark));
    r
  }

  /** The marker life cycle FREE -> IN_USE -> DISCARD, each step a program
      operation that leaves exactly the new marker. */
  lemma {:induction false} MarkTransition(f: Image, secAddr: nat)
    requires secAddr + SECTOR_MARK_SIZE <= FLASH_SIZE
    ensures MarkerAt(f, secAddr) == SECTOR_FREE_FLAG ==>
              MarkerAt(UpdateSectorMark(f, secAddr, SECTOR_INUSE_FLAG), secAddr) == SECTOR_INUSE_FLAG
    ensures MarkerAt(f, secAddr) in {SECTOR_FREE_FLAG, SECTOR_INUSE_FLAG, SECTOR_DISCARD_FLAG} ==>
              MarkerAt(UpdateSectorMark(f, secAddr, SECTOR_DISCARD_FLAG), secAddr) == SECTOR_DISCARD_FLAG
  {
    var m := f[secAddr..secAddr + SECTOR_MARK_SIZE];
    MarkerBytes();
    MarkerTransitions();
    WordLE32(m);
    var x := MarkerAt(f, secAddr);
    if x == SECTOR_FREE_FLAG {
      assert m == FREE_BYTES;
      AndFree(LE32(SECTOR_INUSE_FLAG));
      AndFree(LE32(SECTOR_DISCARD_FLAG));
    } else if x == SECTOR_INUSE_FLAG {
      assert m == INUSE_BYTES;
    } else if x == SECTOR_DISCARD_FLAG {
      assert m == DISCARD_BYTES;
      AndSelf(DISCARD_BYTES);
    }
  }

  lemma AndFree(b: seq<byte>)
    requires |b| == 4
    ensures AndBytes(FREE_BYTES, b) == b
  {
    forall i | 0 <= i < 4
      ensures AndBytes(FREE_BYTES, b)[i] == b[i]
    {
      AndLaws(b[i], b[i], b[i]);
    }
  }

  lemma AndSelf(b: seq<byte>)
    ensures AndBytes(b, b) == b
  {
    forall i | 0 <= i < |b|
      ensures AndBytes(b, b)[i] == b[i]
    {
      AndLaws(b[i], b[i], b[i]);
    }
  }

  /** write_fileblock_cluster: program the cluster field, bytes 12..16. */
  function WriteFileblockCluster(f: Image, fbaddr: nat, cluster: u32): (r: Image)
    requires fbaddr + FILEBLOCK_SIZE <= FLASH_SIZE
    ensures forall i :: 0 <= i < fbaddr + CLUSTER_OFFSET || fbaddr + LENGTH_OFFSET <= i < FLASH_SIZE ==> r[i] == f[i]
    ensures AllErased(f[fbaddr + CLUSTER_OFFSET..fbaddr + LENGTH_OFFSET]) ==>
              Word(r[fbaddr + CLUSTER_OFFSET..fbaddr + LENGTH_OFFSET]) == cluster
  {
    ProgramErasedIf(f, fbaddr + CLUSTER_OFFSET, LE32(cluster));
    Program(f, fbaddr + CLUSTER_OFFSET, LE32(cluster))
  }

  /** write_fileblock_length: program the length field, bytes 16..20. */
  function WriteFileblockLength(f: Image, fbaddr: nat, length: u32): (r: Image)
    requires fbaddr + FILEBLOCK_SIZE <= FLASH_SIZE
    ensures forall i :: 0 <= i < fbaddr + LENGTH_OFFSET || fbaddr + INFO_OFFSET <= i < FLASH_SIZE ==> r[i] == f[i]
    ensures AllErased(f[fbaddr + LENGTH_OFFSET..fbaddr + INFO_OFFSET]) ==>
              Word(r[fbaddr + LENGTH_OFFSET..fbaddr + INFO_OFFSET]) == length
  {
    ProgramErasedIf(f, fbaddr + LENGTH_OFFSET, LE32(length));
    Program(f, fbaddr + LENGTH_OFFSET, LE32(length))
  }

  /** The four FileInfo bytes that write_fileblock_state writes back: day,
      month and year as read, the state ANDed with fstate. */
  function StateWord(f: Image, fbaddr: nat, fstate: byte): (w: seq<byte>)
    requires fbaddr + FILEBLOCK_SIZE <= FLASH_SIZE
    ensures |w| == 4
  {
    var info := f[fbaddr + INFO_OFFSET..fbaddr + FILEBLOCK_SIZE];
    info[..3] + [And(info[3], fstate)]
  }

  /** write_fileblock_state: the state byte becomes And(old, fstate); day, month,
      year and every other byte keep their values. */
  function WriteFileblockState(f: Image, fbaddr: nat, fstate: byte): (r: Image)
    requires fbaddr + FILEBLOCK_SIZE <= FLASH_SIZE
    ensures r[fbaddr + STATE_OFFSET] == And(f[fbaddr + STATE_OFFSET], fstate)
    ensures forall i :: 0 <= i < FLASH_SIZE && i != fbaddr + STATE_OFFSET ==> r[i] == f[i]
  {
    StateWordBytes(f, fbaddr, fstate);
    Program(f, fbaddr + INFO_OFFSET, StateWord(f, fbaddr, fstate))
  }

  /** Programming the state word clears the state byte by fstate and leaves
      day, month and year as they are. */
  lemma StateWordBytes(f: Image, fbaddr: nat, fstate: byte)
    requires fbaddr + FILEBLOCK_SIZE <= FLASH_SIZE
    ensures forall k :: 0 <= k < 3 ==> And(f[fbaddr + INFO_OFFSET + k], StateWord(f, fbaddr, fstate)[k]) == f[fbaddr + INFO_OFFSET + k]
    ensures And(f[fbaddr + STATE_OFFSET], StateWord(f, fbaddr, fstate)[3]) == And(f[fbaddr + STATE_OFFSET], fstate)
    ensures StateWord(f, fbaddr, fstate)[3] == And(f[fbaddr + STATE_OFFSET], fstate)
  {
    var a := fbaddr + INFO_OFFSET;
    var w := StateWord(f, fbaddr, fstate);
    forall k | 0 <= k < 3
      ensures And(f[a + k], w[k]) == f[a + k]
    {
      assert w[k] == f[a + k];
      AndLaws(f[a + k], f[a + k], f[a + k]);
    }
    CombinedStates(f[a + 3], fstate, fstate);
    AndLaws(f[a + 3], f[a + 3], fstate);
  }

  /** Marking a state only clears bits and is idempotent. */
  lemma StateMonotone(f: Image, fbaddr: nat, fstate: byte)
    requires fbaddr + FILEBLOCK_SIZE <= FLASH_SIZE
    ensures And(WriteFileblockState(f, fbaddr, fstate)[fbaddr + STATE_OFFSET], f[fbaddr + STATE_OFFSET])
            == WriteFileblockState(f, fbaddr, fstate)[fbaddr + STATE_OFFSET]
    ensures WriteFileblockState(WriteFileblockState(f, fbaddr, fstate), fbaddr, fstate)
            == WriteFileblockState(f, fbaddr, fstate)
  {
    var r := WriteFileblockState(f, fbaddr, fstate);
    var r2 := WriteFileblockState(r, fbaddr, fstate);
    var x := f[fbaddr + STATE_OFFSET];
    CombinedStates(x, fstate, fstate);
    forall i | 0 <= i < FLASH_SIZE
      ensures r2[i] == r[i]
    {
    }
  }

  /** The RAM emulator's copy of the same four bytes gives the same image:
      the read-modify-write only clears bits. */
  lemma StateWriteIsOverwrite(f: Image, fbaddr: nat, fstate: byte)
    requires fbaddr + FILEBLOCK_SIZE <= FLASH_SIZE
    ensures WriteFileblockState(f, fbaddr, fstate)
            == Overwrite(f, fbaddr + INFO_OFFSET, StateWord(f, fbaddr, fstate))
  {
    var w := StateWord(f, fbaddr, fstate);
    var a := fbaddr + INFO_OFFSET;
    var info := f[a..fbaddr + FILEBLOCK_SIZE];
    StateWordBytes(f, fbaddr, fstate);
    forall k | 0 <= k < 4
      ensures And(f[a + k], w[k]) == w[k]
    {
      assert info[k] == f[a + k];
    }
    ProgramIsOverwrite(f, a, w);
  }

  /** What each FSTATE value does to the permissions: DELETE clears del,
      DEPRECATE clears dep, and neither touches the other flags. */
  lemma StateMarks(f: Image, fbaddr: nat)
    requires fbaddr + FILEBLOCK_SIZE <= FLASH_SIZE
    ensures !Del(WriteFileblockState(f, fbaddr, FSTATE_DELETE)[fbaddr + STATE_OFFSET])
    ensures !Dep(WriteFileblockState(f, fbaddr, FSTATE_DEPRECATE)[fbaddr + STATE_OFFSET])
    ensures Dep(WriteFileblockState(f, fbaddr, FSTATE_DELETE)[fbaddr + STATE_OFFSET]) == Dep(f[fbaddr + STATE_OFFSET])
    ensures Del(WriteFileblockState(f, fbaddr, FSTATE_DEPRECATE)[fbaddr + STATE_OFFSET]) == Del(f[fbaddr + STATE_OFFSET])
  {
    var x := f[fbaddr + STATE_OFFSET];
    FStateBits(x);
    FlagNames(x);
    FlagNames(And(x, FSTATE_DELETE));
    FlagNames(And(x, FSTATE_DEPRECATE));
  }

  /** read_finfo: the FileInfo of the handle's index entry. */
  function ReadFinfo(f: Image, block: nat): (i: FileInfo)
    requires block + FILEBLOCK_SIZE <= FLASH_SIZE
    ensures i == DecodeBlock(f[block..block + FILEBLOCK_SIZE]).info
    ensures i.state == f[block + STATE_OFFSET]
  {
    DecodeInfo(f[block + INFO_OFFSET..block + FILEBLOCK_SIZE])
  }
}

=== FILE: files.dfy ===
/** The index-table operations of spifs.c that create and supersede
    entries: create_file (with its one garbage-collection retry),
    write_finish, rename_file_impl, delete_file, spifs_format and
    spifs_erase_sector. */
module Files {
  import opened Bytes
  import opened Layout
  import opened StateCodec
  import opened Records
  import opened Flash
  import opened DiskIo
  import opened Index
  import opened Chain
  import opened Gc

  /** Every slot without a name is fully erased.  Format, the garbage
      collector and create_file with a real name keep this; it is what makes
      a freshly written entry read back as written. */
  ghost predicate FreeSlotsErased(f: Image)
  {
    forall k :: 0 <= k < SLOT_COUNT && !HasName(f, k) ==> AllErased(SlotBytes(f, k))
  }

  /** The entry create_file builds in its 0xFF-filled buffer: the handle's
      name and extension, the caller's FileInfo, and the handle's cluster and
      length only when they are not both EMPTY_INT_VALUE. */
  function NewBlock(file: File, finfo: FileInfo): (b: FileBlock)
    requires file.WellFormed()
    ensures b.WellFormed()
  {
    if And32(file.cluster, file.length) != EMPTY_INT then
      FileBlock(file.name, file.ext, file.cluster, file.length, finfo)
    else
      FileBlock(file.name, file.ext, EMPTY_INT, EMPTY_INT, finfo)
  }

  /** The handle create_file leaves: its block is the new entry, and its
      cluster and length are what the entry holds. */
  function NewHandle(file: File, finfo: FileInfo, k: nat): (h: File)
    requires file.WellFormed() && k < SLOT_COUNT
    ensures h.WellFormed() && h.block + FILEBLOCK_SIZE <= DATA_ADDR_FIRST
  {
    SlotBelowData(k);
    var b := NewBlock(file, finfo);
    File(file.name, file.ext, SlotAddr(k), b.cluster, b.length)
  }

  /** The entry carries the handle's cluster and length unless both are
      EMPTY_INT_VALUE, in which case both stay EMPTY_INT_VALUE. */
  lemma NewBlockCarries(file: File, finfo: FileInfo)
    requires file.WellFormed()
    ensures file.cluster != EMPTY_INT || file.length != EMPTY_INT ==>
              NewBlock(file, finfo).cluster == file.cluster && NewBlock(file, finfo).length == file.length
    ensures file.cluster == EMPTY_INT && file.length == EMPTY_INT ==>
              NewBlock(file, finfo).cluster == EMPTY_INT && NewBlock(file, finfo).length == EMPTY_INT
    ensures NewBlock(file, finfo).name == file.name && NewBlock(file, finfo).ext == file.ext
    ensures NewBlock(file, finfo).info == finfo
  {
    And32Empty(file.cluster, file.length);
  }

  /** create_file.  An entry with the same 12 raw name bytes that is live
      makes it fail with FILE_ALREADY_EXIST.  Otherwise the first slot
      without a name is taken (FindSlot, with its garbage-collection retry),
      or NO_FILEBLOCK_SPACE is returned; the entry is written with
      write_fileblock and the handle's block set to it. */
  method CreateFile(f: Image, file: File, finfo: FileInfo) returns (r: Image, h: File, res: Result)
    requires file.WellFormed()
    ensures res == CreateFileSuccess || res == FileAlreadyExist || res == NoFileblockSpace
    ensures res == FileAlreadyExist <==> OpenFileImpl(f, file.name, file.ext, true).Some?
    ensures res == NoFileblockSpace <==>
              OpenFileImpl(f, file.name, file.ext, true).None? && FirstFreeSlot(f).None? && IndexTotal(f) == 0
    ensures res != CreateFileSuccess ==> r == f && h == file
    ensures res == CreateFileSuccess ==> exists k :: 0 <= k < SLOT_COUNT && h == NewHandle(file, finfo, k)
    ensures res == CreateFileSuccess && FirstFreeSlot(f).Some? ==>
              h == NewHandle(file, finfo, FirstFreeSlot(f).value)
              && r == WriteFileblock(f, SlotAddr(FirstFreeSlot(f).value), NewBlock(file, finfo))
    ensures forall t :: IsDataSector(t) ==> SectorBytes(r, t) == SectorBytes(f, t)
    ensures res == CreateFileSuccess && FreeSlotsErased(f) && !AllErased(file.FullName()) && Live(finfo.state) ==>
              OpenFileImpl(r, file.name, file.ext, true) == Some(h) && FreeSlotsErased(r)
  {
    var existing := OpenFileImpl(f, file.name, file.ext, true);
    if existing.Some? {
      return f, file, FileAlreadyExist;
    }
    var g, k, found := FindSlot(f);
    if !found {
      return f, file, NoFileblockSpace;
    }
    ghost var clean := FreeSlotsErased(f) && !AllErased(file.FullName()) && Live(finfo.state);
    if clean {
      RawQuery(file);
      CreateKeeps(f, g, file);
    }
    r, h := WriteEntry(g, k, file, finfo, clean);
    res := CreateFileSuccess;
  }

  /** The slot search of create_file (label FIND_FB_SPACE): the first slot
      without a name; when there is none, spifs_gc(GC_TYPE_FILEBLOCK, 1) and,
      if it returned at least 1, the search again, which then finds one.
      Fails exactly when there is no free slot and nothing to reclaim. */
  method FindSlot(f: Image) returns (g: Image, k: nat, found: bool)
    ensures found <==> FirstFreeSlot(f).Some? || IndexTotal(f) > 0
    ensures found ==> k < SLOT_COUNT && !HasName(g, k)
    ensures FirstFreeSlot(f).Some? ==> g == f && k == FirstFreeSlot(f).value
    ensures !found ==> g == f
    ensures SweptOrKept(f, g)
    ensures forall t :: IsDataSector(t) ==> SectorBytes(g, t) == SectorBytes(f, t)
  {
    g := f;
    var slot := FirstFreeSlot(f);
    if slot.None? {
      var count;
      g, count := Collect(f, Fileblock, 1);
      GcSlots(f, g);
      if count < 1 {
        return f, 0, false;
      }
      slot := FirstFreeSlot(g);
    } else {
      KeptAll(f);
    }
    k, found := slot.value, true;
  }

  /** Nothing changed: every slot is kept.  Stated apart so that the
      caller does not unfold SweptOrKept in its own context. */
  lemma KeptAll(f: Image)
    ensures SweptOrKept(f, f)
  {
  }

  /** The write of create_file: the new entry into slot k of g with
      write_fileblock, and the handle pointing at it.  With an erased slot
      and a real, live name that no entry has, open_file_impl then finds
      exactly this handle. */
  method WriteEntry(g: Image, k: nat, file: File, finfo: FileInfo, ghost clean: bool) returns (r: Image, h: File)
    requires file.WellFormed() && k < SLOT_COUNT && !HasName(g, k)
    requires clean ==> FreeSlotsErased(g) && !AllErased(file.FullName()) && Live(finfo.state)
    requires clean ==> forall j :: 0 <= j < SLOT_COUNT ==> !Matches(g, j, file.FullName())
    ensures SlotAddr(k) + FILEBLOCK_SIZE <= FLASH_SIZE
    ensures r == WriteFileblock(g, SlotAddr(k), NewBlock(file, finfo)) && h == NewHandle(file, finfo, k)
    ensures forall t :: IsDataSector(t) ==> SectorBytes(r, t) == SectorBytes(g, t)
    ensures clean ==> OpenFileImpl(r, file.name, file.ext, true) == Some(h) && FreeSlotsErased(r)
  {
    var b := NewBlock(file, finfo);
    SlotOnFlash(k);
    r := WriteFileblock(g, SlotAddr(k), b);
    h := NewHandle(file, finfo, k);
    CreateFrame(g, k, b);
    if clean {
      CreateThenOpen(g, k, file, finfo);
    }
  }

  /** Each slot of g is that of f, or f's was reclaimable and g's is
      erased: what a FILEBLOCK collection leaves in the table. */
  ghost predicate SweptOrKept(f: Image, g: Image)
  {
    forall k :: 0 <= k < SLOT_COUNT ==>
      SlotBytes(g, k) == SlotBytes(f, k) || (Reclaimable(SlotBytes(f, k)) && SlotBytes(g, k) == Ones(FILEBLOCK_SIZE))
  }

  /** The sector-level outcome of the index pass, slot by slot. */
  lemma GcSlots(f: Image, g: Image)
    requires forall t :: IsIndexSector(t) ==> SectorBytes(g, t) == SectorBytes(f, t) || Swept(SectorBytes(f, t), SectorBytes(g, t))
    ensures SweptOrKept(f, g)
  {
    forall k | 0 <= k < SLOT_COUNT
      ensures SlotBytes(g, k) == SlotBytes(f, k) || (Reclaimable(SlotBytes(f, k)) && SlotBytes(g, k) == Ones(FILEBLOCK_SIZE))
    {
      SlotOfSector(f, k);
      SlotOfSector(g, k);
    }
  }

  /** A collection keeps unnamed slots erased and cannot make a name that is
      not all 0xFF match. */
  lemma CreateKeeps(f: Image, g: Image, file: File)
    requires file.WellFormed() && SweptOrKept(f, g) && FreeSlotsErased(f) && !AllErased(file.FullName())
    requires forall k :: 0 <= k < SLOT_COUNT ==> !Matches(f, k, file.FullName())
    ensures FreeSlotsErased(g)
    ensures forall k :: 0 <= k < SLOT_COUNT ==> !Matches(g, k, file.FullName())
  {
    forall k | 0 <= k < SLOT_COUNT
      ensures !HasName(g, k) ==> AllErased(SlotBytes(g, k))
      ensures !Matches(g, k, file.FullName())
    {
      if SlotBytes(g, k) != SlotBytes(f, k) {
        ErasedSlot(SlotBytes(g, k), file.FullName());
      } else {
        SameSlot(f, g, k, file.FullName());
      }
    }
  }

  /** An erased slot is erased, and its name is no real name. */
  lemma ErasedSlot(s: seq<byte>, name: seq<byte>)
    requires s == Ones(FILEBLOCK_SIZE) && |name| == FILENAME_FULLSIZE && !AllErased(name)
    ensures AllErased(s) && s[..FILENAME_FULLSIZE] != name
  {
  }

  /** Writing the new entry into slot k changes only the sector of slot k. */
  lemma CreateFrame(g: Image, k: nat, b: FileBlock)
    requires k < SLOT_COUNT && b.WellFormed()
    ensures SlotAddr(k) + FILEBLOCK_SIZE <= FLASH_SIZE
    ensures forall t :: 0 <= t < SECTOR_COUNT && t != SlotSector(k) ==>
              SectorBytes(WriteFileblock(g, SlotAddr(k), b), t) == SectorBytes(g, t)
  {
    SlotInSector(k);
    SectorFrame(g, WriteFileblock(g, SlotAddr(k), b), SlotSector(k));
  }

  /** write_fileblock into slot k, slot by slot: the other slots are kept,
      and an erased slot k then holds the encoded entry. */
  lemma WriteSlot(g: Image, k: nat, b: FileBlock)
    requires k < SLOT_COUNT && b.WellFormed()
    ensures SlotAddr(k) + FILEBLOCK_SIZE <= FLASH_SIZE
    ensures forall j :: 0 <= j < SLOT_COUNT && j != k ==> SlotBytes(WriteFileblock(g, SlotAddr(k), b), j) == SlotBytes(g, j)
    ensures AllErased(SlotBytes(g, k)) ==> SlotBytes(WriteFileblock(g, SlotAddr(k), b), k) == EncodeBlock(b)
  {
    SlotOnFlash(k);
    forall j | 0 <= j < SLOT_COUNT && j != k
      ensures SlotBytes(WriteFileblock(g, SlotAddr(k), b), j) == SlotBytes(g, j)
    {
      OtherSlot(g, k, b, j);
    }
    if AllErased(SlotBytes(g, k)) {
      NewSlot(g, k, b);
    }
  }

  /** Written into an erased slot of a table where no live entry has the
      name, the new entry is what open_file_impl finds, and the table keeps
      its unnamed slots erased. */
  lemma CreateThenOpen(g: Image, k: nat, file: File, finfo: FileInfo)
    requires file.WellFormed() && k < SLOT_COUNT && !HasName(g, k) && FreeSlotsErased(g)
    requires !AllErased(file.FullName()) && Live(finfo.state)
    requires forall j :: 0 <= j < SLOT_COUNT ==> !Matches(g, j, file.FullName())
    ensures SlotAddr(k) + FILEBLOCK_SIZE <= FLASH_SIZE
    ensures OpenFileImpl(WriteFileblock(g, SlotAddr(k), NewBlock(file, finfo)), file.name, file.ext, true)
              == Some(NewHandle(file, finfo, k))
    ensures FreeSlotsErased(WriteFileblock(g, SlotAddr(k), NewBlock(file, finfo)))
  {
    WriteSlot(g, k, NewBlock(file, finfo));
    OpenAfterWrite(g, WriteFileblock(g, SlotAddr(k), NewBlock(file, finfo)), k, file, finfo);
  }

  /** r is g with slot k holding the new entry: open_file_impl finds it. */
  lemma OpenAfterWrite(g: Image, r: Image, k: nat, file: File, finfo: FileInfo)
    requires file.WellFormed() && k < SLOT_COUNT && FreeSlotsErased(g)
    requires !AllErased(file.FullName()) && Live(finfo.state)
    requires forall j :: 0 <= j < SLOT_COUNT ==> !Matches(g, j, file.FullName())
    requires SlotBytes(r, k) == EncodeBlock(NewBlock(file, finfo))
    requires forall j :: 0 <= j < SLOT_COUNT && j != k ==> SlotBytes(r, j) == SlotBytes(g, j)
    ensures OpenFileImpl(r, file.name, file.ext, true) == Some(NewHandle(file, finfo, k))
    ensures FreeSlotsErased(r)
  {
    var s := SlotBytes(r, k);
    var b := NewBlock(file, finfo);
    assert s[..FILENAME_SIZE] == file.name && s[FILENAME_SIZE..FILENAME_FULLSIZE] == file.ext;
    assert s[..FILENAME_FULLSIZE] == s[..FILENAME_SIZE] + s[FILENAME_SIZE..FILENAME_FULLSIZE];
    assert s[..FILENAME_FULLSIZE] == file.FullName();
    assert Matches(r, k, file.FullName());
    assert HasName(r, k);
    forall j | 0 <= j < SLOT_COUNT && j != k
      ensures !Matches(r, j, file.FullName()) && HasName(r, j) == HasName(g, j)
    {
      SameSlot(g, r, j, file.FullName());
    }
    assert FirstMatch(r, file.FullName(), k);
    OpenFinds(r, file.name, file.ext, true, k);
  }

  /** The slot written holds the encoded entry. */
  lemma NewSlot(g: Image, k: nat, b: FileBlock)
    requires k < SLOT_COUNT && b.WellFormed() && AllErased(SlotBytes(g, k))
    ensures SlotAddr(k) + FILEBLOCK_SIZE <= FLASH_SIZE
    ensures SlotBytes(WriteFileblock(g, SlotAddr(k), b), k) == EncodeBlock(b)
  {
    SlotOnFlash(k);
    var s := SlotBytes(WriteFileblock(g, SlotAddr(k), b), k);
    BlockRoundTrip(b, s);
  }

  /** Another slot is not touched by writing slot k. */
  lemma OtherSlot(g: Image, k: nat, b: FileBlock, j: nat)
    requires k < SLOT_COUNT && j < SLOT_COUNT && j != k && b.WellFormed()
    ensures SlotAddr(k) + FILEBLOCK_SIZE <= FLASH_SIZE
    ensures SlotBytes(WriteFileblock(g, SlotAddr(k), b), j) == SlotBytes(g, j)
  {
    SlotOnFlash(k);
    if j < k {
      SlotAddrMonotone(j, k);
    } else {
      SlotAddrMonotone(k, j);
    }
    var r := WriteFileblock(g, SlotAddr(k), b);
    assert forall p :: 0 <= p < FILEBLOCK_SIZE ==> SlotBytes(r, j)[p] == SlotBytes(g, j)[p];
  }

  /** Equal slot bytes: equal name test and equal match. */
  lemma SameSlot(f: Image, g: Image, k: nat, target: seq<byte>)
    requires k < SLOT_COUNT && |target| == FILENAME_FULLSIZE && SlotBytes(g, k) == SlotBytes(f, k)
    ensures HasName(g, k) == HasName(f, k)
    ensures Matches(g, k, target) == Matches(f, k, target)
  {
  }

  /** The raw query of a handle is its 12 name bytes. */
  lemma RawQuery(file: File)
    requires file.WellFormed()
    ensures QueryName(file.name, file.ext, true) == file.FullName()
  {
    assert file.name[..FILENAME_SIZE] == file.name && file.ext[..EXTNAME_SIZE] == file.ext;
  }

  /* ---------------------------------------------------------------- */
  /* Superseding an entry: write_finish and rename_file_impl          */
  /* ---------------------------------------------------------------- */

  /** Slot k's entry sits at block and has a name: what a handle from
      open_file_impl or create_file points at. */
  ghost predicate NamedEntry(f: Image, block: nat)
  {
    exists k :: 0 <= k < SLOT_COUNT && SlotAddr(k) == block && HasName(f, k)
  }

  /** The entry at block has no length yet: it was written by APPEND and
      not finished. */
  predicate LengthUnset(f: Image, block: nat)
    requires block + FILEBLOCK_SIZE <= FLASH_SIZE
  {
    DecodeBlock(f[block..block + FILEBLOCK_SIZE]).length == EMPTY_INT
  }

  /** An unset length field is four erased bytes. */
  lemma LengthField(f: Image, block: nat)
    requires block + FILEBLOCK_SIZE <= FLASH_SIZE
    ensures LengthUnset(f, block) <==> AllErased(f[block + LENGTH_OFFSET..block + INFO_OFFSET])
  {
    var s := f[block..block + FILEBLOCK_SIZE];
    var w := f[block + LENGTH_OFFSET..block + INFO_OFFSET];
    assert forall p :: 0 <= p < 4 ==> s[LENGTH_OFFSET..INFO_OFFSET][p] == w[p];
    assert s[LENGTH_OFFSET..INFO_OFFSET] == w;
    WordEmpty(w);
  }

  /** write_finish.  An entry without a length gets the handle's length
      programmed in place.  Otherwise the entry is deprecated and
      create_file writes a fresh copy with the handle's name, cluster and
      length and the FileInfo read before the deprecation; its failure is
      passed on, with the old entry left deprecated. */
  method WriteFinish(f: Image, file: File) returns (r: Image, h: File, res: Result)
    requires file.WellFormed() && file.block + FILEBLOCK_SIZE <= FLASH_SIZE
    ensures res == AppendFileFinish || res == FileAlreadyExist || res == NoFileblockSpace
    ensures LengthUnset(f, file.block) ==>
              res == AppendFileFinish && h == file
              && Word(r[file.block + LENGTH_OFFSET..file.block + INFO_OFFSET]) == file.length
              && forall i :: 0 <= i < FLASH_SIZE && !(file.block + LENGTH_OFFSET <= i < file.block + INFO_OFFSET) ==> r[i] == f[i]
    ensures !LengthUnset(f, file.block) ==>
              (res == FileAlreadyExist <==>
                 OpenFileImpl(WriteFileblockState(f, file.block, FSTATE_DEPRECATE), file.name, file.ext, true).Some?)
    ensures !LengthUnset(f, file.block) && res != AppendFileFinish ==>
              r == WriteFileblockState(f, file.block, FSTATE_DEPRECATE) && h == file
    ensures !LengthUnset(f, file.block) && res == AppendFileFinish ==>
              exists k :: 0 <= k < SLOT_COUNT && h == NewHandle(file, ReadFinfo(f, file.block), k)
    ensures res == AppendFileFinish && file.length != EMPTY_INT ==> h.length == file.length && h.name == file.name && h.ext == file.ext
    ensures !LengthUnset(f, file.block) && res == AppendFileFinish
            && FreeSlotsErased(f) && NamedEntry(f, file.block) && !AllErased(file.FullName()) && Live(f[file.block + STATE_OFFSET]) ==>
              OpenFileImpl(r, file.name, file.ext, true) == Some(h) && FreeSlotsErased(r)
  {
    var fblock := DecodeBlock(f[file.block..file.block + FILEBLOCK_SIZE]);
    if fblock.length == EMPTY_INT {
      LengthField(f, file.block);
      r := WriteFileblockLength(f, file.block, file.length);
      return r, file, AppendFileFinish;
    }
    var finfo := ReadFinfo(f, file.block);
    var created;
    r, h, created := Reissue(f, file.block, file, finfo);
    res := if created == CreateFileSuccess then AppendFileFinish else created;
    if res == AppendFileFinish {
      ghost var k :| 0 <= k < SLOT_COUNT && h == NewHandle(file, finfo, k);
      NewBlockCarries(file, finfo);
    }
  }

  /** The step write_finish and rename_file_impl share: deprecate the entry
      at block, then create_file with the handle n and the FileInfo finfo.
      When block is a named slot and a slot is free, create_file cannot
      run out of space, takes a slot other than the old one, and so the old
      entry stays deprecated. */
  method Reissue(f: Image, block: nat, n: File, finfo: FileInfo) returns (r: Image, h: File, created: Result)
    requires n.WellFormed() && block + FILEBLOCK_SIZE <= FLASH_SIZE
    ensures created == CreateFileSuccess || created == FileAlreadyExist || created == NoFileblockSpace
    ensures created == FileAlreadyExist <==>
              OpenFileImpl(WriteFileblockState(f, block, FSTATE_DEPRECATE), n.name, n.ext, true).Some?
    ensures created != CreateFileSuccess ==> r == WriteFileblockState(f, block, FSTATE_DEPRECATE) && h == n
    ensures created == CreateFileSuccess ==> exists k :: 0 <= k < SLOT_COUNT && h == NewHandle(n, finfo, k)
    ensures NamedEntry(f, block) && AvailFiles(f) > 0 ==> created != NoFileblockSpace
    ensures NamedEntry(f, block) && AvailFiles(f) > 0 && created == CreateFileSuccess ==> !Dep(r[block + STATE_OFFSET])
    ensures created == CreateFileSuccess && FreeSlotsErased(f) && NamedEntry(f, block) && !AllErased(n.FullName()) && Live(finfo.state) ==>
              OpenFileImpl(r, n.name, n.ext, true) == Some(h) && FreeSlotsErased(r)
    ensures block + FILEBLOCK_SIZE <= DATA_ADDR_FIRST ==> forall t :: IsDataSector(t) ==> SectorBytes(r, t) == SectorBytes(f, t)
    ensures created == NoFileblockSpace <==>
              var g := WriteFileblockState(f, block, FSTATE_DEPRECATE);
              OpenFileImpl(g, n.name, n.ext, true).None? && FirstFreeSlot(g).None? && IndexTotal(g) == 0
  {
    var g := WriteFileblockState(f, block, FSTATE_DEPRECATE);
    if block + FILEBLOCK_SIZE <= DATA_ADDR_FIRST {
      DataFrame(f, g);
    }
    ghost var named := NamedEntry(f, block);
    if named {
      StateKeepsTable(f, block, FSTATE_DEPRECATE);
      AvailFilesFree(f);
      StateMarks(f, block);
    }
    r, h, created := CreateFile(g, n, finfo);
    if named && AvailFiles(f) > 0 && created == CreateFileSuccess {
      RenameLeavesOld(f, g, r, block, n, finfo);
    }
  }

  /** A state write into a named slot keeps every slot's name: the table's
      unnamed slots stay erased and the first free slot stays the same. */
  lemma StateKeepsTable(f: Image, block: nat, fstate: byte)
    requires NamedEntry(f, block)
    ensures block + FILEBLOCK_SIZE <= FLASH_SIZE
    ensures forall j :: 0 <= j < SLOT_COUNT ==> HasName(WriteFileblockState(f, block, fstate), j) == HasName(f, j)
    ensures FreeSlotsErased(f) ==> FreeSlotsErased(WriteFileblockState(f, block, fstate))
    ensures FirstFreeSlot(WriteFileblockState(f, block, fstate)) == FirstFreeSlot(f)
  {
    var k :| 0 <= k < SLOT_COUNT && SlotAddr(k) == block && HasName(f, k);
    SlotOnFlash(k);
    var g := WriteFileblockState(f, block, fstate);
    StateSlots(f, k, fstate);
    assert HasName(g, k) by {
      assert SlotBytes(g, k)[..FILENAME_FULLSIZE] == SlotBytes(f, k)[..FILENAME_FULLSIZE];
    }
    forall j | 0 <= j < SLOT_COUNT && j != k
      ensures HasName(g, j) == HasName(f, j)
    {
      SameSlot(f, g, j, SlotBytes(f, j)[..FILENAME_FULLSIZE]);
    }
    FreeScanSame(f, g);
  }

  /** A state write into slot k leaves the other slots and slot k's name
      alone. */
  lemma StateSlots(f: Image, k: nat, fstate: byte)
    requires k < SLOT_COUNT
    ensures SlotAddr(k) + FILEBLOCK_SIZE <= FLASH_SIZE
    ensures forall j :: 0 <= j < SLOT_COUNT && j != k ==>
              SlotBytes(WriteFileblockState(f, SlotAddr(k), fstate), j) == SlotBytes(f, j)
    ensures SlotBytes(WriteFileblockState(f, SlotAddr(k), fstate), k)[..FILENAME_FULLSIZE] == SlotBytes(f, k)[..FILENAME_FULLSIZE]
  {
    SlotOnFlash(k);
    var g := WriteFileblockState(f, SlotAddr(k), fstate);
    forall j | 0 <= j < SLOT_COUNT && j != k
      ensures SlotBytes(g, j) == SlotBytes(f, j)
    {
      if j < k {
        SlotAddrMonotone(j, k);
      } else {
        SlotAddrMonotone(k, j);
      }
      assert forall p :: 0 <= p < FILEBLOCK_SIZE ==> SlotBytes(g, j)[p] == SlotBytes(f, j)[p];
    }
    assert forall p :: 0 <= p < FILENAME_FULLSIZE ==> SlotBytes(g, k)[p] == SlotBytes(f, k)[p];
  }

  /** Tables with the same named slots have the same first free slot. */
  lemma FreeScanSame(f: Image, g: Image)
    requires forall j :: 0 <= j < SLOT_COUNT ==> HasName(g, j) == HasName(f, j)
    ensures FirstFreeSlot(g) == FirstFreeSlot(f)
  {
    var a, b := FirstFreeSlot(f), FirstFreeSlot(g);
    if a.Some? && b.Some? {
      assert !(a.value < b.value) && !(b.value < a.value);
    }
  }

  /** The length rename_file_impl takes of a new name: strlen_ext over the
      field width for a raw name, strlen for a C string. */
  function NameLength(s: seq<byte>, width: nat, raw: bool): (n: nat)
    requires raw ==> width <= |s|
    ensures n <= |s|
    ensures raw ==> n <= width && forall i :: 0 <= i < n ==> s[i] != EMPTY_BYTE
    ensures !raw ==> forall i :: 0 <= i < n ==> s[i] != 0
  {
    if raw then StrlenExt(s, width) else CStrLen(s)
  }

  /** The new name fits the handle's fields. */
  predicate NameFits(filename: seq<byte>, extname: seq<byte>, raw: bool)
    requires raw ==> FILENAME_SIZE <= |filename| && EXTNAME_SIZE <= |extname|
  {
    NameLength(filename, FILENAME_SIZE, raw) <= FILENAME_SIZE && NameLength(extname, EXTNAME_SIZE, raw) <= EXTNAME_SIZE
  }

  /** The handle after rename_file_impl cleared its name fields to 0xFF and
      copied the new name's bytes in. */
  function Renamed(file: File, filename: seq<byte>, extname: seq<byte>, raw: bool): (h: File)
    requires file.WellFormed()
    requires raw ==> FILENAME_SIZE <= |filename| && EXTNAME_SIZE <= |extname|
    requires NameFits(filename, extname, raw)
    ensures h.WellFormed()
    ensures h.block == file.block && h.cluster == file.cluster && h.length == file.length
    ensures h.name[..NameLength(filename, FILENAME_SIZE, raw)] == filename[..NameLength(filename, FILENAME_SIZE, raw)]
    ensures h.ext[..NameLength(extname, EXTNAME_SIZE, raw)] == extname[..NameLength(extname, EXTNAME_SIZE, raw)]
    ensures forall i :: NameLength(filename, FILENAME_SIZE, raw) <= i < FILENAME_SIZE ==> h.name[i] == EMPTY_BYTE
    ensures forall i :: NameLength(extname, EXTNAME_SIZE, raw) <= i < EXTNAME_SIZE ==> h.ext[i] == EMPTY_BYTE
  {
    var n, e := NameLength(filename, FILENAME_SIZE, raw), NameLength(extname, EXTNAME_SIZE, raw);
    file.(name := Pad(filename[..n], FILENAME_SIZE), ext := Pad(extname[..e], EXTNAME_SIZE))
  }

  /** rename_file_impl.  Only an entry with del, dep and rw all 1 may be
      renamed; the new name must fit; there must be a free slot.  Then the
      old entry is deprecated, the handle takes the new name, and
      create_file writes the renamed entry.  If that fails (the new name is
      taken) the result is NO_FILEBLOCK_SPACE with the old entry already
      deprecated and the handle already renamed. */
  method RenameFile(f: Image, file: File, filename: seq<byte>, extname: seq<byte>, raw: bool)
      returns (r: Image, h: File, res: Result)
    requires file.WellFormed() && file.block + FILEBLOCK_SIZE <= FLASH_SIZE
    requires raw ==> FILENAME_SIZE <= |filename| && EXTNAME_SIZE <= |extname|
    ensures res == FileRenameSuccess || res == FileCannotRename || res == FilenameOutOfBounds || res == NoFileblockSpace
    ensures res == FileCannotRename <==> !Writable(f[file.block + STATE_OFFSET])
    ensures res == FilenameOutOfBounds <==> Writable(f[file.block + STATE_OFFSET]) && !NameFits(filename, extname, raw)
    ensures res == FileCannotRename || res == FilenameOutOfBounds ==> r == f && h == file
    ensures Writable(f[file.block + STATE_OFFSET]) && NameFits(filename, extname, raw) && AvailFiles(f) == 0 ==>
              res == NoFileblockSpace && r == f && h == file
    ensures Writable(f[file.block + STATE_OFFSET]) && NameFits(filename, extname, raw) && AvailFiles(f) > 0 ==>
              && (res == NoFileblockSpace ==>
                    r == WriteFileblockState(f, file.block, FSTATE_DEPRECATE) && h == Renamed(file, filename, extname, raw))
              && (res == FileRenameSuccess ==>
                    exists k :: 0 <= k < SLOT_COUNT && h == NewHandle(Renamed(file, filename, extname, raw), ReadFinfo(f, file.block), k))
    ensures Writable(f[file.block + STATE_OFFSET]) && NameFits(filename, extname, raw) && AvailFiles(f) > 0 && NamedEntry(f, file.block) ==>
              && (res == NoFileblockSpace <==>
                    OpenFileImpl(WriteFileblockState(f, file.block, FSTATE_DEPRECATE),
                                 Renamed(file, filename, extname, raw).name, Renamed(file, filename, extname, raw).ext, true).Some?)
              && (res == FileRenameSuccess ==> !Dep(r[file.block + STATE_OFFSET]))
    ensures res == FileRenameSuccess && NamedEntry(f, file.block) && FreeSlotsErased(f)
            && !AllErased(Renamed(file, filename, extname, raw).FullName()) ==>
              OpenFileImpl(r, Renamed(file, filename, extname, raw).name, Renamed(file, filename, extname, raw).ext, true) == Some(h)
              && FreeSlotsErased(r)
  {
    var finfo := ReadFinfo(f, file.block);
    if !Writable(finfo.state) {
      return f, file, FileCannotRename;
    }
    if !NameFits(filename, extname, raw) {
      return f, file, FilenameOutOfBounds;
    }
    if AvailFiles(f) == 0 {
      return f, file, NoFileblockSpace;
    }
    var n := Renamed(file, filename, extname, raw);
    var created;
    r, h, created := Reissue(f, file.block, n, finfo);
    res := if created == CreateFileSuccess then FileRenameSuccess else NoFileblockSpace;
  }

  /** The renamed entry goes into the first free slot, which is not the old
      named one, so the old entry stays deprecated. */
  lemma RenameLeavesOld(f: Image, g: Image, r: Image, block: nat, n: File, finfo: FileInfo)
    requires n.WellFormed() && NamedEntry(f, block)
    requires forall j :: 0 <= j < SLOT_COUNT ==> HasName(g, j) == HasName(f, j)
    requires block + FILEBLOCK_SIZE <= FLASH_SIZE && !Dep(g[block + STATE_OFFSET])
    requires FirstFreeSlot(g).Some?
    requires r == WriteFileblock(g, SlotAddr(FirstFreeSlot(g).value), NewBlock(n, finfo))
    ensures !Dep(r[block + STATE_OFFSET])
  {
    var k :| 0 <= k < SLOT_COUNT && SlotAddr(k) == block && HasName(f, k);
    var j := FirstFreeSlot(g).value;
    assert HasName(g, k) && !HasName(g, j);
    OtherSlot(g, j, NewBlock(n, finfo), k);
    StateAt(g, r, k);
  }

  /** Equal slots have equal state bytes. */
  lemma StateAt(g: Image, r: Image, k: nat)
    requires k < SLOT_COUNT && SlotBytes(r, k) == SlotBytes(g, k)
    ensures SlotAddr(k) + FILEBLOCK_SIZE <= FLASH_SIZE
    ensures r[SlotAddr(k) + STATE_OFFSET] == g[SlotAddr(k) + STATE_OFFSET]
  {
    assert SlotBytes(r, k)[STATE_OFFSET] == SlotBytes(g, k)[STATE_OFFSET];
  }

  /* ---------------------------------------------------------------- */
  /* delete_file                                                      */
  /* ---------------------------------------------------------------- */

  /** delete_file.  A handle with a block marks its entry deleted, walks
      the cluster chain marking every sector DISCARD, and is emptied.  The
      walk stops only at an EMPTY_INT_VALUE link: None is a chain that
      leaves the data area or loops, where the source does not stop. */
  method DeleteFile(f: Image, file: File) returns (r: Option<Image>, h: File)
    requires file.WellFormed()
    requires file.block == EMPTY_INT || file.block + FILEBLOCK_SIZE <= FLASH_SIZE
    ensures file.block == EMPTY_INT ==> r == Some(f) && h == file
    ensures file.block != EMPTY_INT ==> h == file.(block := EMPTY_INT, cluster := EMPTY_INT, length := EMPTY_INT)
    ensures file.block != EMPTY_INT && file.block + FILEBLOCK_SIZE <= DATA_ADDR_FIRST ==>
              (r.Some? <==> ChainOf(f, file.cluster).Some?)
    ensures file.block != EMPTY_INT && file.block + FILEBLOCK_SIZE <= DATA_ADDR_FIRST && r.Some? ==>
              && !Del(r.value[file.block + STATE_OFFSET])
              && Dep(r.value[file.block + STATE_OFFSET]) == Dep(f[file.block + STATE_OFFSET])
              && (forall i :: 0 <= i < DATA_ADDR_FIRST && i != file.block + STATE_OFFSET ==> r.value[i] == f[i])
              && SameLinks(f, r.value) && SamePayloads(f, r.value)
              && (forall a: DataAddr :: a !in ChainOf(f, file.cluster).value ==> Mark(r.value, a) == Mark(f, a))
              && (forall i :: 0 <= i < |ChainOf(f, file.cluster).value| ==>
                    Mark(r.value, ChainOf(f, file.cluster).value[i]) == AndBytes(Mark(f, ChainOf(f, file.cluster).value[i]), DISCARD_BYTES))
  {
    if file.block == EMPTY_INT {
      return Some(f), file;
    }
    var g := WriteFileblockState(f, file.block, FSTATE_DELETE);
    r := DiscardWalk(g, file.cluster, DATA_SECTORS);
    h := file.(block := EMPTY_INT, cluster := EMPTY_INT, length := EMPTY_INT);
    if file.block + FILEBLOCK_SIZE <= DATA_ADDR_FIRST {
      StateMarks(f, file.block);
      DeleteWalk(f, g, file.block, file.cluster);
    }
  }

  /** The walk after an index-area state write: it runs on f's chain and
      marks exactly its sectors. */
  lemma DeleteWalk(f: Image, g: Image, block: nat, c: u32)
    requires block + FILEBLOCK_SIZE <= DATA_ADDR_FIRST
    requires forall i :: 0 <= i < FLASH_SIZE && i != block + STATE_OFFSET ==> g[i] == f[i]
    ensures DiscardWalk(g, c, DATA_SECTORS).Some? <==> ChainOf(f, c).Some?
    ensures DiscardWalk(g, c, DATA_SECTORS).Some? ==>
              && var r := DiscardWalk(g, c, DATA_SECTORS).value;
              && r[block + STATE_OFFSET] == g[block + STATE_OFFSET]
              && (forall i :: 0 <= i < DATA_ADDR_FIRST && i != block + STATE_OFFSET ==> r[i] == f[i])
              && SameLinks(f, r) && SamePayloads(f, r)
              && (forall a: DataAddr :: a !in ChainOf(f, c).value ==> Mark(r, a) == Mark(f, a))
              && (forall i :: 0 <= i < |ChainOf(f, c).value| ==>
                    Mark(r, ChainOf(f, c).value[i]) == AndBytes(Mark(f, ChainOf(f, c).value[i]), DISCARD_BYTES))
  {
    IndexWriteFrame(f, g, block + STATE_OFFSET);
    ChainFrame(f, g, c, DATA_SECTORS);
    DiscardWalkChain(g, c, DATA_SECTORS);
    if ChainOf(f, c).Some? {
      var s := ChainOf(f, c).value;
      DiscardAllFrame(g, s);
      DiscardAllMarks(g, s);
    }
  }

  /** A change of one byte below the data area leaves every data sector's
      marker, payload and link alone. */
  lemma IndexWriteFrame(f: Image, g: Image, p: nat)
    requires p < DATA_ADDR_FIRST
    requires forall i :: 0 <= i < FLASH_SIZE && i != p ==> g[i] == f[i]
    ensures SameLinks(f, g) && SamePayloads(f, g)
    ensures forall a: DataAddr :: Mark(g, a) == Mark(f, a)
  {
    forall a: DataAddr
      ensures LinkBytes(g, a) == LinkBytes(f, a) && Payload(g, a) == Payload(f, a) && Mark(g, a) == Mark(f, a)
    {
      assert forall i :: a <= i < a + SECTOR_SIZE ==> g[i] == f[i];
      assert LinkBytes(g, a) == g[a + LINK_OFFSET..a + SECTOR_SIZE];
    }
  }

  /* ---------------------------------------------------------------- */
  /* spifs_format and spifs_erase_sector                              */
  /* ---------------------------------------------------------------- */

  /** spifs_format: erase the index sectors, then the data sectors. */
  method Format(f: Image) returns (r: Image)
    ensures forall t :: (IsIndexSector(t) || IsDataSector(t)) ==> SectorBytes(r, t) == Ones(SECTOR_SIZE)
    ensures forall t :: 0 <= t < SECTOR_COUNT && !IsIndexSector(t) && !IsDataSector(t) ==> SectorBytes(r, t) == SectorBytes(f, t)
  {
    r := f;
    var sector := FB_SECTOR_START;
    while sector < DATA_SECTOR_END + 1
      invariant FB_SECTOR_START <= sector <= DATA_SECTOR_END + 1
      invariant forall t :: FB_SECTOR_START <= t < sector ==> SectorBytes(r, t) == Ones(SECTOR_SIZE)
      invariant forall t :: 0 <= t < SECTOR_COUNT && !(FB_SECTOR_START <= t < sector) ==> SectorBytes(r, t) == SectorBytes(f, t)
    {
      r := EraseStep(r, sector);
      sector := sector + 1;
    }
  }

  /** One erase: sector s reads all 0xFF, the others are as they were. */
  method EraseStep(f: Image, s: nat) returns (r: Image)
    requires s < SECTOR_COUNT
    ensures SectorBytes(r, s) == Ones(SECTOR_SIZE)
    ensures forall t :: 0 <= t < SECTOR_COUNT && t != s ==> SectorBytes(r, t) == SectorBytes(f, t)
  {
    r := Erase(f, s);
    SectorFrame(f, r, s);
    assert forall p :: 0 <= p < SECTOR_SIZE ==> SectorBytes(r, s)[p] == EMPTY_BYTE;
  }

  /** After spifs_format the table has no named slot, every unnamed slot is
      erased, create_file's scan takes slot 0, and every data sector is
      FREE. */
  lemma FormatEmpties(r: Image)
    requires forall t :: (IsIndexSector(t) || IsDataSector(t)) ==> SectorBytes(r, t) == Ones(SECTOR_SIZE)
    ensures forall k :: 0 <= k < SLOT_COUNT ==> !HasName(r, k) && AllErased(SlotBytes(r, k))
    ensures FreeSlotsErased(r)
    ensures FirstFreeSlot(r) == Some(0)
    ensures forall a: DataAddr :: IsFree(r, a)
  {
    forall k | 0 <= k < SLOT_COUNT
      ensures !HasName(r, k) && AllErased(SlotBytes(r, k))
    {
      SlotOfSector(r, k);
    }
    forall a: DataAddr
      ensures IsFree(r, a)
    {
      DataAddrSector(a);
      var t := a / SECTOR_SIZE;
      assert SectorBytes(r, t)[0] == r[a] && SectorBytes(r, t)[1] == r[a + 1];
      assert SectorBytes(r, t)[2] == r[a + 2] && SectorBytes(r, t)[3] == r[a + 3];
    }
  }

  /** spifs_erase_sector: the sector number is cut to its low 16 bits; an
      index or data sector is erased and TRUE returned, any other number is
      refused. */
  function EraseSector(f: Image, sec: u32): (res: (Image, bool))
    ensures var t := sec % 0x1_0000;
            res.1 <==> IsIndexSector(t) || IsDataSector(t)
    ensures var t := sec % 0x1_0000;
            res.1 ==> SectorBytes(res.0, t) == Ones(SECTOR_SIZE)
                      && forall u :: 0 <= u < SECTOR_COUNT && u != t ==> SectorBytes(res.0, u) == SectorBytes(f, u)
    ensures !res.1 ==> res.0 == f
  {
    var t := sec % 0x1_0000;
    if FB_SECTOR_START <= t < FB_SECTOR_END + 1 || DATA_SECTOR_START <= t < DATA_SECTOR_END + 1 then
      var r := Erase(f, t);
      SectorFrame(f, r, t);
      assert forall p :: 0 <= p < SECTOR_SIZE ==> SectorBytes(r, t)[p] == EMPTY_BYTE;
      (r, true)
    else
      (f, false)
  }
}

=== FILE: flash.dfy ===
/** The flash chip as an immutable byte image.  Programming a NOR flash can
    only clear bits, so writing `d` at `a` leaves `And(old, d)` in each byte;
    erasing a sector sets its 4096 bytes to 0xFF.  The RAM emulator of the
    chip copies instead (`Overwrite`); the two agree whenever a write only
    clears bits, which every write of the file system does. */
module Flash {
  import opened Bytes
  import opened Layout

  type Image = f: seq<byte> | |f| == FLASH_SIZE witness Ones(FLASH_SIZE)

  /** spi_flash_write on NOR flash: bytewise AND over [a, a + |d|). */
  function Program(f: Image, a: nat, d: seq<byte>): (r: Image)
    requires a + |d| <= FLASH_SIZE
    ensures forall i :: a <= i < a + |d| ==> r[i] == And(f[i], d[i - a])
    ensures forall i :: 0 <= i < a || a + |d| <= i < FLASH_SIZE ==> r[i] == f[i]
  {
    seq(FLASH_SIZE, i requires 0 <= i < FLASH_SIZE => if a <= i < a + |d| then And(f[i], d[i - a]) else f[i])
  }

  /** The RAM emulator's write: a plain copy over [a, a + |d|). */
  function Overwrite(f: Image, a: nat, d: seq<byte>): (r: Image)
    requires a + |d| <= FLASH_SIZE
    ensures r[a..a + |d|] == d
    ensures forall i :: 0 <= i < a || a + |d| <= i < FLASH_SIZE ==> r[i] == f[i]
  {
    var r := seq(FLASH_SIZE, i requires 0 <= i < FLASH_SIZE => if a <= i < a + |d| then d[i - a] else f[i]);
    assert r[a..a + |d|] == d;
    r
  }

  /** spi_flash_erase_sector: sector s becomes all 0xFF. */
  function Erase(f: Image, s: nat): (r: Image)
    requires s < SECTOR_COUNT
    ensures forall i :: SectorAddr(s) <= i < SectorAddr(s) + SECTOR_SIZE ==> r[i] == EMPTY_BYTE
    ensures forall i :: 0 <= i < SectorAddr(s) || SectorAddr(s) + SECTOR_SIZE <= i < FLASH_SIZE ==> r[i] == f[i]
  {
    seq(FLASH_SIZE, i requires 0 <= i < FLASH_SIZE =>
      if SectorAddr(s) <= i < SectorAddr(s) + SECTOR_SIZE then EMPTY_BYTE else f[i])
  }

  /** A program operation writes exactly `d` precisely when each byte of `d`
      only clears bits of what lies under it; then it agrees with the
      emulator's copy. */
  lemma ProgramIsOverwrite(f: Image, a: nat, d: seq<byte>)
    requires a + |d| <= FLASH_SIZE
    ensures Program(f, a, d) == Overwrite(f, a, d) <==> forall k :: 0 <= k < |d| ==> And(f[a + k], d[k]) == d[k]
  {
    var p, o := Program(f, a, d), Overwrite(f, a, d);
    if forall k :: 0 <= k < |d| ==> And(f[a + k], d[k]) == d[k] {
      forall i | 0 <= i < FLASH_SIZE
        ensures p[i] == o[i]
      {
        if a <= i < a + |d| {
          assert o[i] == o[a..a + |d|][i - a];
          assert And(f[a + (i - a)], d[i - a]) == d[i - a];
        }
      }
    }
    if p == o {
      forall k | 0 <= k < |d|
        ensures And(f[a + k], d[k]) == d[k]
      {
        assert o[a + k] == o[a..a + |d|][k];
        assert p[a + k] == And(f[a + k], d[k]);
      }
    }
  }

  /** Programming onto erased flash stores the data. */
  lemma ProgramErased(f: Image, a: nat, d: seq<byte>)
    requires a + |d| <= FLASH_SIZE
    requires AllErased(f[a..a + |d|])
    ensures Program(f, a, d)[a..a + |d|] == d
  {
    var r := Program(f, a, d);
    forall k | 0 <= k < |d|
      ensures r[a..a + |d|][k] == d[k]
    {
      assert f[a..a + |d|][k] == f[a + k];
      AndLaws(d[k], d[k], d[k]);
    }
  }

  lemma ProgramErasedIf(f: Image, a: nat, d: seq<byte>)
    requires a + |d| <= FLASH_SIZE
    ensures AllErased(f[a..a + |d|]) ==> Program(f, a, d)[a..a + |d|] == d
  {
    if AllErased(f[a..a + |d|]) {
      ProgramErased(f, a, d);
    }
  }

  /** Programming only clears bits, and programming the same data twice
      changes nothing the second time. */
  lemma ProgramMonotone(f: Image, a: nat, d: seq<byte>)
    requires a + |d| <= FLASH_SIZE
    ensures forall i :: 0 <= i < FLASH_SIZE ==> And(Program(f, a, d)[i], f[i]) == Program(f, a, d)[i]
    ensures Program(Program(f, a, d), a, d) == Program(f, a, d)
  {
    var r := Program(f, a, d);
    var r2 := Program(r, a, d);
    forall i | 0 <= i < FLASH_SIZE
      ensures r2[i] == r[i] && And(r[i], f[i]) == r[i]
    {
      if a <= i < a + |d| {
        AndLaws(f[i], d[i - a], d[i - a]);
        AndLaws(f[i], d[i - a], f[i]);
        AndLaws(r[i], f[i], d[i - a]);
        AndLaws(f[i], f[i], d[i - a]);
      } else {
        AndLaws(f[i], f[i], f[i]);
      }
    }
  }

  /** Programming 0xFF bytes is a no-op: this is why the staged words of the
      aligned writer may be padded with 0xFF. */
  lemma ProgramOnes(f: Image, a: nat, n: nat)
    requires a + n <= FLASH_SIZE
    ensures Program(f, a, Ones(n)) == f
  {
    var r := Program(f, a, Ones(n));
    forall i | 0 <= i < FLASH_SIZE
      ensures r[i] == f[i]
    {
      AndLaws(f[i], f[i], f[i]);
    }
  }

  /** Erasing a sector and programming data inside it leaves exactly the data
      there. */
  lemma EraseThenProgram(f: Image, s: nat, o: nat, d: seq<byte>)
    requires s < SECTOR_COUNT
    requires o + |d| <= SECTOR_SIZE
    ensures Program(Erase(f, s), SectorAddr(s) + o, d)[SectorAddr(s) + o..SectorAddr(s) + o + |d|] == d
  {
    var e := Erase(f, s);
    var a := SectorAddr(s) + o;
    assert AllErased(e[a..a + |d|]) by {
      var w := e[a..a + |d|];
      forall k | 0 <= k < |w|
        ensures w[k] == EMPTY_BYTE
      {
        assert w[k] == e[a + k];
      }
    }
    ProgramErased(e, a, d);
  }

  /** Two adjacent writes are one write of the concatenation. */
  lemma ProgramConcat(f: Image, a: nat, d: seq<byte>, e: seq<byte>)
    requires a + |d| + |e| <= FLASH_SIZE
    ensures Program(Program(f, a, d), a + |d|, e) == Program(f, a, d + e)
  {
    var x, y := Program(Program(f, a, d), a + |d|, e), Program(f, a, d + e);
    forall i | 0 <= i < FLASH_SIZE
      ensures x[i] == y[i]
    {
      if a <= i < a + |d| {
        assert (d + e)[i - a] == d[i - a];
      } else if a + |d| <= i < a + |d| + |e| {
        assert (d + e)[i - a] == e[i - a - |d|];
      }
    }
  }

  /** A program operation leaves every range it does not overlap as it was. */
  lemma ProgramRangeFrame(f: Image, a: nat, d: seq<byte>, lo: nat, hi: nat)
    requires a + |d| <= FLASH_SIZE && lo <= hi <= FLASH_SIZE
    requires hi <= a || a + |d| <= lo
    ensures Program(f, a, d)[lo..hi] == f[lo..hi]
  {
    var r := Program(f, a, d);
    assert forall i :: lo <= i < hi ==> r[i] == f[i];
  }

  /** An erase leaves every range outside the sector as it was. */
  lemma EraseRangeFrame(f: Image, s: nat, lo: nat, hi: nat)
    requires s < SECTOR_COUNT && lo <= hi <= FLASH_SIZE
    requires hi <= SectorAddr(s) || SectorAddr(s) + SECTOR_SIZE <= lo
    ensures Erase(f, s)[lo..hi] == f[lo..hi]
  {
    var r := Erase(f, s);
    assert forall i :: lo <= i < hi ==> r[i] == f[i];
  }
}

=== FILE: gc.dfy ===
/** spifs_gc: the garbage collector.  The index pass copies each index
    sector to RAM, resets to 0xFF every named entry that is deleted,
    deprecated or has no cluster, and erases and rewrites the sector when it
    reset something.  The data pass erases sectors marked DISCARD while
    fewer than `nums` things have been reclaimed. */
module Gc {
  import opened Bytes
  import opened Layout
  import opened StateCodec
  import opened Records
  import opened Flash
  import opened DiskIo
  import opened Index
  import opened Chain

  /** GC_TYPE_FILEBLOCK, GC_TYPE_DATAAREA, GC_TYPE_MAJOR. */
  datatype GcType = Fileblock | DataArea | Major

  /** The bytes of sector s. */
  function SectorBytes(f: Image, s: nat): (b: seq<byte>)
    requires s < SECTOR_COUNT
    ensures |b| == SECTOR_SIZE
  {
    f[SectorAddr(s)..SectorAddr(s) + SECTOR_SIZE]
  }

  /** Bytes of an index sector that hold slots; the 16 bytes after them are
      never a slot. */
  const SLOT_AREA: nat := SLOTS_PER_SECTOR * FILEBLOCK_SIZE

  /** Slot j of a RAM copy of an index sector. */
  function SlotOf(buf: seq<byte>, j: nat): (s: seq<byte>)
    requires |buf| == SECTOR_SIZE && j < SLOTS_PER_SECTOR
    ensures |s| == FILEBLOCK_SIZE
  {
    buf[j * FILEBLOCK_SIZE..j * FILEBLOCK_SIZE + FILEBLOCK_SIZE]
  }

  /** The entries the index pass reclaims: named, and deleted, deprecated
      or without a cluster. */
  predicate Reclaimable(fb: seq<byte>)
    requires |fb| == FILEBLOCK_SIZE
  {
    FbHasName(fb)
    && (!Del(fb[STATE_OFFSET]) || !Dep(fb[STATE_OFFSET]) || Word(fb[CLUSTER_OFFSET..LENGTH_OFFSET]) == EMPTY_INT)
  }

  /** What a visited entry becomes. */
  function Cleared(fb: seq<byte>): (r: seq<byte>)
    requires |fb| == FILEBLOCK_SIZE
    ensures |r| == FILEBLOCK_SIZE
  {
    if Reclaimable(fb) then Ones(FILEBLOCK_SIZE) else fb
  }

  /** The slots of a sector copy from j on that the pass reclaims. */
  function ReclaimableFrom(buf: seq<byte>, j: nat): set<nat>
    requires |buf| == SECTOR_SIZE
  {
    set i | j <= i < SLOTS_PER_SECTOR && Reclaimable(SlotOf(buf, i))
  }

  /** The reclaimable slots below j. */
  function ReclaimableBelow(buf: seq<byte>, j: nat): set<nat>
    requires |buf| == SECTOR_SIZE
  {
    set i | 0 <= i < j && i < SLOTS_PER_SECTOR && Reclaimable(SlotOf(buf, i))
  }

  /** out is buf after the slot loop: every slot replaced by Cleared of
      itself and the bytes after the last slot kept. */
  ghost predicate Swept(buf: seq<byte>, out: seq<byte>)
    requires |buf| == SECTOR_SIZE && |out| == SECTOR_SIZE
  {
    && (forall i :: 0 <= i < SLOTS_PER_SECTOR ==> SlotOf(out, i) == Cleared(SlotOf(buf, i)))
    && out[SLOT_AREA..] == buf[SLOT_AREA..]
  }

  /** The slot loop has visited the slots below j: those are Cleared of
      themselves, the others and the tail are kept, count is the number of
      reclaimable slots visited, and nothing changed while count is 0. */
  ghost predicate SweptBelow(buf: seq<byte>, out: seq<byte>, j: nat, count: nat)
    requires |buf| == SECTOR_SIZE
  {
    && |out| == SECTOR_SIZE
    && (forall i :: 0 <= i < j && i < SLOTS_PER_SECTOR ==> SlotOf(out, i) == Cleared(SlotOf(buf, i)))
    && (forall i :: j <= i < SLOTS_PER_SECTOR ==> SlotOf(out, i) == SlotOf(buf, i))
    && out[SLOT_AREA..] == buf[SLOT_AREA..]
    && count == |ReclaimableBelow(buf, j)|
    && (count == 0 ==> out == buf)
  }

  /** The slot loop of the index pass on a RAM copy of one sector: while at
      least a slot's worth of bytes remains, an unnamed slot is skipped, and
      a named one that is deleted, deprecated or without a cluster is cleared
      with clear_fileblock and counted.  Every slot ends up Cleared of
      itself, the count is the number of reclaimable slots, and the copy
      changes exactly when something was counted. */
  method CollectSlots(buf: seq<byte>) returns (out: seq<byte>, count: nat)
    requires |buf| == SECTOR_SIZE
    ensures |out| == SECTOR_SIZE && Swept(buf, out)
    ensures count == |ReclaimableFrom(buf, 0)|
    ensures count == 0 <==> out == buf
  {
    out, count := buf, 0;
    var offset := 0;
    var j := 0;
    assert ReclaimableBelow(buf, 0) == {};
    while SECTOR_SIZE - offset >= FILEBLOCK_SIZE
      invariant j <= SLOTS_PER_SECTOR && offset == j * FILEBLOCK_SIZE
      invariant SweptBelow(buf, out, j, count)
      decreases SECTOR_SIZE - offset
    {
      SlotsPerSector(j);
      out, count := VisitSlot(buf, out, j, count);
      offset := offset + FILEBLOCK_SIZE;
      j := j + 1;
    }
    SlotsPerSector(j);
    SweptAll(buf, out, count);
  }

  /** One turn of the slot loop, at slot j (offset j * 24): an unnamed slot
      is skipped; a named one that is deleted, deprecated or has no cluster
      is cleared and counted. */
  method VisitSlot(buf: seq<byte>, out: seq<byte>, j: nat, count: nat) returns (out': seq<byte>, count': nat)
    requires |buf| == SECTOR_SIZE && j < SLOTS_PER_SECTOR
    requires SweptBelow(buf, out, j, count)
    ensures SweptBelow(buf, out', j + 1, count')
    ensures count' == if Reclaimable(SlotOf(buf, j)) then count + 1 else count
  {
    var offset := j * FILEBLOCK_SIZE;
    var slot := out[offset..offset + FILEBLOCK_SIZE];
    assert slot == SlotOf(out, j) == SlotOf(buf, j);
    out', count' := out, count;
    if !FbHasName(slot) {
      KeepAt(buf, out, j, count);
    } else if !Del(slot[STATE_OFFSET]) || !Dep(slot[STATE_OFFSET])
              || Word(slot[CLUSTER_OFFSET..LENGTH_OFFSET]) == EMPTY_INT {
      ReclaimAt(buf, out, j, count);
      out' := ClearFileblock(out, offset);
      count' := count + 1;
    } else {
      KeepAt(buf, out, j, count);
    }
  }

  /** Clearing slot j of a sector copy resets that slot and nothing else. */
  lemma ClearSlot(buf: seq<byte>, j: nat)
    requires |buf| == SECTOR_SIZE && j < SLOTS_PER_SECTOR
    ensures SlotOf(ClearFileblock(buf, j * FILEBLOCK_SIZE), j) == Ones(FILEBLOCK_SIZE)
    ensures forall i :: 0 <= i < SLOTS_PER_SECTOR && i != j ==>
              SlotOf(ClearFileblock(buf, j * FILEBLOCK_SIZE), i) == SlotOf(buf, i)
    ensures ClearFileblock(buf, j * FILEBLOCK_SIZE)[SLOT_AREA..] == buf[SLOT_AREA..]
  {
    var c := ClearFileblock(buf, j * FILEBLOCK_SIZE);
    assert SlotOf(c, j) == Ones(FILEBLOCK_SIZE);
    forall i | 0 <= i < SLOTS_PER_SECTOR && i != j
      ensures SlotOf(c, i) == SlotOf(buf, i)
    {
      assert i * FILEBLOCK_SIZE + FILEBLOCK_SIZE <= j * FILEBLOCK_SIZE || j * FILEBLOCK_SIZE + FILEBLOCK_SIZE <= i * FILEBLOCK_SIZE;
      assert forall p :: 0 <= p < FILEBLOCK_SIZE ==> SlotOf(c, i)[p] == SlotOf(buf, i)[p];
    }
    assert forall p :: 0 <= p < SECTOR_SIZE - SLOT_AREA ==> c[SLOT_AREA..][p] == buf[SLOT_AREA..][p];
  }

  /** Slot j is reclaimed: clearing it extends SweptBelow by one slot and
      one count. */
  lemma ReclaimAt(buf: seq<byte>, out: seq<byte>, j: nat, count: nat)
    requires |buf| == SECTOR_SIZE && j < SLOTS_PER_SECTOR
    requires SweptBelow(buf, out, j, count) && Reclaimable(SlotOf(buf, j))
    ensures SweptBelow(buf, ClearFileblock(out, j * FILEBLOCK_SIZE), j + 1, count + 1)
  {
    var c := ClearFileblock(out, j * FILEBLOCK_SIZE);
    ClearSlot(out, j);
    assert ReclaimableBelow(buf, j + 1) == ReclaimableBelow(buf, j) + {j};
    FbHasNameSpec(SlotOf(buf, j));
    assert SlotOf(c, j)[..FILENAME_FULLSIZE] == Ones(FILENAME_FULLSIZE);
    assert SlotOf(c, j) != SlotOf(buf, j);
  }

  /** Slot j is kept: SweptBelow extends by one slot. */
  lemma KeepAt(buf: seq<byte>, out: seq<byte>, j: nat, count: nat)
    requires |buf| == SECTOR_SIZE && j < SLOTS_PER_SECTOR
    requires SweptBelow(buf, out, j, count) && !Reclaimable(SlotOf(buf, j))
    ensures SweptBelow(buf, out, j + 1, count)
  {
    assert ReclaimableBelow(buf, j + 1) == ReclaimableBelow(buf, j);
  }

  /** All slots visited. */
  lemma SweptAll(buf: seq<byte>, out: seq<byte>, count: nat)
    requires |buf| == SECTOR_SIZE && SweptBelow(buf, out, SLOTS_PER_SECTOR, count)
    ensures Swept(buf, out)
    ensures count == |ReclaimableFrom(buf, 0)|
    ensures count == 0 <==> out == buf
  {
    assert ReclaimableBelow(buf, SLOTS_PER_SECTOR) == ReclaimableFrom(buf, 0);
    if count != 0 {
      var i :| i in ReclaimableBelow(buf, SLOTS_PER_SECTOR);
      FbHasNameSpec(SlotOf(buf, i));
      assert SlotOf(out, i)[..FILENAME_FULLSIZE] == Ones(FILENAME_FULLSIZE);
      assert SlotOf(out, i) != SlotOf(buf, i);
    }
  }

  /** The count the slot loop gives for index sector s of f. */
  function SectorCount(f: Image, s: nat): nat
    requires IsIndexSector(s)
  {
    |ReclaimableFrom(SectorBytes(f, s), 0)|
  }

  /** One index sector: read it, run the slot loop on the copy, and, if
      something was reclaimed, erase the sector and write the copy back. */
  method CollectIndexSector(f: Image, s: nat) returns (r: Image, count: nat)
    requires IsIndexSector(s)
    ensures Swept(SectorBytes(f, s), SectorBytes(r, s))
    ensures count == SectorCount(f, s)
    ensures count == 0 <==> r == f
    ensures forall t :: 0 <= t < SECTOR_COUNT && t != s ==> SectorBytes(r, t) == SectorBytes(f, t)
  {
    var buf := SectorBytes(f, s);
    var out;
    out, count := CollectSlots(buf);
    var rewrite := count > 0;
    if rewrite {
      var e := Erase(f, s);
      r := Program(e, SectorAddr(s), out);
      RewriteSector(f, s, out);
    } else {
      r := f;
    }
  }

  /** Erasing sector s and programming a full sector copy into it leaves
      exactly that copy there and every other sector as it was. */
  lemma RewriteSector(f: Image, s: nat, out: seq<byte>)
    requires s < SECTOR_COUNT && |out| == SECTOR_SIZE
    ensures SectorBytes(Program(Erase(f, s), SectorAddr(s), out), s) == out
    ensures forall t :: 0 <= t < SECTOR_COUNT && t != s ==> SectorBytes(Program(Erase(f, s), SectorAddr(s), out), t) == SectorBytes(f, t)
  {
    var r := Program(Erase(f, s), SectorAddr(s), out);
    EraseThenProgram(f, s, 0, out);
    SectorFrame(f, r, s);
  }

  /** Number of index sectors. */
  const FB_SECTORS: nat := FB_SECTOR_END - FB_SECTOR_START + 1

  /** The count the slot loop gives for each index sector, in order. */
  function SectorCounts(f: Image): (c: seq<nat>)
    ensures |c| == FB_SECTORS
    ensures forall k :: 0 <= k < FB_SECTORS ==> c[k] == SectorCount(f, FB_SECTOR_START + k)
  {
    [SectorCount(f, FB_SECTOR_START), SectorCount(f, FB_SECTOR_START + 1),
     SectorCount(f, FB_SECTOR_START + 2), SectorCount(f, FB_SECTOR_START + 3)]
  }

  /** The sum of the first k counts: the pass's count after k sectors. */
  function CountBefore(c: seq<nat>, k: nat): nat
    requires k <= |c|
  {
    if k == 0 then 0 else CountBefore(c, k - 1) + c[k - 1]
  }

  /** Prefix sums grow with the prefix. */
  lemma {:induction false} CountBeforeMonotone(c: seq<nat>, e: nat, m: nat)
    requires e <= m <= |c|
    ensures CountBefore(c, e) <= CountBefore(c, m)
    decreases m
  {
    if e < m {
      CountBeforeMonotone(c, e, m - 1);
    }
  }

  /** How many index sectors the pass visits, searching from sector k: in
      FILEBLOCK mode it breaks after the first sector at whose end the count
      reaches nums. */
  function Reach(c: seq<nat>, fileblockOnly: bool, nums: nat, k: nat): (e: nat)
    requires k <= |c|
    ensures k <= e <= |c|
    decreases |c| - k
  {
    if k == |c| then k
    else if fileblockOnly && CountBefore(c, k + 1) >= nums then k + 1
    else Reach(c, fileblockOnly, nums, k + 1)
  }

  /** The pass stops early only once the count has reached nums, never
      before; in the other modes it visits every sector. */
  lemma {:induction false} ReachStops(c: seq<nat>, fileblockOnly: bool, nums: nat, k: nat)
    requires k <= |c|
    ensures Reach(c, fileblockOnly, nums, k) < |c| ==> fileblockOnly && CountBefore(c, Reach(c, fileblockOnly, nums, k)) >= nums
    ensures forall m :: k < m < Reach(c, fileblockOnly, nums, k) ==> !(fileblockOnly && CountBefore(c, m) >= nums)
    ensures !fileblockOnly ==> Reach(c, fileblockOnly, nums, k) == |c|
    decreases |c| - k
  {
    if k < |c| && !(fileblockOnly && CountBefore(c, k + 1) >= nums) {
      ReachStops(c, fileblockOnly, nums, k + 1);
    }
  }

  /** Sector s was left as it was outside the bytes that changed. */
  lemma SectorFrame(f: Image, g: Image, s: nat)
    requires s < SECTOR_COUNT
    requires forall i :: 0 <= i < SectorAddr(s) || SectorAddr(s) + SECTOR_SIZE <= i < FLASH_SIZE ==> g[i] == f[i]
    ensures forall t :: 0 <= t < SECTOR_COUNT && t != s ==> SectorBytes(g, t) == SectorBytes(f, t)
  {
    forall t | 0 <= t < SECTOR_COUNT && t != s
      ensures SectorBytes(g, t) == SectorBytes(f, t)
    {
      assert t < s ==> SectorAddr(t) + SECTOR_SIZE <= SectorAddr(s);
      assert t > s ==> SectorAddr(s) + SECTOR_SIZE <= SectorAddr(t);
      assert forall p :: 0 <= p < SECTOR_SIZE ==> SectorBytes(g, t)[p] == SectorBytes(f, t)[p];
    }
  }

  /** Changes confined below the data area leave every data sector alone. */
  lemma DataFrame(f: Image, g: Image)
    requires forall i :: DATA_ADDR_FIRST <= i < FLASH_SIZE ==> g[i] == f[i]
    ensures forall t :: IsDataSector(t) ==> SectorBytes(g, t) == SectorBytes(f, t)
  {
    forall t | IsDataSector(t)
      ensures SectorBytes(g, t) == SectorBytes(f, t)
    {
      assert DATA_ADDR_FIRST <= SectorAddr(t);
      assert forall p :: 0 <= p < SECTOR_SIZE ==> SectorBytes(g, t)[p] == SectorBytes(f, t)[p];
    }
  }

  /** r is f after the index pass visited the index sectors before s:
      those hold their swept copy, every other sector is as in f. */
  ghost predicate IndexDone(f: Image, r: Image, s: nat)
    requires FB_SECTOR_START <= s <= FB_SECTOR_END + 1
  {
    && (forall t :: FB_SECTOR_START <= t < s ==> Swept(SectorBytes(f, t), SectorBytes(r, t)))
    && (forall t :: 0 <= t < SECTOR_COUNT && !(FB_SECTOR_START <= t < s) ==> SectorBytes(r, t) == SectorBytes(f, t))
  }

  /** One more step of the FILEBLOCK-mode search. */
  lemma ReachStep(c: seq<nat>, fileblockOnly: bool, nums: nat, k: nat)
    requires k < |c|
    ensures Reach(c, fileblockOnly, nums, k) ==
              if fileblockOnly && CountBefore(c, k + 1) >= nums then k + 1 else Reach(c, fileblockOnly, nums, k + 1)
  {
  }

  /** The index pass: every index sector in order, accumulating the count;
      in FILEBLOCK mode it breaks once the count reaches nums.  The visited
      sectors hold their swept copy; every other sector is unchanged. */
  method IndexPass(f: Image, fileblockOnly: bool, nums: nat) returns (r: Image, count: nat)
    ensures var c := SectorCounts(f);
            var e := Reach(c, fileblockOnly, nums, 0);
            && count == CountBefore(c, e)
            && IndexDone(f, r, FB_SECTOR_START + e)
    ensures count == 0 ==> r == f
  {
    ghost var c := SectorCounts(f);
    r, count := f, 0;
    var s := FB_SECTOR_START;
    while s < FB_SECTOR_END + 1
      invariant FB_SECTOR_START <= s <= FB_SECTOR_END + 1
      invariant Reach(c, fileblockOnly, nums, 0) == Reach(c, fileblockOnly, nums, s - FB_SECTOR_START)
      invariant count == CountBefore(c, s - FB_SECTOR_START)
      invariant IndexDone(f, r, s)
      invariant count == 0 ==> r == f
    {
      ReachStep(c, fileblockOnly, nums, s - FB_SECTOR_START);
      r, count := VisitSector(f, r, s, count);
      s := s + 1;
      if fileblockOnly && count >= nums {
        break;
      }
    }
  }

  /** One turn of the index pass: sector s is collected and its count
      added. */
  method VisitSector(f: Image, r: Image, s: nat, count: nat) returns (r': Image, count': nat)
    requires IsIndexSector(s) && IndexDone(f, r, s)
    requires count == CountBefore(SectorCounts(f), s - FB_SECTOR_START)
    requires count == 0 ==> r == f
    ensures IndexDone(f, r', s + 1)
    ensures count' == CountBefore(SectorCounts(f), s + 1 - FB_SECTOR_START)
    ensures count' == 0 ==> r' == f
  {
    var g, n := CollectIndexSector(r, s);
    assert SectorBytes(r, s) == SectorBytes(f, s);
    assert n == SectorCounts(f)[s - FB_SECTOR_START];
    r', count' := g, count + n;
  }

  /** Sectors processed by the data pass that are erased: DISCARD ones, as
      long as the count before them is below nums. */
  function DiscardsBelow(f: Image, t: nat): (n: nat)
    requires DATA_SECTOR_START <= t <= DATA_SECTOR_END + 1
    decreases t
  {
    if t == DATA_SECTOR_START then 0
    else DiscardsBelow(f, t - 1) + (if IsDiscard(f, SectorAddr(t - 1)) then 1 else 0)
  }

  lemma {:induction false} DiscardsBelowMonotone(f: Image, t: nat, u: nat)
    requires DATA_SECTOR_START <= t <= u <= DATA_SECTOR_END + 1
    ensures DiscardsBelow(f, t) <= DiscardsBelow(f, u)
    decreases u
  {
    if t < u {
      DiscardsBelowMonotone(f, t, u - 1);
    }
  }

  /** The data pass erases data sector t: it is DISCARD and the count on
      reaching it, count0 plus the DISCARD sectors before it, is below nums. */
  predicate DataErased(f: Image, count0: nat, nums: nat, t: nat)
    requires IsDataSector(t)
  {
    IsDiscard(f, SectorAddr(t)) && count0 + DiscardsBelow(f, t) < nums
  }

  /** The data pass, starting with count0: the data sectors in order while
      the count is below nums; a sector whose marker reads
      SECTOR_DISCARD_FLAG is erased and counted. */
  method DataPass(f: Image, count0: nat, nums: nat) returns (r: Image, count: nat)
    ensures count0 >= nums ==> count == count0 && r == f
    ensures count0 < nums ==> count == count0 + Min(nums - count0, DiscardsBelow(f, DATA_SECTOR_END + 1))
    ensures forall t :: DATA_SECTOR_START <= t <= DATA_SECTOR_END ==>
              SectorBytes(r, t) == if DataErased(f, count0, nums, t) then Ones(SECTOR_SIZE) else SectorBytes(f, t)
    ensures forall t :: 0 <= t < SECTOR_COUNT && !IsDataSector(t) ==> SectorBytes(r, t) == SectorBytes(f, t)
  {
    r, count := f, count0;
    var t := DATA_SECTOR_START;
    while t < DATA_SECTOR_END + 1 && count < nums
      invariant DATA_SECTOR_START <= t <= DATA_SECTOR_END + 1
      invariant count == count0 + DiscardsBelow(f, t)
      invariant count0 < nums ==> count <= nums
      invariant count0 >= nums ==> r == f && t == DATA_SECTOR_START
      invariant forall u :: DATA_SECTOR_START <= u < t ==>
                  SectorBytes(r, u) == if DataErased(f, count0, nums, u) then Ones(SECTOR_SIZE) else SectorBytes(f, u)
      invariant forall u :: t <= u <= DATA_SECTOR_END ==> SectorBytes(r, u) == SectorBytes(f, u)
      invariant forall t :: 0 <= t < SECTOR_COUNT && !IsDataSector(t) ==> SectorBytes(r, t) == SectorBytes(f, t)
    {
      var a := SectorAddr(t);
      var marker := MarkerAt(r, a);
      MarkerWords(r, a);
      SameMarker(f, r, t);
      if marker == SECTOR_DISCARD_FLAG {
        var g := Erase(r, t);
        assert SectorBytes(g, t) == Ones(SECTOR_SIZE);
        SectorFrame(r, g, t);
        r, count := g, count + 1;
      }
      t := t + 1;
    }
    if t <= DATA_SECTOR_END {
      forall u | t <= u <= DATA_SECTOR_END
        ensures !DataErased(f, count0, nums, u)
      {
        DiscardsBelowMonotone(f, t, u);
      }
      DiscardsBelowMonotone(f, t, DATA_SECTOR_END + 1);
    }
  }

  /** A sector with the same bytes has the same marker. */
  lemma SameMarker(f: Image, g: Image, t: nat)
    requires t < SECTOR_COUNT && SectorBytes(g, t) == SectorBytes(f, t)
    ensures IsDiscard(g, SectorAddr(t)) == IsDiscard(f, SectorAddr(t))
  {
    var a := SectorAddr(t);
    assert g[a] == SectorBytes(g, t)[0] && g[a + 1] == SectorBytes(g, t)[1];
    assert g[a + 2] == SectorBytes(g, t)[2] && g[a + 3] == SectorBytes(g, t)[3];
  }

  /** Data sectors with the same bytes give the data pass the same
      decisions. */
  lemma {:induction false} DiscardsBelowFrame(f: Image, g: Image, t: nat)
    requires DATA_SECTOR_START <= t <= DATA_SECTOR_END + 1
    requires forall u :: DATA_SECTOR_START <= u <= DATA_SECTOR_END ==> SectorBytes(g, u) == SectorBytes(f, u)
    ensures DiscardsBelow(g, t) == DiscardsBelow(f, t)
    decreases t
  {
    if t > DATA_SECTOR_START {
      DiscardsBelowFrame(f, g, t - 1);
      SameMarker(f, g, t - 1);
    }
  }

  /** The count of the index pass when it visits every sector. */
  function IndexTotal(f: Image): nat
  {
    CountBefore(SectorCounts(f), FB_SECTORS)
  }

  /** Slot k of the index table is slot k % 170 of its sector's bytes. */
  lemma SlotOfSector(f: Image, k: nat)
    requires k < SLOT_COUNT
    ensures SlotBytes(f, k) == SlotOf(SectorBytes(f, SlotSector(k)), k % SLOTS_PER_SECTOR)
  {
    SlotAddrClosed(k);
    var b := SectorBytes(f, SlotSector(k));
    var o := (k % SLOTS_PER_SECTOR) * FILEBLOCK_SIZE;
    assert SlotAddr(k) == SectorAddr(SlotSector(k)) + o;
    assert forall p :: 0 <= p < FILEBLOCK_SIZE ==> SlotBytes(f, k)[p] == b[o + p];
  }

  /** Where every index sector is swept, every slot of the table is Cleared
      of what it was. */
  lemma SweptTable(f: Image, r: Image)
    requires forall t :: FB_SECTOR_START <= t <= FB_SECTOR_END ==> Swept(SectorBytes(f, t), SectorBytes(r, t))
    ensures forall k :: 0 <= k < SLOT_COUNT ==> SlotBytes(r, k) == Cleared(SlotBytes(f, k))
  {
    forall k | 0 <= k < SLOT_COUNT
      ensures SlotBytes(r, k) == Cleared(SlotBytes(f, k))
    {
      SlotOfSector(f, k);
      SlotOfSector(r, k);
    }
  }

  /** A cleared entry is never reclaimable again. */
  lemma ClearedFinal(fb: seq<byte>)
    requires |fb| == FILEBLOCK_SIZE
    ensures !Reclaimable(Cleared(fb))
    ensures Reclaimable(fb) ==> !FbHasName(Cleared(fb))
    ensures !Reclaimable(fb) ==> Cleared(fb) == fb
  {
    FbHasNameSpec(Ones(FILEBLOCK_SIZE));
    assert Ones(FILEBLOCK_SIZE)[..FILENAME_FULLSIZE] == Ones(FILENAME_FULLSIZE);
  }

  /** A positive sum has a positive term. */
  lemma {:induction false} PositiveTerm(c: seq<nat>, e: nat) returns (k: nat)
    requires e <= |c| && CountBefore(c, e) > 0
    ensures k < e && c[k] > 0
  {
    if c[e - 1] > 0 {
      k := e - 1;
    } else {
      k := PositiveTerm(c, e - 1);
    }
  }

  /** An index pass that reclaimed something leaves a slot without a name,
      so the slot search of create_file then succeeds. */
  lemma IndexPassFrees(f: Image, r: Image, e: nat)
    requires e <= FB_SECTORS && IndexDone(f, r, FB_SECTOR_START + e)
    requires CountBefore(SectorCounts(f), e) > 0
    ensures FirstFreeSlot(r).Some?
  {
    var k := PositiveTerm(SectorCounts(f), e);
    var t := FB_SECTOR_START + k;
    var buf := SectorBytes(f, t);
    var i :| i in ReclaimableFrom(buf, 0);
    assert Swept(buf, SectorBytes(r, t));
    FreedSlot(f, r, t, i);
  }

  /** A reclaimable slot of a swept sector has no name afterwards. */
  lemma FreedSlot(f: Image, r: Image, t: nat, i: nat)
    requires IsIndexSector(t) && i < SLOTS_PER_SECTOR
    requires Swept(SectorBytes(f, t), SectorBytes(r, t)) && Reclaimable(SlotOf(SectorBytes(f, t), i))
    ensures (t - FB_SECTOR_START) * SLOTS_PER_SECTOR + i < SLOT_COUNT
    ensures !HasName(r, (t - FB_SECTOR_START) * SLOTS_PER_SECTOR + i)
  {
    var g := (t - FB_SECTOR_START) * SLOTS_PER_SECTOR + i;
    SlotNumber(t - FB_SECTOR_START, i);
    SlotOfSector(r, g);
    ClearedFinal(SlotOf(SectorBytes(f, t), i));
    NamedIsFbHasName(r, g);
  }

  /** Slot i of the k-th index sector is slot k * 170 + i of the table. */
  lemma SlotNumber(k: nat, i: nat)
    requires k < FB_SECTORS && i < SLOTS_PER_SECTOR
    ensures k * SLOTS_PER_SECTOR + i < SLOT_COUNT
    ensures (k * SLOTS_PER_SECTOR + i) / SLOTS_PER_SECTOR == k
    ensures (k * SLOTS_PER_SECTOR + i) % SLOTS_PER_SECTOR == i
  {
  }

  /** spifs_gc.  FILEBLOCK and MAJOR run the index pass (FILEBLOCK may stop
      after a sector once the count reaches nums); DATAAREA and MAJOR run
      the data pass, DATAAREA from a zero count and MAJOR from the index
      pass's count.  Returns the image and the final count. */
  method Collect(f: Image, tp: GcType, nums: nat) returns (r: Image, count: nat)
    ensures forall t :: 0 <= t < SECTOR_COUNT && !IsIndexSector(t) && !IsDataSector(t) ==> SectorBytes(r, t) == SectorBytes(f, t)
    ensures forall t :: IsIndexSector(t) ==> SectorBytes(r, t) == SectorBytes(f, t) || Swept(SectorBytes(f, t), SectorBytes(r, t))
    ensures tp == DataArea ==> forall t :: IsIndexSector(t) ==> SectorBytes(r, t) == SectorBytes(f, t)
    ensures tp == Major ==> forall t :: IsIndexSector(t) ==> Swept(SectorBytes(f, t), SectorBytes(r, t))
    ensures tp == Fileblock ==> forall t :: IsDataSector(t) ==> SectorBytes(r, t) == SectorBytes(f, t)
    ensures tp == Fileblock ==> count >= nums || (count == IndexTotal(f) && forall t :: IsIndexSector(t) ==> Swept(SectorBytes(f, t), SectorBytes(r, t)))
    ensures tp == Fileblock ==>
              var c := SectorCounts(f);
              var e := Reach(c, true, nums, 0);
              && count == CountBefore(c, e)
              && IndexDone(f, r, FB_SECTOR_START + e)
              && (forall m :: 0 < m < e ==> CountBefore(c, m) < nums)
    ensures tp == Fileblock && count > 0 ==> FirstFreeSlot(r).Some?
    ensures tp == Fileblock && count == 0 ==> r == f
    ensures tp == Fileblock ==> count <= IndexTotal(f)
    ensures tp != Fileblock ==>
              var count0 := if tp == DataArea then 0 else IndexTotal(f);
              && (forall t :: IsDataSector(t) ==>
                    SectorBytes(r, t) == if DataErased(f, count0, nums, t) then Ones(SECTOR_SIZE) else SectorBytes(f, t))
              && count == if count0 >= nums then count0 else count0 + Min(nums - count0, DiscardsBelow(f, DATA_SECTOR_END + 1))
  {
    r, count := f, 0;
    if tp == Fileblock || tp == Major {
      r, count := IndexPhase(f, tp == Fileblock, nums);
    }
    if tp == DataArea || tp == Major {
      var count0 := if tp == DataArea then 0 else count;
      r, count := DataPhase(f, r, count0, nums);
    }
  }

  /** The index pass of spifs_gc, described sector by sector. */
  method IndexPhase(f: Image, fileblockOnly: bool, nums: nat) returns (r: Image, count: nat)
    ensures forall t :: 0 <= t < SECTOR_COUNT && !IsIndexSector(t) ==> SectorBytes(r, t) == SectorBytes(f, t)
    ensures forall t :: IsIndexSector(t) ==> SectorBytes(r, t) == SectorBytes(f, t) || Swept(SectorBytes(f, t), SectorBytes(r, t))
    ensures !fileblockOnly ==> count == IndexTotal(f) && forall t :: IsIndexSector(t) ==> Swept(SectorBytes(f, t), SectorBytes(r, t))
    ensures count >= nums || (count == IndexTotal(f) && forall t :: IsIndexSector(t) ==> Swept(SectorBytes(f, t), SectorBytes(r, t)))
    ensures fileblockOnly ==>
              var c := SectorCounts(f);
              var e := Reach(c, true, nums, 0);
              && count == CountBefore(c, e)
              && IndexDone(f, r, FB_SECTOR_START + e)
              && (forall m :: 0 < m < e ==> CountBefore(c, m) < nums)
    ensures fileblockOnly && count > 0 ==> FirstFreeSlot(r).Some?
    ensures count == 0 ==> r == f
    ensures count <= IndexTotal(f)
  {
    r, count := IndexPass(f, fileblockOnly, nums);
    IndexPassFacts(f, r, fileblockOnly, nums, count);
    ReachStops(SectorCounts(f), fileblockOnly, nums, 0);
  }

  /** The data pass of spifs_gc on g, an image whose data sectors are
      those of f, described in terms of f. */
  method DataPhase(f: Image, g: Image, count0: nat, nums: nat) returns (r: Image, count: nat)
    requires forall u :: DATA_SECTOR_START <= u <= DATA_SECTOR_END ==> SectorBytes(g, u) == SectorBytes(f, u)
    ensures forall t :: IsDataSector(t) ==>
              SectorBytes(r, t) == if DataErased(f, count0, nums, t) then Ones(SECTOR_SIZE) else SectorBytes(f, t)
    ensures count == if count0 >= nums then count0 else count0 + Min(nums - count0, DiscardsBelow(f, DATA_SECTOR_END + 1))
    ensures forall t :: 0 <= t < SECTOR_COUNT && !IsDataSector(t) ==> SectorBytes(r, t) == SectorBytes(g, t)
  {
    r, count := DataPass(g, count0, nums);
    DataPassFrame(f, g, count0, nums);
  }

  /** What the index pass leaves, in terms of whole sectors and the table. */
  lemma IndexPassFacts(f: Image, r: Image, fileblockOnly: bool, nums: nat, count: nat)
    requires var c := SectorCounts(f);
             var e := Reach(c, fileblockOnly, nums, 0);
             && count == CountBefore(c, e)
             && IndexDone(f, r, FB_SECTOR_START + e)
    ensures forall t :: 0 <= t < SECTOR_COUNT && !IsIndexSector(t) ==> SectorBytes(r, t) == SectorBytes(f, t)
    ensures forall t :: IsIndexSector(t) ==> SectorBytes(r, t) == SectorBytes(f, t) || Swept(SectorBytes(f, t), SectorBytes(r, t))
    ensures !fileblockOnly ==> count == IndexTotal(f) && forall t :: IsIndexSector(t) ==> Swept(SectorBytes(f, t), SectorBytes(r, t))
    ensures count >= nums || (count == IndexTotal(f) && forall t :: IsIndexSector(t) ==> Swept(SectorBytes(f, t), SectorBytes(r, t)))
    ensures fileblockOnly ==>
              var c := SectorCounts(f);
              var e := Reach(c, true, nums, 0);
              && count == CountBefore(c, e)
              && IndexDone(f, r, FB_SECTOR_START + e)
              && (forall m :: 0 < m < e ==> CountBefore(c, m) < nums)
    ensures fileblockOnly && count > 0 ==> FirstFreeSlot(r).Some?
    ensures count <= IndexTotal(f)
  {
    var c := SectorCounts(f);
    CountBeforeMonotone(c, Reach(c, fileblockOnly, nums, 0), FB_SECTORS);
    ReachStops(c, fileblockOnly, nums, 0);
    var e := Reach(c, fileblockOnly, nums, 0);
    if count > 0 && fileblockOnly {
      IndexPassFrees(f, r, e);
    }
  }

  /** The data pass decides from data sectors only, so running it on an
      image with the same data sectors as f gives f's decisions. */
  lemma DataPassFrame(f: Image, g: Image, count0: nat, nums: nat)
    requires forall u :: DATA_SECTOR_START <= u <= DATA_SECTOR_END ==> SectorBytes(g, u) == SectorBytes(f, u)
    ensures DiscardsBelow(g, DATA_SECTOR_END + 1) == DiscardsBelow(f, DATA_SECTOR_END + 1)
    ensures forall t :: IsDataSector(t) ==> DataErased(g, count0, nums, t) == DataErased(f, count0, nums, t)
  {
    DiscardsBelowFrame(f, g, DATA_SECTOR_END + 1);
    forall t | IsDataSector(t)
      ensures DataErased(g, count0, nums, t) == DataErased(f, count0, nums, t)
    {
      DiscardsBelowFrame(f, g, t);
      SameMarker(f, g, t);
    }
  }
}

=== FILE: index.dfy ===
/** The index table: 4 sectors of 170 FileBlock slots each.  Slot k is the
    k-th slot in ascending address order; every scan of spifs.c walks the
    slots in this order (sector by sector, 24 bytes at a time while at least
    24 bytes remain before the sector's last byte). */
module Index {
  import opened Bytes
  import opened Layout
  import opened StateCodec
  import opened Records
  import opened Flash

  lemma SlotOnFlash(k: nat)
    requires k < SLOT_COUNT
    ensures SlotAddr(k) + FILEBLOCK_SIZE <= FLASH_SIZE
  {}

  /** The 24 bytes of slot k. */
  function SlotBytes(f: Image, k: nat): (s: seq<byte>)
    requires k < SLOT_COUNT
    ensures |s| == FILEBLOCK_SIZE
  {
    SlotOnFlash(k);
    f[SlotAddr(k)..SlotAddr(k) + FILEBLOCK_SIZE]
  }

  /** Slot k is in use: some byte of its name and extension is not erased.
      This is what fb_has_name computes (see NamedIsFbHasName). */
  predicate HasName(f: Image, k: nat)
    requires k < SLOT_COUNT
  {
    !AllErased(SlotBytes(f, k)[..FILENAME_FULLSIZE])
  }

  lemma NamedIsFbHasName(f: Image, k: nat)
    requires k < SLOT_COUNT
    ensures FbHasName(SlotBytes(f, k)) <==> HasName(f, k)
  {
    FbHasNameSpec(SlotBytes(f, k));
  }

  function SlotState(f: Image, k: nat): byte
    requires k < SLOT_COUNT
  {
    SlotBytes(f, k)[STATE_OFFSET]
  }

  function SlotCluster(f: Image, k: nat): u32
    requires k < SLOT_COUNT
  {
    Word(SlotBytes(f, k)[CLUSTER_OFFSET..LENGTH_OFFSET])
  }

  function SlotLength(f: Image, k: nat): u32
    requires k < SLOT_COUNT
  {
    Word(SlotBytes(f, k)[LENGTH_OFFSET..INFO_OFFSET])
  }

  /** The entry open_file_impl accepts for a 12-byte raw name: not deleted,
      not deprecated, and the same 12 name bytes. */
  predicate Matches(f: Image, k: nat, target: seq<byte>)
    requires k < SLOT_COUNT && |target| == FILENAME_FULLSIZE
  {
    Live(SlotState(f, k)) && SlotBytes(f, k)[..FILENAME_FULLSIZE] == target
  }

  /** k is the lowest matching slot. */
  predicate FirstMatch(f: Image, target: seq<byte>, k: nat)
    requires |target| == FILENAME_FULLSIZE
  {
    k < SLOT_COUNT && Matches(f, k, target) && forall j :: 0 <= j < k ==> !Matches(f, j, target)
  }

  /** The handle open_file_impl fills in from slot k. */
  function HandleAt(f: Image, k: nat): (h: File)
    requires k < SLOT_COUNT
    ensures h.WellFormed() && h.block == SlotAddr(k)
    ensures h.cluster == SlotCluster(f, k) && h.length == SlotLength(f, k)
    ensures h.FullName() == SlotBytes(f, k)[..FILENAME_FULLSIZE]
  {
    var s := SlotBytes(f, k);
    assert s[..FILENAME_SIZE] + s[FILENAME_SIZE..FILENAME_FULLSIZE] == s[..FILENAME_FULLSIZE];
    File(s[..FILENAME_SIZE], s[FILENAME_SIZE..FILENAME_FULLSIZE], SlotAddr(k), SlotCluster(f, k), SlotLength(f, k))
  }

  /** The slot loop of open_file_impl from slot k on: skip entries whose del
      or dep is 0, compare name and extension with filename_equals. */
  function OpenScan(f: Image, target: seq<byte>, k: nat): (r: Option<nat>)
    requires |target| == FILENAME_FULLSIZE && k <= SLOT_COUNT
    ensures r.Some? ==> k <= r.value < SLOT_COUNT
    decreases SLOT_COUNT - k
  {
    if k == SLOT_COUNT then None
    else
      var fb := SlotBytes(f, k);
      if !Live(fb[STATE_OFFSET]) then OpenScan(f, target, k + 1)
      else
        var same := FilenameEquals(fb[..FILENAME_SIZE], target[..FILENAME_SIZE], FILENAME_SIZE)
                    && FilenameEquals(fb[FILENAME_SIZE..FILENAME_FULLSIZE], target[FILENAME_SIZE..], EXTNAME_SIZE);
        if same then Some(k) else OpenScan(f, target, k + 1)
  }

  /** The scan from slot k returns the lowest matching slot at or after k,
      and None exactly when no slot from k on matches. */
  lemma {:induction false} OpenScanSpec(f: Image, target: seq<byte>, k: nat)
    requires |target| == FILENAME_FULLSIZE && k <= SLOT_COUNT
    ensures var r := OpenScan(f, target, k);
            (r.Some? ==> Matches(f, r.value, target) && forall j :: k <= j < r.value ==> !Matches(f, j, target))
            && (r.None? ==> forall j :: k <= j < SLOT_COUNT ==> !Matches(f, j, target))
    decreases SLOT_COUNT - k
  {
    if k < SLOT_COUNT {
      OpenScanStep(f, target, k);
      if !Matches(f, k, target) {
        OpenScanSpec(f, target, k + 1);
        NoMatchExtends(f, target, k, OpenScan(f, target, k + 1));
      }
    }
  }

  /** One slot of the scan: a match stops it, anything else moves on. */
  lemma OpenScanStep(f: Image, target: seq<byte>, k: nat)
    requires |target| == FILENAME_FULLSIZE && k < SLOT_COUNT
    ensures OpenScan(f, target, k) == if Matches(f, k, target) then Some(k) else OpenScan(f, target, k + 1)
  {
    SameIsMatch(f, target, k);
  }

  /** Extending the matchless range of the scan from k + 1 down to k. */
  lemma NoMatchExtends(f: Image, target: seq<byte>, k: nat, r: Option<nat>)
    requires |target| == FILENAME_FULLSIZE && k < SLOT_COUNT && !Matches(f, k, target)
    requires r.Some? ==> r.value < SLOT_COUNT && forall j :: k + 1 <= j < r.value ==> !Matches(f, j, target)
    requires r.None? ==> forall j :: k + 1 <= j < SLOT_COUNT ==> !Matches(f, j, target)
    ensures r.Some? ==> forall j :: k <= j < r.value ==> !Matches(f, j, target)
    ensures r.None? ==> forall j :: k <= j < SLOT_COUNT ==> !Matches(f, j, target)
  {
  }

  /** The liveness test and the two filename_equals calls of
      open_file_impl decide whether slot k matches. */
  lemma SameIsMatch(f: Image, target: seq<byte>, k: nat)
    requires |target| == FILENAME_FULLSIZE && k < SLOT_COUNT
    ensures var fb := SlotBytes(f, k);
            (Live(fb[STATE_OFFSET])
             && FilenameEquals(fb[..FILENAME_SIZE], target[..FILENAME_SIZE], FILENAME_SIZE)
             && FilenameEquals(fb[FILENAME_SIZE..FILENAME_FULLSIZE], target[FILENAME_SIZE..], EXTNAME_SIZE))
            <==> Matches(f, k, target)
  {
    var fb := SlotBytes(f, k);
    assert fb[..FILENAME_SIZE][..FILENAME_SIZE] == fb[..FILENAME_SIZE];
    assert target[..FILENAME_SIZE][..FILENAME_SIZE] == target[..FILENAME_SIZE];
    assert fb[FILENAME_SIZE..FILENAME_FULLSIZE][..EXTNAME_SIZE] == fb[FILENAME_SIZE..FILENAME_FULLSIZE];
    assert target[FILENAME_SIZE..][..EXTNAME_SIZE] == target[FILENAME_SIZE..];
    assert fb[..FILENAME_FULLSIZE][..FILENAME_SIZE] == fb[..FILENAME_SIZE];
    assert fb[..FILENAME_FULLSIZE][FILENAME_SIZE..] == fb[FILENAME_SIZE..FILENAME_FULLSIZE];
    SplitName(fb[..FILENAME_FULLSIZE], target);
  }

  lemma SplitName(a: seq<byte>, b: seq<byte>)
    requires |a| == FILENAME_FULLSIZE && |b| == FILENAME_FULLSIZE
    ensures a == b <==> a[..FILENAME_SIZE] == b[..FILENAME_SIZE] && a[FILENAME_SIZE..] == b[FILENAME_SIZE..]
  {
    if a[..FILENAME_SIZE] == b[..FILENAME_SIZE] && a[FILENAME_SIZE..] == b[FILENAME_SIZE..] {
      assert a == a[..FILENAME_SIZE] + a[FILENAME_SIZE..];
      assert b == b[..FILENAME_SIZE] + b[FILENAME_SIZE..];
    }
  }

  /** The 12 raw bytes open_file_impl searches for: the caller's bytes as
      they are (raw), or the C strings padded with 0xFF. */
  function QueryName(filename: seq<byte>, extname: seq<byte>, raw: bool): (t: seq<byte>)
    requires raw ==> |filename| >= FILENAME_SIZE && |extname| >= EXTNAME_SIZE
    requires !raw ==> CStrLen(filename) <= FILENAME_SIZE && CStrLen(extname) <= EXTNAME_SIZE
    ensures |t| == FILENAME_FULLSIZE
    ensures raw ==> t == filename[..FILENAME_SIZE] + extname[..EXTNAME_SIZE]
  {
    if raw then filename[..FILENAME_SIZE] + extname[..EXTNAME_SIZE]
    else Pad(filename[..CStrLen(filename)], FILENAME_SIZE) + Pad(extname[..CStrLen(extname)], EXTNAME_SIZE)
  }

  /** open_file_impl: the lowest live entry with the queried name, as a
      handle; None when there is none. */
  function OpenFileImpl(f: Image, filename: seq<byte>, extname: seq<byte>, raw: bool): (r: Option<File>)
    requires raw ==> |filename| >= FILENAME_SIZE && |extname| >= EXTNAME_SIZE
    requires !raw ==> CStrLen(filename) <= FILENAME_SIZE && CStrLen(extname) <= EXTNAME_SIZE
    ensures r.None? <==> forall k :: 0 <= k < SLOT_COUNT ==> !Matches(f, k, QueryName(filename, extname, raw))
    ensures r.Some? ==> exists k :: FirstMatch(f, QueryName(filename, extname, raw), k) && r.value == HandleAt(f, k)
  {
    var target := QueryName(filename, extname, raw);
    OpenScanSpec(f, target, 0);
    match OpenScan(f, target, 0)
    case None => None
    case Some(k) =>
      assert FirstMatch(f, target, k);
      Some(HandleAt(f, k))
  }

  /** The first match is unique, so the opened handle is determined. */
  lemma FirstMatchUnique(f: Image, target: seq<byte>, k: nat, l: nat)
    requires |target| == FILENAME_FULLSIZE
    requires FirstMatch(f, target, k) && FirstMatch(f, target, l)
    ensures k == l
  {}

  /** Opening finds a file exactly when its first match exists. */
  lemma OpenFinds(f: Image, filename: seq<byte>, extname: seq<byte>, raw: bool, k: nat)
    requires raw ==> |filename| >= FILENAME_SIZE && |extname| >= EXTNAME_SIZE
    requires !raw ==> CStrLen(filename) <= FILENAME_SIZE && CStrLen(extname) <= EXTNAME_SIZE
    requires FirstMatch(f, QueryName(filename, extname, raw), k)
    ensures OpenFileImpl(f, filename, extname, raw) == Some(HandleAt(f, k))
  {
    var target := QueryName(filename, extname, raw);
    var r := OpenFileImpl(f, filename, extname, raw);
    assert Matches(f, k, target);
    var l :| FirstMatch(f, target, l) && r.value == HandleAt(f, l);
    FirstMatchUnique(f, target, k, l);
  }

  /** The slot loop of create_file from slot k on: the first slot without a
      name. */
  function FreeScan(f: Image, k: nat): (r: Option<nat>)
    requires k <= SLOT_COUNT
    ensures r.Some? ==> k <= r.value < SLOT_COUNT && !HasName(f, r.value)
    ensures r.Some? ==> forall j :: k <= j < r.value ==> HasName(f, j)
    ensures r.None? ==> forall j :: k <= j < SLOT_COUNT ==> HasName(f, j)
    decreases SLOT_COUNT - k
  {
    if k == SLOT_COUNT then None
    else if !HasName(f, k) then Some(k)
    else
      var r := FreeScan(f, k + 1);
      assert HasName(f, k);
      r
  }

  function FirstFreeSlot(f: Image): (r: Option<nat>)
    ensures r.Some? ==> r.value < SLOT_COUNT && !HasName(f, r.value) && forall j :: 0 <= j < r.value ==> HasName(f, j)
    ensures r.None? ==> forall j :: 0 <= j < SLOT_COUNT ==> HasName(f, j)
  {
    FreeScan(f, 0)
  }

  /** The unnamed slots from k on. */
  function FreeSlots(f: Image, k: nat): set<nat>
    requires k <= SLOT_COUNT
  {
    set j | k <= j < SLOT_COUNT && !HasName(f, j)
  }

  /** spifs_avail_files from slot k on: the number of slots without a name. */
  function AvailFrom(f: Image, k: nat): (n: nat)
    requires k <= SLOT_COUNT
    ensures n == |FreeSlots(f, k)|
    ensures n <= SLOT_COUNT - k
    decreases SLOT_COUNT - k
  {
    if k == SLOT_COUNT then
      FreeSlotsStep(f, k);
      0
    else
      var rest := AvailFrom(f, k + 1);
      FreeSlotsStep(f, k);
      if !HasName(f, k) then rest + 1 else rest
  }

  /** One slot more: the free set grows by k exactly when slot k is free. */
  lemma FreeSlotsStep(f: Image, k: nat)
    requires k <= SLOT_COUNT
    ensures k == SLOT_COUNT ==> FreeSlots(f, k) == {}
    ensures k < SLOT_COUNT && !HasName(f, k) ==> FreeSlots(f, k) == {k} + FreeSlots(f, k + 1) && k !in FreeSlots(f, k + 1)
    ensures k < SLOT_COUNT && HasName(f, k) ==> FreeSlots(f, k) == FreeSlots(f, k + 1)
  {
  }

  /** spifs_avail_files. */
  function AvailFiles(f: Image): (n: nat)
    ensures n == |FreeSlots(f, 0)|
    ensures n <= SLOT_COUNT
  {
    AvailFrom(f, 0)
  }

  /** A slot is free exactly when the count is positive and exactly when the
      create_file scan finds one. */
  lemma AvailFilesFree(f: Image)
    ensures AvailFiles(f) > 0 <==> FirstFreeSlot(f).Some?
  {
    var r := FirstFreeSlot(f);
    if r.Some? {
      assert r.value in FreeSlots(f, 0);
    } else {
      assert FreeSlots(f, 0) == {};
    }
  }
}

=== FILE: layout.dfy ===
/** The fixed geometry of the file system (spifs.h): sector ranges, the
    cluster layout of a data sector and the layout of a 24-byte FileBlock in an
    index sector. */
module Layout {

  /** Size of the flash chip the emulator and the driver address (W25Q32). */
  const FLASH_SIZE: nat := 4194304
  const SECTOR_SIZE: nat := 4096
  const SECTOR_COUNT: nat := 1024

  /** Index range: sectors FB_SECTOR_START..FB_SECTOR_END hold FileBlocks. */
  const FB_SECTOR_START: nat := 208
  const FB_SECTOR_END: nat := 211
  /** Data range: sectors DATA_SECTOR_START..DATA_SECTOR_END hold clusters. */
  const DATA_SECTOR_START: nat := 212
  const DATA_SECTOR_END: nat := 1018
  const DATA_SECTORS: nat := DATA_SECTOR_END - DATA_SECTOR_START + 1

  /** A data sector: 4-byte marker, DATA_AREA_SIZE payload bytes, 4-byte link. */
  const SECTOR_MARK_SIZE: nat := 4
  const DATA_AREA_SIZE: nat := 4088
  const LINK_SIZE: nat := 4
  const LINK_OFFSET: nat := SECTOR_MARK_SIZE + DATA_AREA_SIZE

  /** A FileBlock: name 0..8, ext 8..12, cluster 12..16, length 16..20, info 20..24. */
  const FILEBLOCK_SIZE: nat := 24
  const FILENAME_SIZE: nat := 8
  const EXTNAME_SIZE: nat := 4
  const FILENAME_FULLSIZE: nat := 12
  const CLUSTER_OFFSET: nat := 12
  const LENGTH_OFFSET: nat := 16
  const INFO_OFFSET: nat := 20
  const STATE_OFFSET: nat := 23

  /** Slots per index sector: the scans advance by FILEBLOCK_SIZE while
      (sector end - address) >= FILEBLOCK_SIZE, with the end address being the
      sector's last byte. */
  const SLOTS_PER_SECTOR: nat := 170
  const SLOT_COUNT: nat := SLOTS_PER_SECTOR * (FB_SECTOR_END - FB_SECTOR_START + 1)

  function SectorAddr(s: nat): nat
  {
    s * 4096
  }

  predicate IsIndexSector(s: nat)
  {
    FB_SECTOR_START <= s <= FB_SECTOR_END
  }

  predicate IsDataSector(s: nat)
  {
    DATA_SECTOR_START <= s <= DATA_SECTOR_END
  }

  /** First addresses of the first and the last data sector. */
  const DATA_ADDR_FIRST: nat := 0xD_4000
  const DATA_ADDR_LAST: nat := 0x3F_A000

  /** An address on a sector boundary. */
  predicate SectorAligned(a: int)
  {
    a % SECTOR_SIZE == 0
  }

  /** The first address of a data sector, as stored in cluster fields and links. */
  predicate IsDataAddr(a: int)
  {
    DATA_ADDR_FIRST <= a <= DATA_ADDR_LAST && SectorAligned(a)
  }

  /** Addresses that can stand for a data sector: the values of IsDataAddr,
      with the bounds spelled out so that the verifier knows them for every
      DataAddr. */
  type DataAddr = a: nat | DATA_ADDR_FIRST <= a <= DATA_ADDR_LAST && SectorAligned(a)
    witness DATA_ADDR_FIRST

  lemma DataAddrRange()
    ensures DATA_ADDR_FIRST == SectorAddr(DATA_SECTOR_START)
    ensures DATA_ADDR_LAST == SectorAddr(DATA_SECTOR_END)
    ensures DATA_ADDR_LAST + SECTOR_SIZE <= FLASH_SIZE
  {}

  /** Address of index slot k, counting the slots of all index sectors in
      ascending address order: the first SLOTS_PER_SECTOR slots of the first
      index sector, then those of the next sector, and so on. */
  function SlotAddr(k: nat): (a: nat)
    requires k < SLOT_COUNT
    ensures SectorAddr(FB_SECTOR_START) <= a <= SectorAddr(FB_SECTOR_START) + k * SECTOR_SIZE
    decreases k
  {
    if k < SLOTS_PER_SECTOR then SectorAddr(FB_SECTOR_START) + k * FILEBLOCK_SIZE
    else SlotAddr(k - SLOTS_PER_SECTOR) + SECTOR_SIZE
  }

  /** Every slot lies in the index sectors, below the data area. */
  lemma {:induction false} SlotBelowData(k: nat)
    requires k < SLOT_COUNT
    ensures SlotAddr(k) + FILEBLOCK_SIZE <= SectorAddr(FB_SECTOR_START + 1 + k / SLOTS_PER_SECTOR)
    ensures SlotAddr(k) + FILEBLOCK_SIZE <= DATA_ADDR_FIRST
    decreases k
  {
    if k >= SLOTS_PER_SECTOR {
      SlotBelowData(k - SLOTS_PER_SECTOR);
      assert (k - SLOTS_PER_SECTOR) / SLOTS_PER_SECTOR + 1 == k / SLOTS_PER_SECTOR;
    }
  }

  /** Slot k is slot k % SLOTS_PER_SECTOR of index sector k / SLOTS_PER_SECTOR. */
  lemma {:induction false} SlotAddrClosed(k: nat)
    requires k < SLOT_COUNT
    ensures SlotAddr(k) == (FB_SECTOR_START + k / SLOTS_PER_SECTOR) * SECTOR_SIZE + (k % SLOTS_PER_SECTOR) * FILEBLOCK_SIZE
    decreases k
  {
    if k >= SLOTS_PER_SECTOR {
      SlotAddrClosed(k - SLOTS_PER_SECTOR);
      assert (k - SLOTS_PER_SECTOR) / SLOTS_PER_SECTOR == k / SLOTS_PER_SECTOR - 1;
      assert (k - SLOTS_PER_SECTOR) % SLOTS_PER_SECTOR == k % SLOTS_PER_SECTOR;
    }
  }

  /** Index sector holding slot k. */
  function SlotSector(k: nat): (s: nat)
    requires k < SLOT_COUNT
    ensures IsIndexSector(s)
  {
    FB_SECTOR_START + k / SLOTS_PER_SECTOR
  }

  /** The cluster layout fills the sector exactly: marker + payload + link. */
  lemma ClusterLayout()
    ensures SECTOR_MARK_SIZE + DATA_AREA_SIZE + LINK_SIZE == SECTOR_SIZE
    ensures LINK_OFFSET + LINK_SIZE == SECTOR_SIZE
  {}

  /** The two ranges are disjoint and adjacent, and both lie on the chip. */
  lemma RangesDisjointAdjacent()
    ensures FB_SECTOR_END + 1 == DATA_SECTOR_START
    ensures forall s: nat :: !(IsIndexSector(s) && IsDataSector(s))
    ensures SectorAddr(DATA_SECTOR_END) + SECTOR_SIZE <= FLASH_SIZE
    ensures SECTOR_COUNT * SECTOR_SIZE == FLASH_SIZE
  {}

  /** The FileBlock fields tile its 24 bytes. */
  lemma FileBlockLayout()
    ensures FILENAME_FULLSIZE == FILENAME_SIZE + EXTNAME_SIZE
    ensures CLUSTER_OFFSET == FILENAME_FULLSIZE
    ensures LENGTH_OFFSET == CLUSTER_OFFSET + 4
    ensures INFO_OFFSET == LENGTH_OFFSET + 4
    ensures INFO_OFFSET + 4 == FILEBLOCK_SIZE
    ensures STATE_OFFSET == INFO_OFFSET + 3
  {}

  /** The slot loops of the index scans visit exactly SLOTS_PER_SECTOR slots:
      slot j is visited iff (SECTOR_SIZE - 1) - j * FILEBLOCK_SIZE >= FILEBLOCK_SIZE,
      which is also the garbage collector's SECTOR_SIZE - offset >= FILEBLOCK_SIZE. */
  lemma SlotsPerSector(j: nat)
    ensures (SECTOR_SIZE - 1) - j * FILEBLOCK_SIZE >= FILEBLOCK_SIZE <==> j < SLOTS_PER_SECTOR
    ensures SECTOR_SIZE - j * FILEBLOCK_SIZE >= FILEBLOCK_SIZE <==> j < SLOTS_PER_SECTOR
  {}

  /** Slot addresses strictly increase with the slot number, and each slot
      lies inside its own index sector. */
  lemma SlotAddrMonotone(k: nat, l: nat)
    requires k < l < SLOT_COUNT
    ensures SlotAddr(k) + FILEBLOCK_SIZE <= SlotAddr(l)
  {
    SlotAddrClosed(k);
    SlotAddrClosed(l);
    var sk, sl := k / SLOTS_PER_SECTOR, l / SLOTS_PER_SECTOR;
    assert sk <= sl;
    if sk == sl {
      assert k % SLOTS_PER_SECTOR < l % SLOTS_PER_SECTOR;
    }
  }

  lemma SlotInSector(k: nat)
    requires k < SLOT_COUNT
    ensures SectorAddr(SlotSector(k)) <= SlotAddr(k)
    ensures SlotAddr(k) + FILEBLOCK_SIZE <= SectorAddr(SlotSector(k)) + SECTOR_SIZE
  {
    SlotAddrClosed(k);
  }
}

=== FILE: listing.dfy ===
/** list_file and list_file_raw: a paged scan of the index sectors.  A scan
    starts at the caller's cursor, reads 24-byte entries while at least 24
    bytes remain before the sector's last byte, moves on sector by sector up
    to the last index sector, and lists every entry that is neither deleted
    nor deprecated and has a cluster.  When the page is full the cursor is
    moved on: as spifs.c computes it, to the next sector unless no further
    entry fits, so the rest of a sector can be lost; with the test corrected,
    to the next entry.  When the scan ends first the cursor is left alone. */
module Listing {
  import opened Bytes
  import opened Layout
  import opened StateCodec
  import opened Records
  import opened Flash

  /** An entry read from flash is listed: del and dep are both set and the
      cluster is not EMPTY. */
  predicate ListableBlock(fb: seq<byte>)
    requires |fb| == FILEBLOCK_SIZE
  {
    Live(fb[STATE_OFFSET]) && Word(fb[CLUSTER_OFFSET..LENGTH_OFFSET]) != EMPTY_INT
  }

  /** The handle list_file fills in from the entry fb read at address a. */
  function EntryOf(fb: seq<byte>, a: u32): (h: File)
    requires |fb| == FILEBLOCK_SIZE
    ensures h.WellFormed() && h.block == a
  {
    File(fb[..FILENAME_SIZE], fb[FILENAME_SIZE..FILENAME_FULLSIZE], a,
         Word(fb[CLUSTER_OFFSET..LENGTH_OFFSET]), Word(fb[LENGTH_OFFSET..INFO_OFFSET]))
  }

  /** The 24 bytes at address a. */
  function BlockAt(f: Image, a: nat): (fb: seq<byte>)
    requires a < DATA_ADDR_FIRST
    ensures |fb| == FILEBLOCK_SIZE
  {
    f[a..a + FILEBLOCK_SIZE]
  }

  /** The entry at address a, as listed. */
  function EntryAt(f: Image, a: nat): (h: File)
    requires a < DATA_ADDR_FIRST
    ensures h.WellFormed() && h.block == a
  {
    EntryOf(BlockAt(f, a), a)
  }

  /** Every entry a scan lists from byte o of sector s on, in the order it
      meets them: entries of sector s from o on while 24 bytes remain
      before the sector's last byte, then those of each later sector up to
      the last index sector. */
  function ListIn(f: Image, s: nat, o: nat): seq<File>
    requires o < SECTOR_SIZE
    decreases FB_SECTOR_END + 1 - s, SECTOR_SIZE - o
  {
    if s > FB_SECTOR_END then []
    else if 4095 - o >= FILEBLOCK_SIZE then
      (if ListableBlock(BlockAt(f, SectorAddr(s) + o)) then [EntryAt(f, SectorAddr(s) + o)] else [])
        + ListIn(f, s, o + FILEBLOCK_SIZE)
    else ListIn(f, s + 1, 0)
  }

  /** Every entry a scan from address a lists. */
  function ListFrom(f: Image, a: nat): seq<File>
  {
    ListIn(f, a / 4096, a % 4096)
  }

  /** Byte o of sector s is address SectorAddr(s) + o. */
  lemma AddrSplit(f: Image, s: nat, o: nat)
    requires o < SECTOR_SIZE
    ensures ListFrom(f, SectorAddr(s) + o) == ListIn(f, s, o)
  {
    assert (SectorAddr(s) + o) / 4096 == s && (SectorAddr(s) + o) % 4096 == o;
  }

  /** The scan from byte o of sector s lists listable entries only, each
      read from its own address, at or after where it starts and below the
      data area, in ascending address order. */
  lemma {:induction false} ListInSpec(f: Image, s: nat, o: nat)
    requires o < SECTOR_SIZE
    ensures forall e :: e in ListIn(f, s, o) ==>
              && SectorAddr(s) + o <= e.block < DATA_ADDR_FIRST
              && ListableBlock(BlockAt(f, e.block))
              && e == EntryAt(f, e.block)
    ensures forall i, j :: 0 <= i < j < |ListIn(f, s, o)| ==> ListIn(f, s, o)[i].block < ListIn(f, s, o)[j].block
    decreases FB_SECTOR_END + 1 - s, SECTOR_SIZE - o
  {
    if s > FB_SECTOR_END {
    } else if 4095 - o >= FILEBLOCK_SIZE {
      ListInSpec(f, s, o + FILEBLOCK_SIZE);
    } else {
      ListInSpec(f, s + 1, 0);
    }
  }

  /** Where the next page starts after the page filled with the entry
      ending at byte o of sector s: the next entry of the same sector if
      one fits, else the next sector, and back at the first index sector
      once the last one is done. */
  function Resume(s: nat, o: nat): (next: nat)
    requires s <= FB_SECTOR_END && o < SECTOR_SIZE
    ensures next < DATA_ADDR_FIRST
  {
    if 4095 - o >= FILEBLOCK_SIZE then SectorAddr(s) + o
    else if s + 1 <= FB_SECTOR_END then SectorAddr(s + 1)
    else SectorAddr(FB_SECTOR_START)
  }

  /** The cursor as spifs.c computes it: the test on the bytes left in the
      sector is the wrong way round, so the cursor stays put only when no
      further entry fits and otherwise jumps to the next sector. */
  function CursorAsWritten(s: nat, o: nat): (next: nat)
    requires s <= FB_SECTOR_END && o < SECTOR_SIZE
    ensures next < DATA_ADDR_FIRST
  {
    if 4095 - o <= FILEBLOCK_SIZE then SectorAddr(s) + o
    else if s + 1 <= FB_SECTOR_END then SectorAddr(s + 1)
    else SectorAddr(FB_SECTOR_START)
  }

  /** A full page: the scan from start is the page followed by the scan
      from the new cursor, or the page is the whole scan and the cursor is
      back at the first index sector. */
  ghost predicate Paged(f: Image, start: nat, files: seq<File>, next: nat)
  {
    || ListFrom(f, start) == files + ListFrom(f, next)
    || (ListFrom(f, start) == files && next == SectorAddr(FB_SECTOR_START))
  }

  /** Resuming where Resume says lists exactly the entries the scan had
      not reached, or the scan was over. */
  lemma ResumeContinues(f: Image, s: nat, o: nat)
    requires s <= FB_SECTOR_END && o < SECTOR_SIZE
    ensures || ListFrom(f, Resume(s, o)) == ListIn(f, s, o)
            || (ListIn(f, s, o) == [] && Resume(s, o) == SectorAddr(FB_SECTOR_START))
  {
    if 4095 - o >= FILEBLOCK_SIZE {
      AddrSplit(f, s, o);
    } else if s + 1 <= FB_SECTOR_END {
      AddrSplit(f, s + 1, 0);
    }
  }

  /** A page that ends where the scan has reached byte o of sector s is
      followed by the scan from Resume(s, o). */
  lemma PagedAt(f: Image, start: nat, files: seq<File>, s: nat, o: nat)
    requires s <= FB_SECTOR_END && o < SECTOR_SIZE
    requires ListFrom(f, start) == files + ListIn(f, s, o)
    ensures Paged(f, start, files, Resume(s, o))
  {
    ResumeContinues(f, s, o);
    if ListIn(f, s, o) == [] {
      assert ListFrom(f, start) == files;
    }
  }

  /** The cursor as written loses entries: with live files with clusters in
      the first two slots of the first index sector and a page of one, the
      scan meets the two files first, yet the cursor after the first jumps
      to the next index sector, and every entry listed from there lies
      past the second file. */
  lemma AsWrittenSkips(f: Image, s: nat)
    requires s == FB_SECTOR_START
    requires ListableBlock(BlockAt(f, SectorAddr(s))) && ListableBlock(BlockAt(f, SectorAddr(s) + FILEBLOCK_SIZE))
    ensures |ListFrom(f, SectorAddr(s))| >= 2
    ensures ListFrom(f, SectorAddr(s))[..2] == [EntryAt(f, SectorAddr(s)), EntryAt(f, SectorAddr(s) + FILEBLOCK_SIZE)]
    ensures CursorAsWritten(s, FILEBLOCK_SIZE) == SectorAddr(s + 1)
    ensures forall e :: e in ListFrom(f, CursorAsWritten(s, FILEBLOCK_SIZE)) ==> e.block > SectorAddr(s) + FILEBLOCK_SIZE
  {
    AddrSplit(f, s, 0);
    assert ListIn(f, s, 0) == [EntryAt(f, SectorAddr(s))] + ListIn(f, s, FILEBLOCK_SIZE);
    assert ListIn(f, s, FILEBLOCK_SIZE) == [EntryAt(f, SectorAddr(s) + FILEBLOCK_SIZE)] + ListIn(f, s, 2 * FILEBLOCK_SIZE);
    AddrSplit(f, s + 1, 0);
    ListInSpec(f, s + 1, 0);
  }

  /** The entries es all lie strictly between addresses lo and hi. */
  predicate Between(es: seq<File>, lo: int, hi: int)
  {
    forall e :: e in es ==> lo < e.block < hi
  }

  /** What a full page guarantees with the cursor as written.  Either the
      scan from start is the page, then some entries that lie between the
      page's last entry and the new cursor and are never listed, then the
      scan from the new cursor; or the cursor is back at the first index
      sector and the scan from start is the page followed only by entries
      that lie between the page's last entry and the data area, which this
      round of paging never lists.  So no entry is listed twice, but
      entries may be lost. */
  ghost predicate Skipping(f: Image, start: nat, files: seq<File>, next: nat)
  {
    && |files| > 0
    && (|| (next == SectorAddr(FB_SECTOR_START) && exists skipped :: WrapsAfter(f, start, files, skipped))
        || exists skipped :: SkipsTo(f, start, files, skipped, next))
  }

  /** The scan from start is the page files followed by the entries
      skipped, all of which lie between the page's last entry and the data
      area. */
  ghost predicate WrapsAfter(f: Image, start: nat, files: seq<File>, skipped: seq<File>)
    requires |files| > 0
  {
    ListFrom(f, start) == files + skipped && Between(skipped, files[|files| - 1].block, DATA_ADDR_FIRST)
  }

  /** The scan from start is the page files, then the entries skipped,
      which lie between the page's last entry and the cursor next, then the
      scan from next. */
  ghost predicate SkipsTo(f: Image, start: nat, files: seq<File>, skipped: seq<File>, next: nat)
    requires |files| > 0
  {
    ListFrom(f, start) == files + skipped + ListFrom(f, next) && Between(skipped, files[|files| - 1].block, next)
  }

  /** A page that the corrected cursor continues also meets the as-written
      guarantee, with nothing skipped. */
  lemma PagedSkips(f: Image, start: nat, files: seq<File>, next: nat)
    requires |files| > 0 && Paged(f, start, files, next)
    ensures Skipping(f, start, files, next)
  {
    var skipped: seq<File> := [];
    assert files + skipped == files;
    if ListFrom(f, start) == files + ListFrom(f, next) {
      assert SkipsTo(f, start, files, skipped, next);
    } else {
      assert WrapsAfter(f, start, files, skipped);
    }
  }

  /** The entries a scan lists from byte o of sector s up to the end of that
      sector. */
  function InSector(f: Image, s: nat, o: nat): seq<File>
    requires s <= FB_SECTOR_END && o < SECTOR_SIZE
    decreases SECTOR_SIZE - o
  {
    if 4095 - o >= FILEBLOCK_SIZE then
      (if ListableBlock(BlockAt(f, SectorAddr(s) + o)) then [EntryAt(f, SectorAddr(s) + o)] else [])
        + InSector(f, s, o + FILEBLOCK_SIZE)
    else []
  }

  /** Concatenation regroups; stated apart so that the proofs using it do
      not pay for it in their own, larger contexts. */
  lemma Regroup(a: seq<File>, b: seq<File>, c: seq<File>)
    ensures a + (b + c) == a + b + c
  {
  }

  /** The scan from byte o of sector s is the rest of that sector, then the
      scan from the next sector, and the rest of the sector lies at or after
      byte o and before the next sector. */
  lemma {:induction false} SectorRest(f: Image, s: nat, o: nat)
    requires s <= FB_SECTOR_END && o < SECTOR_SIZE
    ensures ListIn(f, s, o) == InSector(f, s, o) + ListIn(f, s + 1, 0)
    ensures Between(InSector(f, s, o), SectorAddr(s) + o - FILEBLOCK_SIZE, SectorAddr(s + 1))
    decreases SECTOR_SIZE - o
  {
    ghost var tail := ListIn(f, s + 1, 0);
    if 4095 - o >= FILEBLOCK_SIZE {
      SectorRest(f, s, o + FILEBLOCK_SIZE);
      ghost var here := if ListableBlock(BlockAt(f, SectorAddr(s) + o)) then [EntryAt(f, SectorAddr(s) + o)] else [];
      ghost var rest := InSector(f, s, o + FILEBLOCK_SIZE);
      assert ListIn(f, s, o + FILEBLOCK_SIZE) == rest + tail;
      assert ListIn(f, s, o) == here + (rest + tail);
      assert InSector(f, s, o) == here + rest;
      Regroup(here, rest, tail);
    } else {
      assert InSector(f, s, o) == [];
      assert ListIn(f, s, o) == tail;
    }
  }

  /** A page that ends where the scan has reached byte o of sector s, its
      last entry read at byte o - 24, meets the as-written guarantee with
      the cursor as written. */
  lemma SkippingAt(f: Image, start: nat, files: seq<File>, s: nat, o: nat)
    requires s <= FB_SECTOR_END && FILEBLOCK_SIZE <= o < SECTOR_SIZE
    requires ListFrom(f, start) == files + ListIn(f, s, o)
    requires |files| > 0 && files[|files| - 1].block == SectorAddr(s) + o - FILEBLOCK_SIZE
    ensures Skipping(f, start, files, CursorAsWritten(s, o))
  {
    if 4095 - o <= FILEBLOCK_SIZE {
      SkipNone(f, start, files, s, o);
    } else if s + 1 <= FB_SECTOR_END {
      SkipSector(f, start, files, s, o);
    } else {
      SkipLast(f, start, files, s, o);
    }
  }

  /** The cursor wraps from byte o of the last index sector: the rest of
      that sector is lost, and nothing follows it in the scan. */
  lemma SkipLast(f: Image, start: nat, files: seq<File>, s: nat, o: nat)
    requires s == FB_SECTOR_END && FILEBLOCK_SIZE <= o < SECTOR_SIZE
    requires ListFrom(f, start) == files + ListIn(f, s, o)
    requires |files| > 0 && files[|files| - 1].block == SectorAddr(s) + o - FILEBLOCK_SIZE
    ensures WrapsAfter(f, start, files, InSector(f, s, o))
  {
    SectorRest(f, s, o);
    assert ListIn(f, s + 1, 0) == [];
    assert InSector(f, s, o) + [] == InSector(f, s, o);
  }

  /** The cursor stays at byte o of sector s: nothing is skipped. */
  lemma SkipNone(f: Image, start: nat, files: seq<File>, s: nat, o: nat)
    requires s <= FB_SECTOR_END && o < SECTOR_SIZE && |files| > 0
    requires ListFrom(f, start) == files + ListIn(f, s, o)
    ensures SkipsTo(f, start, files, [], SectorAddr(s) + o)
  {
    AddrSplit(f, s, o);
    assert files + [] == files;
  }

  /** The cursor jumps from byte o of sector s to the next sector: the rest
      of sector s is skipped. */
  lemma SkipSector(f: Image, start: nat, files: seq<File>, s: nat, o: nat)
    requires s + 1 <= FB_SECTOR_END && FILEBLOCK_SIZE <= o < SECTOR_SIZE
    requires ListFrom(f, start) == files + ListIn(f, s, o)
    requires |files| > 0 && files[|files| - 1].block == SectorAddr(s) + o - FILEBLOCK_SIZE
    ensures SkipsTo(f, start, files, InSector(f, s, o), SectorAddr(s + 1))
  {
    SectorRest(f, s, o);
    AddrSplit(f, s + 1, 0);
    ghost var skipped := InSector(f, s, o);
    ghost var rest := ListIn(f, s + 1, 0);
    assert ListFrom(f, start) == files + (skipped + rest);
    Regroup(files, skipped, rest);
  }

  /** What a full page guarantees: Paged with the corrected cursor, Skipping
      with the cursor as written. */
  ghost predicate Full(f: Image, start: nat, files: seq<File>, next: nat, fixed: bool)
  {
    if fixed then Paged(f, start, files, next) else Skipping(f, start, files, next)
  }

  /** list_file.  Lists up to max entries of the scan from the cursor
      start, in scan order, and returns them with the new cursor: start
      itself when the scan ends before the page is full (or max is 0),
      otherwise the cursor as spifs.c computes it, from which the next call
      lists no entry twice but may lose the rest of the sector. */
  method ListFile(f: Image, start: u32, max: u32) returns (files: seq<File>, next: u32)
    ensures |files| <= max && |files| <= |ListFrom(f, start)| && files == ListFrom(f, start)[..|files|]
    ensures |files| < max ==> files == ListFrom(f, start) && next == start
    ensures max == 0 ==> next == start
    ensures 0 < |files| == max ==> Skipping(f, start, files, next)
  {
    files, next := Scan(f, start, max, false);
  }

  /** list_file with the cursor test the right way round: a full page is
      followed by exactly the entries it did not reach. */
  method ListFileResumed(f: Image, start: u32, max: u32) returns (files: seq<File>, next: u32)
    ensures |files| <= max && |files| <= |ListFrom(f, start)| && files == ListFrom(f, start)[..|files|]
    ensures |files| < max ==> files == ListFrom(f, start) && next == start
    ensures max == 0 ==> next == start
    ensures 0 < |files| == max ==> Paged(f, start, files, next)
  {
    files, next := Scan(f, start, max, true);
  }

  /** The sector loop of list_file, with the corrected cursor when fixed
      holds and the cursor as written otherwise. */
  method Scan(f: Image, start: u32, max: u32, fixed: bool) returns (files: seq<File>, next: u32)
    ensures |files| <= max && |files| <= |ListFrom(f, start)| && files == ListFrom(f, start)[..|files|]
    ensures |files| < max ==> files == ListFrom(f, start) && next == start
    ensures max == 0 ==> next == start
    ensures 0 < |files| == max ==> Full(f, start, files, next, fixed)
  {
    var first := true;
    var sector: nat := start / 4096;
    ghost var at: nat := start % 4096;
    files, next := [], start;
    while sector < FB_SECTOR_END + 1 && |files| < max
      invariant |files| <= max && at < SECTOR_SIZE
      invariant |files| <= |ListFrom(f, start)| && files == ListFrom(f, start)[..|files|]
      invariant first ==> sector == start / 4096 && at == start % 4096
      invariant !first ==> at == 0
      invariant |files| < max ==> next == start
      invariant max == 0 ==> next == start
      invariant |files| < max ==> ListFrom(f, start) == files + ListIn(f, sector, at)
      invariant 0 < |files| == max ==> Full(f, start, files, next, fixed)
      decreases FB_SECTOR_END + 1 - sector
    {
      var addrStart: nat, o: nat;
      if first {
        first := false;
        addrStart, o := start, start % 4096;
      } else {
        addrStart, o := SectorAddr(sector), 0;
      }
      files, next := ListSector(f, start, files, sector, addrStart, o, max, next, fixed);
      sector, at := sector + 1, 0;
    }
  }

  /** The inner loop of list_file over sector s from address a0, byte o0
      of the sector, on: either the sector is done and the scan goes on
      with the next sector, or the page filled and the cursor is set. */
  method ListSector(f: Image, ghost start: nat, files0: seq<File>, s: nat, a0: nat, o0: nat, max: u32, next0: u32, fixed: bool)
      returns (files: seq<File>, next: u32)
    requires s <= FB_SECTOR_END && o0 < SECTOR_SIZE && a0 == SectorAddr(s) + o0 && |files0| < max
    requires ListFrom(f, start) == files0 + ListIn(f, s, o0)
    ensures |files| <= max && |files| <= |ListFrom(f, start)| && files == ListFrom(f, start)[..|files|]
    ensures |files| < max ==> next == next0 && ListFrom(f, start) == files + ListIn(f, s + 1, 0)
    ensures |files| == max ==> Full(f, start, files, next, fixed)
  {
    var addrEnd := SectorAddr(s) + 4095;
    var a := a0;
    var o := o0;
    ghost var whole := ListFrom(f, start);
    files, next := files0, next0;
    while addrEnd - a >= FILEBLOCK_SIZE
      invariant o < SECTOR_SIZE && a == SectorAddr(s) + o && |files| < max
      invariant whole == files + ListIn(f, s, o)
      decreases addrEnd - a
    {
      var entry := ListStep(f, s, o, a);
      ghost var rest := ListIn(f, s, o + FILEBLOCK_SIZE);
      assert whole == files + entry + rest;
      files := files + entry;
      a, o := a + FILEBLOCK_SIZE, o + FILEBLOCK_SIZE;
      if |files| >= max {
        PrefixOf(whole, files, rest);
        next := SetCursor(f, start, files, s, o, fixed);
        return;
      }
    }
    PrefixOf(whole, files, ListIn(f, s, o));
  }

  /** The whole is a prefix followed by the rest. */
  lemma PrefixOf(whole: seq<File>, prefix: seq<File>, rest: seq<File>)
    requires whole == prefix + rest
    ensures |prefix| <= |whole| && prefix == whole[..|prefix|]
  {
  }

  /** The cursor list_file leaves once the page filled with the entry read
      at byte o - 24 of sector s: the corrected one when fixed holds, the
      one spifs.c computes otherwise. */
  method SetCursor(f: Image, ghost start: nat, files: seq<File>, s: nat, o: nat, fixed: bool) returns (next: u32)
    requires s <= FB_SECTOR_END && FILEBLOCK_SIZE <= o < SECTOR_SIZE
    requires ListFrom(f, start) == files + ListIn(f, s, o)
    requires |files| > 0 && files[|files| - 1].block == SectorAddr(s) + o - FILEBLOCK_SIZE
    ensures Full(f, start, files, next, fixed)
  {
    if fixed {
      next := Resume(s, o);
      PagedAt(f, start, files, s, o);
    } else {
      next := CursorAsWritten(s, o);
      SkippingAt(f, start, files, s, o);
    }
  }

  /** One entry of the inner loop: read the 24 bytes at a, byte o of
      sector s, and list them when they are a live entry with a cluster. */
  method ListStep(f: Image, ghost s: nat, ghost o: nat, a: nat) returns (entry: seq<File>)
    requires s <= FB_SECTOR_END && o < SECTOR_SIZE && a == SectorAddr(s) + o && 4095 - o >= FILEBLOCK_SIZE
    ensures |entry| <= 1 && ListIn(f, s, o) == entry + ListIn(f, s, o + FILEBLOCK_SIZE)
    ensures |entry| == 1 ==> entry[0].block == a
  {
    var fb := f[a..a + FILEBLOCK_SIZE];
    if ListableBlock(fb) {
      entry := [EntryOf(fb, a)];
    } else {
      entry := [];
    }
  }

  /** The size of one list_file_raw record: the 12 name bytes, the entry's
      address, then its cluster, length and FileInfo bytes. */
  const RAW_RECORD_SIZE: nat := 28

  /** The record list_file_raw writes for the entry at address a. */
  function RawRecord(f: Image, a: nat): (r: seq<byte>)
    requires a < DATA_ADDR_FIRST
    ensures |r| == RAW_RECORD_SIZE
  {
    var fb := BlockAt(f, a);
    fb[..FILENAME_FULLSIZE] + LE32(a) + fb[CLUSTER_OFFSET..]
  }

  /** A record read back as a handle. */
  function UnpackRecord(r: seq<byte>): File
    requires |r| == RAW_RECORD_SIZE
  {
    File(r[..FILENAME_SIZE], r[FILENAME_SIZE..FILENAME_FULLSIZE], Word(r[12..16]), Word(r[16..20]), Word(r[20..24]))
  }

  /** A record reads back as the handle list_file gives for the same entry,
      followed by the entry's FileInfo bytes. */
  lemma RecordRoundTrip(f: Image, a: nat)
    requires a < DATA_ADDR_FIRST
    ensures UnpackRecord(RawRecord(f, a)) == EntryAt(f, a)
    ensures RawRecord(f, a)[24..] == BlockAt(f, a)[INFO_OFFSET..]
  {
    var r := RawRecord(f, a);
    var fb := BlockAt(f, a);
    assert r[12..16] == LE32(a);
    assert r[16..20] == fb[CLUSTER_OFFSET..LENGTH_OFFSET];
    assert r[20..24] == fb[LENGTH_OFFSET..INFO_OFFSET];
  }

  /** The records of the listed entries, one after the other. */
  function Packed(f: Image, files: seq<File>): (r: seq<byte>)
    requires forall e :: e in files ==> e.block < DATA_ADDR_FIRST
    ensures |r| == RAW_RECORD_SIZE * |files|
  {
    if files == [] then [] else Packed(f, files[..|files| - 1]) + RawRecord(f, files[|files| - 1].block)
  }

  /** Record i of the packed records is that of entry i. */
  lemma {:induction false} PackedRecords(f: Image, files: seq<File>)
    requires forall e :: e in files ==> e.block < DATA_ADDR_FIRST
    ensures forall i :: 0 <= i < |files| ==>
              Packed(f, files)[RAW_RECORD_SIZE * i..RAW_RECORD_SIZE * i + RAW_RECORD_SIZE] == RawRecord(f, files[i].block)
  {
    if files != [] {
      var k := |files| - 1;
      PackedRecords(f, files[..k]);
      var p := Packed(f, files);
      assert p == Packed(f, files[..k]) + RawRecord(f, files[k].block);
      forall i | 0 <= i < |files|
        ensures p[RAW_RECORD_SIZE * i..RAW_RECORD_SIZE * i + RAW_RECORD_SIZE] == RawRecord(f, files[i].block)
      {
        if i < k {
          assert files[..k][i] == files[i];
        }
      }
    }
  }

  /** A page that is the first count entries of the scan meets Skipping
      under either name. */
  lemma SkippingPrefix(f: Image, start: nat, files: seq<File>, count: nat, next: nat)
    requires count == |files| <= |ListFrom(f, start)| && files == ListFrom(f, start)[..count]
    requires Skipping(f, start, files, next)
    ensures Skipping(f, start, ListFrom(f, start)[..count], next)
  {
  }

  /** list_file_raw.  The same scan and cursor as list_file; for each
      listed entry a 28-byte record is written to the caller's buffer,
      which must hold max records, and the bytes after the last record are
      left alone.  Record i reads back as the i-th handle list_file lists,
      followed by that entry's FileInfo bytes. */
  method ListFileRaw(f: Image, start: u32, buf: seq<byte>, max: u32) returns (out: seq<byte>, count: u32, next: u32)
    requires RAW_RECORD_SIZE * max <= |buf|
    ensures count <= max && count <= |ListFrom(f, start)|
    ensures forall e :: e in ListFrom(f, start) ==> e.block < DATA_ADDR_FIRST
    ensures count < max ==> count == |ListFrom(f, start)| && next == start
    ensures max == 0 ==> next == start
    ensures 0 < count == max ==> Skipping(f, start, ListFrom(f, start)[..count], next)
    ensures |out| == |buf| && out[RAW_RECORD_SIZE * count..] == buf[RAW_RECORD_SIZE * count..]
    ensures forall i :: 0 <= i < count ==>
              && UnpackRecord(out[RAW_RECORD_SIZE * i..RAW_RECORD_SIZE * i + RAW_RECORD_SIZE]) == ListFrom(f, start)[i]
              && out[RAW_RECORD_SIZE * i + 24..RAW_RECORD_SIZE * i + RAW_RECORD_SIZE]
                   == BlockAt(f, ListFrom(f, start)[i].block)[INFO_OFFSET..]
  {
    var files;
    files, next := ListFile(f, start, max);
    count := |files|;
    if 0 < count == max {
      SkippingPrefix(f, start, files, count, next);
    }
    ListInSpec(f, start / 4096, start % 4096);
    out := PackRecords(f, files, buf);
    forall e | e in files
      ensures e.block < DATA_ADDR_FIRST && e == EntryAt(f, e.block)
    {
      var i :| 0 <= i < |files| && files[i] == e;
      assert e in ListFrom(f, start);
    }
    Unpacked(f, files, out);
    forall i | 0 <= i < count
      ensures ListFrom(f, start)[i] == files[i]
    {
    }
  }

  /** Buffer bytes holding the packed records of listed entries read back,
      record by record, as those entries and their FileInfo bytes. */
  lemma Unpacked(f: Image, files: seq<File>, out: seq<byte>)
    requires forall e :: e in files ==> e.block < DATA_ADDR_FIRST && e == EntryAt(f, e.block)
    requires RAW_RECORD_SIZE * |files| <= |out| && out[..RAW_RECORD_SIZE * |files|] == Packed(f, files)
    ensures forall i :: 0 <= i < |files| ==>
              && UnpackRecord(out[RAW_RECORD_SIZE * i..RAW_RECORD_SIZE * i + RAW_RECORD_SIZE]) == files[i]
              && out[RAW_RECORD_SIZE * i + 24..RAW_RECORD_SIZE * i + RAW_RECORD_SIZE] == BlockAt(f, files[i].block)[INFO_OFFSET..]
  {
    PackedRecords(f, files);
    forall i | 0 <= i < |files|
      ensures UnpackRecord(out[RAW_RECORD_SIZE * i..RAW_RECORD_SIZE * i + RAW_RECORD_SIZE]) == files[i]
      ensures out[RAW_RECORD_SIZE * i + 24..RAW_RECORD_SIZE * i + RAW_RECORD_SIZE] == BlockAt(f, files[i].block)[INFO_OFFSET..]
    {
      assert files[i] in files;
      RecordRoundTrip(f, files[i].block);
      assert out[RAW_RECORD_SIZE * i..RAW_RECORD_SIZE * i + RAW_RECORD_SIZE] == RawRecord(f, files[i].block);
    }
  }

  /** The copy loop of list_file_raw: record i goes to bytes 28 * i up to
      28 * (i + 1) of the buffer. */
  method PackRecords(f: Image, files: seq<File>, buf: seq<byte>) returns (out: seq<byte>)
    requires forall e :: e in files ==> e.block < DATA_ADDR_FIRST
    requires RAW_RECORD_SIZE * |files| <= |buf|
    ensures |out| == |buf|
    ensures out[..RAW_RECORD_SIZE * |files|] == Packed(f, files)
    ensures out[RAW_RECORD_SIZE * |files|..] == buf[RAW_RECORD_SIZE * |files|..]
  {
    out := buf;
    var i := 0;
    while i < |files|
      invariant i <= |files| && |out| == |buf|
      invariant out[..RAW_RECORD_SIZE * i] == Packed(f, files[..i])
      invariant out[RAW_RECORD_SIZE * i..] == buf[RAW_RECORD_SIZE * i..]
    {
      var at := RAW_RECORD_SIZE * i;
      out := out[..at] + RawRecord(f, files[i].block) + out[at + RAW_RECORD_SIZE..];
      assert files[..i + 1][..i] == files[..i];
      i := i + 1;
    }
    assert files[..|files|] == files;
  }
}

=== FILE: read.dfy ===
/** read_file: the permission and bounds checks, the walk over whole
    sectors before the offset, and the read of the rest sector by sector
    through align_read_impl, following each sector's link. */
module Reading {
  import opened Bytes
  import opened Layout
  import opened StateCodec
  import opened Records
  import opened Flash
  import opened DiskIo
  import opened Chain
  import opened FileData
  import opened Writing
  import AlignedIo

  /** The file whose first sector is c holds n bytes in its chain: the
      walk from c ends, and its sectors have room for n bytes. */
  ghost predicate Holds(f: Image, c: u32, n: nat)
  {
    ChainOf(f, c).Some? && n <= |ChainOf(f, c).value| * 4088
  }

  /** A file laid out as write_file leaves it holds its bytes, all n of them. */
  lemma LaidHolds(f: Image, c: u32, n: nat)
    requires Laid(f, c, n)
    ensures Holds(f, c, n) && |FileBytes(f, c, n)| == n
  {
    ContentsLength(f, ChainOf(f, c).value, n);
  }

  /** How many bytes read_file returns: none for an entry that is deleted or
      deprecated or an offset at or past the end, otherwise as many as asked
      for and the file has from offset on. */
  function ReadCount(st: byte, fileLength: u32, offset: u32, length: u32): (k: nat)
    ensures k <= length
    ensures k > 0 ==> offset + k <= fileLength
  {
    if !Live(st) || offset >= fileLength then 0
    else Min(length, fileLength - offset)
  }

  /** read_file.  The entry must be live (del and dep set; read-only files
      are readable) and offset inside the file, or nothing is read and 0
      returned.  Otherwise min(length, file.length - offset) bytes of the
      file from offset on are copied to the front of the buffer, the rest
      of the buffer is unchanged, and their number is returned.  The caller
      passes a buffer of at least length bytes; m is its address mod 4. */
  method ReadFile(f: Image, file: File, offset: u32, buf: seq<byte>, length: u32, m: nat) returns (out: seq<byte>, count: u32)
    requires file.block + FILEBLOCK_SIZE <= FLASH_SIZE && length <= |buf| && m < 4
    requires Live(f[file.block + STATE_OFFSET]) && offset < file.length ==> Holds(f, file.cluster, file.length)
    ensures count == ReadCount(f[file.block + STATE_OFFSET], file.length, offset, length)
    ensures |out| == |buf| && out[count..] == buf[count..]
    ensures count > 0 ==> Holds(f, file.cluster, file.length) && |FileBytes(f, file.cluster, file.length)| == file.length
    ensures count > 0 ==> out[..count] == FileBytes(f, file.cluster, file.length)[offset..offset + count]
  {
    var finfo := ReadFinfo(f, file.block);
    if !Live(finfo.state) {
      return buf, 0;
    }
    if offset >= file.length {
      return buf, 0;
    }
    var len := length;
    if file.length - offset < len {
      len := file.length - offset;
    }
    ghost var s := ChainOf(f, file.cluster).value;
    ChainSound(f, file.cluster, DATA_SECTORS);
    ContentsLength(f, s, file.length);
    var addr, off := SkipSectors(f, s, file.cluster, offset);
    count := len;
    out := ReadRun(f, s, file.length, offset, addr + SECTOR_MARK_SIZE + off, 4088 - off, buf, count, m);
  }

  /** The first loop of read_file: offset / DATA_AREA_SIZE links followed
      from the first sector, taking DATA_AREA_SIZE off the offset each
      time. */
  method SkipSectors(f: Image, ghost s: seq<DataAddr>, c: u32, offset: u32) returns (addr: nat, off: u32)
    requires |s| > 0 && s[0] == c && forall i :: 0 <= i < |s| - 1 ==> Link(f, s[i]) == s[i + 1]
    requires offset / 4088 < |s|
    ensures addr == s[offset / 4088] && off == offset % 4088
  {
    var sectors := offset / 4088;
    addr, off := c, offset;
    var i := 0;
    while i < sectors
      invariant 0 <= i <= sectors && addr == s[i] && off == offset - i * 4088
    {
      addr := Link(f, addr);
      i, off := i + 1, off - 4088;
    }
  }

  /** The read loop of read_file from the sector holding offset on: each
      round copies what is left or what is left of the sector, and in the
      second case follows the sector's link. */
  method ReadRun(f: Image, ghost s: seq<DataAddr>, ghost n: nat, ghost offset: nat, start: nat, readSize0: nat,
                 buf: seq<byte>, count: nat, m: nat) returns (out: seq<byte>)
    requires forall i :: 0 <= i < |s| - 1 ==> Link(f, s[i]) == s[i + 1]
    requires offset / 4088 < |s| && offset + count <= n <= |s| * 4088
    requires start == s[offset / 4088] + SECTOR_MARK_SIZE + offset % 4088 && readSize0 == 4088 - offset % 4088
    requires count <= |buf| && m < 4
    ensures |Contents(f, s, n)| == n
    ensures out == Contents(f, s, n)[offset..offset + count] + buf[count..]
  {
    ContentsLength(f, s, n);
    ghost var x := Contents(f, s, n)[offset..offset + count];
    var addr: nat, readSize: nat, length: nat, cursor: nat := start, readSize0, count, 0;
    ghost var j: nat, p: nat := offset / 4088, offset % 4088;
    out := buf;
    while length > 0
      invariant j < |s| && p <= 4088
      invariant length > 0 ==> p < 4088 && addr == s[j] + SECTOR_MARK_SIZE + p
      invariant length > 0 ==> 0 < readSize && p + readSize <= 4088 && (length > readSize ==> p + readSize == 4088)
      invariant offset + cursor == j * 4088 + p && cursor + length == count
      invariant out == x[..cursor] + buf[cursor..]
      decreases length
    {
      if length > readSize {
        out, addr, cursor, length, readSize := ReadOn(f, s, n, offset, x, j, p, addr, readSize, buf, out, cursor, length, count, m);
        j, p := j + 1, 0;
      } else {
        readSize := Min(length, 4088);
        out := ReadPiece(f, s, n, offset, x, j, p, addr, readSize, buf, out, cursor, count, m);
        cursor, length := cursor + readSize, length - readSize;
        p := p + readSize;
      }
    }
  }

  /** A round of the read loop that empties the rest of sector j: the
      read, then the link that names sector j + 1, whose payload the next
      round reads from its start. */
  method ReadOn(f: Image, ghost s: seq<DataAddr>, ghost n: nat, ghost offset: nat, ghost x: seq<byte>, ghost j: nat, ghost p: nat,
                addr: nat, readSize: nat, buf: seq<byte>, out: seq<byte>, cursor: nat, length: nat, ghost count: nat, m: nat)
      returns (out': seq<byte>, addr': nat, cursor': nat, length': nat, readSize': nat)
    requires forall i :: 0 <= i < |s| - 1 ==> Link(f, s[i]) == s[i + 1]
    requires j < |s| && p < 4088 && addr == s[j] + SECTOR_MARK_SIZE + p && p + readSize == 4088 && readSize < length
    requires offset + cursor == j * 4088 + p && cursor + length == count && offset + count <= n <= |s| * 4088
    requires |Contents(f, s, n)| == n && x == Contents(f, s, n)[offset..offset + count]
    requires count <= |buf| && out == x[..cursor] + buf[cursor..] && m < 4
    ensures j + 1 < |s| && addr' == s[j + 1] + SECTOR_MARK_SIZE
    ensures 0 < readSize' <= 4088 && (length' > readSize' ==> readSize' == 4088)
    ensures offset + cursor' == (j + 1) * 4088 && cursor' + length' == count && 0 < length' < length
    ensures out' == x[..cursor'] + buf[cursor'..]
  {
    out' := ReadPiece(f, s, n, offset, x, j, p, addr, readSize, buf, out, cursor, count, m);
    addr', cursor', length' := addr + readSize, cursor + readSize, length - readSize;
    NextSector(j, |s|, offset + cursor', n);
    var next := Word(f[addr'..addr' + LINK_SIZE]);
    assert next == Link(f, s[j]) == s[j + 1];
    addr' := next + SECTOR_MARK_SIZE;
    readSize' := Min(length', 4088);
  }

  /** One align_read_impl of the read loop: k bytes at position p of
      sector j are the next k bytes of the file from offset. */
  method ReadPiece(f: Image, ghost s: seq<DataAddr>, ghost n: nat, ghost offset: nat, ghost x: seq<byte>,
                   ghost j: nat, ghost p: nat, addr: nat, k: nat, buf: seq<byte>, out: seq<byte>, cursor: nat, ghost count: nat, m: nat)
      returns (out': seq<byte>)
    requires j < |s| && p + k <= 4088 && addr == s[j] + SECTOR_MARK_SIZE + p
    requires offset + cursor == j * 4088 + p && cursor + k <= count && offset + count <= n
    requires |Contents(f, s, n)| == n && x == Contents(f, s, n)[offset..offset + count]
    requires count <= |buf| && out == x[..cursor] + buf[cursor..] && m < 4
    ensures out' == x[..cursor + k] + buf[cursor + k..]
  {
    PieceIs(f, s, n, offset, x, j, p, addr, k, cursor, count);
    out' := AlignedIo.AlignRead(out, cursor, f, addr, k, (m + cursor) % 4);
    AlignedIo.SpliceSpec(out, cursor, f[addr..addr + k]);
    assert out' == x[..cursor + k] + buf[cursor + k..] by {
      assert out'[..cursor] == x[..cursor];
      assert x[..cursor + k] == x[..cursor] + x[cursor..cursor + k];
      assert out'[cursor + k..] == buf[cursor + k..];
      assert out' == out'[..cursor] + out'[cursor..cursor + k] + out'[cursor + k..];
    }
  }

  /** Past the end of sector j and short of n <= k * 4088 bytes, the
      next sector exists and starts at (j + 1) * 4088 bytes. */
  lemma NextSector(j: nat, k: nat, at: nat, n: nat)
    requires at == j * 4088 + 4088 && at < n <= k * 4088
    ensures j + 1 < k && at == (j + 1) * 4088
  {
  }

  /** The k flash bytes at position p of sector j are the k bytes of the
      file at offset + cursor. */
  lemma PieceIs(f: Image, s: seq<DataAddr>, n: nat, offset: nat, x: seq<byte>, j: nat, p: nat, addr: nat, k: nat,
                cursor: nat, count: nat)
    requires j < |s| && p + k <= 4088 && addr == s[j] + SECTOR_MARK_SIZE + p
    requires offset + cursor == j * 4088 + p && cursor + k <= count && offset + count <= n
    requires |Contents(f, s, n)| == n && x == Contents(f, s, n)[offset..offset + count]
    ensures f[addr..addr + k] == x[cursor..cursor + k]
  {
    var c := Contents(f, s, n);
    var at := offset + cursor;
    ContentsChunk(f, s, n, j, p, k);
    assert c[at..at + k] == Payload(f, s[j])[p..p + k];
    assert x[cursor..cursor + k] == c[at..at + k];
    assert f[addr..addr + k] == Payload(f, s[j])[p..p + k];
  }
}

=== FILE: records.dfy ===
/** The records of spifs.h (FileInfo, FileBlock, File), the Result and
    WriteMethod enums, the on-flash encoding of a FileBlock, and the small
    pure helpers of spifs.c that work on names and records. */
module Records {
  import opened Bytes
  import opened Layout
  import opened StateCodec

  /** FileInfo: creation day, month, year - 2000, and the state byte, in
      this order in the last four bytes of a FileBlock. */
  datatype FileInfo = FileInfo(day: byte, month: byte, year: byte, state: byte)

  /** FileBlock: the 24-byte index entry. */
  datatype FileBlock = FileBlock(name: seq<byte>, ext: seq<byte>, cluster: u32, length: u32, info: FileInfo)
  {
    predicate WellFormed()
    {
      |name| == FILENAME_SIZE && |ext| == EXTNAME_SIZE
    }
  }

  /** File: the caller's handle; `block` is the address of its FileBlock,
      `cluster` the first data sector, `length` the size in bytes. */
  datatype File = File(name: seq<byte>, ext: seq<byte>, block: u32, cluster: u32, length: u32)
  {
    predicate WellFormed()
    {
      |name| == FILENAME_SIZE && |ext| == EXTNAME_SIZE
    }

    /** The 12 raw name bytes, as compared against an index entry. */
    function FullName(): (r: seq<byte>)
      requires WellFormed()
      ensures |r| == FILENAME_FULLSIZE
      ensures r[..FILENAME_SIZE] == name && r[FILENAME_SIZE..] == ext
    {
      name + ext
    }
  }

  datatype Result =
    | CreateFileSuccess
    | NoFileblockSpace
    | FileAlreadyExist
    | CannotWriteFile
    | FileNotExist
    | NoSectorSpace
    | WriteFileSuccess
    | AppendFileSuccess
    | AppendFileFinish
    | FileCannotRename
    | FilenameOutOfBounds
    | FileRenameSuccess

  datatype WriteMethod = Override | Append

  /** Date limits accepted by make_finfo. */
  const YEAR_MINI_VALUE: nat := 2000
  const YEAR_MAX_VALUE: nat := 2255
  const MONTH_MINI_VALUE: byte := 1
  const MONTH_MAX_VALUE: byte := 12
  const DAY_MINI_VALUE: byte := 1
  const DAY_MAX_VALUE: byte := 31

  function EncodeInfo(i: FileInfo): (r: seq<byte>)
    ensures |r| == 4 && r[3] == i.state
  {
    [i.day, i.month, i.year, i.state]
  }

  function DecodeInfo(b: seq<byte>): FileInfo
    requires |b| == 4
  {
    FileInfo(b[0], b[1], b[2], b[3])
  }

  /** The 24 bytes a FileBlock occupies on flash. */
  function EncodeBlock(b: FileBlock): (r: seq<byte>)
    requires b.WellFormed()
    ensures |r| == FILEBLOCK_SIZE
    ensures r[..FILENAME_SIZE] == b.name && r[FILENAME_SIZE..FILENAME_FULLSIZE] == b.ext
    ensures Word(r[CLUSTER_OFFSET..LENGTH_OFFSET]) == b.cluster
    ensures Word(r[LENGTH_OFFSET..INFO_OFFSET]) == b.length
    ensures r[INFO_OFFSET..] == EncodeInfo(b.info) && r[STATE_OFFSET] == b.info.state
  {
    var r := b.name + b.ext + LE32(b.cluster) + LE32(b.length) + EncodeInfo(b.info);
    assert r[CLUSTER_OFFSET..LENGTH_OFFSET] == LE32(b.cluster);
    assert r[LENGTH_OFFSET..INFO_OFFSET] == LE32(b.length);
    r
  }

  /** The FileBlock that 24 flash bytes hold. */
  function DecodeBlock(s: seq<byte>): (b: FileBlock)
    requires |s| == FILEBLOCK_SIZE
    ensures b.WellFormed()
  {
    FileBlock(s[..FILENAME_SIZE], s[FILENAME_SIZE..FILENAME_FULLSIZE],
              Word(s[CLUSTER_OFFSET..LENGTH_OFFSET]), Word(s[LENGTH_OFFSET..INFO_OFFSET]),
              DecodeInfo(s[INFO_OFFSET..]))
  }

  /** Encoding and decoding a FileBlock are inverse to each other. */
  lemma BlockRoundTrip(b: FileBlock, s: seq<byte>)
    requires b.WellFormed() && |s| == FILEBLOCK_SIZE
    ensures DecodeBlock(EncodeBlock(b)) == b
    ensures EncodeBlock(DecodeBlock(s)) == s
  {
    var d := DecodeBlock(s);
    var e := EncodeBlock(d);
    WordLE32(s[CLUSTER_OFFSET..LENGTH_OFFSET]);
    WordLE32(s[LENGTH_OFFSET..INFO_OFFSET]);
    assert e == s[..FILENAME_SIZE] + s[FILENAME_SIZE..FILENAME_FULLSIZE] + s[CLUSTER_OFFSET..LENGTH_OFFSET]
      + s[LENGTH_OFFSET..INFO_OFFSET] + s[INFO_OFFSET..];
    assert s == s[..FILENAME_SIZE] + s[FILENAME_SIZE..FILENAME_FULLSIZE] + s[CLUSTER_OFFSET..LENGTH_OFFSET]
      + s[LENGTH_OFFSET..INFO_OFFSET] + s[INFO_OFFSET..];
  }

  /** make_finfo: the date is accepted iff it is in range; the year is kept
      as an offset from 2000 and the state byte verbatim. */
  function MakeFinfo(year: u32, month: byte, day: byte, fstate: byte): (r: Option<FileInfo>)
    ensures r.Some? <==> YEAR_MINI_VALUE <= year <= YEAR_MAX_VALUE && 1 <= Val(month) <= 12 && 1 <= Val(day) <= 31
    ensures r.Some? ==> Val(r.value.year) + YEAR_MINI_VALUE == year && r.value.month == month
                        && r.value.day == day && r.value.state == fstate
  {
    MonthDayRange(month, day);
    if (year < YEAR_MINI_VALUE || year > YEAR_MAX_VALUE)
       || (month < MONTH_MINI_VALUE || month > MONTH_MAX_VALUE)
       || (day < DAY_MINI_VALUE || day > DAY_MAX_VALUE)
    then None
    else Some(FileInfo(day, month, FromVal(year - YEAR_MINI_VALUE), fstate))
  }

  lemma MonthDayRange(month: byte, day: byte)
    ensures (MONTH_MINI_VALUE <= month <= MONTH_MAX_VALUE) <==> 1 <= Val(month) <= 12
    ensures (DAY_MINI_VALUE <= day <= DAY_MAX_VALUE) <==> 1 <= Val(day) <= 31
  {}

  /** strlen on a C string held in `s`: the position of the first NUL, or
      |s| when the terminator lies just past the end of `s`. */
  function CStrLen(s: seq<byte>): (n: nat)
    ensures n <= |s|
    ensures forall i :: 0 <= i < n ==> s[i] != 0
    ensures n < |s| ==> s[n] == 0
  {
    if |s| == 0 || s[0] == 0 then 0 else 1 + CStrLen(s[1..])
  }

  /** strlen_ext: the number of leading bytes that are not 0xFF, at most max. */
  function StrlenExt(s: seq<byte>, max: nat): (n: nat)
    requires max <= |s|
    ensures n <= max
    ensures forall i :: 0 <= i < n ==> s[i] != EMPTY_BYTE
    ensures n < max ==> s[n] == EMPTY_BYTE
  {
    if max == 0 || s[0] == EMPTY_BYTE then 0 else 1 + StrlenExt(s[1..], max - 1)
  }

  /** A name field: the given bytes followed by 0xFF up to the field width
      (memset to 0xFF, then memcpy). */
  function Pad(s: seq<byte>, n: nat): (r: seq<byte>)
    requires |s| <= n
    ensures |r| == n && r[..|s|] == s
    ensures forall i :: |s| <= i < n ==> r[i] == EMPTY_BYTE
  {
    s + Ones(n - |s|)
  }

  /** make_file: refuse names longer than 8 or extensions longer than 4
      bytes; otherwise a handle with the padded names and every other field
      0xFF. */
  function MakeFile(filename: seq<byte>, extname: seq<byte>): (r: Option<File>)
    ensures r.Some? <==> CStrLen(filename) <= FILENAME_SIZE && CStrLen(extname) <= EXTNAME_SIZE
    ensures r.Some? ==> r.value.WellFormed()
    ensures r.Some? ==> r.value.name == Pad(filename[..CStrLen(filename)], FILENAME_SIZE)
    ensures r.Some? ==> r.value.ext == Pad(extname[..CStrLen(extname)], EXTNAME_SIZE)
    ensures r.Some? ==> r.value.block == EMPTY_INT && r.value.cluster == EMPTY_INT && r.value.length == EMPTY_INT
  {
    var fl, el := CStrLen(filename), CStrLen(extname);
    if fl > FILENAME_SIZE || el > EXTNAME_SIZE then None
    else Some(File(Pad(filename[..fl], FILENAME_SIZE), Pad(extname[..el], EXTNAME_SIZE), EMPTY_INT, EMPTY_INT, EMPTY_INT))
  }

  /** A name made by make_file reads back, through strlen_ext, with the
      length of the C string, as long as the string holds no 0xFF byte. */
  lemma MakeFileNameLength(filename: seq<byte>, extname: seq<byte>)
    requires MakeFile(filename, extname).Some?
    requires forall i :: 0 <= i < |filename| ==> filename[i] != EMPTY_BYTE
    requires forall i :: 0 <= i < |extname| ==> extname[i] != EMPTY_BYTE
    ensures StrlenExt(MakeFile(filename, extname).value.name, FILENAME_SIZE) == CStrLen(filename)
    ensures StrlenExt(MakeFile(filename, extname).value.ext, EXTNAME_SIZE) == CStrLen(extname)
  {
    var h := MakeFile(filename, extname).value;
    StrlenExtExact(h.name, FILENAME_SIZE, CStrLen(filename));
    StrlenExtExact(h.ext, EXTNAME_SIZE, CStrLen(extname));
  }

  /** strlen_ext is determined by its contract. */
  lemma StrlenExtExact(s: seq<byte>, max: nat, n: nat)
    requires max <= |s| && n <= max
    requires forall i :: 0 <= i < n ==> s[i] != EMPTY_BYTE
    requires n < max ==> s[n] == EMPTY_BYTE
    ensures StrlenExt(s, max) == n
  {}

  /** The words of [i, len) of two names compared as uint32_t values. */
  function WordsEqual(src: seq<byte>, target: seq<byte>, i: nat, len: nat): (r: bool)
    requires len <= |src| && len <= |target| && i <= len && (len - i) % 4 == 0
    ensures r <==> src[i..len] == target[i..len]
    decreases len - i
  {
    if i == len then true
    else
      WordInjective(src[i..i + 4], target[i..i + 4]);
      SplitEqual(src[i..len], target[i..len], 4);
      assert src[i..len][..4] == src[i..i + 4] && src[i..len][4..] == src[i + 4..len];
      assert target[i..len][..4] == target[i..i + 4] && target[i..len][4..] == target[i + 4..len];
      Word(src[i..i + 4]) == Word(target[i..i + 4]) && WordsEqual(src, target, i + 4, len)
  }

  /** Two sequences are equal iff their first k elements and their rests are. */
  lemma SplitEqual(a: seq<byte>, b: seq<byte>, k: nat)
    requires |a| == |b| && k <= |a|
    ensures a == b <==> a[..k] == b[..k] && a[k..] == b[k..]
  {
    if a[..k] == b[..k] && a[k..] == b[k..] {
      assert a == a[..k] + a[k..] && b == b[..k] + b[k..];
    }
  }

  /** filename_equals: a field width that is not a multiple of four is
      refused; otherwise word-by-word comparison, which is byte equality. */
  function FilenameEquals(src: seq<byte>, target: seq<byte>, length: nat): (r: bool)
    requires length <= |src| && length <= |target|
    ensures r <==> length % 4 == 0 && src[..length] == target[..length]
  {
    if length % 4 != 0 then false
    else WordsEqual(src, target, 0, length)
  }

  /** fb_has_name from word i on: some word of the 12 name bytes is not
      EMPTY_INT_VALUE. */
  function HasNameFrom(fb: seq<byte>, i: nat): bool
    requires FILENAME_FULLSIZE <= |fb| && i <= FILENAME_FULLSIZE && i % 4 == 0
    decreases FILENAME_FULLSIZE - i
  {
    if i == FILENAME_FULLSIZE then false
    else Word(fb[i..i + 4]) != EMPTY_INT || HasNameFrom(fb, i + 4)
  }

  /** fb_has_name. */
  function FbHasName(fb: seq<byte>): bool
    requires FILENAME_FULLSIZE <= |fb|
  {
    HasNameFrom(fb, 0)
  }

  /** Comparing the three name words with EMPTY_INT_VALUE is asking whether
      any of the 12 name bytes is not erased. */
  lemma {:induction false} HasNameFromSpec(fb: seq<byte>, i: nat)
    requires FILENAME_FULLSIZE <= |fb| && i <= FILENAME_FULLSIZE && i % 4 == 0
    ensures HasNameFrom(fb, i) <==> !AllErased(fb[i..FILENAME_FULLSIZE])
    decreases FILENAME_FULLSIZE - i
  {
    if i < FILENAME_FULLSIZE {
      HasNameFromSpec(fb, i + 4);
      WordEmpty(fb[i..i + 4]);
      assert fb[i..FILENAME_FULLSIZE] == fb[i..i + 4] + fb[i + 4..FILENAME_FULLSIZE];
      AllErasedConcat(fb[i..i + 4], fb[i + 4..FILENAME_FULLSIZE]);
    }
  }

  /** An index entry is in use iff its 12 name bytes are not all erased. */
  lemma FbHasNameSpec(fb: seq<byte>)
    requires FILENAME_FULLSIZE <= |fb|
    ensures FbHasName(fb) <==> !AllErased(fb[..FILENAME_FULLSIZE])
  {
    HasNameFromSpec(fb, 0);
  }
}

=== FILE: session.dfy ===
/** write_file and read_file together: what an APPEND leaves on flash is
    what a later read of the whole file returns. */
module Session {
  import opened Bytes
  import opened Layout
  import opened StateCodec
  import opened Records
  import opened Flash
  import opened Files
  import opened Chain
  import opened Writing
  import opened FileWrite
  import opened Reading
  import Appending

  /** write_file APPEND to a writable file with data (the path on which
      write_file runs Extend), then read_file of the whole file from
      offset 0 into a zeroed buffer: when the append succeeds, the read
      returns every byte of the file, the old contents followed by the
      appended bytes. */
  method AppendThenRead(f: Image, file: File, buf: seq<byte>, length: u32, m: nat)
      returns (r: Image, h: File, res: Result, out: seq<byte>, count: u32)
    requires file.WellFormed() && file.block + FILEBLOCK_SIZE <= DATA_ADDR_FIRST && length <= |buf| && m < 4
    requires WritePath(f, file, Append) == ExtendData
    requires Laid(f, file.cluster, file.length) && FreeErased(f)
    requires length > 0 || file.length % 4088 != 0
    requires file.length + length < 0x1_0000_0000
    ensures res == AppendFileSuccess || res == NoSectorSpace
    ensures res == AppendFileSuccess ==> |out| == count
    ensures res == AppendFileSuccess ==>
              && h.length == file.length + length && count == h.length
              && out[..count] == FileBytes(f, file.cluster, file.length) + buf[..length]
  {
    r, h, res := Appending.Extend(f, file, buf, length, m);
    if res != AppendFileSuccess {
      return r, h, res, [], 0;
    }
    AppendDone(f, r, file, h, buf, length);
    out, count := ReadAll(r, h, m);
  }

  /** read_file of a whole live file from offset 0 into a zeroed buffer of
      its length returns all of its bytes. */
  method ReadAll(f: Image, file: File, m: nat) returns (out: seq<byte>, count: u32)
    requires file.block + FILEBLOCK_SIZE <= FLASH_SIZE && m < 4 && file.length > 0
    requires Live(f[file.block + STATE_OFFSET]) && Holds(f, file.cluster, file.length)
    ensures count == file.length && |out| == count && out == FileBytes(f, file.cluster, file.length)
  {
    var zero := seq(file.length, _ => 0 as byte);
    out, count := ReadFile(f, file, 0, zero, file.length, m);
    assert out == out[..count];
  }

  /** After a successful APPEND without wrap-around the handle has the
      summed length, the entry is still live, and the file holds its old
      bytes and then the new ones. */
  lemma AppendDone(f: Image, r: Image, file: File, h: File, buf: seq<byte>, length: u32)
    requires file.block + FILEBLOCK_SIZE <= DATA_ADDR_FIRST && length <= |buf|
    requires WritePath(f, file, Append) == ExtendData && Laid(f, file.cluster, file.length)
    requires length > 0 || file.length % 4088 != 0
    requires file.length + length < 0x1_0000_0000
    requires h == file.(length := h.length) && KeepsIndex(f, r)
    requires h.length == (file.length + length) % 0x1_0000_0000
    requires Appended(f, r, file.cluster, file.length, file.length + length, buf[..length])
    ensures h.length == file.length + length && h.length > 0 && h.block + FILEBLOCK_SIZE <= FLASH_SIZE
    ensures Live(r[h.block + STATE_OFFSET]) && Holds(r, h.cluster, h.length)
    ensures FileBytes(r, h.cluster, h.length) == FileBytes(f, file.cluster, file.length) + buf[..length]
  {
    HandleAfter(f, r, file, h, length);
    ContentAfter(f, r, file.cluster, file.length, file.length + length, buf[..length]);
  }

  /** After a successful APPEND without wrap-around the handle has the
      summed length and the entry is still live. */
  lemma HandleAfter(f: Image, r: Image, file: File, h: File, length: u32)
    requires file.block + FILEBLOCK_SIZE <= DATA_ADDR_FIRST
    requires WritePath(f, file, Append) == ExtendData
    requires length > 0 || file.length % 4088 != 0
    requires file.length + length < 0x1_0000_0000
    requires h == file.(length := h.length) && KeepsIndex(f, r)
    requires h.length == (file.length + length) % 0x1_0000_0000
    ensures h.length == file.length + length && h.length > 0
    ensures h.block == file.block && h.cluster == file.cluster && h.block + FILEBLOCK_SIZE <= FLASH_SIZE
    ensures Live(r[h.block + STATE_OFFSET])
  {
    Unwrapped(h.length, file.length, length);
    KeptByte(f, r, file.block + STATE_OFFSET);
  }

  /** A file that took x after its n0 bytes holds n bytes: the old ones,
      then x. */
  lemma ContentAfter(f: Image, r: Image, c: u32, n0: nat, n: nat, x: seq<byte>)
    requires ChainOf(f, c).Some? && Appended(f, r, c, n0, n, x)
    ensures Holds(r, c, n) && FileBytes(r, c, n) == FileBytes(f, c, n0) + x
  {
    AppendedMeans(f, r, c, n0, n, x);
    LaidHolds(r, c, n);
  }

  /** A sum below 2^32 does not wrap. */
  lemma Unwrapped(n: nat, x: nat, y: nat)
    requires x + y < 0x1_0000_0000 && n == (x + y) % 0x1_0000_0000
    ensures n == x + y
  {
  }
}

=== FILE: write.dfy ===
/** write_file: the permission check, the OVERRIDE discard walk and new
    index entry, the APPEND walk to the last sector and its tail fill, the
    sector search with its one garbage-collection retry, the index update
    and the sector loop (with the residual length decreased after each
    sector, see FileData.PlaceSectors). */
module Writing {
  import opened Bytes
  import opened Layout
  import opened StateCodec
  import opened Records
  import opened Flash
  import opened DiskIo
  import opened Chain
  import opened Gc
  import opened Files
  import opened FileData
  import AlignedIo

  /* ---------------------------------------------------------------- */
  /* The layout write_file keeps                                      */
  /* ---------------------------------------------------------------- */

  /** Every FREE data sector is erased through and through: marker,
      payload and link all read 0xFF.  spifs_format leaves the data area
      so, and write_file never programs a FREE sector without marking it
      IN_USE. */
  ghost predicate FreeErased(f: Image)
  {
    forall t :: IsDataSector(t) && IsFree(f, SectorAddr(t)) ==> SectorBytes(f, t) == Ones(SECTOR_SIZE)
  }

  /** The sectors s, starting at c, hold a file of n bytes as write_file
      leaves it: they are the chain from c, exactly as many as n bytes
      need, every one IN_USE, and the last one reads 0xFF past the end of
      the file. */
  ghost predicate LaidAs(f: Image, c: u32, n: nat, s: seq<DataAddr>)
  {
    && IsChain(f, c, s)
    && |s| == SectorsFor(n)
    && (forall i :: 0 <= i < |s| ==> IsInUse(f, s[i]))
    && (|s| > 0 ==> AllErased(Payload(f, s[|s| - 1])[TailUsed(n, |s|)..]))
  }

  /** How many of n bytes the last of k sectors holds. */
  function TailUsed(n: nat, k: nat): int
  {
    n - (k - 1) * 4088
  }

  /** The file whose first sector is c and whose length is n is laid out
      as write_file leaves it. */
  ghost predicate Laid(f: Image, c: u32, n: nat)
  {
    match ChainOf(f, c)
    case Some(s) => LaidAs(f, c, n, s)
    case None => false
  }

  /** The n bytes of the file whose chain starts at c. */
  ghost function FileBytes(f: Image, c: u32, n: nat): seq<byte>
    requires ChainOf(f, c).Some?
  {
    Contents(f, ChainOf(f, c).value, n)
  }

  /** r holds, in the file whose first sector is c, the n0 bytes that f
      held there followed by x: the file is laid out at its new length n
      and reads the old bytes and then x. */
  ghost predicate Appended(f: Image, r: Image, c: u32, n0: nat, n: nat, x: seq<byte>)
  {
    match ChainOf(r, c)
    case Some(s) => LaidAs(r, c, n, s) && ChainOf(f, c).Some? && Contents(r, s, n) == FileBytes(f, c, n0) + x
    case None => false
  }

  /** Appended, spelled out. */
  lemma AppendedMeans(f: Image, r: Image, c: u32, n0: nat, n: nat, x: seq<byte>)
    requires ChainOf(f, c).Some?
    ensures Appended(f, r, c, n0, n, x) <==> Laid(r, c, n) && FileBytes(r, c, n) == FileBytes(f, c, n0) + x
  {
  }

  /** A layout found is the layout the walk finds. */
  lemma LaidFound(f: Image, c: u32, n: nat, s: seq<DataAddr>)
    requires LaidAs(f, c, n, s)
    ensures Laid(f, c, n) && ChainOf(f, c) == Some(s)
  {
    ChainOfEvery(f, c, s);
  }

  /** An empty file is laid out: no sectors, nothing past its end. */
  lemma EmptyLaid(f: Image)
    ensures Laid(f, EMPTY_INT, 0) && FileBytes(f, EMPTY_INT, 0) == []
  {
    assert IsChain(f, EMPTY_INT, []);
    LaidFound(f, EMPTY_INT, 0, []);
  }

  /** A data sector is its marker, its payload and its link. */
  lemma SectorParts(f: Image, a: DataAddr)
    ensures SectorBytes(f, Sec(a)) == Mark(f, a) + Payload(f, a) + LinkBytes(f, a)
  {
    var s := SectorBytes(f, Sec(a));
    assert s == f[a..a + SECTOR_SIZE];
    assert s == f[a..a + SECTOR_MARK_SIZE] + f[a + SECTOR_MARK_SIZE..a + LINK_OFFSET] + f[a + LINK_OFFSET..a + SECTOR_SIZE];
  }

  /** Sectors with the same first four bytes carry the same marker. */
  lemma SameMarkers(f: Image, g: Image, t: nat)
    requires t < SECTOR_COUNT && SectorBytes(g, t)[..SECTOR_MARK_SIZE] == SectorBytes(f, t)[..SECTOR_MARK_SIZE]
    ensures IsFree(g, SectorAddr(t)) == IsFree(f, SectorAddr(t))
    ensures IsInUse(g, SectorAddr(t)) == IsInUse(f, SectorAddr(t))
    ensures IsDiscard(g, SectorAddr(t)) == IsDiscard(f, SectorAddr(t))
  {
    var a := SectorAddr(t);
    var x, y := SectorBytes(g, t), SectorBytes(f, t);
    assert g[a] == x[0] && g[a + 1] == x[1] && g[a + 2] == x[2] && g[a + 3] == x[3];
    assert f[a] == y[0] && f[a + 1] == y[1] && f[a + 2] == y[2] && f[a + 3] == y[3];
    assert x[..SECTOR_MARK_SIZE][0] == y[..SECTOR_MARK_SIZE][0];
    assert x[..SECTOR_MARK_SIZE][1] == y[..SECTOR_MARK_SIZE][1];
    assert x[..SECTOR_MARK_SIZE][2] == y[..SECTOR_MARK_SIZE][2];
    assert x[..SECTOR_MARK_SIZE][3] == y[..SECTOR_MARK_SIZE][3];
  }

  /** An AND with a pattern that is 0xFF over the marker keeps the marker. */
  lemma MaskKeepsMarker(s: seq<byte>, o: nat, d: seq<byte>)
    requires |s| == SECTOR_SIZE && SECTOR_MARK_SIZE <= o && o + |d| <= SECTOR_SIZE
    ensures AndBytes(s, Mask(o, d))[..SECTOR_MARK_SIZE] == s[..SECTOR_MARK_SIZE]
  {
    forall p | 0 <= p < SECTOR_MARK_SIZE
      ensures AndBytes(s, Mask(o, d))[p] == s[p]
    {
      AndLaws(s[p], 0xFF, 0xFF);
    }
  }

  /** FreeErased carries over to g when each data sector of g is as in f,
      erased, or not FREE. */
  lemma ErasedKept(f: Image, g: Image)
    requires FreeErased(f)
    requires forall t :: IsDataSector(t) ==>
               SectorBytes(g, t) == SectorBytes(f, t) || SectorBytes(g, t) == Ones(SECTOR_SIZE) || !IsFree(g, SectorAddr(t))
    ensures FreeErased(g)
  {
    forall t | IsDataSector(t) && IsFree(g, SectorAddr(t))
      ensures SectorBytes(g, t) == Ones(SECTOR_SIZE)
    {
      SameFree(f, g, t);
    }
  }

  /** Marking sectors DISCARD keeps FreeErased: a marked sector is no
      longer FREE, and every other sector is untouched. */
  lemma DiscardErased(f: Image, s: seq<DataAddr>)
    requires FreeErased(f)
    ensures FreeErased(DiscardAll(f, s))
  {
    var g := DiscardAll(f, s);
    DiscardAllFrame(f, s);
    DiscardAllMarks(f, s);
    forall t | IsDataSector(t)
      ensures SectorBytes(g, t) == SectorBytes(f, t) || !IsFree(g, SectorAddr(t))
    {
      SectorIsDataAddr(t);
      var a: DataAddr := SectorAddr(t);
      assert Sec(a) == t;
      if a in s {
        var i :| 0 <= i < |s| && s[i] == a;
        AndLaws(Mark(f, a)[0], 0, 0);
        assert g[a] == Mark(g, a)[0] == And(Mark(f, a)[0], DISCARD_BYTES[0]) == 0;
      } else {
        SectorParts(f, a);
        SectorParts(g, a);
      }
    }
    ErasedKept(f, g);
  }

  /* ---------------------------------------------------------------- */
  /* The sector search                                                */
  /* ---------------------------------------------------------------- */

  /** What spifs_gc(GC_TYPE_DATAAREA, ...) may do: every sector outside
      the data area is as it was, and every data sector is as it was or,
      if it was DISCARD, erased. */
  ghost predicate Reclaimed(g: Image, r: Image)
  {
    && (forall t :: 0 <= t < SECTOR_COUNT && !IsDataSector(t) ==> SectorBytes(r, t) == SectorBytes(g, t))
    && (forall t :: IsDataSector(t) ==>
          SectorBytes(r, t) == SectorBytes(g, t) || (IsDiscard(g, SectorAddr(t)) && SectorBytes(r, t) == Ones(SECTOR_SIZE)))
  }

  /** A collection keeps FreeErased and every sector that is not DISCARD. */
  lemma ReclaimErased(g: Image, r: Image)
    requires Reclaimed(g, r)
    ensures FreeErased(g) ==> FreeErased(r)
    ensures forall t :: IsDataSector(t) && !IsDiscard(g, SectorAddr(t)) ==> SectorBytes(r, t) == SectorBytes(g, t)
  {
    if FreeErased(g) {
      ErasedKept(g, r);
    }
  }

  /** Every sector below the data area, the index table among them, is
      as it was. */
  ghost predicate KeepsIndex(f: Image, r: Image)
  {
    forall t :: 0 <= t < DATA_SECTOR_START ==> SectorBytes(r, t) == SectorBytes(f, t)
  }

  /** Flash that keeps the index table reads the same at every address
      below the data area. */
  lemma KeptByte(f: Image, r: Image, a: nat)
    requires KeepsIndex(f, r) && a < DATA_ADDR_FIRST
    ensures r[a] == f[a]
  {
    var t := a / SECTOR_SIZE;
    assert SectorBytes(r, t)[a - SectorAddr(t)] == SectorBytes(f, t)[a - SectorAddr(t)];
  }

  /** A data-area collection keeps the index table.  Stated apart so
      that callers do not unfold Reclaimed in their own contexts. */
  lemma ReclaimKeeps(g: Image, r: Image)
    requires Reclaimed(g, r)
    ensures KeepsIndex(g, r)
  {
  }

  /** Fewer than k data sectors are FREE. */
  ghost predicate FewFree(g: Image, k: nat)
  {
    |FreeFrom(g, DATA_SECTOR_START)| < k
  }

  /** Neither the FREE nor the DISCARD data sectors number k: no search
      for k sectors can succeed, with or without a collection. */
  ghost predicate NoRoom(g: Image, k: nat)
  {
    FewFree(g, k) && DiscardsBelow(g, DATA_SECTOR_END + 1) < k
  }

  /** f and g mark the same data sectors FREE and the same DISCARD. */
  ghost predicate SameMarks(f: Image, g: Image)
  {
    forall u :: IsDataSector(u) ==>
      IsFree(g, SectorAddr(u)) == IsFree(f, SectorAddr(u)) && IsDiscard(g, SectorAddr(u)) == IsDiscard(f, SectorAddr(u))
  }

  /** Images with the same marks have room for the same searches. */
  lemma RoomSame(f: Image, g: Image, k: nat)
    requires SameMarks(f, g)
    ensures NoRoom(g, k) == NoRoom(f, k)
  {
    ScansSame(f, g, DATA_SECTOR_START);
    ScansSame(f, g, DATA_SECTOR_END + 1);
  }

  /** The sector search of write_file: find_empty_sector for k sectors;
      when too few are FREE, spifs_gc(GC_TYPE_DATAAREA, k) and, when it
      reports k reclaimed, find_empty_sector again.  It succeeds exactly
      when the FREE sectors or the DISCARD sectors alone number k: the
      retry compares the collector's count, not the FREE total, with k. */
  method FindSectors(g: Image, k: nat) returns (g1: Image, list: seq<DataAddr>, ok: bool)
    requires k > 0
    ensures ok <==> !NoRoom(g, k)
    ensures !FewFree(g, k) ==> g1 == g
    ensures Reclaimed(g, g1)
    ensures ok ==> |list| == k && forall i :: 0 <= i < |list| ==> IsFree(g1, list[i])
    ensures ok ==> forall i, j :: 0 <= i < j < |list| ==> list[i] < list[j]
  {
    var found := FindEmptySector(g, k);
    g1, list, ok := g, found.list, found.ok;
    if !ok {
      var count;
      g1, count := Collect(g, DataArea, k);
      GcFrees(g, g1, k);
      if count >= k {
        found := FindEmptySector(g1, k);
        list, ok := found.list, found.ok;
      }
    }
  }

  /* ---------------------------------------------------------------- */
  /* The index update and NEXT_PART_WRITE                             */
  /* ---------------------------------------------------------------- */

  /** The index update of write_file once the sectors are found, on
      flash: OVERRIDE writes the entry's cluster and length; APPEND to a
      handle without a cluster writes the cluster only; APPEND to a handle
      with one programs the first new sector into the link word at
      writeAddr. */
  function Record(g: Image, h: File, first: DataAddr, n: u32, wm: WriteMethod, writeAddr: nat): Image
    requires h.block + FILEBLOCK_SIZE <= FLASH_SIZE && writeAddr + LINK_SIZE <= FLASH_SIZE
  {
    if wm == Override then WriteFileblockLength(WriteFileblockCluster(g, h.block, first), h.block, n)
    else if h.cluster == EMPTY_INT then WriteFileblockCluster(g, h.block, first)
    else Program(g, writeAddr, LE32(first))
  }

  /** The same update on the handle: OVERRIDE and APPEND to a handle
      without a cluster set cluster and length; APPEND to a handle with
      one adds n to its length as a uint32_t. */
  function Recorded(h: File, first: DataAddr, n: u32, wm: WriteMethod): File
  {
    if wm == Override || h.cluster == EMPTY_INT then h.(cluster := first, length := n)
    else h.(length := (h.length + n) % 0x1_0000_0000)
  }

  /** Where the index update programs is harmless to the data area: the
      entry lies below it, and a link word it programs lies below it or
      ends an IN_USE sector. */
  ghost predicate Harmless(g: Image, h: File, wm: WriteMethod, writeAddr: nat)
  {
    && (wm == Override || h.cluster == EMPTY_INT ==> h.block + FILEBLOCK_SIZE <= DATA_ADDR_FIRST)
    && (wm == Append && h.cluster != EMPTY_INT ==>
          writeAddr + LINK_SIZE <= DATA_ADDR_FIRST || exists a: DataAddr :: writeAddr == a + LINK_OFFSET && IsInUse(g, a))
  }

  /** The index update changes no data sector, except the link word of
      the sector it links onto. */
  lemma RecordFrame(g: Image, h: File, first: DataAddr, n: u32, wm: WriteMethod, writeAddr: nat)
    requires h.block + FILEBLOCK_SIZE <= FLASH_SIZE && writeAddr + LINK_SIZE <= FLASH_SIZE
    requires wm == Override || h.cluster == EMPTY_INT ==> h.block + FILEBLOCK_SIZE <= DATA_ADDR_FIRST
    ensures wm == Override || h.cluster == EMPTY_INT || writeAddr + LINK_SIZE <= DATA_ADDR_FIRST ==>
              forall t :: IsDataSector(t) ==> SectorBytes(Record(g, h, first, n, wm, writeAddr), t) == SectorBytes(g, t)
    ensures forall a: DataAddr :: wm == Append && h.cluster != EMPTY_INT && writeAddr == a + LINK_OFFSET ==>
              && SectorBytes(Record(g, h, first, n, wm, writeAddr), Sec(a)) == AndBytes(SectorBytes(g, Sec(a)), Mask(LINK_OFFSET, LE32(first)))
              && (forall u :: 0 <= u < SECTOR_COUNT && u != Sec(a) ==> SectorBytes(Record(g, h, first, n, wm, writeAddr), u) == SectorBytes(g, u))
  {
    var r := Record(g, h, first, n, wm, writeAddr);
    if wm == Override {
      DataFrame(g, WriteFileblockCluster(g, h.block, first));
      DataFrame(WriteFileblockCluster(g, h.block, first), r);
    } else if h.cluster == EMPTY_INT {
      DataFrame(g, r);
    } else {
      if writeAddr + LINK_SIZE <= DATA_ADDR_FIRST {
        DataFrame(g, r);
      }
      forall a: DataAddr | writeAddr == a + LINK_OFFSET
        ensures SectorBytes(r, Sec(a)) == AndBytes(SectorBytes(g, Sec(a)), Mask(LINK_OFFSET, LE32(first)))
        ensures forall u :: 0 <= u < SECTOR_COUNT && u != Sec(a) ==> SectorBytes(r, u) == SectorBytes(g, u)
      {
        ProgramSector(g, Sec(a), LINK_OFFSET, LE32(first));
      }
    }
  }

  /** The result of write_file's sector loop on g: sector i of list holds
      its chunk and link ANDed onto g's, every other sector is g's. */
  ghost predicate Placed(g: Image, r: Image, list: seq<DataAddr>, buf: seq<byte>, off: nat, n: nat)
    requires off + n <= |buf|
  {
    && (forall i {:trigger Chunk(buf, off, n, i)} :: 0 <= i < |list| ==>
          i * 4088 <= n &&
          SectorBytes(r, Sec(list[i])) == AndBytes(SectorBytes(g, Sec(list[i])), SectorOf(Chunk(buf, off, n, i), NextOf(list, i))))
    && (forall u :: 0 <= u < SECTOR_COUNT && SectorAddr(u) !in list ==> SectorBytes(r, u) == SectorBytes(g, u))
  }

  /** What write_file returns when it has written everything. */
  function Done(wm: WriteMethod): Result
  {
    if wm == Override then WriteFileSuccess else AppendFileSuccess
  }

  /** write_file from the label NEXT_PART_WRITE on, for n bytes of buf
      from off: the sector search, the index update at h and writeAddr,
      and the sector loop.  g1 is the flash after the search.  On flash
      where FREE sectors are erased, the sectors found then hold the n
      bytes, chained from the first, laid out as a file. */
  method NextPart(g: Image, h: File, buf: seq<byte>, off: nat, n: u32, wm: WriteMethod, writeAddr: nat, m: nat)
    returns (r: Image, h': File, res: Result, list: seq<DataAddr>, ghost g1: Image)
    requires 0 < n && off + n <= |buf| && m < 4
    requires h.block + FILEBLOCK_SIZE <= FLASH_SIZE && writeAddr + LINK_SIZE <= FLASH_SIZE
    ensures Reclaimed(g, g1)
    ensures res == NoSectorSpace || res == Done(wm)
    ensures res == NoSectorSpace <==> NoRoom(g, SectorsFor(n))
    ensures res == NoSectorSpace ==> r == g1 && h' == h
    ensures res == Done(wm) ==>
              && |list| == SectorsFor(n) && (forall i :: 0 <= i < |list| ==> IsFree(g1, list[i]))
              && h' == Recorded(h, list[0], n, wm)
              && Placed(Record(g1, h, list[0], n, wm, writeAddr), r, list, buf, off, n)
    ensures res == Done(wm) && FreeErased(g) && Harmless(g, h, wm, writeAddr) ==>
              && FreeErased(r)
              && LaidAs(r, list[0], n, list)
              && Contents(r, list, n) == buf[off..off + n]
  {
    var found, ok;
    found, list, ok := FindSectors(g, SectorsFor(n));
    g1 := found;
    if !ok {
      return found, h, NoSectorSpace, list, found;
    }
    r, h' := WriteRun(found, h, list, buf, off, n, wm, writeAddr, m);
    res := Done(wm);
    ghost var rec := Record(found, h, list[0], n, wm, writeAddr);
    ghost var clean := FreeErased(g) && Harmless(g, h, wm, writeAddr);
    if clean {
      PlacedClean(g, g1, rec, r, h, wm, writeAddr, list, buf, off, n);
    }
  }

  /** The index update and the sector loop of NEXT_PART_WRITE, once the
      sectors are found. */
  method WriteRun(g1: Image, h: File, list: seq<DataAddr>, buf: seq<byte>, off: nat, n: u32, wm: WriteMethod, writeAddr: nat, m: nat)
    returns (r: Image, h': File)
    requires 0 < n && off + n <= |buf| && m < 4 && |list| == SectorsFor(n)
    requires forall i, j :: 0 <= i < j < |list| ==> list[i] < list[j]
    requires h.block + FILEBLOCK_SIZE <= FLASH_SIZE && writeAddr + LINK_SIZE <= FLASH_SIZE
    ensures h' == Recorded(h, list[0], n, wm)
    ensures Placed(Record(g1, h, list[0], n, wm, writeAddr), r, list, buf, off, n)
  {
    var rec := Record(g1, h, list[0], n, wm, writeAddr);
    h' := Recorded(h, list[0], n, wm);
    r := PlaceSectors(rec, list, buf, off, n, m);
  }

  /** The clean case of NextPart: the sectors found are erased when the
      loop writes them, so they end up holding exactly their chunks. */
  lemma PlacedClean(g: Image, g1: Image, g2: Image, r: Image, h: File, wm: WriteMethod, writeAddr: nat,
                    list: seq<DataAddr>, buf: seq<byte>, off: nat, n: u32)
    requires FreeErased(g) && Harmless(g, h, wm, writeAddr) && Reclaimed(g, g1)
    requires 0 < n && off + n <= |buf| && h.block + FILEBLOCK_SIZE <= FLASH_SIZE && writeAddr + LINK_SIZE <= FLASH_SIZE
    requires |list| == SectorsFor(n) && forall i :: 0 <= i < |list| ==> IsFree(g1, list[i])
    requires g2 == Record(g1, h, list[0], n, wm, writeAddr)
    requires Placed(g2, r, list, buf, off, n)
    ensures FreeErased(r) && LaidAs(r, list[0], n, list) && Contents(r, list, n) == buf[off..off + n]
  {
    ReclaimErased(g, g1);
    RecordErased(g, g1, g2, h, list[0], n, wm, writeAddr);
    ListErased(g1, g2, list);
    OnErased(g2, r, list, buf, off, n);
  }

  /** After the search and the index update, FREE sectors are still
      erased, and every FREE sector of g1 is as it was. */
  lemma RecordErased(g: Image, g1: Image, g2: Image, h: File, first: DataAddr, n: u32, wm: WriteMethod, writeAddr: nat)
    requires FreeErased(g) && Harmless(g, h, wm, writeAddr) && Reclaimed(g, g1) && FreeErased(g1)
    requires h.block + FILEBLOCK_SIZE <= FLASH_SIZE && writeAddr + LINK_SIZE <= FLASH_SIZE
    requires g2 == Record(g1, h, first, n, wm, writeAddr)
    ensures FreeErased(g2)
    ensures forall t :: IsDataSector(t) && IsFree(g1, SectorAddr(t)) ==> SectorBytes(g2, t) == SectorBytes(g1, t)
  {
    RecordFrame(g1, h, first, n, wm, writeAddr);
    if wm == Append && h.cluster != EMPTY_INT && writeAddr + LINK_SIZE > DATA_ADDR_FIRST {
      var a: DataAddr :| writeAddr == a + LINK_OFFSET && IsInUse(g, a);
      var s := Sec(a);
      MarkersExclusive(g, a);
      ReclaimErased(g, g1);
      SameMarkers(g, g1, s);
      MaskKeepsMarker(SectorBytes(g1, s), LINK_OFFSET, LE32(first));
      SameMarkers(g1, g2, s);
      MarkersExclusive(g1, a);
      forall t | IsDataSector(t)
        ensures SectorBytes(g2, t) == SectorBytes(g1, t) || !IsFree(g2, SectorAddr(t))
      {
      }
      ErasedKept(g1, g2);
    } else {
      ErasedKept(g1, g2);
    }
  }

  /** Sectors FREE in g1 and untouched by the index update are erased in g2. */
  lemma ListErased(g1: Image, g2: Image, list: seq<DataAddr>)
    requires FreeErased(g1)
    requires forall t :: IsDataSector(t) && IsFree(g1, SectorAddr(t)) ==> SectorBytes(g2, t) == SectorBytes(g1, t)
    requires forall i :: 0 <= i < |list| ==> IsFree(g1, list[i])
    ensures forall i :: 0 <= i < |list| ==> SectorBytes(g2, Sec(list[i])) == Ones(SECTOR_SIZE)
  {
    forall i | 0 <= i < |list|
      ensures SectorBytes(g2, Sec(list[i])) == Ones(SECTOR_SIZE)
    {
      assert IsFree(g1, SectorAddr(Sec(list[i])));
    }
  }

  /** ANDing onto erased bytes writes the pattern itself. */
  lemma AndOntoErased(x: seq<byte>)
    ensures AndBytes(Ones(|x|), x) == x
  {
    forall p | 0 <= p < |x|
      ensures And(0xFF, x[p]) == x[p]
    {
      AndLaws(x[p], 0xFF, 0xFF);
    }
  }

  /** A run placed on erased sectors is laid out as a file and reads back;
      every other sector is as it was, so FreeErased carries over. */
  lemma OnErased(g2: Image, r: Image, list: seq<DataAddr>, buf: seq<byte>, off: nat, n: nat)
    requires FreeErased(g2) && 0 < n && off + n <= |buf|
    requires |list| == SectorsFor(n)
    requires forall i :: 0 <= i < |list| ==> SectorBytes(g2, Sec(list[i])) == Ones(SECTOR_SIZE)
    requires Placed(g2, r, list, buf, off, n)
    ensures FreeErased(r) && LaidAs(r, list[0], n, list) && Contents(r, list, n) == buf[off..off + n]
  {
    forall i | 0 <= i < |list|
      ensures SectorBytes(r, Sec(list[i])) == SectorOf(Chunk(buf, off, n, i), NextOf(list, i))
    {
      AndOntoErased(SectorOf(Chunk(buf, off, n, i), NextOf(list, i)));
    }
    PlacedReadsBack(r, list, buf, off, n);
    LastTail(r, list, buf, off, n);
    PlacedErased(g2, r, list, buf, off, n);
  }

  /** The last sector of a run reads 0xFF past the end of the n bytes. */
  lemma LastTail(r: Image, list: seq<DataAddr>, buf: seq<byte>, off: nat, n: nat)
    requires 0 < n && off + n <= |buf| && |list| == SectorsFor(n)
    requires forall i :: 0 <= i < |list| ==>
               i * 4088 <= n && SectorBytes(r, Sec(list[i])) == SectorOf(Chunk(buf, off, n, i), NextOf(list, i))
    ensures AllErased(Payload(r, list[|list| - 1])[TailUsed(n, |list|)..])
  {
    var k := |list|;
    var c := Chunk(buf, off, n, k - 1);
    ReadSector(r, list[k - 1], c, NextOf(list, k - 1));
    assert |c| == n - (k - 1) * 4088;
  }

  /** The run's sectors end IN_USE and the others keep their bytes, so
      FreeErased carries over. */
  lemma PlacedErased(g2: Image, r: Image, list: seq<DataAddr>, buf: seq<byte>, off: nat, n: nat)
    requires FreeErased(g2) && off + n <= |buf|
    requires forall i :: 0 <= i < |list| ==> IsInUse(r, list[i])
    requires forall u :: 0 <= u < SECTOR_COUNT && SectorAddr(u) !in list ==> SectorBytes(r, u) == SectorBytes(g2, u)
    ensures FreeErased(r)
  {
    forall t | IsDataSector(t)
      ensures SectorBytes(r, t) == SectorBytes(g2, t) || !IsFree(r, SectorAddr(t))
    {
      if SectorAddr(t) in list {
        var i :| 0 <= i < |list| && list[i] == SectorAddr(t);
        MarkersExclusive(r, list[i]);
      }
    }
    ErasedKept(g2, r);
  }

  /** Images whose data sectors carry the same markers give the sector
      search and the data pass of the collector the same counts. */
  lemma {:induction false} ScansSame(f: Image, g: Image, t: nat)
    requires DATA_SECTOR_START <= t <= DATA_SECTOR_END + 1 && SameMarks(f, g)
    ensures FreeFrom(g, t) == FreeFrom(f, t)
    ensures DiscardsBelow(g, t) == DiscardsBelow(f, t)
    decreases DATA_SECTOR_END + 1 - t
  {
    ScansFrom(f, g, t);
    ScansBelow(f, g, t);
  }

  lemma {:induction false} ScansFrom(f: Image, g: Image, t: nat)
    requires DATA_SECTOR_START <= t
    requires forall u :: IsDataSector(u) ==> IsFree(g, SectorAddr(u)) == IsFree(f, SectorAddr(u))
    ensures FreeFrom(g, t) == FreeFrom(f, t)
    decreases DATA_SECTOR_END + 1 - t
  {
    if t <= DATA_SECTOR_END {
      ScansFrom(f, g, t + 1);
    }
  }

  lemma {:induction false} ScansBelow(f: Image, g: Image, t: nat)
    requires DATA_SECTOR_START <= t <= DATA_SECTOR_END + 1
    requires forall u :: IsDataSector(u) ==> IsDiscard(g, SectorAddr(u)) == IsDiscard(f, SectorAddr(u))
    ensures DiscardsBelow(g, t) == DiscardsBelow(f, t)
    decreases t
  {
    if t > DATA_SECTOR_START {
      ScansBelow(f, g, t - 1);
    }
  }
}

=== FILE: writefile.dfy ===
/** write_file as a whole: the permission check, then one of the paths
    the handle and the write method select.  OVERRIDE of a file with data
    discards its chain and reissues its index entry before writing the data
    afresh; OVERRIDE of a file without data and APPEND to a file without a
    cluster write the data afresh; APPEND to a file with data fills the
    tail and links on; APPEND to a handle with a cluster but no length
    links the new sectors from flash address 0. */
module FileWrite {
  import opened Bytes
  import opened Layout
  import opened StateCodec
  import opened Records
  import opened Flash
  import opened DiskIo
  import opened Index
  import opened Chain
  import opened Gc
  import opened Files
  import opened FileData
  import opened Writing
  import opened Appending

  /** The ways through write_file. */
  datatype Path =
    | Denied      // the entry is deleted, deprecated or read-only
    | ReplaceData // OVERRIDE of a handle with a cluster
    | ExtendData  // APPEND to a handle with a cluster and a length
    | LinkAtZero  // APPEND to a handle with a cluster but no length
    | NewData     // OVERRIDE or APPEND to a handle without a cluster

  /** The path write_file takes for the entry state byte st, the handle
      and the write method. */
  function PathOf(st: byte, file: File, wm: WriteMethod): Path
  {
    if !Writable(st) then Denied
    else if wm == Override && file.cluster != EMPTY_INT then ReplaceData
    else if wm == Append && file.cluster != EMPTY_INT && file.length != EMPTY_INT then ExtendData
    else if wm == Append && file.cluster != EMPTY_INT then LinkAtZero
    else NewData
  }

  /** Every path walks the handle's chain or writes no chain-dependent
      data, and the walks are those of OVERRIDE and APPEND with data. */
  lemma PathsApart(st: byte, file: File, wm: WriteMethod)
    ensures PathOf(st, file, wm) == Denied <==> !Writable(st)
    ensures PathOf(st, file, wm) in {ReplaceData, ExtendData, LinkAtZero} <==> Writable(st) && file.cluster != EMPTY_INT
    ensures PathOf(st, file, wm) == NewData <==> Writable(st) && file.cluster == EMPTY_INT
    ensures PathOf(st, file, wm) == ReplaceData ==> wm == Override
    ensures PathOf(st, file, wm) in {ExtendData, LinkAtZero} ==> wm == Append
  {
  }

  /** The path write_file takes on flash f: the permission test reads the
      state byte of the handle's entry. */
  function WritePath(f: Image, file: File, wm: WriteMethod): Path
    requires file.block + FILEBLOCK_SIZE <= FLASH_SIZE
  {
    PathOf(f[file.block + STATE_OFFSET], file, wm)
  }

  /** write_file.  The flash, the handle and the result for every path:
      CANNOT_WRITE_FILE exactly when the entry is not writable, with nothing
      changed; NO_FILEBLOCK_SPACE only from OVERRIDE of a file with data;
      NO_SECTOR_SPACE exactly when neither the FREE nor the DISCARD
      sectors suffice; and, on flash laid out as write_file leaves it, the
      written file holds the data (appended to the old for APPEND). */
  method WriteFile(f: Image, file: File, buf: seq<byte>, length: u32, wm: WriteMethod, m: nat)
      returns (r: Image, h: File, res: Result)
    requires file.WellFormed() && file.block + FILEBLOCK_SIZE <= FLASH_SIZE && length <= |buf| && m < 4
    requires WritePath(f, file, wm) in {ReplaceData, ExtendData} ==> ChainOf(f, file.cluster).Some?
    requires length > 0 || WritePath(f, file, wm) == Denied
             || (WritePath(f, file, wm) == ExtendData && file.length % 4088 != 0)
    ensures res == CannotWriteFile <==> WritePath(f, file, wm) == Denied
    ensures res == CannotWriteFile <==> !Writable(f[file.block + STATE_OFFSET])
    ensures res == CannotWriteFile ==> r == f && h == file
    ensures res == NoFileblockSpace ==> wm == Override && file.cluster != EMPTY_INT
    ensures res == NoFileblockSpace ==> WritePath(f, file, wm) == ReplaceData
    ensures WritePath(f, file, wm) == ReplaceData ==>
              && (res == WriteFileSuccess || res == NoFileblockSpace || res == NoSectorSpace)
              && (res == NoFileblockSpace ==>
                    && r == WriteFileblockState(Discarded(f, file.cluster), file.block, FSTATE_DEPRECATE)
                    && h == file.(cluster := EMPTY_INT, length := EMPTY_INT))
              && (res == NoFileblockSpace <==> CreateFails(Dropped(f, file), file))
              && (file.block + FILEBLOCK_SIZE <= DATA_ADDR_FIRST && res != NoFileblockSpace ==>
                    (res == NoSectorSpace <==> NoRoom(Discarded(f, file.cluster), SectorsFor(length))))
              && (res == NoSectorSpace ==>
                    && h == file.(block := h.block, cluster := EMPTY_INT, length := EMPTY_INT)
                    && h.block + FILEBLOCK_SIZE <= DATA_ADDR_FIRST)
              && (res == NoSectorSpace && file.block + FILEBLOCK_SIZE <= DATA_ADDR_FIRST ==>
                    DataReclaimed(Discarded(f, file.cluster), r))
              && (res == NoSectorSpace && NamedEntry(f, file.block) && AvailFiles(f) > 0 ==>
                    !Dep(r[file.block + STATE_OFFSET]))
              && (res == WriteFileSuccess ==> IsDataAddr(h.cluster) && h.length == length && h.name == file.name && h.ext == file.ext)
              && (FreeErased(f) && file.block + FILEBLOCK_SIZE <= DATA_ADDR_FIRST && res == WriteFileSuccess ==>
                    FreeErased(r) && Laid(r, h.cluster, length) && FileBytes(r, h.cluster, length) == buf[..length])
    ensures WritePath(f, file, wm) == NewData ==>
              && (res == Done(wm) || res == NoSectorSpace)
              && (res == NoSectorSpace <==> NoRoom(f, SectorsFor(length)))
              && (res == NoSectorSpace ==> h == file && Reclaimed(f, r))
              && (res == Done(wm) ==> IsDataAddr(h.cluster) && h == file.(cluster := h.cluster, length := length))
              && (FreeErased(f) && file.block + FILEBLOCK_SIZE <= DATA_ADDR_FIRST && res == Done(wm) ==>
                    FreeErased(r) && Laid(r, h.cluster, length) && FileBytes(r, h.cluster, length) == buf[..length])
    ensures WritePath(f, file, wm) == ExtendData ==>
              && (res == AppendFileSuccess || res == NoSectorSpace)
              && h == file.(length := h.length) && KeepsIndex(f, r)
              && (res == AppendFileSuccess ==> h.length == (file.length + length) % 0x1_0000_0000)
              && (res == NoSectorSpace <==> length > TailRoom(file.length) && NoRoom(f, SectorsFor(length - TailRoom(file.length))))
              && (res == NoSectorSpace ==> h.length == (file.length + TailRoom(file.length)) % 0x1_0000_0000)
              && (Laid(f, file.cluster, file.length) && FreeErased(f) && res == AppendFileSuccess ==>
                    FreeErased(r) && Appended(f, r, file.cluster, file.length, file.length + length, buf[..length]))
    ensures WritePath(f, file, wm) == LinkAtZero ==>
              && (res == AppendFileSuccess || res == NoSectorSpace)
              && (res == NoSectorSpace <==> NoRoom(f, SectorsFor(length)))
              && (res == NoSectorSpace ==> h == file && Reclaimed(f, r))
              && (res == AppendFileSuccess ==>
                    && h == file.(length := length - 1)
                    && exists a: DataAddr :: forall i :: 0 <= i < LINK_SIZE ==> r[i] == And(f[i], LE32(a)[i]))
  {
    PathsApart(f[file.block + STATE_OFFSET], file, wm);
    var finfo := ReadFinfo(f, file.block);
    if !Writable(finfo.state) {
      return f, file, CannotWriteFile;
    }
    if wm == Override && file.cluster != EMPTY_INT {
      r, h, res := Replace(f, file, buf, length, m);
    } else if wm == Append && file.cluster != EMPTY_INT && file.length != EMPTY_INT {
      r, h, res := Extend(f, file, buf, length, m);
    } else if wm == Append && file.cluster != EMPTY_INT {
      var first;
      r, h, res, first := LinkFromZero(f, file, buf, length, m);
      if res == AppendFileSuccess {
        var a: DataAddr := first;
      }
    } else {
      r, h, res := WriteNew(f, file, buf, length, wm, m);
    }
  }

  /** The flash after OVERRIDE's discard walk over the chain from c. */
  ghost function Discarded(f: Image, c: u32): Image
    requires ChainOf(f, c).Some?
  {
    DiscardAll(f, ChainOf(f, c).value)
  }

  /** The flash create_file sees in OVERRIDE of a handle with a cluster:
      the chain discarded and the handle's entry deprecated. */
  ghost function Dropped(f: Image, file: File): Image
    requires ChainOf(f, file.cluster).Some? && file.block + FILEBLOCK_SIZE <= FLASH_SIZE
  {
    WriteFileblockState(Discarded(f, file.cluster), file.block, FSTATE_DEPRECATE)
  }

  /** create_file refuses file's name on flash g: the name is taken, or no
      slot is free and none is deprecated or deleted to collect. */
  ghost predicate CreateFails(g: Image, file: File)
    requires file.WellFormed()
  {
    OpenFileImpl(g, file.name, file.ext, true).Some? || (FirstFreeSlot(g).None? && IndexTotal(g) == 0)
  }

  /** r's data sectors are g's, or erased where g marks them DISCARD: what
      a collection of g's data area leaves. */
  ghost predicate DataReclaimed(g: Image, r: Image)
  {
    forall t :: IsDataSector(t) ==>
      SectorBytes(r, t) == SectorBytes(g, t) || (IsDiscard(g, SectorAddr(t)) && SectorBytes(r, t) == Ones(SECTOR_SIZE))
  }

  /** OVERRIDE of a handle with a cluster: every sector of its chain is
      marked DISCARD, the handle's cluster and length become EMPTY, the
      entry is deprecated and create_file writes a fresh one (failing with
      NO_FILEBLOCK_SPACE, the old entry left deprecated and the sectors
      discarded), then the data is written from NEXT_PART_WRITE. */
  method Replace(f: Image, file: File, buf: seq<byte>, length: u32, m: nat) returns (r: Image, h: File, res: Result)
    requires file.WellFormed() && file.cluster != EMPTY_INT && ChainOf(f, file.cluster).Some?
    requires file.block + FILEBLOCK_SIZE <= FLASH_SIZE && 0 < length <= |buf| && m < 4
    ensures res == WriteFileSuccess || res == NoFileblockSpace || res == NoSectorSpace
    ensures res == NoFileblockSpace ==>
              && r == WriteFileblockState(Discarded(f, file.cluster), file.block, FSTATE_DEPRECATE)
              && h == file.(cluster := EMPTY_INT, length := EMPTY_INT)
    ensures res == WriteFileSuccess ==>
              && IsDataAddr(h.cluster) && h.length == length
              && h.name == file.name && h.ext == file.ext && h.block + FILEBLOCK_SIZE <= DATA_ADDR_FIRST
    ensures file.block + FILEBLOCK_SIZE <= DATA_ADDR_FIRST && res != NoFileblockSpace ==>
              (res == NoSectorSpace <==> NoRoom(Discarded(f, file.cluster), SectorsFor(length)))
    ensures res == NoSectorSpace ==>
              && h == file.(block := h.block, cluster := EMPTY_INT, length := EMPTY_INT)
              && h.block + FILEBLOCK_SIZE <= DATA_ADDR_FIRST
    ensures res == NoSectorSpace && file.block + FILEBLOCK_SIZE <= DATA_ADDR_FIRST ==>
              DataReclaimed(Discarded(f, file.cluster), r)
    ensures res == NoSectorSpace && NamedEntry(f, file.block) && AvailFiles(f) > 0 ==>
              !Dep(r[file.block + STATE_OFFSET])
    ensures FreeErased(f) && file.block + FILEBLOCK_SIZE <= DATA_ADDR_FIRST && res == WriteFileSuccess ==>
              && FreeErased(r)
              && Laid(r, h.cluster, length)
              && FileBytes(r, h.cluster, length) == buf[..length]
    ensures res == NoFileblockSpace <==> CreateFails(Dropped(f, file), file)
  {
    var g1, h1, created := DropChain(f, file, length);
    if created != CreateFileSuccess {
      return g1, h1, NoFileblockSpace;
    }
    var list;
    ghost var g2;
    r, h, res, list, g2 := NextPart(g1, h1, buf, 0, length, Override, 0, m);
    if res == NoSectorSpace {
      ReplaceNoRoom(f, file, g1, r);
    }
    if res == WriteFileSuccess && file.block + FILEBLOCK_SIZE <= DATA_ADDR_FIRST && FreeErased(f) {
      ReplaceLaid(g1, r, h1, list, buf, length);
      LaidFound(r, list[0], length, list);
    }
  }

  /** The first half of Replace: the discard walk, then the deprecation of
      the entry and create_file with the emptied handle.  The new entry
      has no cluster and no length, and lies in the index table. */
  method DropChain(f: Image, file: File, ghost n: nat) returns (g1: Image, h1: File, created: Result)
    requires file.WellFormed() && file.cluster != EMPTY_INT && ChainOf(f, file.cluster).Some?
    requires file.block + FILEBLOCK_SIZE <= FLASH_SIZE
    ensures created != CreateFileSuccess ==>
              && g1 == WriteFileblockState(Discarded(f, file.cluster), file.block, FSTATE_DEPRECATE)
              && h1 == file.(cluster := EMPTY_INT, length := EMPTY_INT)
    ensures created == CreateFileSuccess ==>
              && h1.WellFormed() && h1.block + FILEBLOCK_SIZE <= DATA_ADDR_FIRST
              && h1.name == file.name && h1.ext == file.ext
    ensures created != CreateFileSuccess <==> CreateFails(Dropped(f, file), file)
    ensures created == CreateFileSuccess ==> h1 == file.(block := h1.block, cluster := EMPTY_INT, length := EMPTY_INT)
    ensures file.block + FILEBLOCK_SIZE <= DATA_ADDR_FIRST ==>
              && NoRoom(g1, SectorsFor(n)) == NoRoom(Discarded(f, file.cluster), SectorsFor(n))
              && (FreeErased(f) ==> FreeErased(g1))
              && forall t :: IsDataSector(t) ==> SectorBytes(g1, t) == SectorBytes(Discarded(f, file.cluster), t)
    ensures created == CreateFileSuccess && NamedEntry(f, file.block) && AvailFiles(f) > 0 ==>
              !Dep(g1[file.block + STATE_OFFSET])
  {
    ghost var c := file.cluster;
    ghost var s := ChainOf(f, c).value;
    DiscardWalkChain(f, c, DATA_SECTORS);
    var g0 := DiscardWalk(f, file.cluster, DATA_SECTORS).value;
    assert g0 == Discarded(f, c);
    var blank := file.(cluster := EMPTY_INT, length := EMPTY_INT);
    var finfo := ReadFinfo(f, file.block);
    DiscardKeepsTable(f, s, file.block);
    g1, h1, created := Reissue(g0, file.block, blank, finfo);
    if created == CreateFileSuccess {
      ghost var k :| 0 <= k < SLOT_COUNT && h1 == NewHandle(blank, finfo, k);
      NewBlockCarries(blank, finfo);
    }
    if file.block + FILEBLOCK_SIZE <= DATA_ADDR_FIRST {
      ReplaceFrame(f, g0, g1, s, n);
    }
  }

  /** The discard walk writes only data sectors: every slot of the index
      table keeps its bytes, so the named entries and the free count stay. */
  lemma DiscardKeepsTable(f: Image, s: seq<DataAddr>, block: nat)
    ensures NamedEntry(DiscardAll(f, s), block) == NamedEntry(f, block)
    ensures AvailFiles(DiscardAll(f, s)) == AvailFiles(f)
  {
    var g := DiscardAll(f, s);
    DiscardAllFrame(f, s);
    forall k | 0 <= k < SLOT_COUNT
      ensures HasName(g, k) == HasName(f, k)
    {
      SlotBelowData(k);
      assert forall p :: 0 <= p < FILEBLOCK_SIZE ==> SlotBytes(g, k)[p] == SlotBytes(f, k)[p];
      SameSlot(f, g, k, SlotBytes(f, k)[..FILENAME_FULLSIZE]);
    }
    assert FreeSlots(g, 0) == FreeSlots(f, 0);
  }

  /** NO_SECTOR_SPACE after the reissue: the collection keeps the index
      table, so the old entry stays deprecated, and the data sectors are
      those of the discard walk or collected from them. */
  lemma ReplaceNoRoom(f: Image, file: File, g1: Image, r: Image)
    requires ChainOf(f, file.cluster).Some? && file.block + FILEBLOCK_SIZE <= FLASH_SIZE
    requires Reclaimed(g1, r)
    requires file.block + FILEBLOCK_SIZE <= DATA_ADDR_FIRST ==>
               forall t :: IsDataSector(t) ==> SectorBytes(g1, t) == SectorBytes(Discarded(f, file.cluster), t)
    requires NamedEntry(f, file.block) && AvailFiles(f) > 0 ==> !Dep(g1[file.block + STATE_OFFSET])
    ensures file.block + FILEBLOCK_SIZE <= DATA_ADDR_FIRST ==> DataReclaimed(Discarded(f, file.cluster), r)
    ensures NamedEntry(f, file.block) && AvailFiles(f) > 0 ==> !Dep(r[file.block + STATE_OFFSET])
  {
    ReclaimKeeps(g1, r);
    if file.block + FILEBLOCK_SIZE <= DATA_ADDR_FIRST {
      ReclaimedData(Discarded(f, file.cluster), g1, r);
    }
    if NamedEntry(f, file.block) && AvailFiles(f) > 0 {
      var k :| 0 <= k < SLOT_COUNT && SlotAddr(k) == file.block && HasName(f, k);
      SlotBelowData(k);
      KeptByte(g1, r, file.block + STATE_OFFSET);
    }
  }

  /** A collection after a step that kept g0's data sectors leaves r's data
      sectors as a collection of g0 would. */
  lemma ReclaimedData(g0: Image, g1: Image, r: Image)
    requires forall t :: IsDataSector(t) ==> SectorBytes(g1, t) == SectorBytes(g0, t)
    requires Reclaimed(g1, r)
    ensures DataReclaimed(g0, r)
  {
    forall t | IsDataSector(t)
      ensures SectorBytes(r, t) == SectorBytes(g0, t) || (IsDiscard(g0, SectorAddr(t)) && SectorBytes(r, t) == Ones(SECTOR_SIZE))
    {
      SameMarker(g0, g1, t);
    }
  }

  /** The discard walk and the reissued entry leave the data sectors'
      marks as the walk left them. */
  lemma ReplaceFrame(f: Image, g0: Image, g1: Image, s: seq<DataAddr>, n: nat)
    requires g0 == DiscardAll(f, s)
    requires forall t :: IsDataSector(t) ==> SectorBytes(g1, t) == SectorBytes(g0, t)
    ensures NoRoom(g1, SectorsFor(n)) == NoRoom(g0, SectorsFor(n))
    ensures FreeErased(f) ==> FreeErased(g1)
  {
    forall u | IsDataSector(u)
      ensures IsFree(g1, SectorAddr(u)) == IsFree(g0, SectorAddr(u)) && IsDiscard(g1, SectorAddr(u)) == IsDiscard(g0, SectorAddr(u))
    {
      SameMarker(g0, g1, u);
      SameFree(g0, g1, u);
    }
    RoomSame(g0, g1, SectorsFor(n));
    if FreeErased(f) {
      DiscardErased(f, s);
      ErasedKept(g0, g1);
    }
  }

  /** The clean case of Replace: NEXT_PART_WRITE on the discarded flash
      with the reissued handle lays the data out afresh. */
  lemma ReplaceLaid(g1: Image, r: Image, h1: File, list: seq<DataAddr>, buf: seq<byte>, n: nat)
    requires FreeErased(g1) && h1.block + FILEBLOCK_SIZE <= DATA_ADDR_FIRST
    requires 0 < n <= |buf| && 0 < |list|
    requires FreeErased(g1) && Harmless(g1, h1, Override, 0) ==>
               FreeErased(r) && LaidAs(r, list[0], n, list) && Contents(r, list, n) == buf[0..0 + n]
    ensures FreeErased(r) && LaidAs(r, list[0], n, list) && Contents(r, list, n) == buf[..n]
  {
    assert Harmless(g1, h1, Override, 0);
  }

  /** OVERRIDE of a handle without a cluster, or APPEND to one: straight
      to NEXT_PART_WRITE, which writes the first sector (and for OVERRIDE
      the length) into the entry and the data into new sectors. */
  method WriteNew(f: Image, file: File, buf: seq<byte>, length: u32, wm: WriteMethod, m: nat) returns (r: Image, h: File, res: Result)
    requires file.cluster == EMPTY_INT
    requires file.block + FILEBLOCK_SIZE <= FLASH_SIZE && 0 < length <= |buf| && m < 4
    ensures res == Done(wm) || res == NoSectorSpace
    ensures res == NoSectorSpace <==> NoRoom(f, SectorsFor(length))
    ensures res == NoSectorSpace ==> h == file && Reclaimed(f, r)
    ensures res == Done(wm) ==> IsDataAddr(h.cluster) && h == file.(cluster := h.cluster, length := length)
    ensures FreeErased(f) && file.block + FILEBLOCK_SIZE <= DATA_ADDR_FIRST && res == Done(wm) ==>
              && FreeErased(r)
              && Laid(r, h.cluster, length)
              && FileBytes(r, h.cluster, length) == buf[..length]
  {
    var list;
    ghost var g1;
    r, h, res, list, g1 := NextPart(f, file, buf, 0, length, wm, 0, m);
    if res == Done(wm) && FreeErased(f) && file.block + FILEBLOCK_SIZE <= DATA_ADDR_FIRST {
      assert Harmless(f, file, wm, 0);
      LaidFound(r, list[0], length, list);
    }
  }

  /** APPEND to a handle with a cluster but no length (an entry written
      by APPEND and not finished, opened again): the walk to the last
      sector is skipped, so write_addr keeps its initial 0 and the first
      new sector's address is programmed into flash address 0, not into
      the chain; the handle's length, EMPTY_INT_VALUE, wraps to
      length - 1.  The data lands in a chain of its own that nothing in the
      index reaches. */
  method LinkFromZero(f: Image, file: File, buf: seq<byte>, length: u32, m: nat) returns (r: Image, h: File, res: Result, first: u32)
    requires file.cluster != EMPTY_INT && file.length == EMPTY_INT
    requires file.block + FILEBLOCK_SIZE <= FLASH_SIZE && 0 < length <= |buf| && m < 4
    ensures res == AppendFileSuccess || res == NoSectorSpace
    ensures res == NoSectorSpace <==> NoRoom(f, SectorsFor(length))
    ensures res == NoSectorSpace ==> h == file && Reclaimed(f, r)
    ensures res == AppendFileSuccess ==>
              && h == file.(length := length - 1)
              && IsDataAddr(first)
              && forall i :: 0 <= i < LINK_SIZE ==> r[i] == And(f[i], LE32(first)[i])
    ensures FreeErased(f) && res == AppendFileSuccess ==>
              && FreeErased(r)
              && Laid(r, first, length)
              && FileBytes(r, first, length) == buf[..length]
  {
    var list;
    ghost var g1;
    r, h, res, list, g1 := NextPart(f, file, buf, 0, length, Append, 0, m);
    first := 0;
    if res == AppendFileSuccess {
      EmptyWraps(length);
      first := list[0];
      assert SectorAddr(0) !in list;
      AtZero(f, g1, Record(g1, file, first, length, Append, 0), r, first);
      if FreeErased(f) {
        assert Harmless(f, file, Append, 0);
        LaidFound(r, first, length, list);
      }
    }
  }

  /** Programming a word at address 0 after a collection, then writing
      only data sectors, leaves the word ANDed into flash's first bytes. */
  lemma AtZero(f: Image, g1: Image, rec: Image, r: Image, first: DataAddr)
    requires Reclaimed(f, g1) && rec == Program(g1, 0, LE32(first))
    requires SectorBytes(r, 0) == SectorBytes(rec, 0)
    ensures forall i :: 0 <= i < LINK_SIZE ==> r[i] == And(f[i], LE32(first)[i])
  {
    assert SectorBytes(g1, 0) == SectorBytes(f, 0);
    forall i | 0 <= i < LINK_SIZE
      ensures r[i] == And(f[i], LE32(first)[i])
    {
      assert r[i] == SectorBytes(r, 0)[i] && rec[i] == SectorBytes(rec, 0)[i];
      assert g1[i] == SectorBytes(g1, 0)[i] && f[i] == SectorBytes(f, 0)[i];
    }
  }

  /** EMPTY_INT_VALUE plus n, as a uint32_t, is n - 1. */
  lemma EmptyWraps(n: u32)
    requires 0 < n
    ensures (EMPTY_INT + n) % 0x1_0000_0000 == n - 1
  {
    assert EMPTY_INT + n == 0x1_0000_0000 + (n - 1);
  }
}
